=== FILE: README.md ===
# presentera core in Dafny

presentera converts a PowerPoint deck (`.pptx`) into the JSON slide model of
its canvas editor: every slide becomes a list of positioned text, shape,
table, image and chart elements on a 1024 x 576 canvas, plus background
fields (a colour, or a rendered PNG as a data URL). This project models the
decision logic of that conversion as pure Dafny functions over immutable
data, and proves what the converter promises about it:

- colour arithmetic: hex normalisation, tint and shade, `rgb_to_hex`, and one
  shared scheme-colour resolver (theme mapping, then the light/dark
  fallback) used by every call site with its own quirks;
- the theme's colour scheme read from the package;
- background fills (solid, gradient, pattern, image) and the inheritance
  chain slide, layout, master, object model, with MIME sniffing and the
  "exactly one of colour and image" invariant;
- image fills resolved through relationship parts (section 9.3 of ECMA-376
  Part 2, Open Packaging Conventions) and target normalisation;
- the background renderer's pixel arithmetic: gradient axis, stop
  bracketing and interpolation, cover-fit cropping, pattern tiles and their
  tiling;
- tables (cell fill, border, width, text colour, fallback palette, grid),
  text elements (paragraph rules, fonts, run colours), shape
  classification, charts (type, title, cached and embedded series, colours)
  and images (MIME types, base64 data URLs per section 4 of RFC 4648 and
  section 3 of RFC 2397);
- the per-shape dispatch of a slide, coordinate scaling, and the output
  schema.

Files, one module each: `wrappers` (Option), `seqs` (scans and their
lemmas), `pystr` and `pynum` (the Python string and number built-ins the
code relies on), `xml` (element trees and ElementTree-style paths),
`package` (the zip archive), `base64`, `json`, `colors`, `theme`, `fills`,
`imagefill`, `background`, `renderer`, `pptx` (the python-pptx object model
as input data), `geometry`, `schema`, `scaling`, `shapes`, `texts`,
`tables`, `charts`, `images` and `slides`.

A raise that the code catches becomes an `Option` None on the spot; a raise
nothing catches becomes an outer None that the callers pass upward.
Numbers are exact reals with Python's `round` (half to even) and `int`
(truncation) written out.

The model follows the code as written, with one exception. For the four
defects listed under "Findings" the as-written behaviour is modelled and
shown wrong, and the conversion pipeline uses the corrected behaviour:
whole-degree rotation, table cells scaled once, the embedded workbook
found, and a graphic frame's embedded picture found. The members this affects are named under "Left out".

## Model

| member | source | states |
|---|---|---|
| PyNum.RoundHalfEven | backend/converter/utils/scaling.py:73 | Python's `round` gives the nearest integer, and a tie goes to the even one |
| PyNum.RoundMonotone | backend/converter/utils/scaling.py:73-83 | rounding keeps order, so scaled positions keep their order |
| PyNum.Trunc | backend/converter/utils/table_extractor.py:614-616 | `int()` of a float truncates toward zero |
| PyStr.StripSpec | backend/converter/utils/table_extractor.py:403 | `strip()` keeps a contiguous slice of the text with no whitespace at either end, and empties exactly an all-whitespace text |
| PyStr.LStripPrefix | backend/converter/utils/chart_extractor.py:324 | `lstrip("/")` drops exactly the leading slashes of a part name |
| PyStr.ReplaceAll | backend/converter/utils/chart_extractor.py:110 | `replace` leaves a text that does not contain the pattern unchanged |
| PyNum.ParseFormatHex02 | backend/converter/utils/background_renderer.py:16-23 | `int(…, 16)` reads back any integer that `:02x` formatting printed |
| PyNum.ParseInt | backend/converter/utils/shape_extractor.py:326-338 | `int(val)` and `int(h, 16)` accept exactly an optionally signed run of digits of the base (with `_` between digits and, in base 16, an optional `0x` prefix) after stripping whitespace, and give its signed value |
| PyNum.DigitRunIsMantissa | backend/converter/utils/chart_extractor.py:65-67 | a run of decimal digits has no exponent or point, and reads as a float with its integer value |
| PyNum.ParseFloatCases | backend/converter/utils/chart_extractor.py:65-67 | `float()` of an empty or all-whitespace text fails; an optionally signed run of decimal digits reads as its signed value |
| Colors.HexOf | backend/converter/utils/shape_extractor.py:48 | the `f"#{r:02x}{g:02x}{b:02x}"` form: a `#` then lower-case hex digits; three bytes give a canonical seven-character colour |
| Colors.NormalizeHex | backend/converter/utils/shape_extractor.py:208-225 | Some exactly when the stripped, lower-cased value is six or eight hex digits (never for the empty string); the result is canonical and ends with the last six digits |
| Colors.NormalizeHexNotIdempotent | backend/converter/utils/shape_extractor.py:208-225 | normalising an already normalised colour fails, because the `#` is not a hex digit |
| Colors.NormalizeHexDigits | backend/converter/utils/shape_extractor.py:208-225 | the six digits of a canonical colour normalise back to that colour |
| Colors.TintChannelBounds | backend/converter/utils/shape_extractor.py:228-247 | a tint in [0, 100000] moves a byte channel toward 255 and never past it |
| Colors.ShadeChannelBounds | backend/converter/utils/shape_extractor.py:250-268 | a shade in [0, 100000] moves a byte channel toward 0 and never past it |
| Colors.ChannelsRoundTrip | backend/converter/utils/shape_extractor.py:236-242 | the three `int(h[i:i+2], 16)` channels of a canonical colour are bytes, and printing them again gives the colour back |
| Colors.ChannelsOfHexOf | backend/converter/utils/shape_extractor.py:236-247 | printing three bytes and reading the channels back gives the same bytes |
| Colors.ApplyTint | backend/converter/utils/shape_extractor.py:228-247 | a missing colour or tint, or channels that do not parse, return the colour unchanged; otherwise each channel is tinted |
| Colors.ApplyShade | backend/converter/utils/shape_extractor.py:250-268 | the same fall-through cases as the tint; otherwise each channel is shaded |
| Colors.TintZeroIdentity | backend/converter/utils/shape_extractor.py:228-247 | a zero tint leaves a canonical colour unchanged |
| Colors.ShadeZeroIdentity | backend/converter/utils/shape_extractor.py:250-268 | a zero shade leaves a canonical colour unchanged |
| Colors.TintStaysInRange | backend/converter/utils/shape_extractor.py:228-247 | a tint in [0, 100000] keeps a canonical colour canonical and never lowers a channel |
| Colors.ShadeStaysInRange | backend/converter/utils/shape_extractor.py:250-268 | a shade in [0, 100000] keeps a canonical colour canonical and never raises a channel |
| Colors.RgbToHex | backend/converter/utils/background_extractor.py:15-47 | Some exactly for an integer or a sequence of at least three items; an integer always gives a canonical colour; every result starts with `#` |
| Colors.RgbToHexOrBlack | backend/converter/utils/table_extractor.py:22-45 | the same colour where the lenient conversion gives one, and `#000000` where it gives none |
| Colors.RgbToHexTupleRoundTrip | backend/converter/utils/background_extractor.py:34-45 | an `RGBColor` of three bytes prints as a colour whose channels read back as the same bytes |
| Colors.RgbToHexIntRoundTrip | backend/converter/utils/background_extractor.py:35-40 | an integer `0x00RRGGBB` prints as a colour whose channels are its three bytes, and those bytes recompose the integer |
| Colors.EnsureHash | backend/converter/utils/background_extractor.py:133-139 | the value lower-cased, with a `#` added in front unless it already starts with one; the result always starts with `#` |
| Colors.EnsureHashIdempotent | backend/converter/utils/background_extractor.py:133-139 | reading an already read value changes nothing |
| Colors.EnsureHashCanonical | backend/converter/utils/background_extractor.py:133-139 | a canonical `#rrggbb` is read back unchanged |
| Colors.SchemeFallback | backend/converter/utils/background_extractor.py:147-152 | white exactly for lt1, bg1, lt2 and bg2, and black exactly for dk1, tx1, dk2 and tx2, in any letter case; nothing for other names |
| Colors.ResolveScheme | backend/converter/utils/background_extractor.py:141-154 | a theme-mapping hit wins; otherwise the light/dark fallback |
| Colors.ResolveSchemeTruthy | backend/converter/utils/shape_extractor.py:383-393 | a non-empty theme-mapping hit wins; otherwise the light/dark fallback |
| Colors.ResolveSpellingsAgree | backend/converter/utils/shape_extractor.py:383-393 | when no mapped value is empty, the `in`-test and `get`-then-truthiness spellings of the resolver agree |
| Base64.IndexOfCharOf | backend/converter/utils/image_extractor.py:44 | each of the 64 digits of the base64 alphabet reads back as its own index |
| Base64.Encode | backend/converter/utils/image_extractor.py:44 | the encoding has four characters per started group of three bytes |
| Base64.EncodeAlphabet | backend/converter/utils/image_extractor.py:44 | every character of the encoding is from the base64 alphabet or is `=` padding |
| Base64.DecodeEncode | backend/converter/utils/image_extractor.py:44 | decoding the encoding of any bytes gives those bytes back |
| Base64.DataUrl | backend/converter/utils/image_extractor.py:47 | a data URL is `data:`, the MIME type, `;base64,` and the encoding, in that length |
| Base64.DataUrlPayload | backend/converter/utils/image_extractor.py:43-47 | the data URL starts with `data:`, names the MIME type, continues with `;base64,` and its payload decodes to the bytes |
| Geometry.EmuToPoints | backend/converter/utils/text_extractor.py:18-23 | 12700 EMU make one point, and non-negative EMU give non-negative points |
| Geometry.EmuPointsRoundTrip | backend/converter/utils/text_extractor.py:18-23 | converting to points and back gives the EMU value; whole points are exact |
| Geometry.RoundedPoints | backend/converter/utils/text_extractor.py:85-88 | the rounded value is the nearest whole point, within half a point |
| Geometry.RoundedBox | backend/converter/utils/text_extractor.py:79-88 | a frame exactly when position and size are all present, each rounded to whole points |
| Geometry.RoundedBoxExact | backend/converter/utils/text_extractor.py:79-88 | a frame of whole points is kept exactly |
| Geometry.RotationAsWrittenAlwaysZero | backend/converter/utils/text_extractor.py:91-93 | dividing a degree rotation by 60000 and truncating gives 0 for every rotation python-pptx can report |
| Geometry.Rotation | backend/converter/utils/text_extractor.py:90-93 | a missing rotation is 0; a rotation in [0, 360) becomes its whole degrees |
| Geometry.RotationOfWholeDegrees | backend/converter/utils/text_extractor.py:90-93 | a whole-degree rotation is kept exactly |
| Geometry.RotationDiscrepancy | backend/converter/utils/text_extractor.py:93 | a quarter turn is 0 as written and 90 as meant |
| Geometry.ChartRotation | backend/converter/utils/chart_extractor.py:185 | the chart spelling `if rot else 0` agrees with the corrected rotation everywhere |
| Geometry.RotationAsWritten | backend/converter/utils/text_extractor.py:90-93 | `int(rotation / 60000)` as written: 0 without a rotation, otherwise the quotient by 60000 truncated toward zero |
| Theme.SlotValue | backend/converter/utils/background_extractor.py:92-104 | a contribution exactly for an `srgbClr` with `val` or a `sysClr` with `lastClr` (an empty value still counts); every contribution starts with `#` |
| Theme.SchemeMap | backend/converter/utils/background_extractor.py:88-104 | every mapped value starts with `#`, so no mapped value is empty |
| Theme.SchemeMapKeys | backend/converter/utils/background_extractor.py:88-104 | a slot name is mapped exactly when some slot of that name yields a colour |
| Theme.SchemeMapLastWins | backend/converter/utils/background_extractor.py:88-104 | the value mapped for a name is the colour of the last slot of that name that yields one |
| Theme.ThemePartName | backend/converter/utils/background_extractor.py:67-70 | the first archive name under `ppt/theme/`, or None when there is none |
| Theme.Mapping | backend/converter/utils/background_extractor.py:50-110 | empty when there is no theme part, it does not parse, or it has no `clrScheme`; otherwise the map of the first `clrScheme` in document order; every value starts with `#` |
| Theme.ThemeResolversAgree | backend/converter/utils/shape_extractor.py:383 | on any theme mapping the membership-test and truthiness-test resolvers give the same colour |
| Fills.ColorFromElement | backend/converter/utils/background_extractor.py:129-164 | an `srgbClr` `val` or `sysClr` `lastClr` gives that value lower-cased with `#` ensured and no name; a non-empty `schemeClr` `val` gives its name and the theme/fallback colour (None when unresolved); anything else, including an empty value, gives neither |
| Fills.TruthyColor | backend/converter/utils/background_extractor.py:202-203 | a colour is kept only when it is truthy, and then it is the element's colour |
| Fills.FirstChildColor | backend/converter/utils/background_extractor.py:201-205 | the colour taken from a stop's children is non-empty |
| Fills.DetectBackgroundType | backend/converter/utils/background_extractor.py:112-126 | "none" exactly when no element in pre-order is a fill element; otherwise the kind of the first fill element met |
| Fills.SolidOf | backend/converter/utils/background_extractor.py:170-176 | a child counts for a solid fill only when its colour or its scheme name is truthy |
| Fills.ParseSolidFill | backend/converter/utils/background_extractor.py:167-177 | None exactly when no child has a truthy colour or scheme name; a result always carries one of them |
| Fills.UnknownSchemeSolid | backend/converter/utils/background_extractor.py:153-154 | a solid fill naming an unresolvable scheme slot gives a solid background with no colour and the name kept |
| Fills.GradientStop | backend/converter/utils/background_extractor.py:189-205 | a stop exactly for a `gs` with a truthy colour among its children, at that colour and the `pos` position |
| Fills.LinAngle | backend/converter/utils/background_extractor.py:207-215 | a `lin` angle, when read, lies in [0, 360) |
| Fills.StopsOf | backend/converter/utils/background_extractor.py:186-205 | every collected stop has a non-empty colour; none are collected exactly when no element gives a stop |
| Fills.GradientStops | backend/converter/utils/background_extractor.py:186-205 | the stops of the fill's pre-order walk, each with a non-empty colour; empty exactly when no element gives one |
| Fills.GradientAngle | backend/converter/utils/background_extractor.py:183-215 | the angle lies in [0, 360) and is the default 90 when no `lin` sets one |
| Fills.ParseGradientFill | backend/converter/utils/background_extractor.py:180-226 | a gradient exactly when at least one stop is found (one is enough), with its angle in [0, 360) and non-empty stop colours |
| Fills.StopPositionOfNat | backend/converter/utils/background_extractor.py:191-196 | a whole-number `pos` n is read as n / 100000 |
| Fills.SingleStopGradient | backend/converter/utils/background_extractor.py:180-226 | a gradient with one stop and no `lin` is accepted, at angle 90 with the stop at the float value of `pos` divided by 100000 |
| Fills.PatternColor | backend/converter/utils/background_extractor.py:360-374 | a foreground or background colour is read only from a child of that tag, and is non-empty |
| Fills.ParsePatternFill | backend/converter/utils/background_extractor.py:347-388 | a pattern exactly when both a foreground and a background colour are found; the preset is `prst` or `pct50` |
| ImageFill.FindBlip | backend/converter/utils/background_extractor.py:239-247 | the first element in pre-order whose lower-cased tag ends with `blip`; None exactly when there is none |
| ImageFill.RelId | backend/converter/utils/background_extractor.py:250-258 | the value of the first attribute whose lower-cased key contains `embed` or is `id`; None exactly when there is none |
| ImageFill.RelsPathOf | backend/converter/utils/background_extractor.py:266-269 | for a part `dir/file` the relationship part is `dir/_rels/file.rels` and the file name is `file` |
| ImageFill.FirstRel | backend/converter/utils/background_extractor.py:280-284 | the first relationship whose `Id` matches; None exactly when none matches |
| ImageFill.TargetIn | backend/converter/utils/background_extractor.py:276-286 | a target only from a listed, parseable relationship part, and then the non-empty `Target` of its first matching relationship |
| ImageFill.ScanAllRels | backend/converter/utils/background_extractor.py:303-317 | a target only from some `.rels` part; None only when no `.rels` part gives one |
| ImageFill.LookupTarget | backend/converter/utils/background_extractor.py:263-320 | the owner's relationship part wins, then `ppt/_rels/<file>.rels`, then the scan; a target found is non-empty; None only when no `.rels` part gives one |
| ImageFill.NormalizeDotted | backend/converter/utils/background_extractor.py:325-327 | a target with leading `..` loses all leading dots and slashes and gets `ppt/` |
| ImageFill.NormalizeParentRelative | backend/converter/utils/background_extractor.py:325-327 | `../<rest>` names `ppt/<rest>` |
| ImageFill.NormalizeStripsCharacters | backend/converter/utils/background_extractor.py:327 | `../../<rest>` names the same part as `../<rest>`: the strip works on characters, not path steps |
| ImageFill.NormalizeRelative | backend/converter/utils/background_extractor.py:330-332 | a relative target gets `ppt/` unless it already starts with it |
| ImageFill.NormalizeAbsolute | backend/converter/utils/background_extractor.py:328-329 | an absolute target loses its leading slash |
| ImageFill.ImagePath | backend/converter/utils/background_extractor.py:238-332 | a name only when there is a blip, a non-empty relationship id and a target, and then the normalised target |
| ImageFill.ParseImageFill | backend/converter/utils/background_extractor.py:229-344 | bytes exactly when the normalised target is listed in the package, and then they are that part's bytes |
| Renderer.HexToRgb | backend/converter/utils/background_renderer.py:16-23 | after stripping leading `#`, any length other than 6 or 3 is white; only a 6- or 3-character string can fail to parse |
| Renderer.HexToRgbIgnoresHashes | backend/converter/utils/background_renderer.py:18 | a leading `#` does not change the colour read |
| Renderer.HexToRgbOfHexOf | backend/converter/utils/background_renderer.py:16-20 | reading back a `#rrggbb` printed from three bytes gives those bytes |
| Renderer.HexToRgbAgreesWithChannels | backend/converter/utils/background_renderer.py:16-20 | on a canonical colour the renderer's parser and the tint/shade channel reader agree |
| Renderer.HexToRgbShort | backend/converter/utils/background_renderer.py:21-22 | a three-digit colour doubles each digit |
| Renderer.IsVerticalIntervals | backend/converter/utils/background_renderer.py:93 | rows are drawn exactly for angles in (89, 91) or (269, 271) |
| Renderer.FirstBracket | backend/converter/utils/background_renderer.py:103-112 | the first adjacent pair of stops whose positions bracket `t`; None exactly when no pair does |
| Renderer.LocalTInUnit | backend/converter/utils/background_renderer.py:108-111 | inside a bracketing pair the local parameter lies in [0, 1] |
| Renderer.Bracket | backend/converter/utils/background_renderer.py:99-112 | the bracketing pair and a local parameter in [0, 1]; without one, the first and last stops and `t` itself |
| Renderer.ChannelBetween | backend/converter/utils/background_renderer.py:118-120 | an interpolated channel lies between the two stop channels and equals them at the ends |
| Renderer.PixelColor | backend/converter/utils/background_renderer.py:114-120 | a colour exactly when both stop colours used parse |
| Renderer.PixelBetweenStops | backend/converter/utils/background_renderer.py:103-120 | where a pair brackets the line, the line colour lies channel-wise between the two stop colours |
| Renderer.LinesSpec | backend/converter/utils/background_renderer.py:95-122 | one colour per line in order; failure exactly when some line's stop colour does not parse |
| Renderer.GradientPicture | backend/converter/utils/background_renderer.py:73-150 | fewer than two stops paint white; otherwise 1080 rows for a vertical angle or 1920 columns otherwise, each the interpolated colour at `j / n` |
| Renderer.CoverFit | backend/converter/utils/background_renderer.py:53-63 | defined exactly for non-zero sides; the resized picture covers the slide, touches it on one side, and the centred crop lies inside it |
| Renderer.CoverScale | backend/converter/utils/background_renderer.py:53-55 | scaling by the larger ratio reaches both slide sides and one exactly |
| Renderer.CoverImage | backend/converter/utils/background_renderer.py:41-70 | the picture is resized and cropped exactly when it decodes with non-zero sides; otherwise white |
| Renderer.PatternTile | backend/converter/utils/background_renderer.py:174-202 | every preset draws at least one call, all within the 16-pixel tile |
| Renderer.PercentPresets | backend/converter/utils/background_renderer.py:175-184 | `pct50` is two quadrants sharing (8, 8), `pct25` the top-left quadrant, `pct75` all but the bottom-right quadrant |
| Renderer.StripePresets | backend/converter/utils/background_renderer.py:192-198 | both spellings of each stripe draw the same tile: lower half horizontal, right half vertical |
| Renderer.UnknownPresetIsDiagonal | backend/converter/utils/background_renderer.py:186-202 | an unknown preset draws the `diagStripe` diagonal; `diagCross` adds the other diagonal |
| Renderer.TileOrigins | backend/converter/utils/background_renderer.py:205-207 | 120 x 68 tile origins, row by row, each a multiple of 16 on the canvas |
| Renderer.TilesCover | backend/converter/utils/background_renderer.py:205-207 | every canvas pixel lies inside some pasted tile; the last row overhangs by half a tile |
| Renderer.PatternPicture | backend/converter/utils/background_renderer.py:153-209 | a pattern exactly when both colours parse: the background colour under the preset's tile |
| Renderer.Render | backend/converter/utils/background_renderer.py:220-272 | a solid with a colour is flat in it, an image with bytes is cover-fitted, a gradient with stops is drawn, a pattern is tiled; everything else is white |
| Background.FindBgPr | backend/converter/utils/background_extractor.py:399-408 | the first `bgPr` in pre-order; None exactly when the part has none |
| Background.ParseChild | backend/converter/utils/background_extractor.py:413-447 | a direct child yields a background only when its tag is the detected kind's fill tag, and then a well-formed one of that kind; an image also needs an owner and non-empty bytes |
| Background.ParseChildren | backend/converter/utils/background_extractor.py:413-447 | the first direct child that yields a result; None exactly when none does |
| Background.ParseBackground | backend/converter/utils/background_extractor.py:391-452 | None for an unparseable part or one without `bgPr`; a result is well-formed and of the kind of the first fill under the `bgPr` |
| Background.UnresolvedSchemeIsAResult | backend/converter/utils/background_extractor.py:413-419 | a solid fill naming an unresolvable scheme slot is a result with no colour |
| Background.FillFirst | backend/converter/utils/background_extractor.py:411 | a `bgPr` whose first child is a fill has that fill's kind |
| Background.SlidePath | backend/converter/utils/background_extractor.py:469 | the slide part name is `ppt/slides/slide<n>.xml` |
| Background.FromPart | backend/converter/utils/background_extractor.py:455-544 | a result only from a listed part, parsed with that part as owner |
| Background.ApiSolid | backend/converter/utils/background_extractor.py:700-718 | the object-model fallback is a solid colour exactly from a present `rgb` that `rgb_to_hex` accepts |
| Background.MappingOf | backend/converter/utils/background_extractor.py:671-674 | without a package the theme mapping is empty |
| Background.ChainData | backend/converter/utils/background_extractor.py:676-718 | the first of slide, layout, master and object-model steps with a result wins; every result is well-formed |
| Background.SniffMime | backend/converter/utils/background_extractor.py:732-741 | a JPEG signature gives `image/jpeg`; `image/gif` only for a `GIF` prefix; otherwise PNG |
| Background.ExtractSlideBackground | backend/converter/utils/background_extractor.py:639-774 | the record holds exactly one of a colour and an image (with `cover`, `center`, `no-repeat`); no background found means white; it fails only when a gradient or pattern cannot be rendered |
| Background.Rendered | backend/converter/utils/background_extractor.py:750-768 | a gradient or pattern becomes a PNG data URL of its rendering, exactly when rendering succeeds |
| Background.ImageBackgroundRoundTrip | backend/converter/utils/background_extractor.py:743-745 | the image background's data URL carries the sniffed MIME type and decodes back to the part's bytes |
| Background.SlideHitBlocksInheritance | backend/converter/utils/background_extractor.py:679-698 | a slide result hides layout, master and object model, even a solid with no colour, which then renders white |
| Background.NoPackage | backend/converter/utils/background_extractor.py:672-718 | with no package only the object model's colour is used, else white |
| Scaling.SlideDimensions | backend/converter/utils/scaling.py:103-125 | the slide size in points, or 720 x 405 when the presentation reports none |
| Scaling.ScaleFactor | backend/converter/utils/scaling.py:29-42 | defined exactly for non-zero dimensions; each factor maps its slide side onto 1024 or 576 |
| Scaling.SixteenByNineScalesUniformly | backend/converter/utils/scaling.py:1-18 | a 16:9 slide, the default one included, scales both axes by the same factor |
| Scaling.Numeric | backend/converter/utils/scaling.py:72 | only numbers and booleans count as `int`/`float` values |
| Scaling.ScaleValue | backend/converter/utils/scaling.py:72-73 | a numeric value becomes the whole number nearest to value times factor; anything else is left unchanged |
| Scaling.FactorOf | backend/converter/utils/scaling.py:71-98 | a field is scaled exactly when it is one of the listed position and size keys |
| Scaling.ScaleElement | backend/converter/utils/scaling.py:45-100 | the scaled copy keeps every key in its place |
| Scaling.ScaledLookup | backend/converter/utils/scaling.py:72-98 | `y` and `height` are scaled vertically, the other listed keys horizontally, every other field is unchanged, and no key appears or disappears |
| Scaling.RescaleByOne | backend/converter/utils/scaling.py:72-98 | scaled fields are whole numbers, so a second scaling by unit factors changes nothing |
| Scaling.ScaleTableAsWritten | backend/converter/utils/text_extractor.py:332-346 | the table branch as written keeps every key in its place |
| Scaling.ScaleTable | backend/converter/utils/text_extractor.py:332-346 | the corrected table branch keeps every key in its place |
| Scaling.ScaledTableLookup | backend/converter/utils/text_extractor.py:332-346 | outside `data` a scaled table reads like any scaled element, each size scaled exactly once, the cell height vertically |
| Scaling.CellSizeScaledTwice | backend/converter/utils/text_extractor.py:333-338 | at the default slide size a 100-point cell becomes 142 scaled once and 202 as written |
| Schema.ShapeTypeOfName | backend/converter/schemas/slide_schema.py:33 | a `shapeType` string validates exactly when it is one of the nine literals |
| Schema.ShapeTypeNamesRoundTrip | backend/converter/schemas/slide_schema.py:33 | every literal validates to itself, and every valid string is its literal's name |
| Schema.LiteralNamesInjective | backend/converter/schemas/slide_schema.py:20-23 | distinct weights, styles, decorations and alignments dump to distinct strings |
| Schema.ImageDefaultsDumped | backend/converter/schemas/slide_schema.py:44-55 | an image built from its required fields dumps as type `image`, not locked and not a background |
| Schema.TextDefaultsDumped | backend/converter/schemas/slide_schema.py:10-26 | a text built from its required fields dumps with the default literals, no colour and rotation 0 |
| Schema.TextJson | backend/converter/schemas/slide_schema.py:10-26 | a text element dumps to an object with exactly the text keys, in declaration order |
| Schema.ShapeJson | backend/converter/schemas/slide_schema.py:29-41 | a shape element dumps to exactly the shape keys, in declaration order |
| Schema.ImageJson | backend/converter/schemas/slide_schema.py:44-55 | an image element dumps to exactly the image keys, in declaration order |
| Schema.CellJson | backend/converter/schemas/slide_schema.py:58-70 | a table cell dumps to exactly the cell keys, in declaration order |
| Schema.RowJson | backend/converter/schemas/slide_schema.py:85 | a row dumps to one object per cell, in order |
| Schema.TableJson | backend/converter/schemas/slide_schema.py:73-86 | a table element dumps to exactly the table keys, in declaration order |
| Schema.NewSlide | backend/converter/schemas/slide_schema.py:89-98 | a slide built from its elements has no thumbnail and no background fields |
| Schema.NewPresentation | backend/converter/schemas/slide_schema.py:101-106 | a new presentation starts at slide 0 with format version `1.0` |
| Shapes.AutoShapeType | backend/converter/utils/shape_extractor.py:77-125 | an oval preset is a circle, a rectangle preset a square or rectangle by proportion, codes 20-25 a line; exactly the listed codes are classified, the rest fall through |
| Shapes.DimensionType | backend/converter/utils/shape_extractor.py:180-190 | the fallback classifies exactly positive frames: under 1000 EMU on a side is a line, near-equal sides a circle, otherwise a rectangle |
| Shapes.PolygonType | backend/converter/utils/shape_extractor.py:158-174 | a freeform falls back to a square only when near-square and to a rectangle only otherwise |
| Shapes.ShapeTypeOf | backend/converter/utils/shape_extractor.py:53-205 | a type needs a frame size, and a group never has one. An auto shape is typed by its preset code when classified and by its proportions otherwise; a freeform or placeholder by its path count; an unreadable shape, or an auto shape without a preset, is a circle or rectangle by proportion; every other kind by its proportions |
| Shapes.ShapeTypeEvidence | backend/converter/utils/shape_extractor.py:53-205 | a circle is an oval preset or near-square, a line a line preset or thin, a square near-square, a rectangle not |
| Shapes.PresetDecidesType | backend/converter/utils/shape_extractor.py:86-122 | a non-rectangle preset is classified by its code whatever the frame's proportions |
| Shapes.TrianglePathCountsOnePath | backend/converter/utils/shape_extractor.py:146-174 | a triangle drawn as one path of four segments counts one path and comes out square or rectangle |
| Shapes.FindSrgb | backend/converter/utils/shape_extractor.py:271-293 | a colour it reports is a canonical `#rrggbb` value |
| Shapes.FindSrgbFirst | backend/converter/utils/shape_extractor.py:271-293 | against an independent first-match reference: the first `solidFill` in document order below `spPr` that holds a non-empty `srgbClr` decides; the result is that first `srgbClr` value normalised (None when it does not normalise, the search stopping there), and None when no `solidFill` holds one |
| Shapes.SolidFillSrgbValFirst | backend/converter/utils/shape_extractor.py:280-290 | a `solidFill` reads as the first non-empty `srgbClr` in document order below it; any other element reads as nothing |
| Shapes.FindScheme | backend/converter/utils/shape_extractor.py:296-344 | none without a `schemeClr` in the fill; otherwise the first `schemeClr` in document order is reported exactly when its `val` is non-empty, with that name and, for tint, shade and lumMod each, the last direct child of that kind whose value parses |
| Shapes.NonZero | backend/converter/utils/shape_extractor.py:397-400 | a modifier is applied exactly when it is present and non-zero |
| Shapes.FillColor | backend/converter/utils/shape_extractor.py:347-406 | no `spPr` means no fill; a literal sRGB colour wins. Otherwise, with a package and a theme colour, the theme's colour is tinted and then shaded, each only when its modifier is non-zero; without either there is no fill |
| Shapes.SolidFillRoundTrip | backend/converter/utils/shape_extractor.py:347-373 | a literal colour written into a shape's fill is the colour read back |
| Shapes.SchemeFillResolves | backend/converter/utils/shape_extractor.py:375-402 | an unmodified theme colour resolves as the theme mapping says, and is not read without a package |
| Shapes.BorderColor | backend/converter/utils/shape_extractor.py:409-426 | only an RGB-typed outline colour is reported, else `transparent` |
| Shapes.BorderWidth | backend/converter/utils/shape_extractor.py:429-443 | the outline width is the nearest whole point, and zero stays zero |
| Shapes.FreeformAsRectangle | backend/converter/utils/shape_extractor.py:446-500 | the freeform fallback yields only a rectangle, and only with a full frame |
| Shapes.ExtractShape | backend/converter/utils/shape_extractor.py:503-572 | a shape with text yields nothing; it raises exactly for an unreadable shape without a type or a typed shape without a position. An element has the shape's type, its rounded frame, its outline colour and width, its fill colour and its rotation |
| Shapes.FreeformFallbackEmpty | backend/converter/utils/shape_extractor.py:524-527 | a freeform without a type never yields an element |
| Texts.Alignment | backend/converter/utils/text_extractor.py:26-37 | centre, right and justify map exactly to their literals; everything else, unset included, is left |
| Texts.FontSize | backend/converter/utils/text_extractor.py:118-122 | an unset or zero size is 12; otherwise the nearest whole point to the run's size |
| Texts.FontSizeWholePoints | backend/converter/utils/text_extractor.py:118-120 | a size of whole points is kept exactly |
| Texts.RunColor | backend/converter/utils/text_extractor.py:144-183 | an RGB-typed run colour is used as is. Otherwise, with a package, the colour is the first element of the run properties, in document order, that is an `srgbClr` with a value (`#` plus the lower-cased value) or a `schemeClr` the theme or the fallback resolves; without a package there is no colour |
| Texts.RunColorHashed | backend/converter/utils/text_extractor.py:144-183 | every reported run colour starts with `#` when the theme's colours do |
| Texts.RunColorLiteralRoundTrip | backend/converter/utils/text_extractor.py:153-164 | a literal colour written into a run's XML is read back unchanged |
| Texts.StyleOf | backend/converter/utils/text_extractor.py:114-189 | bold and italic exactly when set true, underline exactly when the font's `underline` is set and never `line-through` (python-pptx's `Font` has no `strike`), the family or `Arial`, the run's colour and the paragraph's alignment |
| Texts.EmitsHasRuns | backend/converter/utils/text_extractor.py:191-196 | a paragraph that becomes an element has a first run |
| Texts.FoldIsPerParagraph | backend/converter/utils/text_extractor.py:108-214 | the style carried between paragraphs never reaches an element: the loop's elements are each paragraph's own, in order |
| Texts.FrameElement | backend/converter/utils/text_extractor.py:216-301 | the fallback element carries the whole frame's text and always takes the first paragraph's alignment. With a first run its colour is that run's colour; without one the font, weight, style, decoration and colour are those the loop left |
| Texts.ExtractText | backend/converter/utils/text_extractor.py:66-303 | no text frame gives nothing; with one it raises exactly when the frame has no position or size; every element shows text, sits on the rounded frame and has the shape's rotation |
| Texts.ExtractTextShape | backend/converter/utils/text_extractor.py:108-303 | the paragraphs' own elements when any exists; otherwise one element with the frame's text if it shows any, none if it does not |
| Texts.XmlColorInCases | backend/converter/utils/text_extractor.py:153-180 | in the run XML only `srgbClr` and `schemeClr` give a colour. An `srgbClr` gives one exactly when its value is non-empty, and it is then `#` plus that value, lower-cased. A `schemeClr` gives one only with a package, resolved through the theme or the fallback |
| Texts.Fold | backend/converter/utils/text_extractor.py:108-214 | the paragraph loop yields at most one element per paragraph, each on the shape's rounded frame with its rotation |
| Tables.PresetColor | backend/converter/utils/table_extractor.py:160-176 | a known preset name gives a seven-character `#` colour |
| Tables.PresetColorCaseInsensitive | backend/converter/utils/table_extractor.py:162-176 | preset names are compared after lower-casing, and exactly the eight listed names resolve |
| Tables.FastPathColor | backend/converter/utils/table_extractor.py:72-108 | the API path answers exactly for a solid fill whose foreground has an RGB value or a gradient whose first stop has one, always with a `#` colour |
| Tables.CellFillColor | backend/converter/utils/table_extractor.py:62-176 | the API colour wins; without it the first colour in the `tcPr` fill is used |
| Tables.CellFillScan | backend/converter/utils/table_extractor.py:178-214 | with neither the API colour nor a `tcPr` colour, the result is the colour of the first `solidFill` anywhere in the cell (run properties included) holding an `srgbClr` or a resolvable `schemeClr`, presets not counted, against an independent first-match reference; with none, the upper-case `#FFFFFF` |
| Tables.CellWithoutColourIsWhite | backend/converter/utils/table_extractor.py:62-214 | a cell with no colour from the API, the `tcPr` fill or any `solidFill` in the cell reads as `#FFFFFF` |
| Tables.FilledCellNeverDefault | backend/converter/utils/table_extractor.py:72-90 | a cell whose solid fill has an RGB foreground never reports the default white |
| Tables.FallbackColors | backend/converter/utils/table_extractor.py:344-378 | the fallback border is always white |
| Tables.FallbackAlternates | backend/converter/utils/table_extractor.py:356-378 | below the header the fallback repeats every two rows, neighbouring rows differ, and no data row takes the header colour |
| Tables.CellBackground | backend/converter/utils/table_extractor.py:406-437 | the row fallback replaces exactly a reported default white; any other colour is kept |
| Tables.CellFillLiteralRoundTrip | backend/converter/utils/table_extractor.py:110-142 | a literal colour written in the cell's `tcPr` fill is read back as the cell's colour and background |
| Tables.PresetWhiteTakesFallback | backend/converter/utils/table_extractor.py:160-176 | a cell filled with the preset white reports white and so takes the row's fallback, blue in the header row |
| Tables.CellBorderColor | backend/converter/utils/table_extractor.py:217-236 | a cell without a `tcBdr` child has a white border |
| Tables.CellBorder | backend/converter/utils/table_extractor.py:440-448 | the border fallback never changes the extracted border colour |
| Tables.CellBorderWidth | backend/converter/utils/table_extractor.py:306-341 | without any width in the cell the border is 2 points; otherwise it is the first width found, in points, to within half a point |
| Tables.BorderWidthOfSide | backend/converter/utils/table_extractor.py:313-325 | a `top` side one point wide gives a one-point border |
| Tables.StandardCellLineIgnored | backend/converter/utils/table_extractor.py:316-319 | the standard `lnL` cell line is not among the tags read, so the border stays 2 points |
| Tables.RunTextColor | backend/converter/utils/table_extractor.py:494-498 | a run colour with an RGB value is used before any XML is read |
| Tables.FirstRun | backend/converter/utils/table_extractor.py:453-462 | there is a first run exactly when the first paragraph exists and has runs |
| Tables.CellTextColor | backend/converter/utils/table_extractor.py:461-580 | with a first run the colour is that run's colour, read from its RGB value or its XML; without a run colour, or without a first run, the text is black |
| Tables.LastFillInRunWins | backend/converter/utils/table_extractor.py:534-574 | inside one run a later `solidFill` colour overwrites an earlier one |
| Tables.CellStyle | backend/converter/utils/table_extractor.py:461-489 | without a first run the font is the default; otherwise it is the first run's font |
| Tables.CellAlign | backend/converter/utils/table_extractor.py:453-458 | a cell without paragraphs is left-aligned; otherwise the alignment is the first paragraph's, mapped as text frames map it |
| Tables.CellProperties | backend/converter/utils/table_extractor.py:381-582 | the cell text is stripped. The background is the extracted colour, or the fallback in place of white. The border is the extracted colour. A cell without a run keeps the default font and black text |
| Tables.CellColorsHashed | backend/converter/utils/table_extractor.py:381-582 | background, text and border colours all start with `#` when the theme's colours do |
| Tables.CellSize | backend/converter/utils/table_extractor.py:626-635 | with no cells the size is 0; otherwise n cells of the rounded size cover the total to within half a point each |
| Tables.RowCells | backend/converter/utils/table_extractor.py:640-662 | each cell of a row is read with that row's index, in order |
| Tables.ColumnCount | backend/converter/utils/table_extractor.py:619-624 | the column count is the first row's length, or 0 without rows |
| Tables.TableOf | backend/converter/utils/table_extractor.py:607-681 | the frame is kept and there is one data row per table row. Each cell is read with its row index. The cell sizes tile the frame to within half a point per cell |
| Tables.ExtractTable | backend/converter/utils/table_extractor.py:585-685 | a table element exists exactly when the shape has a table and a readable frame; its rotation is the shape's |
| Tables.HeaderRowFallback | backend/converter/utils/table_extractor.py:356-362 | a header-row cell reporting white is painted the header blue |
| Tables.TcPrColor | backend/converter/utils/table_extractor.py:115-176 | no `tcPr` child gives no colour; otherwise the colour is that of the first `solidFill` child of the first `tcPr` that yields one |
| Images.MimeType | backend/converter/utils/image_extractor.py:33-41 | case-insensitively, `jpg`/`jpeg` exactly give JPEG and `gif` exactly GIF; everything else is PNG |
| Images.ImageUrlRoundTrip | backend/converter/utils/image_extractor.py:22-47 | an image source names the format's MIME type and decodes back to the image bytes |
| Images.PictureFormat | backend/converter/utils/image_extractor.py:186-194 | the picture's format is labelled with the same MIME type as its extension |
| Images.FillFormat | backend/converter/utils/image_extractor.py:252-258 | a picture fill is only ever labelled JPEG or PNG |
| Images.ContentTypeFormat | backend/converter/utils/image_extractor.py:110-119 | a content type containing `jpeg` or `jpg` is JPEG; every result is a known format |
| Images.GifFillLabelledPng | backend/converter/utils/image_extractor.py:186-194 | a GIF picture is labelled GIF while the same image as a picture fill is labelled PNG |
| Images.PictureImage | backend/converter/utils/image_extractor.py:178-227 | an element exactly when the picture has an image and a position and size; its source is the image's data URL |
| Images.BlipEmbed | backend/converter/utils/image_extractor.py:75-82 | the relationship id of the first descendant blip, when non-empty, as the search without the `namespaces` keyword finds it |
| Images.BlipEmbedAsWritten | backend/converter/utils/image_extractor.py:70-98 | as written, no relationship id is ever found: the `xpath` call raises and the handler leaves `r_id` None |
| Images.FrameImage | backend/converter/utils/image_extractor.py:50-163 | an element exactly when the first blip's id names a related part and the frame has position and size; the source is that part's bytes labelled by content type |
| Images.FillImage | backend/converter/utils/image_extractor.py:295-348 | an element exactly when there is a picture fill and a position and size, placed at the unrounded points |
| Images.FrameImageAsWritten | backend/converter/utils/image_extractor.py:50-98 | as written, a graphic frame never yields an embedded image |
| Images.ExtractImage | backend/converter/utils/image_extractor.py:166-354 | an unreadable shape gives no image. A picture gives only its own image; a graphic frame its blip image when it has one; otherwise the picture fill; the rotation is the shape's whole degrees |
| Images.ExtractImageAsWritten | backend/converter/utils/image_extractor.py:166-354 | as written, an unreadable shape gives nothing, a picture its own image, and every other shape, graphic frames included, its picture fill |
| Images.PictureBytesKept | backend/converter/utils/image_extractor.py:178-227 | a picture element's source decodes back to the picture's bytes |
| Images.FrameBlipImage | backend/converter/utils/image_extractor.py:75-152 | a frame whose blip embeds a related JPEG part yields that part as a JPEG data URL |
| Images.OnlyBlipEmbed | backend/converter/utils/image_extractor.py:75-82 | a frame whose only child is a blip with a non-empty embed id finds that id |
| Images.FrameBlipLostAsWritten | backend/converter/utils/image_extractor.py:70-98 | a frame whose only blip embeds a related part has an image under the corrected lookup, but as written it is lost and the shape gives its picture fill, or nothing without one |
| Images.SlideImages | backend/converter/utils/image_extractor.py:365-375 | at most one image per shape |
| Pptx.ChartShapeCases | backend/converter/utils/chart_extractor.py:252-268 | a shape whose `shape_type` raises is never a chart; a chart-type shape always is; any other shape is one exactly when reading its `chart` succeeds |
| Charts.DetectChartType | backend/converter/utils/chart_extractor.py:30-38 | bar exactly when a bar plot exists; line exactly when there is a line plot but no bar plot; pie exactly when neither exists but a pie or doughnut plot does; unknown otherwise |
| Charts.ComboChartIsBar | backend/converter/utils/chart_extractor.py:32-35 | a chart with both a line plot and a bar plot is a bar chart, whatever their order |
| Charts.ChartTitle | backend/converter/utils/chart_extractor.py:41-44 | the text of the first title text element under `c:title`; "chart name" when there is none |
| Charts.CachedValue | backend/converter/utils/chart_extractor.py:65-70 | a point is kept as text exactly when `float()` rejects it, and the text is then kept unchanged |
| Charts.CachedCategories | backend/converter/utils/chart_extractor.py:47-53 | at most one category per cached string point |
| Charts.Put | backend/converter/utils/chart_extractor.py:71 | assigning under an existing name keeps the entry count; a new name is appended at the end |
| Charts.PutIsDictAssignment | backend/converter/utils/chart_extractor.py:57-71 | dict assignment keeps names unique, stores the values under the name and leaves every other name's values alone |
| Charts.CachedSeriesUnique | backend/converter/utils/chart_extractor.py:56-72 | the cached series have unique names, with at most one entry per `c:ser` |
| Charts.LaterDuplicateWins | backend/converter/utils/chart_extractor.py:58-71 | two series with one name leave one entry holding the later series's values |
| Charts.SeriesColor | backend/converter/utils/chart_extractor.py:83-98 | a colour exactly when the first `c:spPr` of the series has a `solidFill/srgbClr` whose first `val` is non-empty; it is then `#` followed by that value lower-cased |
| Charts.SeriesColors | backend/converter/utils/chart_extractor.py:75-101 | there is one colour entry per `c:ser` |
| Charts.ColorFor | backend/converter/utils/chart_extractor.py:213-218 | a series's own colour is used when present; otherwise a palette colour |
| Charts.PaletteCycles | backend/converter/utils/chart_extractor.py:19-27 | without chart colours, positions seven apart share a colour and neighbours differ |
| Charts.EmbeddedWorkbookIn | backend/converter/utils/chart_extractor.py:104-130 | a missing relationship part means no workbook. The reader raises exactly when the part exists but does not parse |
| Charts.AsWrittenNeverFindsWorkbook | backend/converter/utils/chart_extractor.py:117 | the relationships are searched in the officeDocument namespace, so a part whose elements all use the package namespace yields no workbook |
| Charts.EmbeddedWorkbookFound | backend/converter/utils/chart_extractor.py:117-127 | for a relationship naming the embeddings folder, the corrected reader opens `ppt/` plus the target without `../`; the reader as written finds nothing |
| Charts.ExcelCategoriesFromFirstSeries | backend/converter/utils/chart_extractor.py:147-155 | the categories come from the first series whose category range reads to a non-empty list |
| Charts.ExcelCategoriesKept | backend/converter/utils/chart_extractor.py:149 | once categories are read, later series do not change them |
| Charts.ZeroNone | backend/converter/utils/chart_extractor.py:223 | a missing value becomes 0 and any other value is kept |
| Charts.ZeroNones | backend/converter/utils/chart_extractor.py:223 | every value is mapped in place, keeping the length |
| Charts.Repeat | backend/converter/utils/chart_extractor.py:220 | one colour repeated as many times as there are values, at least once |
| Charts.AxisSeries | backend/converter/utils/chart_extractor.py:208-226 | one entry per series, in dict order. Each keeps the series name and has missing values zeroed. Each has at least one colour, all of them the series colour |
| Charts.PieBodyOf | backend/converter/utils/chart_extractor.py:228-247 | a pie takes only the first series's values, with missing ones zeroed. Slice `k` takes colour `k`. The main colour is the first slice's, or the first palette colour when there are no values |
| Charts.ScaledFrame | backend/converter/utils/chart_extractor.py:181-184 | each side is the scaled point value rounded to within half a unit; it exists exactly when python-pptx reports all four |
| Charts.CreateChart | backend/converter/utils/chart_extractor.py:173-249 | the type, title, white background and rotation are as detected. A pie gets the pie body. Any other type gets labels, an x axis, a y axis only for line charts, and the per-series entries |
| Charts.ReadChart | backend/converter/utils/chart_extractor.py:323-344 | a shape without a chart part, or a missing archive, is skipped; a chart element always has a readable frame |
| Charts.OptionList | backend/converter/utils/chart_extractor.py:343-344 | a chart shape appends at most one element |
| Charts.GroupCharts | backend/converter/utils/chart_extractor.py:292-318 | a group yields at most one chart per member |
| Charts.SlideChartsBounded | backend/converter/utils/chart_extractor.py:271-350 | a slide yields at most one chart per chart shape, group members included |
| Charts.ChartJson | backend/converter/utils/chart_extractor.py:187-247 | a bar, line or unknown chart carries the common keys plus labels, axes and series; a pie carries the common keys plus labels, values, colours and main colour |
| Charts.CachedSeries | backend/converter/utils/chart_extractor.py:56-72 | the cached series have unique names, with at most one entry per `c:ser` |
| Charts.EmbeddedWorkbookAsWritten | backend/converter/utils/chart_extractor.py:104-130 | the reader as written raises exactly when the relationships part exists but does not parse; a workbook it finds came from a relationship in the officeDocument namespace |
| Charts.EmbeddedWorkbook | backend/converter/utils/chart_extractor.py:104-130 | the corrected reader raises exactly when the relationships part exists but does not parse; a workbook it finds came from a relationship in the package relationships namespace |
| Charts.ExcelFrom | backend/converter/utils/chart_extractor.py:133-170 | reading the series from a workbook adds at most one entry per `c:ser` and loses none; categories already read are kept |
| Charts.ShapeCharts | backend/converter/utils/chart_extractor.py:288-344 | a shape whose type raises aborts the slide; a non-chart, non-group shape gives no chart; a group gives its chart members; a chart converts exactly when its chart part reads; at most one chart per chart shape |
| Charts.SlideCharts | backend/converter/utils/chart_extractor.py:271-350 | a slide's charts are read exactly when every shape's are, so one shape whose type raises aborts the slide |
| Slides.TextDicts | backend/converter/utils/text_extractor.py:360-366 | each text element of a shape gives one scaled dict, in order |
| Slides.TextDictFields | backend/converter/utils/text_extractor.py:363-365 | a dumped and scaled text element keeps its keys, its type and its content, and has its x scaled horizontally |
| Slides.GroupShapes | backend/converter/utils/text_extractor.py:377-389 | a group gives at most one shape dict per member |
| Slides.DrawnShapes | backend/converter/utils/text_extractor.py:368-396 | a shape with text, or a chart, is not drawn as a shape; an unreadable shape without text raises; a group draws its non-chart members; any other shape gives its one shape dict, none when it has no type, and raises exactly when extraction does |
| Slides.ShapeElements | backend/converter/utils/text_extractor.py:326-396 | an extracted table is the shape's only element, and likewise an image. Otherwise the text elements come first, then the drawn shapes, and the shape converts exactly when both do |
| Slides.TextShapeNotDrawn | backend/converter/utils/text_extractor.py:368-375 | every dict of a shape that shows text is a text dict |
| Slides.ShapesElementsAppend | backend/converter/utils/text_extractor.py:323-396 | shapes convert independently: two runs of shapes give the concatenation of their dicts, and a slide's shapes convert exactly when each of them does |
| Slides.ChartDicts | backend/converter/utils/text_extractor.py:398-401 | every chart of the slide gives its dict, in order |
| Slides.ConvertSlide | backend/converter/utils/text_extractor.py:322-423 | a slide converts exactly when its shapes, its charts and its background do. Its elements are the shape dicts followed by the chart dicts. It has no thumbnail, and exactly one of a background colour or image is set |
| Slides.ConvertDeck | backend/converter/utils/text_extractor.py:306-320 | a deck converts only when the slide size yields scale factors |
| Slides.DeckOneToOne | backend/converter/utils/text_extractor.py:320-425 | there is one slide dict per slide, in order; dict `i` is slide `i` converted with index `i` and the deck's scale factors |
| Slides.TableDict | backend/converter/utils/text_extractor.py:327-345 | a table dict keeps the element's keys; the cell width is scaled once horizontally and the cell height once vertically |
| Slides.ShapesElements | backend/converter/utils/text_extractor.py:323-396 | a slide's shapes convert exactly when each of them does |

## Left out

- `backend/main.py` (the HTTP endpoint, CORS, temporary files), `backend/save_json.py` and `backend/test_converter.py` (command-line scripts that print and write files): transport and I/O around the conversion.
- Presentation assembly (ids, `exportedAt`, `currentSlideIndex`, `version`): only the record's schema defaults are modelled, in `Schema`. `uuid4` ids and timestamps are random or clock inputs and are not produced.
- Zip reading and XML parsing: a package is a name-ordered map of entries, each with its bytes and its parsed tree; a part that does not parse has no tree.
- The python-pptx object model is input data (`Pptx`): every attribute read that can raise is an `Option`, and a shape whose `shape_type` raises has its own kind.
- Images.FillImage, Images.ExtractImage, Images.ExtractImageAsWritten: python-pptx's `FillFormat` has no `picture` attribute, so `image_extractor.py` never reaches an image on its picture-fill path. The shape's `pictureFill` input keeps that path total, and for the decks python-pptx reads it is None. The picture fill these members give, including the one the fourth Findings row falls through to, is then None too.
- python-pptx shapes have no `geometry` attribute. The model keeps that point total as an optional input of the shape (`Shapes.PointCount`); it is absent for the decks python-pptx reads, so the XML path count decides.
- openpyxl: loading a workbook is the `load` parameter, and a workbook is the map from the range references `range_boundaries` accepts to the first-column values of those rows. A range that raises partway through its rows is not modelled; it reads whole or not at all.
- PIL: decoding an image to its size is the `decode` parameter, and PNG encoding is the `png` parameter. LANCZOS resampling and line rasterisation are not modelled. The renderer's pictures are functions from pixel to colour.
- The renderer's passthrough of an already-rendered `src` image (`background_renderer.py:245-248`): the background chain never produces one.
- `extract_slide_background_color` (`background_extractor.py:545-637`): no other code calls it.
- `extract_tables_from_pptx`, `extract_shapes_from_pptx` and `extract_images_from_pptx`: their per-slide parts are modelled (`Tables.ExtractTable`, `Shapes.ExtractShape`, `Images.SlideImages`). Their loops over the slides of a file are not.
- IEEE-754 doubles: tint, shade, gradient positions and angles, scale factors and point conversions are exact reals, so no bit-exact agreement is claimed. `float("inf")` and `float("nan")` are not parsed.
- `lumMod` is read by `find_scheme_in_solidfill` but never applied, so it has no effect in the model either.
- Chart series colours given as theme colours are not resolved, as in the code.
- Re-opening the package and re-reading the theme on every colour lookup: the theme mapping is a pure function of the package (`Theme.Mapping`).
- `hex_to_rgb` on non-hex digits raises an uncaught `ValueError`. `Renderer.HexToRgb` has no precondition: it returns None there, and `Renderer.PixelColor`, `Renderer.PatternPicture` and `Renderer.Render` pass that None upward as a render that failed. The exception itself and its message are not modelled.
- PyStr.Lower: folds the ASCII letters A-Z only, whereas Python's `str.lower()` follows Unicode (for example the Kelvin sign U+212A lowers to `k`). Every member built on it agrees with Python on ASCII input only.
- Colors.EnsureHash: lower-cases with `PyStr.Lower`, so it agrees with `ensure_hash` on ASCII colour values only.
- Colors.SchemeFallback: matches names lower-cased with `PyStr.Lower`, so a scheme name holding a non-ASCII letter that Python folds to ASCII is not matched.
- Tables.PresetColor: lower-cases with `PyStr.Lower`, so it agrees with the code on ASCII names only.
- Tables.PresetColorCaseInsensitive: states case insensitivity for ASCII letters only, because `PyStr.Lower` folds ASCII only.
- Charts.SeriesColor: lower-cases with `PyStr.Lower`, so it agrees with the code on ASCII `val` attributes only.
- Tables.CellBorderColor: its contract states only the no-`tcBdr` case and that the result is a `#` colour (`Tables.CellColorsHashed`). The side and line selection is in its body and doc comment.
- Charts.ReadChart: its contract states the skip cases and the frame; the choice between workbook and cached data is in its body and doc comment.
- Charts.CachedCategories: its contract bounds the count by the cached points; the order and the text kept are in its body.
- Images.SlideImages: its contract bounds the count by the shapes. The link to each shape's image is `Seqs.FilterMapSpec`. Each image is the corrected `Images.ExtractImage`, so graphic frames give their embedded pictures (see Findings), which the code as written never does.
- Geometry.ChartRotation: the chart's rotation is the whole-degree rotation of `Geometry.Rotation` (see Findings), not the `int(rotation / 60000)` the code computes.
- Shapes.FreeformAsRectangle: the rotation it keeps is the whole-degree rotation of `Geometry.Rotation` (see Findings), not the `int(rotation / 60000)` the code computes.
- Shapes.ExtractShape: its rotation is the whole-degree rotation of `Geometry.Rotation` (see Findings), not the `int(rotation / 60000)` the code computes.
- Texts.ExtractText: its rotation is the whole-degree rotation of `Geometry.Rotation` (see Findings), not the `int(rotation / 60000)` the code computes.
- Texts.ExtractTextShape: its rotation is the whole-degree rotation of `Geometry.Rotation` (see Findings), not the `int(rotation / 60000)` the code computes.
- Images.PictureImage: its rotation is the whole-degree rotation of `Geometry.Rotation` (see Findings), not the `int(rotation / 60000)` the code computes.
- Images.BlipEmbed: it finds the blip with the `xpath('.//a:blip')` call python-pptx accepts (see Findings), not the call of `image_extractor.py:75`, which raises.
- Images.FrameImage: it finds the blip as `Images.BlipEmbed` does (see Findings), where the code as written never finds one; and its rotation is the whole-degree rotation of `Geometry.Rotation` (see Findings), not the `int(rotation / 60000)` the code computes.
- Images.FillImage: its rotation is the whole-degree rotation of `Geometry.Rotation` (see Findings), not the `int(rotation / 60000)` the code computes.
- Images.ExtractImage: a graphic frame gives its embedded picture through the corrected `Images.FrameImage` (see Findings), where the code as written always falls through to the picture fill; and its rotation is the whole-degree rotation of `Geometry.Rotation` (see Findings), not the `int(rotation / 60000)` the code computes.
- Images.FrameBlipImage: it is stated for the corrected `Images.ExtractImage` (see Findings); as written the same frame gives no embedded image (`Images.FrameBlipLostAsWritten`).
- Tables.ExtractTable: its rotation is the whole-degree rotation of `Geometry.Rotation` (see Findings), not the `int(rotation / 60000)` the code computes.
- Charts.ReadChart: its data uses the workbook lookup in the package relationships namespace of `Charts.EmbeddedWorkbook` (see Findings), not the namespace of `chart_extractor.py:117`, and its rotation is the whole-degree rotation of `Geometry.Rotation` (see Findings), not the `int(rotation / 60000)` the code computes.
- Charts.CreateChart: its rotation is `Geometry.ChartRotation` (whole degrees), not the always-zero `int(shape.rotation / 60000)` of `chart_extractor.py:185` (see Findings). Its categories and series are parameters; where they come from is stated for `Charts.ReadChart`.
- Scaling.ScaleTable: `cellWidth` is scaled once by the x factor and `cellHeight` once by the y factor (see Findings), not the double scaling of `text_extractor.py:333-338`.
- Slides.TableDict: it uses `cellWidth` scaled once by the x factor and `cellHeight` once by the y factor (see Findings), not the double scaling of `text_extractor.py:333-338`.
- Slides.ShapeElements: tables get `cellWidth` scaled once by the x factor and `cellHeight` once by the y factor (see Findings), not the double scaling of `text_extractor.py:333-338`; rotations are the whole-degree rotation of `Geometry.Rotation` (see Findings), not the `int(rotation / 60000)` the code computes; charts use the workbook lookup in the package relationships namespace of `Charts.EmbeddedWorkbook` (see Findings), not the namespace of `chart_extractor.py:117`; images use the corrected `Images.ExtractImage`, so a graphic frame gives its embedded picture (see Findings), which the code as written never does.
- Slides.ConvertSlide: its elements are built from the corrected members of Findings: the whole-degree rotation of `Geometry.Rotation` (see Findings), not the `int(rotation / 60000)` the code computes; `cellWidth` scaled once by the x factor and `cellHeight` once by the y factor (see Findings), not the double scaling of `text_extractor.py:333-338`; the workbook lookup in the package relationships namespace of `Charts.EmbeddedWorkbook` (see Findings), not the namespace of `chart_extractor.py:117`; a graphic frame's embedded picture found by `Images.FrameImage` (see Findings), where the code as written never finds it.
- Slides.ConvertDeck: every slide is built as `Slides.ConvertSlide` is, with the four corrections of Findings.
- Slides.DeckOneToOne: it is stated for the corrected pipeline of `Slides.ConvertDeck`, not the code as written.
- PyNum.ParseFloatCases: it states the empty case and the run-of-digits case of `PyNum.ParseFloat` only; decimal points and exponents are read by the function's body (`PyNum.ParseMantissa` after `PyNum.ExpIndex`) and are not stated.
- Texts.Fold: its contract bounds the count and places each element on the frame; which paragraphs emit, in which order and with which style is stated by `Texts.FoldIsPerParagraph`.
- Charts.ExcelFrom: its contract bounds the series count and keeps categories already read; where the categories come from is `Charts.ExcelCategoriesFromFirstSeries`, and the values read from each range are in its body.

## Findings

| source | as written | input that shows it | evidently intended | confidence | as-written member | corrected member |
|---|---|---|---|---|---|---|
| backend/converter/utils/text_extractor.py:91-93 (same in table_extractor.py:614-616, image_extractor.py, shape_extractor.py, chart_extractor.py:185) | `int(shape.rotation / 60000)`, but python-pptx already reports `rotation` in degrees | a shape turned 90 degrees (`rotation == 90.0`) gives 0 | `int(shape.rotation)`, the whole degrees | not executed | Geometry.RotationAsWritten (Geometry.RotationAsWrittenAlwaysZero, Geometry.RotationDiscrepancy) | Geometry.Rotation, Geometry.ChartRotation |
| backend/converter/utils/chart_extractor.py:117 | relationships are searched as `r:Relationship` in the officeDocument relationships namespace, while relationship parts use the package relationships namespace (section 9.3 of ECMA-376 Part 2) | a chart whose `.rels` part holds one `Relationship` with target `../embeddings/Microsoft_Excel_Worksheet.xlsx`: no workbook is found and the cached values are used | relationships looked up in the package relationships namespace, so the embedded workbook is read | not executed | Charts.EmbeddedWorkbookAsWritten (Charts.AsWrittenNeverFindsWorkbook, Charts.EmbeddedWorkbookFound) | Charts.EmbeddedWorkbook |
| backend/converter/utils/text_extractor.py:333-338 | `scale_element_coordinates` already scales `cellWidth` and `cellHeight` by `scale_x`. The slide loop then scales them again, by `scale_x` and `scale_y` | a table 100 points per cell at the default slide size: cells come out 202 canvas units instead of 142 | each cell size scaled once, along its own axis | not executed | Scaling.ScaleTableAsWritten (Scaling.CellSizeScaledTwice) | Scaling.ScaleTable |
| backend/converter/utils/image_extractor.py:75 | `shape.element.xpath('.//a:blip', namespaces={...})`, but python-pptx's oxml elements define `xpath` with the expression as its only argument, so the call raises `TypeError`. That is not the `ImportError` the fallback at :84-92 waits for; the handler at :94 swallows it and :97-98 return None | a graphic frame whose only child is `<a:blip r:embed="rId2"/>`, with `rId2` a related picture part: no frame image; the shape falls through to its picture-fill path, which python-pptx leaves empty, so no image at all | the blip found with `shape.element.xpath('.//a:blip')`, whose `a:` prefix python-pptx resolves itself | not executed | Images.FrameImageAsWritten (Images.BlipEmbedAsWritten, Images.ExtractImageAsWritten, Images.FrameBlipLostAsWritten) | Images.BlipEmbed, Images.FrameImage, Images.ExtractImage |

=== FILE: background.dfy ===
/** A slide's background: the fill under the first `bgPr` of a slide,
    layout or master part, the inheritance chain slide → layout → master →
    the object model's solid colour, and the final record, which carries
    exactly one of a colour and an image. */
module Background {
  import opened Wrappers
  import opened PyStr
  import opened Xml
  import opened Package
  import opened Seqs
  import opened Colors
  import Theme
  import opened Fills
  import opened ImageFill
  import opened Base64
  import opened Renderer

  /* ---------------- parse_background_from_xml ---------------- */

  function BgPrOf(x: Elem): Option<Elem> {
    if x.tag == "bgPr" then Some(x) else None
  }

  /** The first `bgPr` in pre-order, the root included. */
  function FindBgPr(root: Elem): (r: Option<Elem>)
    ensures r.Some? ==> r.value.tag == "bgPr"
    ensures r.None? <==> forall i :: 0 <= i < |Iter(root)| ==> Iter(root)[i].tag != "bgPr"
  {
    FirstSomeSpec(Iter(root), BgPrOf);
    FirstSome(Iter(root), BgPrOf)
  }

  /** The package and owner part an image fill is resolved against; present
      only when both are given and the owner name is non-empty. */
  datatype Owner = Owner(archive: Archive, part: string)

  /** A parsed background of kind `k`. */
  predicate OfKind(d: BgData, k: Kind) {
    match k
    case Solid => d.SolidBg?
    case Gradient => d.GradientBg?
    case Image => d.ImageBg?
    case Pattern => d.PatternBg?
    case NoKind => false
  }

  /** What every parser promises about its result: a solid background has a
      truthy colour or scheme name, a gradient at least one stop and an angle
      in [0, 360), an image non-empty bytes, a pattern two non-empty colours. */
  predicate WellFormed(d: BgData) {
    match d
    case SolidBg(c, n) => Truthy(c) || Truthy(n)
    case GradientBg(angle, stops) => |stops| >= 1 && 0.0 <= angle < 360.0
    case ImageBg(bytes) => |bytes| > 0
    case PatternBg(_, fg, bg) => fg != "" && bg != ""
  }

  /** One direct child of the `bgPr`, parsed as kind `k` when its tag is that
      kind's fill tag. An image needs an owner and non-empty bytes. */
  function ParseChild(c: Elem, k: Kind, m: map<string, string>, owner: Option<Owner>): (r: Option<BgData>)
    ensures r.Some? ==> KindOf(c) == Some(k) && OfKind(r.value, k) && WellFormed(r.value)
  {
    match k
    case Solid => if c.tag == "solidFill" then ParseSolidFill(c, m) else None
    case Gradient => if c.tag == "gradFill" then ParseGradientFill(c, m) else None
    case Pattern => if c.tag == "pattFill" then ParsePatternFill(c, m) else None
    case Image =>
      if c.tag == "blipFill" && owner.Some? then
        match ParseImageFill(c, owner.value.archive, owner.value.part)
        case Some(bytes) => if |bytes| > 0 then Some(ImageBg(bytes)) else None
        case None => None
      else None
    case NoKind => None
  }

  /** The first direct child that parses as kind `k`. */
  function ParseChildren(cs: seq<Elem>, k: Kind, m: map<string, string>, owner: Option<Owner>): (r: Option<BgData>)
    ensures r.Some? ==> OfKind(r.value, k) && WellFormed(r.value)
    ensures r.Some? ==> exists i :: 0 <= i < |cs| && ParseChild(cs[i], k, m, owner) == r
    ensures r.None? <==> forall i :: 0 <= i < |cs| ==> ParseChild(cs[i], k, m, owner).None?
  {
    if |cs| == 0 then None
    else
      match ParseChild(cs[0], k, m, owner)
      case Some(d) => Some(d)
      case None =>
        var r := ParseChildren(cs[1..], k, m, owner);
        assert forall j :: 1 <= j < |cs| ==> cs[j] == cs[1..][j - 1];
        r
  }

  /** `parse_background_from_xml` on an already parsed part (None when the
      part does not parse): the kind is decided by the first fill anywhere
      under the first `bgPr`, and only direct children of that kind are
      parsed. */
  function ParseBackground(root: Option<Elem>, m: map<string, string>, owner: Option<Owner>): (r: Option<BgData>)
    ensures root.None? ==> r.None?
    ensures root.Some? && FindBgPr(root.value).None? ==> r.None?
    ensures r.Some? ==> root.Some? && FindBgPr(root.value).Some?
                        && OfKind(r.value, DetectBackgroundType(FindBgPr(root.value).value))
                        && WellFormed(r.value)
  {
    match root
    case None => None
    case Some(e) =>
      match FindBgPr(e)
      case None => None
      case Some(bgPr) => ParseChildren(bgPr.children, DetectBackgroundType(bgPr), m, owner)
  }

  /** A solid fill that names a scheme slot the resolver cannot place is
      still a result: it has no colour, yet it is what the part yields. */
  lemma UnresolvedSchemeIsAResult(fill: Elem, m: map<string, string>, name: string)
    requires |fill.children| == 1 && fill.children[0] == Elem("", "schemeClr", [Attr("", "val", name)], None, [])
    requires name != "" && name !in m && SchemeFallback(name).None?
    requires fill.tag == "solidFill" && fill.children[0].tag != "bgPr"
    ensures var bgPr := Elem("", "bgPr", [], None, [fill]);
            ParseBackground(Some(bgPr), m, None) == Some(SolidBg(None, Some(name)))
  {
    var bgPr := Elem("", "bgPr", [], None, [fill]);
    UnknownSchemeSolid(fill, m, name);
    assert Iter(bgPr)[0] == bgPr;
    FirstSomeAt(Iter(bgPr), BgPrOf, 0);
    FillFirst(bgPr, fill);
    assert ParseChild(fill, Solid, m, None) == Some(SolidBg(None, Some(name)));
    assert [fill][0] == fill;
  }

  /** A `bgPr` whose first child is a fill has that fill's kind. */
  lemma FillFirst(bgPr: Elem, fill: Elem)
    requires bgPr.tag == "bgPr" && |bgPr.children| >= 1 && bgPr.children[0] == fill
    requires KindOf(fill).Some?
    ensures DetectBackgroundType(bgPr) == KindOf(fill).value
  {
    assert IterAll(bgPr.children) == Iter(fill) + IterAll(bgPr.children[1..]);
    assert Iter(bgPr) == [bgPr] + IterAll(bgPr.children);
    assert Iter(bgPr)[1] == fill;
    assert KindOf(Iter(bgPr)[0]).None?;
    FirstSomeAt(Iter(bgPr), KindOf, 1);
  }

  /* ---------------- the inheritance chain ---------------- */

  /** The python-pptx objects the chain consults: the layout and master part
      names (None where the object has no such attribute), and the solid
      foreground colour the slide's background exposes through the object
      model (None when the fill is not solid or `.rgb` is absent or None). */
  datatype SlideRef = SlideRef(layoutPart: Option<string>, masterPart: Option<string>, apiRgb: Option<RgbInput>)

  /** `ppt/slides/slide<n>.xml` for the zero-based index. */
  function SlidePath(index: nat): (r: string)
    ensures StartsWith(r, "ppt/slides/slide") && EndsWith(r, ".xml")
  {
    var r := "ppt/slides/slide" + NatToString(index + 1) + ".xml";
    assert r[..16] == "ppt/slides/slide";
    assert r[|r| - 4..] == ".xml";
    r
  }

  /** A part read from the package: not listed gives None; otherwise the
      background parsed from it, the part itself being the owner. */
  function FromPart(a: Archive, path: string, m: map<string, string>): (r: Option<BgData>)
    ensures r.Some? ==> Listed(a, path) && r == ParseBackground(ReadXml(a, path), m, OwnerOf(a, path))
  {
    if !Listed(a, path) then None
    else ParseBackground(ReadXml(a, path), m, OwnerOf(a, path))
  }

  function OwnerOf(a: Archive, path: string): Option<Owner> {
    if path != "" then Some(Owner(a, path)) else None
  }

  /** A layout or master part name as python-pptx gives it, with its leading
      slashes dropped. */
  function PartPath(partname: string): string {
    LStripChars(partname, {'/'})
  }

  /** The object-model fallback: a solid background when `rgb_to_hex` gives a
      colour. */
  function ApiSolid(s: SlideRef): (r: Option<BgData>)
    ensures r.Some? ==> s.apiRgb.Some? && r == Some(SolidBg(RgbToHex(s.apiRgb.value), None))
    ensures r.Some? ==> WellFormed(r.value)
  {
    match s.apiRgb
    case None => None
    case Some(v) =>
      match RgbToHex(v)
      case None => None
      case Some(h) =>
        RgbToHexShape(v);
        Some(SolidBg(Some(h), None))
  }

  lemma RgbToHexShape(v: RgbInput)
    ensures RgbToHex(v).Some? ==> RgbToHex(v).value != ""
  {
  }

  /** The four steps of the chain. The package is None when no path is given
      (or it cannot be opened); then only the object model is consulted. */
  function SlideStep(a: Option<Archive>, index: Option<nat>, m: map<string, string>): Option<BgData> {
    if a.Some? && index.Some? then FromPart(a.value, SlidePath(index.value), m) else None
  }

  function LayoutStep(a: Option<Archive>, s: SlideRef, m: map<string, string>): Option<BgData> {
    if a.Some? && s.layoutPart.Some? then FromPart(a.value, PartPath(s.layoutPart.value), m) else None
  }

  function MasterStep(a: Option<Archive>, s: SlideRef, m: map<string, string>): Option<BgData> {
    if a.Some? && s.masterPart.Some? then FromPart(a.value, PartPath(s.masterPart.value), m) else None
  }

  /** The theme mapping every step resolves scheme colours against. */
  function MappingOf(a: Option<Archive>): (m: map<string, string>)
    ensures a.None? ==> m == map[]
  {
    if a.Some? then Theme.Mapping(a.value) else map[]
  }

  /** Steps 1 to 4 of `extract_slide_background`: the first step with a
      result wins. */
  function ChainData(a: Option<Archive>, index: Option<nat>, s: SlideRef): (r: Option<BgData>)
    ensures var m := MappingOf(a);
            r == SlideStep(a, index, m).OrElse(LayoutStep(a, s, m)).OrElse(MasterStep(a, s, m)).OrElse(ApiSolid(s))
    ensures r.Some? ==> WellFormed(r.value)
  {
    var m := MappingOf(a);
    var slide := SlideStep(a, index, m);
    if slide.Some? then slide
    else
      var layout := LayoutStep(a, s, m);
      if layout.Some? then layout
      else
        var master := MasterStep(a, s, m);
        if master.Some? then master
        else ApiSolid(s)
  }

  /* ---------------- the final record ---------------- */

  /** `image/jpeg`, `image/png` or `image/gif` from the leading bytes; PNG
      when nothing matches. */
  function SniffMime(b: seq<Byte>): (r: string)
    ensures r in {"image/jpeg", "image/png", "image/gif"}
    ensures |b| >= 3 && b[0] == 0xFF && b[1] == 0xD8 && b[2] == 0xFF ==> r == "image/jpeg"
    ensures r == "image/gif" ==> |b| >= 3 && b[..3] == [0x47, 0x49, 0x46]
    ensures r == "image/jpeg" ==> |b| >= 3 && b[..3] == [0xFF, 0xD8, 0xFF]
  {
    if |b| >= 3 && b[..3] == [0xFF, 0xD8, 0xFF] then "image/jpeg"
    else if |b| >= 8 && b[..8] == PngSignature then "image/png"
    else if |b| >= 3 && b[..3] == [0x47, 0x49, 0x46] then "image/gif"
    else "image/png"
  }

  /** The eight-byte PNG signature. */
  const PngSignature: seq<Byte> := [0x89, 0x50, 0x4E, 0x47, 0x0D, 0x0A, 0x1A, 0x0A]

  /** The background part of a slide record. */
  datatype BackgroundInfo = BackgroundInfo(
    color: Option<string>,
    image: Option<string>,
    size: Option<string>,
    position: Option<string>,
    repeat: Option<string>)

  const WhiteBackground := BackgroundInfo(Some("#ffffff"), None, None, None, None)

  function ImageBackground(url: string): BackgroundInfo {
    BackgroundInfo(None, Some(url), Some("cover"), Some("center"), Some("no-repeat"))
  }

  /** The record holds exactly one of a non-empty colour and a non-empty
      image, and the three sizing fields are set exactly with the image, to
      `cover`, `center` and `no-repeat`. */
  predicate ExactlyOne(b: BackgroundInfo) {
    (Truthy(b.color) && b.image.None? && b.size.None? && b.position.None? && b.repeat.None?)
    || (b.color.None? && Truthy(b.image)
        && b.size == Some("cover") && b.position == Some("center") && b.repeat == Some("no-repeat"))
  }

  /** `extract_slide_background`. A solid result supplies the colour; an
      image result its bytes as a data URL with the sniffed MIME type; a
      gradient or pattern result is rendered and encoded as a PNG data URL;
      anything else leaves the record empty and it becomes white. None where
      rendering raises on a colour that does not parse. `decode` reads a
      picture's size and `png` encodes a rendered canvas. */
  function ExtractSlideBackground(a: Option<Archive>, index: Option<nat>, s: SlideRef,
                                  decode: seq<Byte> -> Option<(nat, nat)>,
                                  png: Picture -> seq<Byte>): (r: Option<BackgroundInfo>)
    ensures r.Some? ==> ExactlyOne(r.value)
    ensures ChainData(a, index, s).None? ==> r == Some(WhiteBackground)
    ensures r.None? ==> ChainData(a, index, s).Some?
                        && (ChainData(a, index, s).value.GradientBg? || ChainData(a, index, s).value.PatternBg?)
                        && Render(ChainData(a, index, s).value, decode).None?
  {
    match ChainData(a, index, s)
    case None => Some(WhiteBackground)
    case Some(d) =>
      match d
      case SolidBg(color, _) =>
        if Truthy(color) then Some(BackgroundInfo(color, None, None, None, None)) else Some(WhiteBackground)
      case ImageBg(bytes) =>
        if |bytes| > 0 then Some(ImageBackground(DataUrl(SniffMime(bytes), bytes))) else Some(WhiteBackground)
      case GradientBg(_, _) => Rendered(d, decode, png)
      case PatternBg(_, _, _) => Rendered(d, decode, png)
  }

  /** A gradient or pattern background drawn and encoded as a PNG data URL. */
  function Rendered(d: BgData, decode: seq<Byte> -> Option<(nat, nat)>, png: Picture -> seq<Byte>): (r: Option<BackgroundInfo>)
    ensures r.Some? <==> Render(d, decode).Some?
    ensures r.Some? ==> r.value == ImageBackground(DataUrl("image/png", png(Render(d, decode).value)))
  {
    match Render(d, decode)
    case None => None
    case Some(p) => Some(ImageBackground(DataUrl("image/png", png(p))))
  }

  /** The data URL of an image background gives back the part's bytes. */
  lemma ImageBackgroundRoundTrip(bytes: seq<Byte>)
    requires |bytes| > 0
    ensures var m := SniffMime(bytes);
            var url := DataUrl(m, bytes);
            url[..5] == "data:" && url[5..5 + |m|] == m && Decode(url[13 + |m|..]) == Some(bytes)
  {
    DataUrlPayload(SniffMime(bytes), bytes);
  }

  /** A slide part that yields a result hides the layout, the master and the
      object model, even when that result is a solid background without a
      colour: the slide then renders white. */
  lemma SlideHitBlocksInheritance(a: Option<Archive>, index: Option<nat>, s: SlideRef)
    requires SlideStep(a, index, MappingOf(a)).Some?
    ensures ChainData(a, index, s) == SlideStep(a, index, MappingOf(a))
    ensures SlideStep(a, index, MappingOf(a)).value.SolidBg? && !Truthy(SlideStep(a, index, MappingOf(a)).value.color)
            ==> ExtractSlideBackground(a, index, s, (b: seq<Byte>) => None, (p: Picture) => []) == Some(WhiteBackground)
  {
  }

  /** With no package only the object model is consulted: its colour, or
      white. */
  lemma NoPackage(index: Option<nat>, s: SlideRef, decode: seq<Byte> -> Option<(nat, nat)>, png: Picture -> seq<Byte>)
    ensures ChainData(None, index, s) == ApiSolid(s)
    ensures s.apiRgb.Some? && RgbToHex(s.apiRgb.value).Some? ==>
              ExtractSlideBackground(None, index, s, decode, png)
                == Some(BackgroundInfo(RgbToHex(s.apiRgb.value), None, None, None, None))
    ensures ApiSolid(s).None? ==> ExtractSlideBackground(None, index, s, decode, png) == Some(WhiteBackground)
  {
    if s.apiRgb.Some? {
      RgbToHexShape(s.apiRgb.value);
    }
  }
}

=== FILE: base64.dfy ===
/** Standard base64 (section 4 of RFC 4648) and `data:` URLs (section 3 of
    RFC 2397), as `base64.b64encode(...).decode()` and the f-strings around it
    produce them. `Decode` is the inverse the encoding is proved against. */
module Base64 {
  import opened Wrappers
  import opened Package

  /** The character for a 6-bit value: `A-Z a-z 0-9 + /`. */
  function CharOf(i: nat): (c: char)
    requires i < 64
  {
    if i < 26 then ('A' as int + i) as char
    else if i < 52 then ('a' as int + i - 26) as char
    else if i < 62 then ('0' as int + i - 52) as char
    else if i == 62 then '+'
    else '/'
  }

  /** The 6-bit value of an alphabet character; None for anything else. */
  function IndexOf(c: char): (r: Option<nat>)
    ensures r.Some? ==> r.value < 64 && CharOf(r.value) == c
  {
    if 'A' <= c <= 'Z' then Some(c as int - 'A' as int)
    else if 'a' <= c <= 'z' then Some(c as int - 'a' as int + 26)
    else if '0' <= c <= '9' then Some(c as int - '0' as int + 52)
    else if c == '+' then Some(62)
    else if c == '/' then Some(63)
    else None
  }

  lemma IndexOfCharOf(i: nat)
    requires i < 64
    ensures IndexOf(CharOf(i)) == Some(i)
  {
  }

  predicate IsAlphabet(c: char) {
    IndexOf(c).Some?
  }

  /** Three bytes as four characters. */
  function Quad(x: Byte, y: Byte, z: Byte): string {
    [CharOf(x / 4), CharOf((x % 4) * 16 + y / 16), CharOf((y % 16) * 4 + z / 64), CharOf(z % 64)]
  }

  /** `base64.b64encode(b).decode()` */
  function Encode(b: seq<Byte>): (r: string)
    ensures |r| == 4 * ((|b| + 2) / 3)
    decreases |b|
  {
    if |b| == 0 then ""
    else if |b| == 1 then [CharOf(b[0] / 4), CharOf((b[0] % 4) * 16)] + "=="
    else if |b| == 2 then
      [CharOf(b[0] / 4), CharOf((b[0] % 4) * 16 + b[1] / 16), CharOf((b[1] % 16) * 4)] + "="
    else Quad(b[0], b[1], b[2]) + Encode(b[3..])
  }

  /** Every character of an encoding is an alphabet character or padding. */
  lemma {:induction false} EncodeAlphabet(b: seq<Byte>)
    ensures forall i :: 0 <= i < |Encode(b)| ==> IsAlphabet(Encode(b)[i]) || Encode(b)[i] == '='
    decreases |b|
  {
    if |b| == 0 {
    } else if |b| < 3 {
      IndexOfCharOf(b[0] / 4);
      if |b| == 1 {
        IndexOfCharOf((b[0] % 4) * 16);
      } else {
        IndexOfCharOf((b[0] % 4) * 16 + b[1] / 16);
        IndexOfCharOf((b[1] % 16) * 4);
      }
    } else {
      IndexOfCharOf(b[0] / 4);
      IndexOfCharOf((b[0] % 4) * 16 + b[1] / 16);
      IndexOfCharOf((b[1] % 16) * 4 + b[2] / 64);
      IndexOfCharOf(b[2] % 64);
      EncodeAlphabet(b[3..]);
      EncodeLong(b);
      var q, e := Quad(b[0], b[1], b[2]), Encode(b[3..]);
      assert forall i :: 0 <= i < 4 ==> IsAlphabet(q[i]);
      assert forall i :: 4 <= i < |q + e| ==> (q + e)[i] == e[i - 4];
    }
  }

  /** Four characters, the last one or two of which may be `=` padding. */
  function DecodeQuad(q: string): (r: Option<seq<Byte>>)
    requires |q| == 4
  {
    var a, b := IndexOf(q[0]), IndexOf(q[1]);
    if a.None? || b.None? then None
    else if q[2] == '=' && q[3] == '=' then
      if b.value % 16 == 0 then Some([a.value * 4 + b.value / 16]) else None
    else
      var c := IndexOf(q[2]);
      if c.None? then None
      else if q[3] == '=' then
        if c.value % 4 == 0 then Some([a.value * 4 + b.value / 16, (b.value % 16) * 16 + c.value / 4])
        else None
      else
        var d := IndexOf(q[3]);
        if d.None? then None
        else Some([a.value * 4 + b.value / 16, (b.value % 16) * 16 + c.value / 4, (c.value % 4) * 64 + d.value])
  }

  /** Canonical base64 back to bytes: padding only in the last quad and no
      stray bits; None for anything else. */
  function Decode(s: string): Option<seq<Byte>>
    decreases |s|
  {
    if |s| == 0 then Some([])
    else if |s| < 4 then None
    else match DecodeQuad(s[..4])
      case None => None
      case Some(first) =>
        if |first| < 3 then (if |s| == 4 then Some(first) else None)
        else match Decode(s[4..])
          case None => None
          case Some(rest) => Some(first + rest)
  }

  lemma DecodeQuadOfQuad(x: Byte, y: Byte, z: Byte)
    ensures DecodeQuad(Quad(x, y, z)) == Some([x, y, z])
  {
    var a, b, c, d := x / 4, (x % 4) * 16 + y / 16, (y % 16) * 4 + z / 64, z % 64;
    DecodeFullQuad(a, b, c, d);
    ByteSplits(x, y, z);
  }

  /** Four alphabet characters decode to the three bytes their 6-bit values
      spell. */
  lemma DecodeFullQuad(a: nat, b: nat, c: nat, d: nat)
    requires a < 64 && b < 64 && c < 64 && d < 64
    ensures DecodeQuad([CharOf(a), CharOf(b), CharOf(c), CharOf(d)])
              == Some([a * 4 + b / 16, (b % 16) * 16 + c / 4, (c % 4) * 64 + d])
  {
    IndexOfCharOf(a);
    IndexOfCharOf(b);
    IndexOfCharOf(c);
    IndexOfCharOf(d);
  }

  /** Regrouping three bytes into 6-bit values and back loses nothing. */
  lemma ByteSplits(x: Byte, y: Byte, z: Byte)
    ensures var b, c := (x % 4) * 16 + y / 16, (y % 16) * 4 + z / 64;
            && (x / 4) * 4 + b / 16 == x
            && (b % 16) * 16 + c / 4 == y
            && (c % 4) * 64 + z % 64 == z
  {
    var b, c := (x % 4) * 16 + y / 16, (y % 16) * 4 + z / 64;
    assert b / 16 == x % 4 && b % 16 == y / 16;
    assert c / 4 == y % 16 && c % 4 == z / 64;
  }

  lemma DecodeOneByte(x: Byte)
    ensures DecodeQuad([CharOf(x / 4), CharOf((x % 4) * 16)] + "==") == Some([x])
  {
    var a, b := x / 4, (x % 4) * 16;
    IndexOfCharOf(a);
    IndexOfCharOf(b);
    assert b % 16 == 0 && b / 16 == x % 4;
    assert a * 4 + b / 16 == x;
  }

  lemma DecodeTwoBytes(x: Byte, y: Byte)
    ensures DecodeQuad([CharOf(x / 4), CharOf((x % 4) * 16 + y / 16), CharOf((y % 16) * 4)] + "=") == Some([x, y])
  {
    var a, b, c := x / 4, (x % 4) * 16 + y / 16, (y % 16) * 4;
    IndexOfCharOf(a);
    IndexOfCharOf(b);
    IndexOfCharOf(c);
    assert b / 16 == x % 4 && b % 16 == y / 16;
    assert c % 4 == 0 && c / 4 == y % 16;
    assert a * 4 + b / 16 == x;
    assert (b % 16) * 16 + c / 4 == y;
  }

  /** Decoding what `Encode` produced gives back the bytes. */
  lemma {:induction false} DecodeEncode(b: seq<Byte>)
    ensures Decode(Encode(b)) == Some(b)
    decreases |b|
  {
    if |b| == 0 {
    } else if |b| < 3 {
      DecodeEncodeShort(b);
    } else {
      DecodeEncode(b[3..]);
      DecodeEncodeLong(b);
    }
  }

  /** When the bytes after the first three round-trip, so do all of them. */
  lemma DecodeEncodeLong(b: seq<Byte>)
    requires |b| >= 3 && Decode(Encode(b[3..])) == Some(b[3..])
    ensures Decode(Encode(b)) == Some(b)
  {
    var q := Quad(b[0], b[1], b[2]);
    EncodeLong(b);
    DecodeQuadOfQuad(b[0], b[1], b[2]);
    SplitThree(b);
    DecodeQuadThen(q, Encode(b[3..]), b[..3], b[3..]);
  }

  lemma SplitThree(b: seq<Byte>)
    requires |b| >= 3
    ensures b[..3] == [b[0], b[1], b[2]] && b[..3] + b[3..] == b
  {
  }

  /** Three or more bytes encode as the quad of the first three followed by
      the encoding of the rest. */
  lemma EncodeLong(b: seq<Byte>)
    requires |b| >= 3
    ensures Encode(b) == Quad(b[0], b[1], b[2]) + Encode(b[3..])
  {
  }

  /** One or two bytes encode to a single padded quad that decodes back. */
  lemma DecodeEncodeShort(b: seq<Byte>)
    requires 1 <= |b| <= 2
    ensures Decode(Encode(b)) == Some(b)
  {
    if |b| == 1 {
      assert [b[0]] == b;
      DecodeEncodeOne(b[0]);
    } else {
      assert [b[0], b[1]] == b;
      DecodeEncodeTwo(b[0], b[1]);
    }
  }

  lemma DecodeEncodeOne(x: Byte)
    ensures Decode(Encode([x])) == Some([x])
  {
    var e := Encode([x]);
    assert e == [CharOf(x / 4), CharOf((x % 4) * 16)] + "==";
    DecodeOneByte(x);
    assert e[..4] == e;
  }

  lemma DecodeEncodeTwo(x: Byte, y: Byte)
    ensures Decode(Encode([x, y])) == Some([x, y])
  {
    var e := Encode([x, y]);
    assert e == [CharOf(x / 4), CharOf((x % 4) * 16 + y / 16), CharOf((y % 16) * 4)] + "=";
    DecodeTwoBytes(x, y);
    assert e[..4] == e;
  }

  /** A full quad followed by more text decodes to the quad's three bytes
      followed by what the rest decodes to. */
  lemma DecodeQuadThen(q: string, rest: string, first: seq<Byte>, tail: seq<Byte>)
    requires |q| == 4 && DecodeQuad(q) == Some(first) && |first| == 3
    requires Decode(rest) == Some(tail)
    ensures Decode(q + rest) == Some(first + tail)
  {
    var s := q + rest;
    assert s[..4] == q && s[4..] == rest;
  }

  /** `f"data:{mime};base64," + base64.b64encode(b).decode()` */
  function DataUrl(mime: string, b: seq<Byte>): (r: string)
    ensures |r| == 5 + |mime| + 8 + |Encode(b)|
  {
    "data:" + mime + ";base64," + Encode(b)
  }

  /** The payload of a data URL decodes back to the bytes it was built from. */
  lemma DataUrlPayload(mime: string, b: seq<Byte>)
    ensures DataUrl(mime, b)[..5] == "data:"
    ensures DataUrl(mime, b)[5..5 + |mime|] == mime
    ensures DataUrl(mime, b)[5 + |mime|..13 + |mime|] == ";base64,"
    ensures Decode(DataUrl(mime, b)[13 + |mime|..]) == Some(b)
  {
    DataUrlParts(mime, Encode(b));
    DecodeEncode(b);
  }

  /** Where the prefix, MIME type, marker and payload sit in a data URL. */
  lemma DataUrlParts(mime: string, e: string)
    ensures var u := "data:" + mime + ";base64," + e;
            && u[..5] == "data:" && u[5..5 + |mime|] == mime
            && u[5 + |mime|..13 + |mime|] == ";base64," && u[13 + |mime|..] == e
  {
  }
}

=== FILE: charts.dfy ===
/** Charts: the chart part's type, title, categories, series and series
    colours, read from the part's cached values or from the embedded
    workbook, and the chart element built from them in canvas units. */
module Charts {
  import opened Wrappers
  import opened Xml
  import opened Package
  import opened PyStr
  import opened PyNum
  import opened Geometry
  import opened Json
  import Pptx
  import Seqs

  const ChartNs: string := "http://schemas.openxmlformats.org/drawingml/2006/chart"
  const DrawingNs: string := "http://schemas.openxmlformats.org/drawingml/2006/main"

  /** The namespace the reader searches relationship parts in. */
  const OfficeRelNs: string := "http://schemas.openxmlformats.org/officeDocument/2006/relationships"

  /** The namespace of a relationship part's elements (section 9.3 of
      ECMA-376 Part 2, Open Packaging Conventions). */
  const PackageRelNs: string := "http://schemas.openxmlformats.org/package/2006/relationships"

  /** The colours series take when the chart names none, by position. */
  const Palette: seq<string> := ["#10b981", "#0ea5e9", "#8b5cf6", "#f59e0b", "#f43f5e", "#06b6d4", "#84cc16"]

  /* ---------------- chart type and title ---------------- */

  datatype ChartType = Bar | Line | Pie | Unknown

  function ChartTypeName(t: ChartType): string {
    match t
    case Bar => "bar"
    case Line => "line"
    case Pie => "pie"
    case Unknown => "unknown"
  }

  /** The chart has a plot element `tag` somewhere below its root. */
  predicate HasPlot(root: Elem, tag: string) {
    Find(root, [Desc(ChartNs, tag)]).Some?
  }

  /** `detect_chart_type`: bar before line before pie or doughnut. */
  function DetectChartType(root: Elem): (t: ChartType)
    ensures t == Bar <==> HasPlot(root, "barChart")
    ensures t == Line <==> !HasPlot(root, "barChart") && HasPlot(root, "lineChart")
    ensures t == Pie <==> !HasPlot(root, "barChart") && !HasPlot(root, "lineChart")
                          && (HasPlot(root, "pieChart") || HasPlot(root, "doughnutChart"))
  {
    if HasPlot(root, "barChart") then Bar
    else if HasPlot(root, "lineChart") then Line
    else if HasPlot(root, "pieChart") || HasPlot(root, "doughnutChart") then Pie
    else Unknown
  }

  /** A combination chart holding a bar plot and a line plot is a bar chart. */
  lemma ComboChartIsBar(root: Elem, bar: Elem, line: Elem)
    requires bar.ns == ChartNs && bar.tag == "barChart" && bar.children == []
    requires line.ns == ChartNs && line.tag == "lineChart" && line.children == []
    requires root.children == [line, bar]
    ensures DetectChartType(root) == Bar
  {
    SingleDescStep(root, ChartNs, "barChart");
    IterSmall(line);
    IterSmall(bar);
    assert IterAll([bar]) == Iter(bar) + IterAll([]);
    assert IterAll(root.children) == Iter(line) + IterAll([bar]);
    assert IterAll(root.children) == [line, bar];
    assert FilterName([bar], ChartNs, "barChart") == [bar] + FilterName([], ChartNs, "barChart");
    assert FilterName([line, bar], ChartNs, "barChart") == FilterName([bar], ChartNs, "barChart");
  }

  /** `get_chart_title`: the text of the first `a:t` under a `c:title`
      (None when that element has no text), else "chart name". */
  function ChartTitle(root: Elem): (t: Option<string>)
    ensures Find(root, [Desc(ChartNs, "title"), Desc(DrawingNs, "t")]).None? ==> t == Some("chart name")
    ensures var ts := FindAll(root, [Desc(ChartNs, "title"), Desc(DrawingNs, "t")]);
            && (|ts| == 0 ==> t == Some("chart name"))
            && (|ts| > 0 ==> t == ts[0].text)
  {
    match Find(root, [Desc(ChartNs, "title"), Desc(DrawingNs, "t")])
    case None => Some("chart name")
    case Some(e) => e.text
  }

  /* ---------------- values and series ---------------- */

  /** A cell value: Python None, a number, or text. */
  datatype Value = NoValue | Number(n: real) | Text(s: string)

  /** A cached point value: `float(text)`, or the text where that raises. */
  function CachedValue(text: string): (v: Value)
    ensures v.Text? <==> ParseFloat(text).None?
    ensures v.Text? ==> v.s == text
  {
    match ParseFloat(text)
    case Some(n) => Number(n)
    case None => Text(text)
  }

  /** The text of a point's direct `c:v` child, when it has one. */
  function PointText(pt: Elem): Option<string> {
    match Find(pt, [Child(ChartNs, "v")])
    case None => None
    case Some(v) => v.text
  }

  function CachedPoint(pt: Elem): Option<Value> {
    match PointText(pt)
    case None => None
    case Some(t) => Some(CachedValue(t))
  }

  function CategoryPoint(pt: Elem): Option<Value> {
    match PointText(pt)
    case None => None
    case Some(t) => Some(Text(t))
  }

  /** `_read_cached_categories`: every string point under any `c:cat`, in
      document order, across all series. */
  function CachedCategories(root: Elem): (cs: seq<Value>)
    ensures |cs| <= |FindAll(root, [Desc(ChartNs, "cat"), Desc(ChartNs, "strCache"), Desc(ChartNs, "pt")])|
  {
    var pts := FindAll(root, [Desc(ChartNs, "cat"), Desc(ChartNs, "strCache"), Desc(ChartNs, "pt")]);
    Seqs.FilterMapSpec(pts, CategoryPoint);
    Seqs.FilterMap(pts, CategoryPoint)
  }

  /** A series: its name (None where the name element has no text) and values. */
  datatype Series = Series(name: Option<string>, values: seq<Value>)

  /** The series name: the first `c:tx//c:v`, else "Series". */
  function SeriesName(ser: Elem): Option<string> {
    match Find(ser, [Desc(ChartNs, "tx"), Desc(ChartNs, "v")])
    case None => Some("Series")
    case Some(v) => v.text
  }

  /** The cached values of one series, in document order. */
  function CachedValues(ser: Elem): seq<Value> {
    Seqs.FilterMap(FindAll(ser, [Desc(ChartNs, "val"), Desc(ChartNs, "numCache"), Desc(ChartNs, "pt")]), CachedPoint)
  }

  function Names(d: seq<Series>): (ns: seq<Option<string>>)
    ensures |ns| == |d| && forall i :: 0 <= i < |d| ==> ns[i] == d[i].name
  {
    seq(|d|, i requires 0 <= i < |d| => d[i].name)
  }

  /** A dict never repeats a key. */
  predicate UniqueNames(d: seq<Series>) {
    forall i, j :: 0 <= i < j < |d| ==> d[i].name != d[j].name
  }

  /** `d[name] = vals` on a dict kept in insertion order: an existing key
      keeps its place and takes the new values; a new key goes last. */
  function Put(d: seq<Series>, name: Option<string>, vals: seq<Value>): (r: seq<Series>)
    ensures name in Names(d) ==> |r| == |d|
    ensures name !in Names(d) ==> r == d + [Series(name, vals)]
  {
    if name in Names(d) then seq(|d|, i requires 0 <= i < |d| => if d[i].name == name then Series(name, vals) else d[i])
    else d + [Series(name, vals)]
  }

  /** The value filed under a name. */
  function ValuesOf(d: seq<Series>, name: Option<string>): Option<seq<Value>> {
    if |d| == 0 then None
    else if d[0].name == name then Some(d[0].values)
    else ValuesOf(d[1..], name)
  }

  lemma {:induction false} ValuesOfAt(d: seq<Series>, i: nat)
    requires UniqueNames(d) && i < |d|
    ensures ValuesOf(d, d[i].name) == Some(d[i].values)
  {
    if i > 0 {
      ValuesOfAt(d[1..], i - 1);
    }
  }

  lemma {:induction false} ValuesOfAbsent(d: seq<Series>, name: Option<string>)
    requires name !in Names(d)
    ensures ValuesOf(d, name).None?
  {
    if |d| > 0 {
      assert Names(d[1..]) == Names(d)[1..];
      ValuesOfAbsent(d[1..], name);
    }
  }

  /** Assignment keeps the keys unique, files the new values under the key
      and leaves every other key as it was. */
  lemma PutIsDictAssignment(d: seq<Series>, name: Option<string>, vals: seq<Value>, other: Option<string>)
    requires UniqueNames(d)
    ensures UniqueNames(Put(d, name, vals))
    ensures ValuesOf(Put(d, name, vals), name) == Some(vals)
    ensures other != name ==> ValuesOf(Put(d, name, vals), other) == ValuesOf(d, other)
  {
    var r := Put(d, name, vals);
    if name in Names(d) {
      var k :| 0 <= k < |d| && Names(d)[k] == name;
      assert r[k] == Series(name, vals);
      ValuesOfAt(r, k);
      if other != name {
        assert Names(r) == Names(d);
        if other in Names(d) {
          var j :| 0 <= j < |d| && Names(d)[j] == other;
          ValuesOfAt(r, j);
          ValuesOfAt(d, j);
        } else {
          ValuesOfAbsent(r, other);
          ValuesOfAbsent(d, other);
        }
      }
    } else {
      ValuesOfAt(r, |d|);
      if other != name {
        if other in Names(d) {
          var j :| 0 <= j < |d| && Names(d)[j] == other;
          ValuesOfAt(r, j);
          ValuesOfAt(d, j);
        } else {
          assert other !in Names(r);
          ValuesOfAbsent(r, other);
          ValuesOfAbsent(d, other);
        }
      }
    }
  }

  /** The cached series of `sers`, assigned in turn into `d`. */
  function CachedSeriesFrom(sers: seq<Elem>, d: seq<Series>): seq<Series>
    decreases |sers|
  {
    if |sers| == 0 then d else CachedSeriesFrom(sers[1..], Put(d, SeriesName(sers[0]), CachedValues(sers[0])))
  }

  /** `_read_cached_series`: every `c:ser`'s name and cached values. */
  function CachedSeries(root: Elem): (r: seq<Series>)
    ensures UniqueNames(r)
    ensures |r| <= |FindAll(root, [Desc(ChartNs, "ser")])|
  {
    CachedSeriesUnique(FindAll(root, [Desc(ChartNs, "ser")]), []);
    CachedSeriesFrom(FindAll(root, [Desc(ChartNs, "ser")]), [])
  }

  /** Reading series keeps the names unique, at most one entry per series. */
  lemma {:induction false} CachedSeriesUnique(sers: seq<Elem>, d: seq<Series>)
    requires UniqueNames(d)
    ensures UniqueNames(CachedSeriesFrom(sers, d))
    ensures |CachedSeriesFrom(sers, d)| <= |d| + |sers|
    decreases |sers|
  {
    if |sers| > 0 {
      PutIsDictAssignment(d, SeriesName(sers[0]), CachedValues(sers[0]), SeriesName(sers[0]));
      CachedSeriesUnique(sers[1..], Put(d, SeriesName(sers[0]), CachedValues(sers[0])));
    }
  }

  /** A later series with the name of an earlier one replaces its values. */
  lemma LaterDuplicateWins(s1: Elem, s2: Elem)
    requires SeriesName(s1) == SeriesName(s2)
    ensures CachedSeriesFrom([s1, s2], []) == [Series(SeriesName(s2), CachedValues(s2))]
  {
    var d1 := Put([], SeriesName(s1), CachedValues(s1));
    assert d1 == [Series(SeriesName(s1), CachedValues(s1))];
    assert Names(d1)[0] == SeriesName(s2);
    var d2 := Put(d1, SeriesName(s2), CachedValues(s2));
    assert d2[0] == Series(SeriesName(s2), CachedValues(s2));
    assert d2 == [Series(SeriesName(s2), CachedValues(s2))];
    assert [s1, s2][1..] == [s2];
    assert [s2][1..] == [];
    assert CachedSeriesFrom([s2], d1) == CachedSeriesFrom([], d2);
  }

  /* ---------------- series colours ---------------- */

  /** A series colour: the first `a:solidFill//a:srgbClr` in the series's
      first `c:spPr`, lower-cased behind a `#`; theme colours are not
      resolved. */
  function SeriesColor(ser: Elem): (r: Option<string>)
    ensures r.Some? ==> |r.value| >= 2 && r.value[0] == '#'
    ensures var sps := FindAll(ser, [Desc(ChartNs, "spPr")]);
            var cs := if |sps| == 0 then [] else FindAll(sps[0], [Desc(DrawingNs, "solidFill"), Desc(DrawingNs, "srgbClr")]);
            && (r.Some? <==> |cs| > 0 && GetNonEmpty(cs[0], "val").Some?)
            && (r.Some? ==> r.value == "#" + Lower(Get(cs[0], "val").value))
  {
    match Find(ser, [Desc(ChartNs, "spPr")])
    case None => None
    case Some(sp) =>
      match Find(sp, [Desc(DrawingNs, "solidFill"), Desc(DrawingNs, "srgbClr")])
      case None => None
      case Some(c) =>
        match GetNonEmpty(c, "val")
        case None => None
        case Some(v) => Some("#" + Lower(v))
  }

  /** `_extract_series_colors`: one entry per `c:ser`. */
  function SeriesColors(root: Elem): (cs: seq<Option<string>>)
    ensures |cs| == |FindAll(root, [Desc(ChartNs, "ser")])|
  {
    var sers := FindAll(root, [Desc(ChartNs, "ser")]);
    seq(|sers|, i requires 0 <= i < |sers| => SeriesColor(sers[i]))
  }

  /** The colour of series (or pie slice) `i`: the chart's own colour for
      that position, else the palette, cycling. */
  function ColorFor(colors: seq<Option<string>>, i: nat): (c: string)
    ensures i < |colors| && colors[i].Some? ==> c == colors[i].value
    ensures !(i < |colors| && colors[i].Some?) ==> c in Palette
  {
    if i < |colors| && colors[i].Some? then colors[i].value else Palette[i % |Palette|]
  }

  /** Without colours of its own a chart cycles through the seven palette
      colours: positions seven apart agree, neighbours differ. */
  lemma PaletteCycles(colors: seq<Option<string>>, i: nat)
    requires forall k :: 0 <= k < |colors| ==> colors[k].None?
    ensures ColorFor(colors, i + 7) == ColorFor(colors, i)
    ensures ColorFor(colors, i + 1) != ColorFor(colors, i)
  {
    assert (i + 7) % 7 == i % 7;
    if i % 7 == 6 {
      assert (i + 1) % 7 == 0;
    } else {
      assert (i + 1) % 7 == i % 7 + 1;
    }
  }

  /* ---------------- the embedded workbook ---------------- */

  /** An openpyxl workbook as the reader uses it: for each range reference
      that `range_boundaries` accepts, the first-column values of the active
      sheet's rows in that range. */
  datatype Workbook = Workbook(columns: map<string, seq<Value>>)

  /** `chart_path.replace("charts/chart", "charts/_rels/chart") + ".rels"` */
  function ChartRelsPath(chartPath: string): string {
    ReplaceAll(chartPath, "charts/chart", "charts/_rels/chart") + ".rels"
  }

  /** The workbook stored at `path`, loaded by `load` (openpyxl, outside
      this model); None where the entry is missing or loading raises. */
  function WorkbookAt(a: Archive, path: string, load: seq<Byte> -> Option<Workbook>): Option<Workbook> {
    match Read(a, path)
    case None => None
    case Some(e) => load(e.bytes)
  }

  /** A relationship whose non-empty target names the embeddings folder. */
  function EmbeddingTarget(ns: string): Elem -> Option<string> {
    (rel: Elem) =>
      if rel.ns == ns && rel.tag == "Relationship" && GetNonEmpty(rel, "Target").Some?
         && Contains(GetNonEmpty(rel, "Target").value, "embeddings")
      then GetNonEmpty(rel, "Target") else None
  }

  /** `_read_embedded_excel_from_rels` with relationships searched in
      namespace `ns`. The outer None is a relationship part that exists but
      does not parse: that raise is not caught. Otherwise the first target
      naming the embeddings folder is opened at `ppt/` plus the target with
      every `../` removed. */
  function EmbeddedWorkbookIn(a: Archive, chartPath: string, ns: string, load: seq<Byte> -> Option<Workbook>): (r: Option<Option<Workbook>>)
    ensures Read(a, ChartRelsPath(chartPath)).None? ==> r == Some(None)
    ensures r.None? <==> Read(a, ChartRelsPath(chartPath)).Some? && Read(a, ChartRelsPath(chartPath)).value.xml.None?
  {
    match Read(a, ChartRelsPath(chartPath))
    case None => Some(None)
    case Some(entry) =>
      match entry.xml
      case None => None
      case Some(root) =>
        match Seqs.FirstSome(root.children, EmbeddingTarget(ns))
        case None => Some(None)
        case Some(t) => Some(WorkbookAt(a, "ppt/" + ReplaceAll(t, "../", ""), load))
  }

  /** The reader as written searches the officeDocument relationships
      namespace. */
  function EmbeddedWorkbookAsWritten(a: Archive, chartPath: string, load: seq<Byte> -> Option<Workbook>): (r: Option<Option<Workbook>>)
    ensures r.None? <==> Read(a, ChartRelsPath(chartPath)).Some? && Read(a, ChartRelsPath(chartPath)).value.xml.None?
    ensures r.Some? && r.value.Some? ==>
              var rels := ReadXml(a, ChartRelsPath(chartPath));
              rels.Some? && exists k :: 0 <= k < |rels.value.children| && rels.value.children[k].ns == OfficeRelNs
  {
    WorkbookFromNamespace(a, chartPath, OfficeRelNs, load);
    EmbeddedWorkbookIn(a, chartPath, OfficeRelNs, load)
  }

  /** The reader searching the namespace relationship parts use. */
  function EmbeddedWorkbook(a: Archive, chartPath: string, load: seq<Byte> -> Option<Workbook>): (r: Option<Option<Workbook>>)
    ensures r.None? <==> Read(a, ChartRelsPath(chartPath)).Some? && Read(a, ChartRelsPath(chartPath)).value.xml.None?
    ensures r.Some? && r.value.Some? ==>
              var rels := ReadXml(a, ChartRelsPath(chartPath));
              rels.Some? && exists k :: 0 <= k < |rels.value.children| && rels.value.children[k].ns == PackageRelNs
  {
    WorkbookFromNamespace(a, chartPath, PackageRelNs, load);
    EmbeddedWorkbookIn(a, chartPath, PackageRelNs, load)
  }

  /** A workbook is only ever found through a relationship in the namespace
      searched. */
  lemma WorkbookFromNamespace(a: Archive, chartPath: string, ns: string, load: seq<Byte> -> Option<Workbook>)
    ensures var r := EmbeddedWorkbookIn(a, chartPath, ns, load);
            r.Some? && r.value.Some? ==>
              var rels := ReadXml(a, ChartRelsPath(chartPath));
              rels.Some? && exists k :: 0 <= k < |rels.value.children| && rels.value.children[k].ns == ns
  {
    var rels := ReadXml(a, ChartRelsPath(chartPath));
    if rels.Some? {
      Seqs.FirstSomeSpec(rels.value.children, EmbeddingTarget(ns));
    }
  }

  /** In a relationship part whose elements are all in the package
      namespace, the reader as written finds no workbook. */
  lemma AsWrittenNeverFindsWorkbook(a: Archive, chartPath: string, load: seq<Byte> -> Option<Workbook>)
    requires ReadXml(a, ChartRelsPath(chartPath)).Some?
    requires forall k :: 0 <= k < |ReadXml(a, ChartRelsPath(chartPath)).value.children| ==>
               ReadXml(a, ChartRelsPath(chartPath)).value.children[k].ns == PackageRelNs
    ensures EmbeddedWorkbookAsWritten(a, chartPath, load) == Some(None)
  {
    var root := ReadXml(a, ChartRelsPath(chartPath)).value;
    Seqs.FirstSomeSpec(root.children, EmbeddingTarget(OfficeRelNs));
  }

  /** A chart whose relationship part points at an embedded workbook: read
      correctly the workbook is found, as written it is not. */
  lemma EmbeddedWorkbookFound(a: Archive, chartPath: string, rel: Elem, t: string, load: seq<Byte> -> Option<Workbook>)
    requires ReadXml(a, ChartRelsPath(chartPath)).Some?
    requires ReadXml(a, ChartRelsPath(chartPath)).value.children == [rel]
    requires rel.ns == PackageRelNs && rel.tag == "Relationship"
    requires Get(rel, "Target") == Some(t) && Contains(t, "embeddings")
    ensures EmbeddedWorkbook(a, chartPath, load) == Some(WorkbookAt(a, "ppt/" + ReplaceAll(t, "../", ""), load))
    ensures EmbeddedWorkbookAsWritten(a, chartPath, load) == Some(None)
  {
    var root := ReadXml(a, ChartRelsPath(chartPath)).value;
    assert t != "";
    Seqs.FirstSomeAt(root.children, EmbeddingTarget(PackageRelNs), 0);
    AsWrittenNeverFindsWorkbook(a, chartPath, load);
  }

  /** The first-column values of the range a reference element names, or
      None where there is no reference, no text or the range does not read. */
  function RangeValues(wb: Workbook, ref: Option<Elem>): Option<seq<Value>> {
    match ref
    case None => None
    case Some(f) =>
      match f.text
      case None => None
      case Some(t) => if t in wb.columns then Some(wb.columns[t]) else None
  }

  function CategoryRef(ser: Elem): Option<Elem> {
    Find(ser, [Desc(ChartNs, "cat"), Desc(ChartNs, "f")])
  }

  function ValueRef(ser: Elem): Option<Elem> {
    Find(ser, [Desc(ChartNs, "val"), Desc(ChartNs, "f")])
  }

  /** The categories a series offers: a range that reads to a non-empty list. */
  function OfferedCategories(wb: Workbook): Elem -> Option<seq<Value>> {
    (ser: Elem) =>
      match RangeValues(wb, CategoryRef(ser))
      case Some(vs) => if vs != [] then Some(vs) else None
      case None => None
  }

  /** `_load_series_from_excel` from series `sers` on: categories are read
      until one series gives some; every series's values are assigned under
      its name (empty where its range does not read). */
  function ExcelFrom(sers: seq<Elem>, wb: Workbook, cats: seq<Value>, d: seq<Series>): (r: (seq<Value>, seq<Series>))
    ensures |d| <= |r.1| <= |d| + |sers|
    ensures cats != [] ==> r.0 == cats
    decreases |sers|
  {
    if |sers| == 0 then (cats, d)
    else
      var ser := sers[0];
      var cats' := if cats == [] then RangeValues(wb, CategoryRef(ser)).GetOr(cats) else cats;
      var vals := RangeValues(wb, ValueRef(ser)).GetOr([]);
      ExcelFrom(sers[1..], wb, cats', Put(d, SeriesName(ser), vals))
  }

  function ExcelSeries(root: Elem, wb: Workbook): (seq<Value>, seq<Series>) {
    ExcelFrom(FindAll(root, [Desc(ChartNs, "ser")]), wb, [], [])
  }

  /** The categories come from the first series whose category range reads
      to a non-empty list, and only from it. */
  lemma {:induction false} ExcelCategoriesFromFirstSeries(sers: seq<Elem>, wb: Workbook, d: seq<Series>)
    ensures ExcelFrom(sers, wb, [], d).0 == Seqs.FirstSome(sers, OfferedCategories(wb)).GetOr([])
    decreases |sers|
  {
    if |sers| > 0 {
      var ser := sers[0];
      var vals := RangeValues(wb, ValueRef(ser)).GetOr([]);
      var d' := Put(d, SeriesName(ser), vals);
      var cats' := RangeValues(wb, CategoryRef(ser)).GetOr([]);
      if cats' == [] {
        ExcelCategoriesFromFirstSeries(sers[1..], wb, d');
      } else {
        ExcelCategoriesKept(sers[1..], wb, cats', d');
      }
    }
  }

  lemma {:induction false} ExcelCategoriesKept(sers: seq<Elem>, wb: Workbook, cats: seq<Value>, d: seq<Series>)
    requires cats != []
    ensures ExcelFrom(sers, wb, cats, d).0 == cats
    decreases |sers|
  {
    if |sers| > 0 {
      ExcelCategoriesKept(sers[1..], wb, cats, Put(d, SeriesName(sers[0]), RangeValues(wb, ValueRef(sers[0])).GetOr([])));
    }
  }

  /* ---------------- the chart element ---------------- */

  /** One entry of a bar, line or unknown chart's `series`. */
  datatype ChartSeries = ChartSeries(name: Option<string>, values: seq<Value>, barColors: seq<string>)

  datatype ChartBody =
    | AxisBody(labels: seq<Value>, showXAxis: bool, showYAxis: bool, series: seq<ChartSeries>)
    | PieBody(labels: seq<Value>, values: seq<Value>, barColors: seq<string>, color: string)

  /** The chart element, in canvas units. */
  datatype ChartElement = ChartElement(chartType: ChartType, x: int, y: int, width: int, height: int,
                                       chartName: Option<string>, backgroundColor: string, rotation: int, body: ChartBody)

  /** `v if v is not None else 0` */
  function ZeroNone(v: Value): (r: Value)
    ensures !r.NoValue?
    ensures !v.NoValue? ==> r == v
  {
    if v.NoValue? then Number(0.0) else v
  }

  function ZeroNones(vs: seq<Value>): (r: seq<Value>)
    ensures |r| == |vs| && forall i :: 0 <= i < |vs| ==> r[i] == ZeroNone(vs[i])
  {
    seq(|vs|, i requires 0 <= i < |vs| => ZeroNone(vs[i]))
  }

  /** `[color] * max(1, n)` */
  function Repeat(c: string, n: nat): (r: seq<string>)
    ensures |r| == if n == 0 then 1 else n
    ensures forall k :: 0 <= k < |r| ==> r[k] == c
  {
    seq(if n == 0 then 1 else n, k => c)
  }

  /** The `series` of a bar, line or unknown chart. */
  function AxisSeries(series: seq<Series>, colors: seq<Option<string>>): (r: seq<ChartSeries>)
    ensures |r| == |series|
    ensures forall i :: 0 <= i < |series| ==>
              && r[i].name == series[i].name
              && r[i].values == ZeroNones(series[i].values)
              && |r[i].barColors| >= 1 && |r[i].barColors| >= |series[i].values|
              && forall k :: 0 <= k < |r[i].barColors| ==> r[i].barColors[k] == ColorFor(colors, i)
  {
    seq(|series|, i requires 0 <= i < |series| =>
      ChartSeries(series[i].name, ZeroNones(series[i].values), Repeat(ColorFor(colors, i), |series[i].values|)))
  }

  /** The body of a pie chart: the first series's values, one colour per
      value, and the first of those colours as the main colour. */
  function PieBodyOf(cats: seq<Value>, series: seq<Series>, colors: seq<Option<string>>): (b: ChartBody)
    ensures b.PieBody? && b.labels == cats
    ensures |series| == 0 ==> b.values == []
    ensures |series| > 0 ==> b.values == ZeroNones(series[0].values)
    ensures |b.barColors| == |b.values| && forall k :: 0 <= k < |b.values| ==> b.barColors[k] == ColorFor(colors, k)
    ensures |b.values| > 0 ==> b.color == ColorFor(colors, 0)
    ensures |b.values| == 0 ==> b.color == Palette[0]
  {
    var values := if |series| > 0 then ZeroNones(series[0].values) else [];
    var cs := seq(|values|, k requires 0 <= k < |values| => ColorFor(colors, k));
    PieBody(cats, values, cs, if |cs| > 0 then cs[0] else Palette[0])
  }

  /** The chart's frame in canvas units: each side converted to points,
      scaled by its axis and rounded; None where python-pptx reports no
      position or size (the conversion raises and nothing catches it). */
  function ScaledFrame(s: Pptx.Shape, sx: real, sy: real): (r: Option<Box>)
    ensures r.Some? <==> s.left.Some? && s.top.Some? && s.width.Some? && s.height.Some?
    ensures r.Some? ==> -(0.5) <= r.value.x as real - EmuToPoints(s.left.value) * sx <= 0.5
                        && -(0.5) <= r.value.y as real - EmuToPoints(s.top.value) * sy <= 0.5
                        && -(0.5) <= r.value.width as real - EmuToPoints(s.width.value) * sx <= 0.5
                        && -(0.5) <= r.value.height as real - EmuToPoints(s.height.value) * sy <= 0.5
  {
    if s.left.Some? && s.top.Some? && s.width.Some? && s.height.Some? then
      Some(Box(RoundHalfEven(EmuToPoints(s.left.value) * sx), RoundHalfEven(EmuToPoints(s.top.value) * sy),
               RoundHalfEven(EmuToPoints(s.width.value) * sx), RoundHalfEven(EmuToPoints(s.height.value) * sy)))
    else None
  }

  /** `create_chart_element`. */
  function CreateChart(s: Pptx.Shape, root: Elem, cats: seq<Value>, series: seq<Series>, colors: seq<Option<string>>,
                       sx: real, sy: real): (r: Option<ChartElement>)
    ensures r.Some? <==> ScaledFrame(s, sx, sy).Some?
    ensures r.Some? ==> r.value.chartType == DetectChartType(root) && r.value.chartName == ChartTitle(root)
                        && r.value.backgroundColor == "#ffffff" && r.value.rotation == ChartRotation(s.rotation)
    ensures r.Some? ==> (r.value.body.PieBody? <==> r.value.chartType == Pie)
    ensures r.Some? && r.value.body.AxisBody? ==>
              r.value.body.labels == cats && r.value.body.showXAxis
              && (r.value.body.showYAxis <==> r.value.chartType == Line)
              && r.value.body.series == AxisSeries(series, colors)
    ensures r.Some? && r.value.body.PieBody? ==> r.value.body == PieBodyOf(cats, series, colors)
  {
    match ScaledFrame(s, sx, sy)
    case None => None
    case Some(b) =>
      var t := DetectChartType(root);
      var body := if t == Pie then PieBodyOf(cats, series, colors)
                  else AxisBody(cats, true, t == Line, AxisSeries(series, colors));
      Some(ChartElement(t, b.x, b.y, b.width, b.height, ChartTitle(root), "#ffffff", ChartRotation(s.rotation), body))
  }

  /* ---------------- charts of a slide ---------------- */

  /** One chart shape. The outer None is a raise nothing catches (a frame
      without position or size, an unparsable relationship part); Some(None)
      is a chart that is skipped (no chart part, no archive, or a chart part
      that does not read). The embedded workbook, when found, supplies the
      categories and series; otherwise the chart's cached values do. */
  function ReadChart(a: Option<Archive>, s: Pptx.Shape, sx: real, sy: real, load: seq<Byte> -> Option<Workbook>): (r: Option<Option<ChartElement>>)
    ensures s.chartPart.None? || a.None? ==> r == Some(None)
    ensures r.Some? && r.value.Some? ==> ScaledFrame(s, sx, sy).Some?
  {
    if s.chartPart.None? || a.None? then Some(None)
    else
      var name := LStripChars(s.chartPart.value, {'/'});
      match ReadXml(a.value, name)
      case None => Some(None)
      case Some(root) =>
        match EmbeddedWorkbook(a.value, name, load)
        case None => None
        case Some(wb) =>
          var (cats, series) := if wb.Some? then ExcelSeries(root, wb.value) else (CachedCategories(root), CachedSeries(root));
          match CreateChart(s, root, cats, series, SeriesColors(root), sx, sy)
          case None => None
          case Some(e) => Some(Some(e))
  }

  function OptionList(o: Option<ChartElement>): (r: seq<ChartElement>)
    ensures |r| <= 1
  {
    match o
    case None => []
    case Some(e) => [e]
  }

  /** The chart shapes among a group's members, in order. */
  function GroupCharts(a: Option<Archive>, cs: seq<Pptx.Shape>, sx: real, sy: real, load: seq<Byte> -> Option<Workbook>): (r: Option<seq<ChartElement>>)
    ensures r.Some? ==> |r.value| <= |cs|
    decreases |cs|
  {
    if |cs| == 0 then Some([])
    else
      var here := if Pptx.IsChartShape(cs[0]) then ReadChart(a, cs[0], sx, sy, load) else Some(None);
      match here
      case None => None
      case Some(o) =>
        match GroupCharts(a, cs[1..], sx, sy, load)
        case None => None
        case Some(rest) => Some(OptionList(o) + rest)
  }

  /** The charts one slide-level shape contributes: itself when it is a
      chart, its chart members when it is a group (one level deep); None for
      a shape whose `shape_type` raises, since the group test reads it
      outside any `try`. */
  function ShapeCharts(a: Option<Archive>, s: Pptx.Shape, sx: real, sy: real, load: seq<Byte> -> Option<Workbook>): (r: Option<seq<ChartElement>>)
    ensures s.kind == Pptx.Unreadable ==> r.None?
    ensures !Pptx.IsChartShape(s) && s.kind != Pptx.Group && s.kind != Pptx.Unreadable ==> r == Some([])
    ensures s.kind == Pptx.Group && !Pptx.IsChartShape(s) ==> r == GroupCharts(a, s.children, sx, sy, load)
    ensures Pptx.IsChartShape(s) ==> (r.Some? <==> ReadChart(a, s, sx, sy, load).Some?)
    ensures r.Some? ==> |r.value| <= ChartShapes(s)
  {
    if s.kind == Pptx.Unreadable then None
    else if Pptx.IsChartShape(s) then
      match ReadChart(a, s, sx, sy, load)
      case None => None
      case Some(o) => Some(OptionList(o))
    else if s.kind == Pptx.Group then GroupCharts(a, s.children, sx, sy, load)
    else Some([])
  }

  /** How many chart shapes a slide-level shape holds, itself included. */
  function ChartShapes(s: Pptx.Shape): nat {
    if Pptx.IsChartShape(s) then 1 else if s.kind == Pptx.Group then |s.children| else 0
  }

  function ChartShapeCount(shapes: seq<Pptx.Shape>): nat {
    if |shapes| == 0 then 0 else ChartShapes(shapes[0]) + ChartShapeCount(shapes[1..])
  }

  /** `extract_charts_from_slide`: the charts of every shape in order; None
      where one of them raises. */
  function SlideCharts(a: Option<Archive>, shapes: seq<Pptx.Shape>, sx: real, sy: real, load: seq<Byte> -> Option<Workbook>): (r: Option<seq<ChartElement>>)
    ensures r.Some? <==> forall i :: 0 <= i < |shapes| ==> ShapeCharts(a, shapes[i], sx, sy, load).Some?
    ensures (exists i :: 0 <= i < |shapes| && shapes[i].kind == Pptx.Unreadable) ==> r.None?
    decreases |shapes|
  {
    if |shapes| == 0 then Some([])
    else
      match ShapeCharts(a, shapes[0], sx, sy, load)
      case None => None
      case Some(here) =>
        match SlideCharts(a, shapes[1..], sx, sy, load)
        case None => None
        case Some(rest) => Some(here + rest)
  }

  /** A slide yields at most one chart per chart shape, and none at all
      without chart shapes. */
  lemma {:induction false} SlideChartsBounded(a: Option<Archive>, shapes: seq<Pptx.Shape>, sx: real, sy: real, load: seq<Byte> -> Option<Workbook>)
    ensures SlideCharts(a, shapes, sx, sy, load).Some? ==> |SlideCharts(a, shapes, sx, sy, load).value| <= ChartShapeCount(shapes)
    decreases |shapes|
  {
    if |shapes| > 0 {
      SlideChartsBounded(a, shapes[1..], sx, sy, load);
    }
  }

  /* ---------------- JSON ---------------- */

  function ValueJson(v: Value): Json {
    match v
    case NoValue => JNull
    case Number(n) => JNum(n)
    case Text(s) => JStr(s)
  }

  function ValuesJson(vs: seq<Value>): Json {
    JArray(seq(|vs|, i requires 0 <= i < |vs| => ValueJson(vs[i])))
  }

  function StringsJson(ss: seq<string>): Json {
    JArray(seq(|ss|, i requires 0 <= i < |ss| => JStr(ss[i])))
  }

  function SeriesJson(s: ChartSeries): Json {
    JObject([("name", OptStr(s.name)), ("values", ValuesJson(s.values)), ("barColors", StringsJson(s.barColors))])
  }

  const ChartHeadKeys: seq<string> :=
    ["type", "chartType", "x", "y", "width", "height", "chartName", "backgroundColor", "rotation"]

  /** The chart element as the dict the converter emits. */
  function ChartJson(e: ChartElement): (j: Json)
    ensures j.JObject?
    ensures e.body.AxisBody? ==> Keys(j.fields) == ChartHeadKeys + ["labels", "showXAxis", "showYAxis", "series"]
    ensures e.body.PieBody? ==> Keys(j.fields) == ChartHeadKeys + ["labels", "values", "barColors", "color"]
  {
    var head := [("type", JStr("chart")), ("chartType", JStr(ChartTypeName(e.chartType))), ("x", JInt(e.x)), ("y", JInt(e.y)),
                 ("width", JInt(e.width)), ("height", JInt(e.height)), ("chartName", OptStr(e.chartName)),
                 ("backgroundColor", JStr(e.backgroundColor)), ("rotation", JInt(e.rotation))];
    match e.body
    case AxisBody(labels, showX, showY, series) =>
      JObject(head + [("labels", ValuesJson(labels)), ("showXAxis", JBool(showX)), ("showYAxis", JBool(showY)),
                      ("series", JArray(seq(|series|, i requires 0 <= i < |series| => SeriesJson(series[i]))))])
    case PieBody(labels, values, colors, color) =>
      JObject(head + [("labels", ValuesJson(labels)), ("values", ValuesJson(values)), ("barColors", StringsJson(colors)),
                      ("color", JStr(color))])
  }
}

=== FILE: colors.dfy ===
/** Colour values and colour arithmetic shared by every extractor:
    `#rrggbb` strings, hex normalisation, the simplified tint and shade
    modifiers (per-channel sRGB formulas standing in for sections 20.1.2.3.34
    and 20.1.2.3.31 of ECMA-376 Part 1), the `rgb_to_hex` conversions and the
    one scheme-colour resolver all call sites share. */
module Colors {
  import opened Wrappers
  import opened PyStr
  import opened PyNum

  /* ---------------- #rrggbb ---------------- */

  /** A colour in canonical form: `#` and six lower-case hex digits. */
  predicate IsHexColor(s: string) {
    |s| == 7 && s[0] == '#' && forall i :: 1 <= i < 7 ==> IsLowerHex(s[i])
  }

  predicate AllLowerHex(s: string) {
    forall i :: 0 <= i < |s| ==> IsLowerHex(s[i])
  }

  /** `'#' + f'{r:02x}{g:02x}{b:02x}'` */
  function HexOf(r: int, g: int, b: int): (s: string)
    ensures |s| >= 1 && s[0] == '#'
    ensures forall i :: 1 <= i < |s| ==> IsLowerHex(s[i]) || s[i] == '-'
    ensures 0 <= r < 256 && 0 <= g < 256 && 0 <= b < 256 ==> IsHexColor(s)
  {
    "#" + FormatHex02(r) + FormatHex02(g) + FormatHex02(b)
  }

  /* ---------------- normalize_hex ---------------- */

  /** `normalize_hex`: after stripping and lower-casing, six hex digits give
      `#` plus the digits, eight (ARGB) give `#` plus the last six, and
      anything else, the empty string included, gives None. */
  function NormalizeHex(s: string): (r: Option<string>)
    ensures r.Some? ==> IsHexColor(r.value)
    ensures r.Some? <==> var t := Lower(Strip(s)); (|t| == 6 || |t| == 8) && AllLowerHex(t)
    ensures r.Some? ==> r.value[1..] == Lower(Strip(s))[|Lower(Strip(s))| - 6..]
  {
    if s == "" then None
    else
      var t := Lower(Strip(s));
      if |t| == 6 && AllLowerHex(t) then Some("#" + t)
      else if |t| == 8 && AllLowerHex(t) then Some("#" + t[2..])
      else None
  }

  /** `normalize_hex` rejects its own output: the leading `#` is no hex digit,
      so normalising twice always fails. */
  lemma NormalizeHexNotIdempotent(s: string)
    requires NormalizeHex(s).Some?
    ensures NormalizeHex(NormalizeHex(s).value).None?
  {
    var h := NormalizeHex(s).value;
    assert h[0] == '#' && !IsSpace('#');
    assert LStrip(h) == h;
    assert RStrip(h) == h;
    assert Strip(h) == h;
    assert Lower(h)[0] == '#';
  }

  /** Stripping the `#` from a canonical colour and normalising puts it back. */
  lemma NormalizeHexDigits(h: string)
    requires IsHexColor(h)
    ensures NormalizeHex(h[1..]) == Some(h)
  {
    var d := h[1..];
    assert forall i :: 0 <= i < |d| ==> !IsSpace(d[i]) && LowerChar(d[i]) == d[i];
    StripNoSpace(d);
    assert Lower(d) == d;
    assert "#" + d == h;
  }

  /* ---------------- tint and shade ---------------- */

  /** One channel after `tint`: `round(c + (255 - c) * t / 100000)`. */
  function TintChannel(c: int, t: int): int {
    RoundHalfEven(Tinted(c, t as real / 100000.0))
  }

  /** A channel moved the fraction `f` of the way to white. */
  function Tinted(c: int, f: real): real {
    c as real + (255 - c) as real * f
  }

  /** One channel after `shade`: `round(c * (1 - s / 100000))`. */
  function ShadeChannel(c: int, s: int): int {
    RoundHalfEven(Shaded(c, 1.0 - s as real / 100000.0))
  }

  /** A channel kept at the fraction `f` of its value. */
  function Shaded(c: int, f: real): real {
    c as real * f
  }

  lemma ScaleWithin(a: real, f: real)
    requires a >= 0.0 && 0.0 <= f <= 1.0
    ensures 0.0 <= a * f <= a
  {
    assert a * (1.0 - f) >= 0.0;
  }

  /** A tint within [0, 100000] moves a byte channel toward white and never past it. */
  lemma TintChannelBounds(c: int, t: int)
    requires 0 <= c <= 255 && 0 <= t <= 100000
    ensures c <= TintChannel(c, t) <= 255
  {
    TintBetween(c, t as real / 100000.0);
  }

  lemma TintBetween(c: int, f: real)
    requires 0 <= c <= 255 && 0.0 <= f <= 1.0
    ensures c <= RoundHalfEven(Tinted(c, f)) <= 255
  {
    ScaleWithin((255 - c) as real, f);
    RoundBetween(Tinted(c, f), c, 255);
  }

  /** A shade within [0, 100000] moves a byte channel toward black and never past it. */
  lemma ShadeChannelBounds(c: int, s: int)
    requires 0 <= c <= 255 && 0 <= s <= 100000
    ensures 0 <= ShadeChannel(c, s) <= c
  {
    ShadeBetween(c, 1.0 - s as real / 100000.0);
  }

  lemma ShadeBetween(c: int, f: real)
    requires 0 <= c && 0.0 <= f <= 1.0
    ensures 0 <= RoundHalfEven(Shaded(c, f)) <= c
  {
    ScaleWithin(c as real, f);
    RoundBetween(c as real * f, 0, c);
  }

  /** The three channels `int(h[1:3], 16)`, `int(h[3:5], 16)`, `int(h[5:7], 16)`;
      None where any of them raises. */
  function Channels(h: string): Option<(int, int, int)> {
    var r, g, b := ParseInt(Slice(h, 1, 3), 16), ParseInt(Slice(h, 3, 5), 16), ParseInt(Slice(h, 5, 7), 16);
    if r.Some? && g.Some? && b.Some? then Some((r.value, g.value, b.value)) else None
  }

  /** The channels of a colour whose three fields are hex pairs. */
  lemma ChannelsOfPairs(h: string, p1: string, p2: string, p3: string)
    requires IsHexPair(p1) && IsHexPair(p2) && IsHexPair(p3)
    requires Slice(h, 1, 3) == p1 && Slice(h, 3, 5) == p2 && Slice(h, 5, 7) == p3
    ensures Channels(h) == Some((HexPairNat(p1), HexPairNat(p2), HexPairNat(p3)))
  {
    HexPairParse(p1);
    HexPairParse(p2);
    HexPairParse(p3);
  }

  /** Printing the bytes of three hex pairs gives `#` and the pairs. */
  lemma HexOfPairs(h: string, p1: string, p2: string, p3: string)
    requires IsHexPair(p1) && IsHexPair(p2) && IsHexPair(p3)
    requires h == "#" + p1 + p2 + p3
    ensures HexPairNat(p1) < 256 && HexPairNat(p2) < 256 && HexPairNat(p3) < 256
    ensures HexOf(HexPairNat(p1), HexPairNat(p2), HexPairNat(p3)) == h
  {
    HexPairFormat(p1);
    HexPairFormat(p2);
    HexPairFormat(p3);
  }

  /** The channels of a canonical colour parse, and are bytes. */
  lemma ChannelsAreBytes(h: string)
    requires IsHexColor(h)
    ensures Channels(h).Some?
    ensures var (r, g, b) := Channels(h).value; 0 <= r < 256 && 0 <= g < 256 && 0 <= b < 256
  {
    ChannelsRoundTrip(h);
  }

  /** The channels of a canonical colour are bytes, and printing them again
      gives back the colour. */
  lemma ChannelsRoundTrip(h: string)
    requires IsHexColor(h)
    ensures Channels(h).Some?
    ensures var (r, g, b) := Channels(h).value; 0 <= r < 256 && 0 <= g < 256 && 0 <= b < 256
    ensures HexOf(Channels(h).value.0, Channels(h).value.1, Channels(h).value.2) == h
  {
    var p1, p2, p3 := h[1..3], h[3..5], h[5..7];
    assert IsHexPair(p1) && IsHexPair(p2) && IsHexPair(p3);
    assert Slice(h, 1, 3) == p1 && Slice(h, 3, 5) == p2 && Slice(h, 5, 7) == p3;
    assert h == "#" + p1 + p2 + p3;
    ChannelsOfPairs(h, p1, p2, p3);
    HexOfPairs(h, p1, p2, p3);
  }

  /** `apply_tint`: None colour or None tint, or channels that do not parse,
      return the colour unchanged; otherwise every channel is tinted. */
  function ApplyTint(h: Option<string>, t: Option<int>): (r: Option<string>)
    ensures h.None? || t.None? ==> r == h
    ensures h.Some? && t.Some? && Channels(h.value).None? ==> r == h
    ensures h.Some? && t.Some? && Channels(h.value).Some? ==>
              var (cr, cg, cb) := Channels(h.value).value;
              r == Some(HexOf(TintChannel(cr, t.value), TintChannel(cg, t.value), TintChannel(cb, t.value)))
  {
    if h.None? || t.None? then h
    else match Channels(h.value)
      case None => h
      case Some((cr, cg, cb)) =>
        Some(HexOf(TintChannel(cr, t.value), TintChannel(cg, t.value), TintChannel(cb, t.value)))
  }

  /** `apply_shade`, with the same fall-through cases as `apply_tint`. */
  function ApplyShade(h: Option<string>, s: Option<int>): (r: Option<string>)
    ensures h.None? || s.None? ==> r == h
    ensures h.Some? && s.Some? && Channels(h.value).None? ==> r == h
    ensures h.Some? && s.Some? && Channels(h.value).Some? ==>
              var (cr, cg, cb) := Channels(h.value).value;
              r == Some(HexOf(ShadeChannel(cr, s.value), ShadeChannel(cg, s.value), ShadeChannel(cb, s.value)))
  {
    if h.None? || s.None? then h
    else match Channels(h.value)
      case None => h
      case Some((cr, cg, cb)) =>
        Some(HexOf(ShadeChannel(cr, s.value), ShadeChannel(cg, s.value), ShadeChannel(cb, s.value)))
  }

  /** Tint 0 leaves a canonical colour unchanged. */
  lemma TintZeroIdentity(h: string)
    requires IsHexColor(h)
    ensures ApplyTint(Some(h), Some(0)) == Some(h)
  {
    ChannelsRoundTrip(h);
    var (cr, cg, cb) := Channels(h).value;
    RoundOfInt(cr);
    RoundOfInt(cg);
    RoundOfInt(cb);
    ChannelsRoundTrip(h);
  }

  /** Shade 0 leaves a canonical colour unchanged. */
  lemma ShadeZeroIdentity(h: string)
    requires IsHexColor(h)
    ensures ApplyShade(Some(h), Some(0)) == Some(h)
  {
    ChannelsRoundTrip(h);
    var (cr, cg, cb) := Channels(h).value;
    RoundOfInt(cr);
    RoundOfInt(cg);
    RoundOfInt(cb);
    ChannelsRoundTrip(h);
  }

  /** A tint in [0, 100000] keeps a canonical colour canonical and moves every
      channel toward white. */
  lemma TintStaysInRange(h: string, t: int)
    requires IsHexColor(h) && 0 <= t <= 100000
    ensures Channels(h).Some?
    ensures ApplyTint(Some(h), Some(t)).Some? && IsHexColor(ApplyTint(Some(h), Some(t)).value)
    ensures Channels(ApplyTint(Some(h), Some(t)).value).Some?
    ensures var (cr, cg, cb) := Channels(h).value;
            var (nr, ng, nb) := Channels(ApplyTint(Some(h), Some(t)).value).value;
            cr <= nr && cg <= ng && cb <= nb
  {
    ChannelsAreBytes(h);
    var c := Channels(h).value;
    TintOfChannels(h, c, t);
    TintBytes(c.0, c.1, c.2, t);
  }

  lemma TintOfChannels(h: string, c: (int, int, int), t: int)
    requires Channels(h) == Some(c)
    requires 0 <= c.0 < 256 && 0 <= c.1 < 256 && 0 <= c.2 < 256 && 0 <= t <= 100000
    ensures ApplyTint(Some(h), Some(t)) == Some(HexOf(TintChannel(c.0, t), TintChannel(c.1, t), TintChannel(c.2, t)))
  {
  }

  lemma TintBytes(cr: int, cg: int, cb: int, t: int)
    requires 0 <= cr < 256 && 0 <= cg < 256 && 0 <= cb < 256 && 0 <= t <= 100000
    ensures var n := HexOf(TintChannel(cr, t), TintChannel(cg, t), TintChannel(cb, t));
            IsHexColor(n) && Channels(n) == Some((TintChannel(cr, t), TintChannel(cg, t), TintChannel(cb, t)))
    ensures cr <= TintChannel(cr, t) && cg <= TintChannel(cg, t) && cb <= TintChannel(cb, t)
  {
    TintChannelBounds(cr, t);
    TintChannelBounds(cg, t);
    TintChannelBounds(cb, t);
    ChannelsOfHexOf(TintChannel(cr, t), TintChannel(cg, t), TintChannel(cb, t));
  }

  /** A shade in [0, 100000] keeps a canonical colour canonical and moves every
      channel toward black. */
  lemma ShadeStaysInRange(h: string, s: int)
    requires IsHexColor(h) && 0 <= s <= 100000
    ensures Channels(h).Some?
    ensures ApplyShade(Some(h), Some(s)).Some? && IsHexColor(ApplyShade(Some(h), Some(s)).value)
    ensures Channels(ApplyShade(Some(h), Some(s)).value).Some?
    ensures var (cr, cg, cb) := Channels(h).value;
            var (nr, ng, nb) := Channels(ApplyShade(Some(h), Some(s)).value).value;
            nr <= cr && ng <= cg && nb <= cb
  {
    ChannelsAreBytes(h);
    var c := Channels(h).value;
    ShadeOfChannels(h, c, s);
    ShadeBytes(c.0, c.1, c.2, s);
  }

  lemma ShadeOfChannels(h: string, c: (int, int, int), s: int)
    requires Channels(h) == Some(c)
    requires 0 <= c.0 < 256 && 0 <= c.1 < 256 && 0 <= c.2 < 256 && 0 <= s <= 100000
    ensures ApplyShade(Some(h), Some(s)) == Some(HexOf(ShadeChannel(c.0, s), ShadeChannel(c.1, s), ShadeChannel(c.2, s)))
  {
  }

  lemma ShadeBytes(cr: int, cg: int, cb: int, s: int)
    requires 0 <= cr < 256 && 0 <= cg < 256 && 0 <= cb < 256 && 0 <= s <= 100000
    ensures var n := HexOf(ShadeChannel(cr, s), ShadeChannel(cg, s), ShadeChannel(cb, s));
            IsHexColor(n) && Channels(n) == Some((ShadeChannel(cr, s), ShadeChannel(cg, s), ShadeChannel(cb, s)))
    ensures ShadeChannel(cr, s) <= cr && ShadeChannel(cg, s) <= cg && ShadeChannel(cb, s) <= cb
  {
    ShadeChannelBounds(cr, s);
    ShadeChannelBounds(cg, s);
    ShadeChannelBounds(cb, s);
    ChannelsOfHexOf(ShadeChannel(cr, s), ShadeChannel(cg, s), ShadeChannel(cb, s));
  }

  /** Printing three bytes and reading the channels back gives the bytes. */
  lemma ChannelsOfHexOf(r: int, g: int, b: int)
    requires 0 <= r < 256 && 0 <= g < 256 && 0 <= b < 256
    ensures Channels(HexOf(r, g, b)) == Some((r, g, b))
  {
    ByteHexPair(r);
    ByteHexPair(g);
    ByteHexPair(b);
    PairsOfHexOf(HexOf(r, g, b), FormatHex02(r), FormatHex02(g), FormatHex02(b));
  }

  lemma PairsOfHexOf(h: string, p1: string, p2: string, p3: string)
    requires IsHexPair(p1) && IsHexPair(p2) && IsHexPair(p3)
    requires h == "#" + p1 + p2 + p3
    ensures Channels(h) == Some((HexPairNat(p1), HexPairNat(p2), HexPairNat(p3)))
  {
    assert Slice(h, 1, 3) == p1 && Slice(h, 3, 5) == p2 && Slice(h, 5, 7) == p3;
    ChannelsOfPairs(h, p1, p2, p3);
  }

  /* ---------------- rgb_to_hex ---------------- */

  /** What python-pptx's `.rgb` (or a caller) can hand to `rgb_to_hex`: None,
      an integer `0x00RRGGBB`, an indexable of channel values (`RGBColor` is a
      3-tuple), or anything else. */
  datatype RgbInput = NoValue | IntValue(n: int) | TupleValue(items: seq<int>) | OtherValue

  /** `rgb_to_hex` in the shape and background extractors: None for None or
      an unsupported value. An integer is split with `>> 16 & 0xFF`,
      `>> 8 & 0xFF` and `& 0xFF`; a sequence of three or more uses its first three. */
  function RgbToHex(v: RgbInput): (r: Option<string>)
    ensures r.Some? <==> v.IntValue? || (v.TupleValue? && |v.items| >= 3)
    ensures v.IntValue? ==> r.Some? && IsHexColor(r.value)
    ensures r.Some? ==> |r.value| >= 1 && r.value[0] == '#'
  {
    match v
    case NoValue => None
    case OtherValue => None
    case IntValue(n) => Some(HexOf((n / 65536) % 256, (n / 256) % 256, n % 256))
    case TupleValue(items) =>
      if |items| >= 3 then Some(HexOf(items[0], items[1], items[2])) else None
  }

  /** `rgb_to_hex` in the table and text extractors: black instead of None. */
  function RgbToHexOrBlack(v: RgbInput): (r: string)
    ensures RgbToHex(v).Some? ==> r == RgbToHex(v).value
    ensures RgbToHex(v).None? ==> r == "#000000"
  {
    RgbToHex(v).GetOr("#000000")
  }

  /** An `RGBColor` printed by `rgb_to_hex` reads back as the same three bytes. */
  lemma RgbToHexTupleRoundTrip(r: int, g: int, b: int)
    requires 0 <= r < 256 && 0 <= g < 256 && 0 <= b < 256
    ensures RgbToHex(TupleValue([r, g, b])) == Some(HexOf(r, g, b))
    ensures Channels(RgbToHex(TupleValue([r, g, b])).value) == Some((r, g, b))
  {
    ChannelsOfHexOf(r, g, b);
  }

  /** An integer `0x00RRGGBB` printed by `rgb_to_hex` reads back as its bytes. */
  lemma RgbToHexIntRoundTrip(n: int)
    requires 0 <= n < 0x100_0000
    ensures Channels(RgbToHex(IntValue(n)).value) == Some((n / 65536, (n / 256) % 256, n % 256))
    ensures n / 65536 * 65536 + (n / 256) % 256 * 256 + n % 256 == n
  {
    ByteSplit(n);
    assert RgbToHex(IntValue(n)) == Some(HexOf(n / 65536, (n / 256) % 256, n % 256));
    ChannelsOfHexOf(n / 65536, (n / 256) % 256, n % 256);
  }

  lemma ByteSplit(n: int)
    requires 0 <= n < 0x100_0000
    ensures 0 <= n / 65536 < 256 && (n / 65536) % 256 == n / 65536
    ensures n / 65536 * 65536 + (n / 256) % 256 * 256 + n % 256 == n
  {
    var q := n / 256;
    assert n == q * 256 + n % 256;
    assert q == (q / 256) * 256 + q % 256;
    assert q / 256 == n / 65536;
  }

  /* ---------------- srgbClr / sysClr values ---------------- */

  /** How the background, table and text extractors read an `srgbClr@val` or
      `sysClr@lastClr`: lower-cased, with `#` put in front unless the value
      already starts with one. */
  function EnsureHash(v: string): (r: string)
    ensures |r| >= 1 && r[0] == '#'
    ensures StartsWith(Lower(v), "#") ==> r == Lower(v)
    ensures !StartsWith(Lower(v), "#") ==> r == "#" + Lower(v)
  {
    var l := Lower(v);
    if StartsWith(l, "#") then l else "#" + l
  }

  /** Reading a value that has already been read changes nothing. */
  lemma EnsureHashIdempotent(v: string)
    ensures EnsureHash(EnsureHash(v)) == EnsureHash(v)
  {
    var r := EnsureHash(v);
    assert forall i :: 0 <= i < |r| ==> LowerChar(r[i]) == r[i];
    assert Lower(r) == r;
  }

  /** A canonical `#rrggbb` is read back unchanged. */
  lemma EnsureHashCanonical(h: string)
    requires IsHexColor(h)
    ensures EnsureHash(h) == h
  {
    assert forall i :: 0 <= i < |h| ==> LowerChar(h[i]) == h[i];
    assert Lower(h) == h;
  }

  /* ---------------- scheme colours ---------------- */

  /** The fallback every extractor applies to an unmapped scheme name,
      case-insensitively: light slots white, dark slots black. */
  function SchemeFallback(name: string): (r: Option<string>)
    ensures r.Some? ==> r.value == "#ffffff" || r.value == "#000000"
    ensures r == Some("#ffffff") <==> Lower(name) in {"lt1", "bg1", "lt2", "bg2"}
    ensures r == Some("#000000") <==> Lower(name) in {"dk1", "tx1", "dk2", "tx2"}
  {
    var l := Lower(name);
    if l in {"lt1", "bg1", "lt2", "bg2"} then Some("#ffffff")
    else if l in {"dk1", "tx1", "dk2", "tx2"} then Some("#000000")
    else None
  }

  /** The one scheme resolver: an exact theme-mapping hit, else the
      light/dark fallback, else unresolved. */
  function ResolveScheme(m: map<string, string>, name: string): (r: Option<string>)
    ensures name in m ==> r == Some(m[name])
    ensures name !in m ==> r == SchemeFallback(name)
  {
    if name in m then Some(m[name]) else SchemeFallback(name)
  }

  /** The same rule as the shape extractor writes it (`mapping.get(name)`
      followed by a truthiness test): an empty mapped value falls through
      to the fallback. */
  function ResolveSchemeTruthy(m: map<string, string>, name: string): (r: Option<string>)
    ensures name in m && m[name] != "" ==> r == Some(m[name])
    ensures !(name in m && m[name] != "") ==> r == SchemeFallback(name)
  {
    if name in m && m[name] != "" then Some(m[name]) else SchemeFallback(name)
  }

  /** With no empty values in the mapping (which the theme reader guarantees)
      the two spellings of the rule agree. */
  lemma ResolveSpellingsAgree(m: map<string, string>, name: string)
    requires forall k :: k in m ==> m[k] != ""
    ensures ResolveSchemeTruthy(m, name) == ResolveScheme(m, name)
  {
  }
}

=== FILE: fills.dfy ===
/** The DrawingML fill readers of the background extractor: the colour of a
    single colour element, the fill kind under a `bgPr`, and the solid,
    gradient and pattern fill parsers. Image fills need the package and are
    in `ImageFill`. */
module Fills {
  import opened Wrappers
  import opened PyStr
  import opened PyNum
  import opened Xml
  import opened Seqs
  import opened Colors
  import opened Package

  /** Python truthiness of an optional string. */
  predicate Truthy(o: Option<string>) {
    o.Some? && o.value != ""
  }

  /** What `extract_color_from_element` returns: a colour and, for a scheme
      colour, the scheme name. */
  datatype Pick = Pick(color: Option<string>, name: Option<string>)

  /** `extract_color_from_element`. An `srgbClr` or `sysClr` with a non-empty
      value gives that value read by `EnsureHash` and no name; a `schemeClr`
      with a non-empty `val` gives the shared scheme resolver's answer (None
      when it is unresolved) together with the name; everything else,
      including an empty value, gives neither. */
  function ColorFromElement(e: Elem, m: map<string, string>): (r: Pick)
    ensures r.name.Some? <==> e.tag == "schemeClr" && GetNonEmpty(e, "val").Some?
    ensures r.name.Some? ==> r.name.value != "" && r.color == ResolveScheme(m, r.name.value)
    ensures r.name.None? && r.color.Some? ==>
              (e.tag == "srgbClr" && GetNonEmpty(e, "val").Some?
               && r.color == Some(EnsureHash(GetNonEmpty(e, "val").value)))
              || (e.tag == "sysClr" && GetNonEmpty(e, "lastClr").Some?
                  && r.color == Some(EnsureHash(GetNonEmpty(e, "lastClr").value)))
    ensures r.name.None? && r.color.None? <==>
              !((e.tag == "srgbClr" && GetNonEmpty(e, "val").Some?)
                || (e.tag == "schemeClr" && GetNonEmpty(e, "val").Some?)
                || (e.tag == "sysClr" && GetNonEmpty(e, "lastClr").Some?))
  {
    if e.tag == "srgbClr" then
      match GetNonEmpty(e, "val")
      case Some(v) => Pick(Some(EnsureHash(v)), None)
      case None => Pick(None, None)
    else if e.tag == "schemeClr" then
      match GetNonEmpty(e, "val")
      case Some(n) => Pick(ResolveScheme(m, n), Some(n))
      case None => Pick(None, None)
    else if e.tag == "sysClr" then
      match GetNonEmpty(e, "lastClr")
      case Some(v) => Pick(Some(EnsureHash(v)), None)
      case None => Pick(None, None)
    else Pick(None, None)
  }

  /** A colour element's colour when it is truthy. */
  function TruthyColor(e: Elem, m: map<string, string>): (r: Option<string>)
    ensures r.Some? ==> r.value != "" && r == ColorFromElement(e, m).color
  {
    var p := ColorFromElement(e, m);
    if Truthy(p.color) then p.color else None
  }

  /** The first truthy colour among the children of `e`. */
  function FirstChildColor(e: Elem, m: map<string, string>): (r: Option<string>)
    ensures r.Some? ==> r.value != ""
  {
    FirstSomeSpec(e.children, ColorsIn(m));
    FirstSome(e.children, ColorsIn(m))
  }

  /** `TruthyColor` as a function value, for the scan above. */
  function ColorsIn(m: map<string, string>): Elem -> Option<string> {
    (c: Elem) => TruthyColor(c, m)
  }

  /* ---------------- the fill kinds ---------------- */

  /** The four background kinds, and "none". */
  datatype Kind = Solid | Gradient | Image | Pattern | NoKind

  function KindOf(x: Elem): Option<Kind> {
    KindOfTag(x.tag)
  }

  function KindOfTag(tag: string): Option<Kind> {
    if tag == "solidFill" then Some(Solid)
    else if tag == "gradFill" then Some(Gradient)
    else if tag == "blipFill" then Some(Image)
    else if tag == "pattFill" then Some(Pattern)
    else None
  }

  /** `detect_background_type`: the kind of the first fill element met in
      pre-order, the element itself included. */
  function DetectBackgroundType(e: Elem): (k: Kind)
    ensures k == NoKind <==> forall i :: 0 <= i < |Iter(e)| ==> KindOf(Iter(e)[i]).None?
    ensures k != NoKind ==> exists i :: 0 <= i < |Iter(e)| && KindOf(Iter(e)[i]) == Some(k)
                                        && forall j :: 0 <= j < i ==> KindOf(Iter(e)[j]).None?
  {
    FirstSomeSpec(Iter(e), KindOf);
    FirstSome(Iter(e), KindOf).GetOr(NoKind)
  }

  /* ---------------- parsed backgrounds ---------------- */

  /** A gradient stop: colour and position (`pos / 100000`). */
  datatype Stop = Stop(color: string, position: real)

  /** The background dictionaries the extractor builds. */
  datatype BgData =
    | SolidBg(color: Option<string>, themeColor: Option<string>)
    | GradientBg(angle: real, stops: seq<Stop>)
    | ImageBg(imageBytes: seq<Byte>)
    | PatternBg(patternType: string, fgColor: string, bgColor: string)

  /** A child of a `solidFill` that names a colour or a scheme slot. */
  function SolidOf(c: Elem, m: map<string, string>): (r: Option<BgData>)
    ensures r.Some? ==> r.value.SolidBg? && (Truthy(r.value.color) || Truthy(r.value.themeColor))
  {
    var p := ColorFromElement(c, m);
    if Truthy(p.color) || Truthy(p.name) then Some(SolidBg(p.color, p.name)) else None
  }

  /** `parse_solid_fill`: the first child whose colour or scheme name is
      truthy. A scheme name the resolver cannot place still counts, with no
      colour. */
  function ParseSolidFill(fill: Elem, m: map<string, string>): (r: Option<BgData>)
    ensures r.None? <==> forall i :: 0 <= i < |fill.children| ==> SolidOf(fill.children[i], m).None?
    ensures r.Some? ==> r.value.SolidBg? && (Truthy(r.value.color) || Truthy(r.value.themeColor))
  {
    var f := (c: Elem) => SolidOf(c, m);
    FirstSomeSpec(fill.children, f);
    FirstSome(fill.children, f)
  }

  /** A solid fill whose only colour is a scheme slot the resolver cannot
      place still yields a solid background: no colour, the name kept. */
  lemma UnknownSchemeSolid(fill: Elem, m: map<string, string>, name: string)
    requires |fill.children| == 1 && fill.children[0] == Elem("", "schemeClr", [Attr("", "val", name)], None, [])
    requires name != "" && name !in m && SchemeFallback(name).None?
    ensures ParseSolidFill(fill, m) == Some(SolidBg(None, Some(name)))
  {
    var c := fill.children[0];
    assert GetNonEmpty(c, "val") == Some(name);
    assert SolidOf(c, m) == Some(SolidBg(None, Some(name)));
  }

  /** The position of a `gs`: `pos / 100000`, or 0 when `pos` is missing,
      empty or not a float. */
  function StopPosition(e: Elem): real {
    match GetNonEmpty(e, "pos")
    case None => 0.0
    case Some(p) =>
      match ParseFloat(p)
      case None => 0.0
      case Some(f) => f / 100000.0
  }

  /** A `gs` element with a truthy colour among its children gives a stop. */
  function GradientStop(e: Elem, m: map<string, string>): (r: Option<Stop>)
    ensures r.Some? <==> e.tag == "gs" && FirstChildColor(e, m).Some?
    ensures r.Some? ==> r.value == Stop(FirstChildColor(e, m).value, StopPosition(e))
  {
    if e.tag != "gs" then None
    else match FirstChildColor(e, m)
      case None => None
      case Some(c) => Some(Stop(c, StopPosition(e)))
  }

  /** The angle a `lin` element sets: `(ang / 60000) % 360` when `ang` is a
      truthy float. */
  function LinAngle(e: Elem): (r: Option<real>)
    ensures r.Some? ==> 0.0 <= r.value < 360.0
  {
    if e.tag != "lin" then None
    else match GetNonEmpty(e, "ang")
      case None => None
      case Some(a) =>
        match ParseFloat(a)
        case None => None
        case Some(f) => Some(FloorMod360(f / 60000.0))
  }

  /** `GradientStop` as a function value, for the scans below. */
  function StopsIn(m: map<string, string>): Elem -> Option<Stop> {
    (e: Elem) => GradientStop(e, m)
  }

  /** The stops the elements of `es` give, in order. */
  function StopsOf(es: seq<Elem>, m: map<string, string>): (r: seq<Stop>)
    ensures forall k :: 0 <= k < |r| ==> r[k].color != ""
    ensures |r| == 0 <==> !HasStop(es, m)
  {
    FilterMapSpec(es, StopsIn(m));
    FilterMap(es, StopsIn(m))
  }

  /** The stops of a gradient fill, in pre-order, the fill itself included. */
  function GradientStops(fill: Elem, m: map<string, string>): (r: seq<Stop>)
    ensures forall k :: 0 <= k < |r| ==> r[k].color != ""
    ensures |r| == 0 <==> !HasStop(Iter(fill), m)
  {
    StopsOf(Iter(fill), m)
  }

  /** Some element of `es` gives a stop. */
  predicate HasStop(es: seq<Elem>, m: map<string, string>) {
    exists i :: 0 <= i < |es| && GradientStop(es[i], m).Some?
  }

  /** The angle of a gradient fill: the last `lin` that sets one, else 90. */
  function GradientAngle(fill: Elem): (r: real)
    ensures 0.0 <= r < 360.0
    ensures (forall i :: 0 <= i < |Iter(fill)| ==> LinAngle(Iter(fill)[i]).None?) ==> r == 90.0
  {
    LastSomeSpec(Iter(fill), LinAngle);
    match LastSome(Iter(fill), LinAngle)
    case None => 90.0
    case Some(a) => a
  }

  /** `parse_gradient_fill`: a result exactly when at least one `gs` in the
      fill has a truthy colour (a single stop is accepted). */
  function ParseGradientFill(fill: Elem, m: map<string, string>): (r: Option<BgData>)
    ensures r.Some? <==> HasStop(Iter(fill), m)
    ensures r.Some? ==> r.value.GradientBg? && |r.value.stops| >= 1 && 0.0 <= r.value.angle < 360.0
                        && forall k :: 0 <= k < |r.value.stops| ==> r.value.stops[k].color != ""
  {
    var stops := GradientStops(fill, m);
    if |stops| == 0 then None else Some(GradientBg(GradientAngle(fill), stops))
  }

  /** A `pos` written as a whole number n is read as n / 100000. */
  lemma StopPositionOfNat(e: Elem, n: nat)
    requires GetNonEmpty(e, "pos") == Some(NatToString(n))
    ensures StopPosition(e) == n as real / 100000.0
  {
    ParseFloatNatToString(n);
  }

  /** A gradient fill with a single stop and no `lin` is accepted, with the
      default vertical angle and the stop at `pos / 100000`. */
  lemma SingleStopGradient(col: string, pos: string, x: real, m: map<string, string>)
    requires col != "" && pos != "" && ParseFloat(pos) == Some(x)
    ensures var gs := Elem("", "gs", [Attr("", "pos", pos)], None,
                           [Elem("", "srgbClr", [Attr("", "val", col)], None, [])]);
            ParseGradientFill(Elem("", "gradFill", [], None, [Elem("", "gsLst", [], None, [gs])]), m)
              == Some(GradientBg(90.0, [Stop(EnsureHash(col), x / 100000.0)]))
  {
    var clr := Elem("", "srgbClr", [Attr("", "val", col)], None, []);
    var gs := Elem("", "gs", [Attr("", "pos", pos)], None, [clr]);
    ColorOfSrgb(clr, col, m);
    OnlyChildColor(gs, clr, m);
    SingleStopOf(gs, EnsureHash(col), pos, x, m);
    ChainGradient(Elem("", "gradFill", [], None, [Elem("", "gsLst", [], None, [gs])]), gs, Stop(EnsureHash(col), x / 100000.0), m);
  }

  /** The single-stop case over any chain fill > list > stop > colour. */
  lemma ChainGradient(fill: Elem, gs: Elem, stop: Stop, m: map<string, string>)
    requires |fill.children| == 1 && fill.children[0].children == [gs] && |gs.children| == 1 && gs.children[0].children == []
    requires fill.tag == "gradFill" && fill.children[0].tag == "gsLst" && gs.children[0].tag == "srgbClr"
    requires GradientStop(gs, m) == Some(stop)
    ensures ParseGradientFill(fill, m) == Some(GradientBg(90.0, [stop]))
  {
    var lst := fill.children[0];
    var clr := gs.children[0];
    var es := [fill, lst, gs, clr];
    IterOfChain(fill, lst, gs, clr);
    assert GradientStop(clr, m) == None;
    StopsOfChain(es, m, stop);
    AngleOfChain(es);
    assert GradientStops(fill, m) == [stop];
    assert GradientAngle(fill) == 90.0;
  }

  lemma IterOfChain(a: Elem, b: Elem, c: Elem, d: Elem)
    requires a.children == [b] && b.children == [c] && c.children == [d] && d.children == []
    ensures Iter(a) == [a, b, c, d]
  {
    assert Iter(d) == [d];
    assert IterAll([d]) == [d];
    assert Iter(c) == [c, d];
    assert IterAll([c]) == [c, d];
    assert Iter(b) == [b, c, d];
    assert IterAll([b]) == [b, c, d];
  }

  lemma SingleStopOf(gs: Elem, color: string, pos: string, x: real, m: map<string, string>)
    requires gs.tag == "gs" && gs.attrs == [Attr("", "pos", pos)]
    requires pos != "" && ParseFloat(pos) == Some(x)
    requires FirstChildColor(gs, m) == Some(color)
    ensures GradientStop(gs, m) == Some(Stop(color, x / 100000.0))
  {
    PosOfSingleAttr(gs, pos);
    assert StopPosition(gs) == x / 100000.0;
    StopOfParts(gs, m, color, x / 100000.0);
  }

  /** A `gs` with a colour and a position gives the stop made of them. */
  lemma StopOfParts(gs: Elem, m: map<string, string>, color: string, pos: real)
    requires gs.tag == "gs" && FirstChildColor(gs, m) == Some(color) && StopPosition(gs) == pos
    ensures GradientStop(gs, m) == Some(Stop(color, pos))
  {
  }

  /** An element with one child takes that child's colour. */
  lemma OnlyChildColor(e: Elem, c: Elem, m: map<string, string>)
    requires e.children == [c]
    ensures FirstChildColor(e, m) == TruthyColor(c, m)
  {
    var f := ColorsIn(m);
    assert FirstChildColor(e, m) == FirstSome(e.children, f);
    assert f(c) == TruthyColor(c, m);
    if f(c).Some? {
      FirstSomeAt(e.children, f, 0);
    } else {
      FirstSomeSpec(e.children, f);
    }
  }

  /** A lone non-empty `pos` attribute is read back as written. */
  lemma PosOfSingleAttr(e: Elem, pos: string)
    requires e.attrs == [Attr("", "pos", pos)] && pos != ""
    ensures GetNonEmpty(e, "pos") == Some(pos)
  {
    GetOnly(e, Attr("", "pos", pos));
  }

  lemma ColorOfSrgb(clr: Elem, col: string, m: map<string, string>)
    requires col != ""
    requires clr == Elem("", "srgbClr", [Attr("", "val", col)], None, [])
    ensures TruthyColor(clr, m) == Some(EnsureHash(col))
  {
    GetOnly(clr, Attr("", "val", col));
    assert GetNonEmpty(clr, "val") == Some(col);
  }

  lemma StopsOfChain(es: seq<Elem>, m: map<string, string>, stop: Stop)
    requires |es| == 4 && es[0].tag != "gs" && es[1].tag != "gs"
    requires GradientStop(es[2], m) == Some(stop) && GradientStop(es[3], m) == None
    ensures GradientStops(es[0], m) == [stop] <== Iter(es[0]) == es
  {
    var f := StopsIn(m);
    assert f(es[3]) == None && f(es[2]) == Some(stop) && f(es[1]) == None && f(es[0]) == None;
    assert FilterMap(es[3..], f) == [];
    assert FilterMap(es[2..], f) == [stop];
    assert FilterMap(es[1..], f) == [stop];
    assert FilterMap(es, f) == [stop];
  }

  lemma AngleOfChain(es: seq<Elem>)
    requires |es| == 4 && forall i :: 0 <= i < 4 ==> es[i].tag != "lin"
    ensures GradientAngle(es[0]) == 90.0 <== Iter(es[0]) == es
  {
    assert forall i :: 0 <= i < 4 ==> LinAngle(es[i]) == None;
  }

  /** The colour an `fgClr` or `bgClr` child sets: its first truthy colour. */
  function PatternColor(c: Elem, tag: string, m: map<string, string>): (r: Option<string>)
    ensures r.Some? ==> r.value != "" && c.tag == tag
  {
    if c.tag == tag then FirstChildColor(c, m) else None
  }

  /** `parse_pattern_fill`: the preset is `prst` as written (default `pct50`);
      each of the foreground and background colours comes from the last
      `fgClr`/`bgClr` child that has one, and both must be present. */
  function ParsePatternFill(fill: Elem, m: map<string, string>): (r: Option<BgData>)
    ensures r.Some? <==> (exists i :: 0 <= i < |fill.children| && PatternColor(fill.children[i], "fgClr", m).Some?)
                         && (exists i :: 0 <= i < |fill.children| && PatternColor(fill.children[i], "bgClr", m).Some?)
    ensures r.Some? ==> r.value.PatternBg? && r.value.fgColor != "" && r.value.bgColor != ""
                        && r.value.patternType == Get(fill, "prst").GetOr("pct50")
  {
    var ff := (c: Elem) => PatternColor(c, "fgClr", m);
    var fb := (c: Elem) => PatternColor(c, "bgClr", m);
    LastSomeSpec(fill.children, ff);
    LastSomeSpec(fill.children, fb);
    var fg, bg := LastSome(fill.children, ff), LastSome(fill.children, fb);
    if fg.Some? && bg.Some? then
      Some(PatternBg(Get(fill, "prst").GetOr("pct50"), fg.value, bg.value))
    else None
  }
}

=== FILE: geometry.dfy ===
/** Positions, sizes and rotations of shapes as every extractor reads them:
    EMU converted to points (914400 EMU = 1 inch = 72 points), rounded with
    Python's `round`, and the rotation. */
module Geometry {
  import opened Wrappers
  import opened PyNum

  /** `emu_to_points`: exact rational arithmetic in place of doubles. */
  function EmuToPoints(emu: int): (p: real)
    ensures p * 12700.0 == emu as real
    ensures emu >= 0 ==> p >= 0.0
  {
    (emu as real / 914400.0) * 72.0
  }

  /** The inverse of `EmuToPoints`: points back to EMU. */
  function PointsToEmu(p: real): real {
    p * 12700.0
  }

  /** Converting to points and back gives the EMU value again, and a whole
      number of points is exactly representable. */
  lemma EmuPointsRoundTrip(emu: int, k: int)
    ensures PointsToEmu(EmuToPoints(emu)) == emu as real
    ensures EmuToPoints(12700 * k) == k as real
  {
  }

  /** A shape's frame in whole points. */
  datatype Box = Box(x: int, y: int, width: int, height: int)

  /** `round(emu_to_points(v))`: the nearest whole point. */
  function RoundedPoints(emu: int): (r: int)
    ensures -6350 <= r * 12700 - emu <= 6350
  {
    var p := EmuToPoints(emu);
    var r := RoundHalfEven(p);
    assert (r as real - p) * 12700.0 == (r * 12700 - emu) as real;
    r
  }

  /** The rounded frame of a shape, or None when python-pptx reports no
      position or size for it (the conversion then raises `TypeError`). */
  function RoundedBox(left: Option<int>, top: Option<int>, width: Option<int>, height: Option<int>): (r: Option<Box>)
    ensures r.Some? <==> left.Some? && top.Some? && width.Some? && height.Some?
    ensures r.Some? ==> r.value == Box(RoundedPoints(left.value), RoundedPoints(top.value),
                                       RoundedPoints(width.value), RoundedPoints(height.value))
  {
    if left.Some? && top.Some? && width.Some? && height.Some? then
      Some(Box(RoundedPoints(left.value), RoundedPoints(top.value), RoundedPoints(width.value), RoundedPoints(height.value)))
    else None
  }

  /** Frames made of whole points survive the EMU round trip unchanged. */
  lemma RoundedBoxExact(x: int, y: int, w: int, h: int)
    ensures RoundedBox(Some(12700 * x), Some(12700 * y), Some(12700 * w), Some(12700 * h)) == Some(Box(x, y, w, h))
  {
    RoundedPointsExact(x);
    RoundedPointsExact(y);
    RoundedPointsExact(w);
    RoundedPointsExact(h);
  }

  lemma RoundedPointsExact(k: int)
    ensures RoundedPoints(12700 * k) == k
  {
    EmuPointsRoundTrip(12700 * k, k);
    RoundOfInt(k);
  }

  /* ---------------- rotation ---------------- */

  /** The rotation every extractor writes: `int(shape.rotation / 60000)`.
      python-pptx's `rotation` is already in degrees, in [0, 360). */
  function RotationAsWritten(rot: Option<real>): (r: int)
    ensures rot.None? ==> r == 0
    ensures rot.Some? && 0.0 <= rot.value ==> r as real * 60000.0 <= rot.value < (r as real + 1.0) * 60000.0
    ensures rot.Some? && rot.value < 0.0 ==> (r as real - 1.0) * 60000.0 < rot.value <= r as real * 60000.0
  {
    match rot
    case None => 0
    case Some(d) => Trunc(d / 60000.0)
  }

  /** Any rotation python-pptx can report comes out as 0. */
  lemma RotationAsWrittenAlwaysZero(d: real)
    requires -60000.0 < d < 60000.0
    ensures RotationAsWritten(Some(d)) == 0
  {
  }

  /** The rotation the schema means: whole degrees, `int(shape.rotation)`. */
  function Rotation(rot: Option<real>): (r: int)
    ensures rot.None? ==> r == 0
    ensures rot.Some? && 0.0 <= rot.value < 360.0 ==> 0 <= r < 360 && r as real <= rot.value < r as real + 1.0
    ensures rot.Some? && rot.value < 0.0 ==> rot.value <= r as real < rot.value + 1.0
  {
    match rot
    case None => 0
    case Some(d) => Trunc(d)
  }

  /** Whole-degree rotations are kept exactly. */
  lemma RotationOfWholeDegrees(n: int)
    ensures Rotation(Some(n as real)) == n
  {
  }

  /** A quarter turn: the written rule reports 0 where the schema means 90. */
  lemma RotationDiscrepancy()
    ensures RotationAsWritten(Some(90.0)) == 0
    ensures Rotation(Some(90.0)) == 90
  {
    RotationAsWrittenAlwaysZero(90.0);
    RotationOfWholeDegrees(90);
  }

  /** The chart extractor's spelling, `int(rot / 60000) if rot else 0`,
      corrected in the same way: a zero rotation is 0 either way. */
  function ChartRotation(rot: Option<real>): (r: int)
    ensures r == Rotation(rot)
  {
    match rot
    case None => 0
    case Some(d) => if d == 0.0 then 0 else Trunc(d)
  }
}

=== FILE: imagefill.dfy ===
/** `parse_image_fill`: from a `blipFill` to the bytes of the picture it
    embeds. The `blip`'s relationship id is looked up in the owner part's
    relationship file (the `_rels/<file>.rels` convention of section 9.3 of
    ECMA-376 Part 2), then in `ppt/_rels/<file>.rels`, then in every `.rels`
    part of the package in archive order; the target found is turned into a
    package name and read. */
module ImageFill {
  import opened Wrappers
  import opened PyStr
  import opened Xml
  import opened Package
  import opened Seqs

  /** A `blip` element: its lower-cased local tag ends with `blip`. */
  function BlipOf(x: Elem): Option<Elem> {
    if EndsWith(Lower(x.tag), "blip") then Some(x) else None
  }

  /** The first `blip` in the fill, the fill itself included. */
  function FindBlip(fill: Elem): (r: Option<Elem>)
    ensures r.Some? ==> EndsWith(Lower(r.value.tag), "blip")
    ensures r.None? <==> forall i :: 0 <= i < |Iter(fill)| ==> BlipOf(Iter(fill)[i]).None?
  {
    FirstSomeSpec(Iter(fill), BlipOf);
    FirstSome(Iter(fill), BlipOf)
  }

  /** An attribute that names the relationship: its lower-cased key contains
      `embed`, or is exactly `id`. */
  predicate IsIdAttr(a: Attr) {
    Contains(Lower(ClarkKey(a)), "embed") || Lower(ClarkKey(a)) == "id"
  }

  /** The value of the first attribute, in document order, that names the
      relationship. */
  function RelId(attrs: seq<Attr>): (r: Option<string>)
    ensures r.Some? <==> exists i :: 0 <= i < |attrs| && IsIdAttr(attrs[i])
    ensures r.Some? ==> exists i :: 0 <= i < |attrs| && IsIdAttr(attrs[i]) && attrs[i].value == r.value
                                    && forall j :: 0 <= j < i ==> !IsIdAttr(attrs[j])
  {
    FirstSomeSpec(attrs, IdValue);
    FirstSome(attrs, IdValue)
  }

  /** The value of an attribute that names the relationship. */
  function IdValue(a: Attr): (r: Option<string>)
    ensures r.Some? <==> IsIdAttr(a)
    ensures r.Some? ==> r.value == a.value
  {
    if IsIdAttr(a) then Some(a.value) else None
  }

  /* ---------------- relationship files ---------------- */

  /** The last path segment of a part name (the whole name when it has no `/`). */
  function FileName(owner: string): string {
    match LastIndexOf(owner, '/')
    case None => owner
    case Some(k) => owner[k + 1..]
  }

  /** The relationship part of `owner`: `<dir>/_rels/<file>.rels`, or
      `_rels/<file>.rels` for a name without a directory. */
  function RelsPath(owner: string): string {
    match LastIndexOf(owner, '/')
    case None => "_rels/" + owner + ".rels"
    case Some(k) => owner[..k] + "/_rels/" + owner[k + 1..] + ".rels"
  }

  /** For a part `dir/file` the relationship part is `dir/_rels/file.rels`. */
  lemma RelsPathOf(dir: string, file: string)
    requires forall i :: 0 <= i < |file| ==> file[i] != '/'
    ensures RelsPath(dir + "/" + file) == dir + "/_rels/" + file + ".rels"
    ensures FileName(dir + "/" + file) == file
  {
    var owner := dir + "/" + file;
    var k := |dir|;
    assert owner[k] == '/';
    assert forall j :: k < j < |owner| ==> owner[j] == file[j - k - 1];
    assert LastIndexOf(owner, '/') == Some(k);
    assert owner[..k] == dir && owner[k + 1..] == file;
  }

  /** The first child of a relationships root whose `Id` is `rId`. */
  function FirstRel(cs: seq<Elem>, rId: string): (r: Option<Elem>)
    ensures r.Some? ==> exists i :: 0 <= i < |cs| && cs[i] == r.value && Get(cs[i], "Id") == Some(rId)
                                    && forall j :: 0 <= j < i ==> Get(cs[j], "Id") != Some(rId)
    ensures r.None? ==> forall i :: 0 <= i < |cs| ==> Get(cs[i], "Id") != Some(rId)
  {
    if |cs| == 0 then None
    else if Get(cs[0], "Id") == Some(rId) then Some(cs[0])
    else
      var r := FirstRel(cs[1..], rId);
      assert forall j :: 1 <= j < |cs| ==> cs[j] == cs[1..][j - 1];
      r
  }

  /** The `Target` of the first relationship with id `rId` in the listed part
      `path`, when that part parses and the target is non-empty. */
  function TargetIn(a: Archive, path: string, rId: string): (r: Option<string>)
    ensures r.Some? ==> r.value != "" && Listed(a, path) && ReadXml(a, path).Some?
                        && FirstRel(ReadXml(a, path).value.children, rId).Some?
                        && Get(FirstRel(ReadXml(a, path).value.children, rId).value, "Target") == r
  {
    if !Listed(a, path) then None
    else match ReadXml(a, path)
      case None => None
      case Some(root) =>
        match FirstRel(root.children, rId)
        case None => None
        case Some(rel) =>
          match Get(rel, "Target")
          case Some(t) => if t == "" then None else Some(t)
          case None => None
  }

  /** The last-resort scan: the first `.rels` part, in archive order, that
      gives a non-empty target. */
  function ScanAllRels(a: Archive, names: seq<string>, rId: string): (r: Option<string>)
    ensures r.Some? ==> exists i :: 0 <= i < |names| && EndsWith(names[i], ".rels") && TargetIn(a, names[i], rId) == r
    ensures r.None? ==> forall i :: 0 <= i < |names| && EndsWith(names[i], ".rels") ==> TargetIn(a, names[i], rId).None?
  {
    if |names| == 0 then None
    else
      var here := if EndsWith(names[0], ".rels") then TargetIn(a, names[0], rId) else None;
      if here.Some? then here
      else
        var r := ScanAllRels(a, names[1..], rId);
        assert forall j :: 1 <= j < |names| ==> names[j] == names[1..][j - 1];
        r
  }

  /** The relationship target for `rId` seen from part `owner`: the owner's
      relationship part first, then `ppt/_rels/<file>.rels`, then every
      `.rels` part. Whatever is found is non-empty and is the `Target` of the
      first `rId` relationship of some listed relationship part. */
  function LookupTarget(a: Archive, owner: string, rId: string): (r: Option<string>)
    ensures TargetIn(a, RelsPath(owner), rId).Some? ==> r == TargetIn(a, RelsPath(owner), rId)
    ensures TargetIn(a, RelsPath(owner), rId).None? && TargetIn(a, "ppt/_rels/" + FileName(owner) + ".rels", rId).Some? ==>
              r == TargetIn(a, "ppt/_rels/" + FileName(owner) + ".rels", rId)
    ensures r.Some? ==> r.value != "" && exists p :: TargetIn(a, p, rId) == r
    ensures r.None? ==> forall i :: 0 <= i < |a.names| && EndsWith(a.names[i], ".rels") ==> TargetIn(a, a.names[i], rId).None?
  {
    var own := TargetIn(a, RelsPath(owner), rId);
    var alt := TargetIn(a, "ppt/_rels/" + FileName(owner) + ".rels", rId);
    if own.Some? then own
    else if alt.Some? then alt
    else
      var r := ScanAllRels(a, a.names, rId);
      r
  }

  /* ---------------- target names ---------------- */

  /** The package name a relationship target is read from. Backslashes become
      slashes; a target starting with `..` loses every leading `.` and `/`
      character and gets `ppt/`; a leading `/` is dropped; anything else not
      already under `ppt/` gets `ppt/`. */
  function NormalizeTarget(t: string): string {
    var u := ReplaceAll(t, "\\", "/");
    if StartsWith(u, "..") then "ppt/" + LStripChars(u, {'.', '/'})
    else if StartsWith(u, "/") then LStripChars(u, {'/'})
    else if !StartsWith(u, "ppt/") then "ppt/" + u
    else u
  }

  predicate NoBackslash(s: string) {
    forall i :: 0 <= i < |s| ==> s[i] != '\\'
  }

  lemma NoBackslashKept(s: string)
    requires NoBackslash(s)
    ensures ReplaceAll(s, "\\", "/") == s
  {
    forall i | 0 <= i <= |s| - 1
      ensures !OccursAt(s, "\\", i)
    {
      assert s[i..i + 1][0] == s[i];
    }
  }

  /** A target with no backslash and a leading `..` normalises to `ppt/`
      followed by what follows its leading dots and slashes. */
  lemma NormalizeDotted(p: string, rest: string)
    requires NoBackslash(p + rest) && |p| >= 2 && p[0] == '.' && p[1] == '.'
    requires forall i :: 0 <= i < |p| ==> p[i] == '.' || p[i] == '/'
    requires |rest| == 0 || (rest[0] != '.' && rest[0] != '/')
    ensures NormalizeTarget(p + rest) == "ppt/" + rest
  {
    var t := p + rest;
    NoBackslashKept(t);
    assert t[..2] == "..";
    LStripPrefix(p, rest, {'.', '/'});
  }

  /** `../<rest>` (the usual target of a slide's image) names `ppt/<rest>`. */
  lemma NormalizeParentRelative(rest: string)
    requires NoBackslash(rest) && (|rest| == 0 || (rest[0] != '.' && rest[0] != '/'))
    ensures NormalizeTarget("../" + rest) == "ppt/" + rest
  {
    assert NoBackslash("../" + rest);
    NormalizeDotted("../", rest);
  }

  /** The leading `..` is stripped as a character set, not as one path step:
      two `../` steps name the same part as one. */
  lemma NormalizeStripsCharacters(rest: string)
    requires NoBackslash(rest) && (|rest| == 0 || (rest[0] != '.' && rest[0] != '/'))
    ensures NormalizeTarget("../../" + rest) == NormalizeTarget("../" + rest)
  {
    NormalizeParentRelative(rest);
    assert NoBackslash("../../" + rest);
    NormalizeDotted("../../", rest);
  }

  /** A target relative to `ppt/` gets the prefix; one already under `ppt/`
      is kept. */
  lemma NormalizeRelative(t: string)
    requires NoBackslash(t) && !StartsWith(t, "..") && !StartsWith(t, "/")
    ensures StartsWith(t, "ppt/") ==> NormalizeTarget(t) == t
    ensures !StartsWith(t, "ppt/") ==> NormalizeTarget(t) == "ppt/" + t
  {
    NoBackslashKept(t);
  }

  /** An absolute target loses its leading slashes. */
  lemma NormalizeAbsolute(rest: string)
    requires NoBackslash(rest) && (|rest| == 0 || rest[0] != '/')
    ensures NormalizeTarget("/" + rest) == rest
  {
    var t := "/" + rest;
    NoBackslashKept(t);
    assert t[1..] == rest;
    assert !StartsWith(t, "..");
  }

  /* ---------------- parse_image_fill ---------------- */

  /** The package name the picture of a `blipFill` is read from: None when
      there is no `blip`, no non-empty relationship id, or no non-empty
      target. */
  function ImagePath(fill: Elem, a: Archive, owner: string): (r: Option<string>)
    ensures r.Some? ==> FindBlip(fill).Some? && RelId(FindBlip(fill).value.attrs).Some?
                        && RelId(FindBlip(fill).value.attrs).value != ""
                        && LookupTarget(a, owner, RelId(FindBlip(fill).value.attrs).value).Some?
                        && r.value == NormalizeTarget(LookupTarget(a, owner, RelId(FindBlip(fill).value.attrs).value).value)
  {
    match FindBlip(fill)
    case None => None
    case Some(blip) =>
      match RelId(blip.attrs)
      case None => None
      case Some(rId) =>
        if rId == "" then None
        else match LookupTarget(a, owner, rId)
          case None => None
          case Some(t) => Some(NormalizeTarget(t))
  }

  /** `parse_image_fill`: the bytes of the part the picture's target names,
      when that part is listed and readable. */
  function ParseImageFill(fill: Elem, a: Archive, owner: string): (r: Option<seq<Byte>>)
    ensures r.Some? <==> ImagePath(fill, a, owner).Some? && Listed(a, ImagePath(fill, a, owner).value)
                         && ImagePath(fill, a, owner).value in a.entries
    ensures r.Some? ==> r.value == a.entries[ImagePath(fill, a, owner).value].bytes
  {
    match ImagePath(fill, a, owner)
    case None => None
    case Some(path) =>
      if !Listed(a, path) then None
      else match Read(a, path)
        case None => None
        case Some(e) => Some(e.bytes)
  }
}

=== FILE: images.dfy ===
/** Images: a picture shape's image, a graphic frame's embedded picture and
    a shape's picture fill, each as an image element whose source is a
    base64 data URL of the image's bytes. */
module Images {
  import opened Wrappers
  import opened Xml
  import opened Package
  import opened PyStr
  import opened Geometry
  import opened Schema
  import opened Base64
  import opened Pptx
  import Seqs

  const DrawingNs: string := "http://schemas.openxmlformats.org/drawingml/2006/main"
  const OfficeRelNs: string := "http://schemas.openxmlformats.org/officeDocument/2006/relationships"

  /** The attribute key of a blip's relationship id, `{r}embed`. */
  const EmbedKey: string := "{" + OfficeRelNs + "}embed"

  /** `image_to_base64`'s choice of MIME type for a format name, compared
      case-insensitively; PNG for anything it does not know. */
  function MimeType(format: string): (mime: string)
    ensures Lower(format) in {"jpg", "jpeg"} <==> mime == "image/jpeg"
    ensures Lower(format) == "gif" <==> mime == "image/gif"
    ensures mime in {"image/jpeg", "image/png", "image/gif"}
  {
    var f := Lower(format);
    if f == "jpg" || f == "jpeg" then "image/jpeg"
    else if f == "png" then "image/png"
    else if f == "gif" then "image/gif"
    else "image/png"
  }

  /** `image_to_base64`: the bytes as a data URL. */
  function ImageUrl(b: seq<Byte>, format: string): string {
    DataUrl(MimeType(format), b)
  }

  /** An image's source gives back its bytes, under the MIME type of its
      format. */
  lemma ImageUrlRoundTrip(b: seq<Byte>, format: string)
    ensures var u := ImageUrl(b, format);
            var m := MimeType(format);
            && u[5..5 + |m|] == m
            && Decode(u[13 + |m|..]) == Some(b)
  {
    DataUrlPayload(MimeType(format), b);
  }

  /** A picture shape's format from its file extension. */
  function PictureFormat(ext: string): (f: string)
    ensures MimeType(f) == MimeType(ext)
  {
    var e := Lower(ext);
    LowerOfLowercase("jpeg");
    LowerOfLowercase("png");
    LowerOfLowercase("gif");
    if e == "jpg" || e == "jpeg" then "jpeg"
    else if e == "png" then "png"
    else if e == "gif" then "gif"
    else "png"
  }

  /** A picture fill's format from its file extension: GIF is not among
      the names this path knows, so it falls back to PNG. */
  function FillFormat(ext: string): (f: string)
    ensures f in {"jpeg", "png"}
  {
    var e := Lower(ext);
    if e == "jpg" || e == "jpeg" then "jpeg"
    else "png"
  }

  /** A related part's format from its content type, by substring. */
  function ContentTypeFormat(contentType: string): (f: string)
    ensures (Contains(contentType, "jpeg") || Contains(contentType, "jpg")) ==> f == "jpeg"
    ensures f in {"jpeg", "png", "gif"}
  {
    if Contains(contentType, "jpeg") || Contains(contentType, "jpg") then "jpeg"
    else if Contains(contentType, "png") then "png"
    else if Contains(contentType, "gif") then "gif"
    else "png"
  }

  lemma LowerOfLowercase(s: string)
    requires forall i :: 0 <= i < |s| ==> 'a' <= s[i] <= 'z'
    ensures Lower(s) == s
  {
    assert forall i :: 0 <= i < |s| ==> Lower(s)[i] == s[i];
  }

  /** A GIF picture is labelled as a GIF; the same image as a picture fill
      is labelled as a PNG. */
  lemma GifFillLabelledPng()
    ensures MimeType(PictureFormat("gif")) == "image/gif"
    ensures MimeType(FillFormat("gif")) == "image/png"
  {
    LowerOfLowercase("gif");
    LowerOfLowercase("png");
  }

  /* ---------------- the three sources ---------------- */

  /** A picture shape: its image at its rounded position and size; None
      where reading the image raises or the shape has no position or size
      (the raise is caught). */
  function PictureImage(s: Shape): (r: Option<ImageElement>)
    ensures r.Some? <==> s.image.Some? && RoundedBox(s.left, s.top, s.width, s.height).Some?
    ensures r.Some? ==> r.value.src == ImageUrl(s.image.value.blob, s.image.value.ext)
  {
    match s.image
    case None => None
    case Some(img) =>
      match RoundedBox(s.left, s.top, s.width, s.height)
      case None => None
      case Some(b) =>
        Some(NewImage(b.x as real, b.y as real, b.width as real, b.height as real,
                      ImageUrl(img.blob, PictureFormat(img.ext)), Rotation(s.rotation)))
  }

  /** What python-pptx's `xpath` on an oxml element gives: it takes the
      expression alone and resolves the `a:` prefix with its own map, so a
      call that also passes `namespaces=` raises `TypeError`. */
  datatype BlipSearch = Raised | Searched(blip: Option<Elem>)

  function OxmlBlipSearch(frame: Elem, namespacesKeyword: bool): BlipSearch {
    if namespacesKeyword then Raised else Searched(Find(frame, [Desc(DrawingNs, "blip")]))
  }

  /** The `r:embed` id of the first blip the search finds, when present and
      not empty; a raising search leaves it None, as the outer handler of
      `extract_blip_image_from_graphic_frame` does. */
  function BlipEmbedVia(frame: Elem, namespacesKeyword: bool): Option<string> {
    match OxmlBlipSearch(frame, namespacesKeyword)
    case Raised => None
    case Searched(None) => None
    case Searched(Some(blip)) => GetNonEmpty(blip, EmbedKey)
  }

  /** The relationship id of the first blip below a graphic frame, when it
      is present and not empty, found by `xpath('.//a:blip')`. */
  function BlipEmbed(frame: Elem): (r: Option<string>)
    ensures r.Some? ==> r.value != ""
    ensures r == (match Find(frame, [Desc(DrawingNs, "blip")]) case None => None case Some(b) => GetNonEmpty(b, EmbedKey))
  {
    BlipEmbedVia(frame, false)
  }

  /** The relationship id as `extract_blip_image_from_graphic_frame` reads
      it: its `xpath` call passes `namespaces=`, the `TypeError` is not the
      `ImportError` the fallback waits for, the outer handler swallows it
      and `r_id` stays None. */
  function BlipEmbedAsWritten(frame: Elem): (r: Option<string>)
    ensures r.None?
  {
    BlipEmbedVia(frame, true)
  }

  /** The image a graphic frame gives once its relationship id is known:
      the related part at the frame's rounded position and size. */
  function FrameImageOf(s: Shape, rid: Option<string>): Option<ImageElement> {
    match rid
    case None => None
    case Some(id) =>
      if id !in s.related then None
      else
        var p := s.related[id];
        match RoundedBox(s.left, s.top, s.width, s.height)
        case None => None
        case Some(b) =>
          Some(NewImage(b.x as real, b.y as real, b.width as real, b.height as real,
                        ImageUrl(p.blob, ContentTypeFormat(p.contentType)), Rotation(s.rotation)))
  }

  /** `extract_blip_image_from_graphic_frame` with the blip found by the
      namespace-free `xpath('.//a:blip')`: the related part the first blip
      names, at the frame's rounded position and size. */
  function FrameImage(s: Shape): (r: Option<ImageElement>)
    ensures r.Some? <==> BlipEmbed(s.element).Some? && BlipEmbed(s.element).value in s.related
                          && RoundedBox(s.left, s.top, s.width, s.height).Some?
    ensures r.Some? ==> var p := s.related[BlipEmbed(s.element).value];
                        r.value.src == ImageUrl(p.blob, ContentTypeFormat(p.contentType))
  {
    FrameImageOf(s, BlipEmbed(s.element))
  }

  /** `extract_blip_image_from_graphic_frame` as written: it never finds a
      blip, so it never yields an image. */
  function FrameImageAsWritten(s: Shape): (r: Option<ImageElement>)
    ensures r.None?
  {
    FrameImageOf(s, BlipEmbedAsWritten(s.element))
  }

  /** A shape's picture fill at its exact (unrounded) position and size in
      points; None without a picture fill or without a position or size. */
  function FillImage(s: Shape): (r: Option<ImageElement>)
    ensures r.Some? <==> s.pictureFill.Some? && s.left.Some? && s.top.Some? && s.width.Some? && s.height.Some?
    ensures r.Some? ==> r.value.src == ImageUrl(s.pictureFill.value.blob, FillFormat(s.pictureFill.value.ext))
                        && r.value.x * 12700.0 == s.left.value as real && r.value.y * 12700.0 == s.top.value as real
                        && r.value.width * 12700.0 == s.width.value as real && r.value.height * 12700.0 == s.height.value as real
  {
    match s.pictureFill
    case None => None
    case Some(img) =>
      if s.left.Some? && s.top.Some? && s.width.Some? && s.height.Some? then
        Some(NewImage(EmuToPoints(s.left.value), EmuToPoints(s.top.value), EmuToPoints(s.width.value), EmuToPoints(s.height.value),
                      ImageUrl(img.blob, FillFormat(img.ext)), Rotation(s.rotation)))
      else None
  }

  /** `extract_image_from_shape`: a picture shape gives its image and
      nothing else; a graphic frame its embedded picture when it has one;
      any other shape, and a graphic frame without one, its picture fill.
      A shape whose `shape_type` raises gives none: the raise is caught. */
  function ExtractImage(s: Shape): (r: Option<ImageElement>)
    ensures s.kind == Unreadable ==> r.None?
    ensures s.kind == Picture ==> r == PictureImage(s)
    ensures s.kind == GraphicFrame && FrameImage(s).Some? ==> r == FrameImage(s)
    ensures s.kind != Picture && s.kind != Unreadable && (s.kind != GraphicFrame || FrameImage(s).None?) ==> r == FillImage(s)
    ensures r.Some? ==> r.value.rotation == Rotation(s.rotation)
                        && r.value.locked == Some(false) && r.value.isBackground == Some(false)
  {
    if s.kind == Unreadable then None
    else if s.kind == Picture then PictureImage(s)
    else if s.kind == GraphicFrame && FrameImage(s).Some? then FrameImage(s)
    else FillImage(s)
  }

  /** `extract_image_from_shape` as written: since the frame lookup never
      succeeds, every graphic frame falls through to its picture fill. */
  function ExtractImageAsWritten(s: Shape): (r: Option<ImageElement>)
    ensures s.kind == Unreadable ==> r.None?
    ensures s.kind == Picture ==> r == PictureImage(s)
    ensures s.kind != Picture && s.kind != Unreadable ==> r == FillImage(s)
  {
    if s.kind == Unreadable then None
    else if s.kind == Picture then PictureImage(s)
    else if s.kind == GraphicFrame && FrameImageAsWritten(s).Some? then FrameImageAsWritten(s)
    else FillImage(s)
  }

  /** A picture shape's element carries the picture's bytes: its source
      decodes back to them. */
  lemma PictureBytesKept(s: Shape)
    requires s.kind == Picture && ExtractImage(s).Some?
    ensures var m := MimeType(s.image.value.ext);
            var u := ExtractImage(s).value.src;
            && u[5..5 + |m|] == m
            && Decode(u[13 + |m|..]) == Some(s.image.value.blob)
  {
    ImageUrlRoundTrip(s.image.value.blob, s.image.value.ext);
  }

  /** A frame whose only child is a blip with an embed id finds that id. */
  lemma OnlyBlipEmbed(frame: Elem, blip: Elem, rid: string)
    requires frame.children == [blip] && blip.children == []
    requires blip.ns == DrawingNs && blip.tag == "blip" && blip.attrs == [Attr(OfficeRelNs, "embed", rid)]
    requires rid != ""
    ensures BlipEmbed(frame) == Some(rid)
  {
    SingleDescStep(frame, DrawingNs, "blip");
    IterSmall(blip);
    assert IterAll(frame.children) == Iter(blip) + IterAll([]);
    assert FilterName([blip], DrawingNs, "blip") == [blip] + FilterName([], DrawingNs, "blip");
    GetOnly(blip, Attr(OfficeRelNs, "embed", rid));
    assert Get(blip, EmbedKey) == Some(rid);
  }

  /** A graphic frame whose only blip embeds a related JPEG part yields that
      part as a JPEG image. */
  lemma FrameBlipImage(s: Shape, blip: Elem, rid: string)
    requires s.kind == GraphicFrame
    requires s.element.children == [blip] && blip.children == []
    requires blip.ns == DrawingNs && blip.tag == "blip" && blip.attrs == [Attr(OfficeRelNs, "embed", rid)]
    requires rid != "" && rid in s.related && s.related[rid].contentType == "image/jpeg"
    requires RoundedBox(s.left, s.top, s.width, s.height).Some?
    ensures ExtractImage(s).Some?
    ensures ExtractImage(s).value.src == DataUrl("image/jpeg", s.related[rid].blob)
  {
    OnlyBlipEmbed(s.element, blip, rid);
    assert OccursAt("image/jpeg", "jpeg", 6);
    assert Contains("image/jpeg", "jpeg");
    LowerOfLowercase("jpeg");
  }

  /** The same frame as written: the embedded picture is found by the
      corrected lookup but lost by the written one, and the shape gives its
      picture fill instead, or nothing when it has none. */
  lemma FrameBlipLostAsWritten(s: Shape, blip: Elem, rid: string)
    requires s.kind == GraphicFrame
    requires s.element.children == [blip] && blip.children == []
    requires blip.ns == DrawingNs && blip.tag == "blip" && blip.attrs == [Attr(OfficeRelNs, "embed", rid)]
    requires rid != "" && rid in s.related
    requires RoundedBox(s.left, s.top, s.width, s.height).Some?
    ensures FrameImage(s).Some? && ExtractImage(s) == FrameImage(s)
    ensures FrameImageAsWritten(s).None?
    ensures ExtractImageAsWritten(s) == FillImage(s)
    ensures s.pictureFill.None? ==> ExtractImageAsWritten(s).None?
  {
    OnlyBlipEmbed(s.element, blip, rid);
  }

  /** `extract_images_from_pptx` for one slide: the images of its shapes,
      in order. */
  function SlideImages(shapes: seq<Shape>): (r: seq<ImageElement>)
    ensures |r| <= |shapes|
  {
    Seqs.FilterMapSpec(shapes, ExtractImage);
    Seqs.FilterMap(shapes, ExtractImage)
  }
}

=== FILE: json.dfy ===
/** The JSON values the converter builds as Python dicts and lists. An
    object keeps its keys in insertion order, as a Python dict does;
    numbers are exact rationals. */
module Json {
  import opened Wrappers

  datatype Json =
    | JNull
    | JBool(b: bool)
    | JNum(n: real)
    | JStr(s: string)
    | JArray(items: seq<Json>)
    | JObject(fields: seq<(string, Json)>)

  /** `d.get(k)`: the value filed under `k` (the first, should a list of
      fields repeat a key). */
  function Lookup(fs: seq<(string, Json)>, k: string): (r: Option<Json>)
    ensures r.Some? <==> exists i :: 0 <= i < |fs| && fs[i].0 == k
    ensures r.Some? ==> exists i :: 0 <= i < |fs| && fs[i] == (k, r.value)
  {
    if |fs| == 0 then None
    else if fs[0].0 == k then Some(fs[0].1)
    else
      var r := Lookup(fs[1..], k);
      assert r.Some? ==> exists i :: 0 <= i < |fs[1..]| && fs[1..][i] == (k, r.value);
      r
  }

  /** The keys, in order. */
  function Keys(fs: seq<(string, Json)>): (ks: seq<string>)
    ensures |ks| == |fs|
    ensures forall i :: 0 <= i < |fs| ==> ks[i] == fs[i].0
  {
    seq(|fs|, i requires 0 <= i < |fs| => fs[i].0)
  }

  /** A Python dict never repeats a key. */
  predicate UniqueKeys(fs: seq<(string, Json)>) {
    forall i, j :: 0 <= i < j < |fs| ==> fs[i].0 != fs[j].0
  }

  /** The value looked up under the key at position `i` is the value stored
      there when no earlier field carries that key (in particular in a dict
      without repeated keys). */
  lemma {:induction false} LookupAt(fs: seq<(string, Json)>, i: nat)
    requires i < |fs|
    requires forall j :: 0 <= j < i ==> fs[j].0 != fs[i].0
    ensures Lookup(fs, fs[i].0) == Some(fs[i].1)
  {
    if i > 0 {
      assert fs[1..][i - 1] == fs[i];
      LookupAt(fs[1..], i - 1);
    }
  }

  /** `v if v is not None else None` as JSON: a string or null. */
  function OptStr(o: Option<string>): Json {
    match o
    case Some(s) => JStr(s)
    case None => JNull
  }

  /** A JSON number holding a whole number. */
  function JInt(n: int): Json {
    JNum(n as real)
  }
}

=== FILE: package.dfy ===
/** The `.pptx` container as the converter sees it: a zip archive with its
    entry names in archive order, each entry's bytes, and the element tree
    ElementTree would parse from it. Zip decoding and XML byte parsing are not
    part of this model: an entry's `xml` is None exactly when parsing it
    raises. */
module Package {
  import opened Wrappers
  import opened Xml

  /** One byte. */
  type Byte = b: int | 0 <= b < 256

  /** A zip entry: its raw bytes and the parse of those bytes as XML. */
  datatype Entry = Entry(bytes: seq<Byte>, xml: Option<Elem>)

  /** `names` is `ZipFile.namelist()` (archive order); `entries` is what
      `ZipFile.read` returns for a name. */
  datatype Archive = Archive(names: seq<string>, entries: map<string, Entry>)

  /** `ZipFile.read(name)`; None where it raises. */
  function Read(a: Archive, name: string): (r: Option<Entry>)
    ensures r.Some? <==> name in a.entries
  {
    if name in a.entries then Some(a.entries[name]) else None
  }

  /** The element tree of entry `name`, or None when the entry is missing or
      does not parse. */
  function ReadXml(a: Archive, name: string): (r: Option<Elem>)
    ensures r.Some? ==> name in a.entries && a.entries[name].xml == r
  {
    match Read(a, name)
    case None => None
    case Some(e) => e.xml
  }

  /** `name in z.namelist()`. */
  predicate Listed(a: Archive, name: string) {
    name in a.names
  }
}

=== FILE: pptx.dfy ===
/** The python-pptx object model as the extractors read it, reduced to the
    values they consult. Every property read that can raise is an `Option`
    whose None stands for the raise; enumerations are datatypes. These are
    inputs to the model: nothing here is computed. */
module Pptx {
  import opened Wrappers
  import opened Xml
  import opened Package
  import opened Colors
  import Seqs

  /** `MSO_SHAPE_TYPE` as far as the converter distinguishes it; `Unreadable`
      is a shape whose `shape_type` property raises. */
  datatype ShapeKind =
    | AutoShape | Freeform | Placeholder | Group | Picture | GraphicFrame
    | ChartKind | TableKind | TextBox | OtherKind | Unreadable

  /** `MSO_COLOR_TYPE`: `RgbType` is the value 1 the extractors test for. */
  datatype ColorType = RgbType | SchemeType | NoColorType | OtherColorType

  /** A `ColorFormat`: its type, and what reading `.rgb` gives (None where
      the read raises or yields None). */
  datatype ColorFormat = ColorFormat(colorType: ColorType, rgb: Option<RgbInput>)

  /** `PP_ALIGN` members; `OtherAlign` covers DISTRIBUTE, MIXED and the rest. */
  datatype Align = AlignLeft | AlignCenter | AlignRight | AlignJustify | AlignOther

  /** A run's `Font`: `size` is the `sz` attribute in hundredths of a point
      (`font.size.pt` is `size / 100`), `underline` is the truthiness of
      that property, `rPr` is `font._element`. python-pptx's `Font` has no
      `strike` property, so the `hasattr(font, 'strike')` tests read nothing
      and the datatype carries no such field. */
  datatype Font = Font(size: Option<int>, name: Option<string>, bold: Option<bool>, italic: Option<bool>,
                       underline: bool, color: ColorFormat, rPr: Elem)

  datatype Run = Run(text: string, font: Font)

  /** What a paragraph holds, in order: runs, line breaks (text `"\v"`) and
      fields (text without a run). */
  datatype Inline = RunItem(run: Run) | LineBreak | FieldItem(text: string)

  datatype Paragraph = Paragraph(items: seq<Inline>, alignment: Option<Align>)

  datatype TextFrame = TextFrame(paragraphs: seq<Paragraph>)

  /** The fill of a table cell as the python-pptx fast path sees it: a solid
      fill with the `.rgb` of its foreground colour, a gradient fill with the
      `.rgb` of its first stop's colour (None when there is no stop), or
      anything else. */
  datatype CellFill = SolidCellFill(rgb: Option<RgbInput>) | GradientCellFill(firstStopRgb: Option<RgbInput>) | OtherCellFill

  /** A table cell: its fill, its `a:tc` element, its text frame and the
      frame's `a:txBody` element. */
  datatype Cell = Cell(fill: CellFill, element: Elem, frame: TextFrame, frameElement: Elem)

  datatype Table = Table(rows: seq<seq<Cell>>)

  /** An image as python-pptx hands it over: bytes and file extension. */
  datatype ImageBlob = ImageBlob(blob: seq<Byte>, ext: string)

  /** A related part: bytes and content type. */
  datatype Part = Part(blob: seq<Byte>, contentType: string)

  /** A shape on a slide.
      - `autoShapeType`: `auto_shape_type`, None where reading it raises;
      - `geometryPoints`: a point total from a geometry API (python-pptx
        offers none, so callers pass None);
      - `left`/`top`/`width`/`height`: EMU, None where python-pptx has none;
      - `rotation`: degrees, None where absent;
      - `textFrame`: None when `has_text_frame` is false;
      - `table`: None when `has_table` is false;
      - `isChart`: whether reading `chart` succeeds (see `IsChartShape`);
      - `chartPart`: `chart.part.partname`, None where it raises;
      - `lineColor`/`lineWidth`: the outline's colour and width in EMU (0 when none);
      - `image`: `shape.image` of a picture, None where it raises;
      - `related`: `part.related_parts` by relationship id;
      - `pictureFill`: the image of a picture fill as a `picture` API would
        give it (python-pptx's `FillFormat` offers none, so callers pass
        None);
      - `children`: the members of a group. */
  datatype Shape = Shape(
    kind: ShapeKind,
    autoShapeType: Option<int>,
    geometryPoints: Option<nat>,
    element: Elem,
    left: Option<int>, top: Option<int>, width: Option<int>, height: Option<int>,
    rotation: Option<real>,
    textFrame: Option<TextFrame>,
    table: Option<Table>,
    isChart: bool,
    chartPart: Option<string>,
    lineColor: ColorFormat,
    lineWidth: int,
    image: Option<ImageBlob>,
    related: map<string, Part>,
    pictureFill: Option<ImageBlob>,
    children: seq<Shape>)

  /** `is_chart_shape`: a shape of chart type, or one whose `chart` reads;
      false for a shape whose `shape_type` raises, since it catches
      every exception. */
  predicate IsChartShape(s: Shape) {
    s.kind != Unreadable && (s.kind == ChartKind || s.isChart)
  }

  /** `is_chart_shape` case by case: a shape whose `shape_type` raises is
      never a chart, a chart-type shape always is, and any other shape is
      one exactly when reading its `chart` succeeds. */
  lemma ChartShapeCases(s: Shape)
    ensures s.kind == Unreadable ==> !IsChartShape(s)
    ensures s.kind == ChartKind ==> IsChartShape(s)
    ensures s.kind != Unreadable && s.kind != ChartKind ==> (IsChartShape(s) <==> s.isChart)
  {
  }

  /** A slide: its shapes in z-order and what the background chain needs. */
  datatype Slide = Slide(shapes: seq<Shape>, layoutPart: Option<string>, masterPart: Option<string>, backgroundRgb: Option<RgbInput>)

  /* ---------------- text of the object model ---------------- */

  function InlineText(i: Inline): string {
    match i
    case RunItem(r) => r.text
    case LineBreak => "\U{B}"
    case FieldItem(t) => t
  }

  /** `paragraph.text`: every inline's text, concatenated. */
  function ParagraphText(items: seq<Inline>): string {
    if |items| == 0 then "" else InlineText(items[0]) + ParagraphText(items[1..])
  }

  function RunOf(i: Inline): Option<Run> {
    match i
    case RunItem(r) => Some(r)
    case _ => None
  }

  /** `paragraph.runs`. */
  function Runs(p: Paragraph): seq<Run> {
    Seqs.FilterMap(p.items, RunOf)
  }

  /** The run texts of a paragraph, concatenated. */
  function RunsText(rs: seq<Run>): string {
    if |rs| == 0 then "" else rs[0].text + RunsText(rs[1..])
  }

  /** `text_frame.text`: the paragraph texts joined with newlines. */
  function FrameText(ps: seq<Paragraph>): string {
    if |ps| == 0 then ""
    else if |ps| == 1 then ParagraphText(ps[0].items)
    else ParagraphText(ps[0].items) + "\n" + FrameText(ps[1..])
  }
}

=== FILE: pynum.dfy ===
/** Python number semantics the converter depends on: `round` (ties to even),
    `int()` truncation, `%` on floats with a positive divisor, `f'{n:02x}'`
    formatting and the `int(s, base)` / `float(s)` string grammars.
    Floats are modelled as exact reals; nothing here claims IEEE-754 agreement. */
module PyNum {
  import opened Wrappers
  import opened PyStr

  /* ---------------- rounding and truncation ---------------- */

  /** `round(x)`: the nearest integer, ties going to the even neighbour. */
  function RoundHalfEven(x: real): (r: int)
    ensures -(0.5) <= r as real - x <= 0.5
    ensures (r as real - x == 0.5 || x - r as real == 0.5) ==> r % 2 == 0
  {
    var f := x.Floor;
    var d := x - f as real;
    if d < 0.5 then f
    else if d > 0.5 then f + 1
    else if f % 2 == 0 then f else f + 1
  }

  /** `round` leaves integers alone. */
  lemma RoundOfInt(n: int)
    ensures RoundHalfEven(n as real) == n
  {
  }

  /** `round` never leaves an integer interval that contains its argument. */
  lemma RoundBetween(x: real, lo: int, hi: int)
    requires lo as real <= x <= hi as real
    ensures lo <= RoundHalfEven(x) <= hi
  {
  }

  /** `round` is monotone. */
  lemma {:induction false} RoundMonotone(x: real, y: real)
    requires x <= y
    ensures RoundHalfEven(x) <= RoundHalfEven(y)
  {
    var rx, ry := RoundHalfEven(x), RoundHalfEven(y);
    if rx > ry {
      // both lie within one half of their arguments, so both would be ties
      // rounded to consecutive, hence not both even, integers
      assert false;
    }
  }

  /** `int(x)` for a float: truncation toward zero. */
  function Trunc(x: real): (r: int)
    ensures 0.0 <= x ==> r as real <= x < r as real + 1.0
    ensures x < 0.0 ==> r as real - 1.0 < x <= r as real
  {
    if x >= 0.0 then x.Floor else -((-x).Floor)
  }

  /** `x % 360` for a float angle: the result lies in [0, 360) and differs from
      `x` by a whole number of turns. */
  function FloorMod360(x: real): (r: real)
    ensures 0.0 <= r < 360.0
    ensures ((x - r) / 360.0).Floor as real == (x - r) / 360.0
  {
    var q := (x / 360.0).Floor;
    var r := x - q as real * 360.0;
    assert (x - r) / 360.0 == q as real;
    r
  }

  /* ---------------- digits ---------------- */

  /** Value of a character as a digit in bases up to 36; 36 for anything that
      is no digit at all. */
  function DigitValue(c: char): (v: nat)
    ensures v <= 36
  {
    if '0' <= c <= '9' then c as nat - '0' as nat
    else if 'a' <= c <= 'z' then c as nat - 'a' as nat + 10
    else if 'A' <= c <= 'Z' then c as nat - 'A' as nat + 10
    else 36
  }

  predicate IsDigitOf(c: char, base: nat) {
    DigitValue(c) < base
  }

  /** A lower-case hexadecimal digit (`[0-9a-f]`). */
  predicate IsLowerHex(c: char) {
    '0' <= c <= '9' || 'a' <= c <= 'f'
  }

  /** A run of digits in which single underscores may separate two digits
      (the grammar `int()` and `float()` accept since Python 3.6). */
  predicate ValidDigits(s: string, base: nat) {
    |s| > 0 && forall i :: 0 <= i < |s| ==> DigitOrSeparator(s, i, base)
  }

  /** Position `i` holds a digit, or an underscore with a digit on each side. */
  predicate DigitOrSeparator(s: string, i: nat, base: nat)
    requires i < |s|
  {
    IsDigitOf(s[i], base)
    || (s[i] == '_' && 0 < i < |s| - 1 && IsDigitOf(s[i - 1], base) && IsDigitOf(s[i + 1], base))
  }

  /** The number a digit run denotes, underscores ignored. */
  function DigitsValue(s: string, base: nat): nat
    decreases |s|
  {
    if |s| == 0 then 0
    else if s[|s| - 1] == '_' then DigitsValue(s[..|s| - 1], base)
    else DigitsValue(s[..|s| - 1], base) * base + DigitValue(s[|s| - 1])
  }

  /** How many digits (not underscores) a digit run holds. */
  function DigitCount(s: string): nat
    decreases |s|
  {
    if |s| == 0 then 0
    else if s[|s| - 1] == '_' then DigitCount(s[..|s| - 1])
    else DigitCount(s[..|s| - 1]) + 1
  }

  function HexDigit(d: nat): (c: char)
    requires d < 16
    ensures IsLowerHex(c) && DigitValue(c) == d
  {
    if d < 10 then ('0' as int + d) as char else ('a' as int + d - 10) as char
  }

  lemma HexDigitOfValue(c: char)
    requires IsLowerHex(c)
    ensures DigitValue(c) < 16 && HexDigit(DigitValue(c)) == c
  {
  }

  /** Lower-case hexadecimal digits of `n` without leading zeros (`format(n, 'x')`). */
  function HexDigits(n: nat): (r: string)
    ensures |r| > 0
    ensures forall i :: 0 <= i < |r| ==> IsLowerHex(r[i])
    ensures n < 16 <==> |r| == 1
    ensures 16 <= n < 256 ==> |r| == 2
    decreases n
  {
    if n < 16 then [HexDigit(n)] else HexDigits(n / 16) + [HexDigit(n % 16)]
  }

  /** `f'{n:02x}'`: lower-case hex padded with zeros to width two; a negative
      number keeps its sign in front of the digits. */
  function FormatHex02(n: int): (r: string)
    ensures 0 <= n < 256 ==> |r| == 2 && IsLowerHex(r[0]) && IsLowerHex(r[1])
    ensures n < 0 ==> |r| >= 2 && r[0] == '-'
    ensures |r| >= 2 && forall i :: 0 <= i < |r| ==> IsLowerHex(r[i]) || r[i] == '-'
  {
    if n < 0 then "-" + HexDigits(-n)
    else
      var d := HexDigits(n);
      if |d| < 2 then "0" + d else d
  }

  /* ---------------- int(s, base) and float(s) ---------------- */

  /** Drops an optional `0x`/`0X` prefix (and one underscore right after it). */
  function StripHexPrefix(u: string): string {
    if |u| >= 2 && u[0] == '0' && (u[1] == 'x' || u[1] == 'X') then
      var w := u[2..];
      if |w| > 0 && w[0] == '_' then w[1..] else w
    else u
  }

  /** Splits an optional leading sign: (is negative, rest). */
  function SplitSign(t: string): (bool, string) {
    if |t| > 0 && (t[0] == '-' || t[0] == '+') then (t[0] == '-', t[1..]) else (false, t)
  }

  /** `int(s, base)` for base 10 or 16, None where Python raises ValueError:
      surrounding whitespace, an optional sign, in base 16 an optional `0x`
      prefix, then digits with single separating underscores. */
  function ParseInt(s: string, base: nat): (r: Option<int>)
    requires base == 10 || base == 16
    ensures var t := SplitSign(Strip(s));
            var body := if base == 16 then StripHexPrefix(t.1) else t.1;
            && (r.Some? <==> ValidDigits(body, base))
            && (r.Some? ==> r.value == if t.0 then -(DigitsValue(body, base) as int) else DigitsValue(body, base))
  {
    var t := SplitSign(Strip(s));
    ParseDigits(t.0, if base == 16 then StripHexPrefix(t.1) else t.1, base)
  }

  /** The signed value of a digit run, None when it is no valid run. */
  function ParseDigits(neg: bool, body: string, base: nat): (r: Option<int>)
    ensures r.Some? <==> ValidDigits(body, base)
    ensures r.Some? && !neg ==> r.value == DigitsValue(body, base)
    ensures r.Some? && neg ==> r.value == -(DigitsValue(body, base) as int)
  {
    if ValidDigits(body, base) then
      Some(if neg then -(DigitsValue(body, base) as int) else DigitsValue(body, base))
    else None
  }

  /** `10^e` for any integer exponent. */
  function Pow10(e: int): (r: real)
    ensures r > 0.0
    decreases if e < 0 then -e else e
  {
    if e == 0 then 1.0 else if e > 0 then 10.0 * Pow10(e - 1) else Pow10(e + 1) / 10.0
  }

  /** Index of the first `e`/`E`. */
  function ExpIndex(u: string): (r: Option<nat>)
    ensures r.Some? ==> r.value < |u| && (u[r.value] == 'e' || u[r.value] == 'E')
  {
    if |u| == 0 then None
    else if u[0] == 'e' || u[0] == 'E' then Some(0)
    else match ExpIndex(u[1..])
      case None => None
      case Some(k) => Some(k + 1)
  }

  /** Index of the first `.`. */
  function DotIndex(u: string): (r: Option<nat>)
    ensures r.Some? ==> r.value < |u| && u[r.value] == '.'
    ensures r.None? ==> forall i :: 0 <= i < |u| ==> u[i] != '.'
  {
    if |u| == 0 then None
    else if u[0] == '.' then Some(0)
    else match DotIndex(u[1..])
      case None => None
      case Some(k) => Some(k + 1)
  }

  /** A decimal mantissa `digits`, `digits.`, `.digits` or `digits.digits`. */
  function ParseMantissa(m: string): Option<real> {
    match DotIndex(m)
    case None =>
      if ValidDigits(m, 10) then Some(DigitsValue(m, 10) as real) else None
    case Some(k) =>
      var ip, fp := m[..k], m[k + 1..];
      if (|ip| == 0 && |fp| == 0)
         || (|ip| > 0 && !ValidDigits(ip, 10))
         || (|fp| > 0 && !ValidDigits(fp, 10))
      then None
      else Some(DigitsValue(ip, 10) as real + DigitsValue(fp, 10) as real / Pow10(DigitCount(fp)))
  }

  /** A run of decimal digits has no exponent and reads as its integer value. */
  lemma DigitRunIsMantissa(u: string)
    ensures ValidDigits(u, 10) ==> ExpIndex(u).None? && ParseMantissa(u) == Some(DigitsValue(u, 10) as real)
  {
    if ValidDigits(u, 10) {
      forall i | 0 <= i < |u|
        ensures u[i] != 'e' && u[i] != 'E' && u[i] != '.'
      {
        assert DigitOrSeparator(u, i, 10);
      }
    }
  }

  /** `float(s)` for finite decimal literals, None where Python raises
      ValueError. The spellings `inf`, `infinity` and `nan` are not modelled. */
  function ParseFloat(s: string): Option<real> {
    var (neg, u) := SplitSign(Strip(s));
    var mag :=
      match ExpIndex(u)
      case None => ParseMantissa(u)
      case Some(k) =>
        var (eneg, ed) := SplitSign(u[k + 1..]);
        if !ValidDigits(ed, 10) then None
        else
          var e := if eneg then -(DigitsValue(ed, 10) as int) else DigitsValue(ed, 10);
          match ParseMantissa(u[..k])
          case None => None
          case Some(v) => Some(v * Pow10(e));
    match mag
    case None => None
    case Some(v) => Some(if neg then -v else v)
  }

  /** `float()` rejects an empty or all-whitespace text, and reads an
      optionally signed run of decimal digits as its signed value. */
  lemma ParseFloatCases(s: string)
    ensures Strip(s) == "" ==> ParseFloat(s).None?
    ensures var t := SplitSign(Strip(s));
            ValidDigits(t.1, 10) ==> ParseFloat(s) == Some(if t.0 then -(DigitsValue(t.1, 10) as real) else DigitsValue(t.1, 10) as real)
  {
    DigitRunIsMantissa(SplitSign(Strip(s)).1);
  }

  /* ---------------- round trips ---------------- */

  lemma StripNoSpace(s: string)
    requires forall i :: 0 <= i < |s| ==> !IsSpace(s[i])
    ensures Strip(s) == s
  {
    assert LStrip(s) == s;
    assert RStrip(s) == s;
  }

  lemma {:induction false} DigitsValueAppend(s: string, c: char, base: nat)
    requires c != '_'
    ensures DigitsValue(s + [c], base) == DigitsValue(s, base) * base + DigitValue(c)
  {
    assert (s + [c])[..|s + [c]| - 1] == s;
  }

  lemma AllDigitsValid(s: string, base: nat)
    requires |s| > 0 && forall i :: 0 <= i < |s| ==> IsDigitOf(s[i], base)
    ensures ValidDigits(s, base)
  {
  }

  lemma LowerHexDigits(s: string)
    requires |s| > 0 && forall i :: 0 <= i < |s| ==> IsLowerHex(s[i])
    ensures ValidDigits(s, 16)
  {
    AllDigitsValid(s, 16);
  }

  lemma {:induction false} HexDigitsValue(n: nat)
    ensures DigitsValue(HexDigits(n), 16) == n
    decreases n
  {
    if n < 16 {
      assert DigitsValue([HexDigit(n)], 16) == DigitsValue([], 16) * 16 + DigitValue(HexDigit(n));
    } else {
      HexDigitsValue(n / 16);
      DigitsValueAppend(HexDigits(n / 16), HexDigit(n % 16), 16);
    }
  }

  lemma {:induction false} LeadingZero(s: string, base: nat)
    requires base > 0
    ensures DigitsValue("0" + s, base) == DigitsValue(s, base)
    decreases |s|
  {
    if |s| > 0 {
      var p := s[..|s| - 1];
      assert ("0" + s)[..|"0" + s| - 1] == "0" + p;
      LeadingZero(p, base);
    }
  }

  /** A digit run with nothing else around it parses to its value. */
  lemma ParseIntPlain(s: string, base: nat)
    requires base == 10 || base == 16
    requires ValidDigits(s, base)
    requires forall i :: 0 <= i < |s| ==> !IsSpace(s[i])
    requires base == 16 ==> StripHexPrefix(s) == s
    ensures ParseInt(s, base) == Some(DigitsValue(s, base))
  {
    StripNoSpace(s);
    assert DigitOrSeparator(s, 0, base);
    assert s[0] != '-' && s[0] != '+';
    assert SplitSign(s) == (false, s);
  }

  /** A minus sign in front of a digit run negates its value. */
  lemma ParseIntNegative(d: string)
    requires |d| > 0 && forall i :: 0 <= i < |d| ==> IsLowerHex(d[i])
    ensures ParseInt("-" + d, 16) == Some(-(DigitsValue(d, 16) as int))
  {
    var f := "-" + d;
    NegativeNoSpace(d);
    HexPrefixAbsent(d);
    LowerHexDigits(d);
    ParseIntMinus(f, d);
  }

  lemma ParseIntMinus(f: string, d: string)
    requires f == "-" + d && Strip(f) == f && StripHexPrefix(d) == d && ValidDigits(d, 16)
    ensures ParseInt(f, 16) == Some(-(DigitsValue(d, 16) as int))
  {
    assert f[1..] == d;
    assert ParseInt(f, 16) == ParseDigits(true, d, 16);
  }

  lemma NegativeNoSpace(d: string)
    requires forall i :: 0 <= i < |d| ==> IsLowerHex(d[i])
    ensures Strip("-" + d) == "-" + d
  {
    StripNoSpace("-" + d);
  }

  /** Lower-case hex digits carry no `0x` prefix. */
  lemma HexPrefixAbsent(d: string)
    requires forall i :: 0 <= i < |d| ==> IsLowerHex(d[i])
    ensures StripHexPrefix(d) == d
  {
    if |d| >= 2 { assert IsLowerHex(d[1]); }
  }

  /** Parsing what `f'{n:02x}'` prints gives back `n`, for every integer. */
  lemma {:induction false} ParseFormatHex02(n: int)
    ensures ParseInt(FormatHex02(n), 16) == Some(n)
  {
    var m: nat := if n < 0 then -n else n;
    HexDigitsValue(m);
    var d := HexDigits(m);
    var f := FormatHex02(n);
    LowerHexDigits(d);
    if n < 0 {
      ParseIntNegative(d);
    } else if |d| < 2 {
      LeadingZero(d, 16);
      assert f == "0" + d;
      LowerHexDigits(f);
      ParseIntPlain(f, 16);
    } else {
      ParseIntPlain(f, 16);
    }
  }

  /** The value of a two-digit lower-case hex string. */
  lemma HexPairValue(p: string)
    requires |p| == 2 && IsLowerHex(p[0]) && IsLowerHex(p[1])
    ensures ParseInt(p, 16) == Some(DigitValue(p[0]) * 16 + DigitValue(p[1]))
  {
    HexPairDigits(p);
    ParseIntPlain(p, 16);
  }

  lemma HexPairDigits(p: string)
    requires |p| == 2 && IsLowerHex(p[0]) && IsLowerHex(p[1])
    ensures ValidDigits(p, 16) && StripHexPrefix(p) == p
    ensures DigitsValue(p, 16) == DigitValue(p[0]) * 16 + DigitValue(p[1])
  {
    assert p[..1] == [p[0]] && [p[0]][..0] == [];
    assert DigitsValue([p[0]], 16) == DigitValue(p[0]);
    LowerHexDigits(p);
  }

  /** `f'{n:02x}'` of a byte is its two hex digits. */
  lemma FormatHexByte(hi: nat, lo: nat)
    requires hi < 16 && lo < 16
    ensures FormatHex02(hi * 16 + lo) == [HexDigit(hi), HexDigit(lo)]
  {
    var v := hi * 16 + lo;
    if v < 16 {
      assert hi == 0 && lo == v;
      assert HexDigit(0) == '0';
    } else {
      assert v / 16 == hi && v % 16 == lo;
      assert HexDigits(v) == HexDigits(hi) + [HexDigit(lo)];
    }
  }

  /** The number a two-digit hex string denotes. */
  function HexPairNat(p: string): nat
    requires |p| == 2
  {
    DigitValue(p[0]) * 16 + DigitValue(p[1])
  }

  /** Two lower-case hex digits. */
  predicate IsHexPair(p: string) {
    |p| == 2 && IsLowerHex(p[0]) && IsLowerHex(p[1])
  }

  /** A lower-case hex pair parses to the byte it denotes. */
  lemma HexPairParse(p: string)
    requires IsHexPair(p)
    ensures ParseInt(p, 16) == Some(HexPairNat(p))
  {
    HexPairDigits(p);
    ParseIntPlain(p, 16);
  }

  /** The byte a lower-case hex pair denotes prints back as the pair. */
  lemma HexPairFormat(p: string)
    requires IsHexPair(p)
    ensures HexPairNat(p) < 256
    ensures FormatHex02(HexPairNat(p)) == p
  {
    HexDigitOfValue(p[0]);
    HexDigitOfValue(p[1]);
    FormatHexByte(DigitValue(p[0]), DigitValue(p[1]));
    assert p == [p[0], p[1]];
  }

  /** `f'{n:02x}'` of a byte is a lower-case hex pair denoting the byte. */
  lemma ByteHexPair(n: int)
    requires 0 <= n < 256
    ensures IsHexPair(FormatHex02(n)) && HexPairNat(FormatHex02(n)) == n
  {
    FormatHexByte(n / 16, n % 16);
    var p := FormatHex02(n);
    assert p == [HexDigit(n / 16), HexDigit(n % 16)];
  }

  /** Printing the value of a lower-case hex pair gives back the pair. */
  lemma FormatHexPair(p: string)
    requires |p| == 2 && IsLowerHex(p[0]) && IsLowerHex(p[1])
    ensures ParseInt(p, 16).Some?
    ensures 0 <= ParseInt(p, 16).value < 256
    ensures FormatHex02(ParseInt(p, 16).value) == p
  {
    HexPairParse(p);
    HexPairFormat(p);
  }

  lemma {:induction false} NatToStringValue(n: nat)
    ensures DigitsValue(NatToString(n), 10) == n
    decreases n
  {
    var s := NatToString(n);
    if n < 10 {
      assert DigitsValue(s, 10) == DigitsValue([], 10) * 10 + DigitValue(DigitChar(n));
    } else {
      NatToStringValue(n / 10);
      DigitsValueAppend(NatToString(n / 10), DigitChar(n % 10), 10);
    }
  }

  lemma DecimalDigitsValid(s: string)
    requires |s| > 0 && forall i :: 0 <= i < |s| ==> '0' <= s[i] <= '9'
    ensures ValidDigits(s, 10)
  {
    AllDigitsValid(s, 10);
  }

  lemma DotIndexNone(s: string)
    requires forall i :: 0 <= i < |s| ==> s[i] != '.'
    ensures DotIndex(s).None?
  {
    if |s| > 0 { DotIndexNone(s[1..]); }
  }

  lemma ExpIndexNone(s: string)
    requires forall i :: 0 <= i < |s| ==> '0' <= s[i] <= '9'
    ensures ExpIndex(s).None?
  {
    if |s| > 0 { ExpIndexNone(s[1..]); }
  }

  /** `int(str(n))` gives back `n`. */
  lemma ParseIntNatToString(n: nat)
    ensures ParseInt(NatToString(n), 10) == Some(n)
  {
    var s := NatToString(n);
    NatToStringValue(n);
    DecimalDigitsValid(s);
    ParseIntPlain(s, 10);
  }

  lemma MantissaPlain(s: string)
    requires ValidDigits(s, 10)
    ensures ParseMantissa(s) == Some(DigitsValue(s, 10) as real)
  {
    forall i | 0 <= i < |s| ensures s[i] != '.' {
      assert DigitOrSeparator(s, i, 10);
    }
    DotIndexNone(s);
  }

  /** `float(str(n))` gives back `n`. */
  lemma ParseFloatNatToString(n: nat)
    ensures ParseFloat(NatToString(n)) == Some(n as real)
  {
    var s := NatToString(n);
    NatToStringValue(n);
    DecimalDigitsValid(s);
    StripNoSpace(s);
    assert SplitSign(s) == (false, s);
    ExpIndexNone(s);
    MantissaPlain(s);
  }
}

=== FILE: pystr.dfy ===
/** The handful of Python `str` operations the converter relies on, with the
    semantics of CPython 3 where they matter (whitespace set, left-to-right
    replacement, character-set stripping). Case mapping is ASCII only. */
module PyStr {
  import opened Wrappers

  /** `str.isspace()` for a single character: exactly the code points CPython 3
      treats as whitespace. */
  predicate IsSpace(c: char) {
    var n := c as int;
    (9 <= n <= 13) || (28 <= n <= 32) || n == 133 || n == 160 || n == 5760
    || (8192 <= n <= 8202) || n == 8232 || n == 8233 || n == 8239 || n == 8287
    || n == 12288
  }

  /** `s.lstrip()` */
  function LStrip(s: string): (r: string)
    ensures |r| <= |s| && r == s[|s| - |r|..]
    ensures forall i :: 0 <= i < |s| - |r| ==> IsSpace(s[i])
    ensures |r| > 0 ==> !IsSpace(r[0])
  {
    if |s| > 0 && IsSpace(s[0]) then LStrip(s[1..]) else s
  }

  /** `s.rstrip()` */
  function RStrip(s: string): (r: string)
    ensures |r| <= |s| && r == s[..|r|]
    ensures forall i :: |r| <= i < |s| ==> IsSpace(s[i])
    ensures |r| > 0 ==> !IsSpace(r[|r| - 1])
  {
    if |s| > 0 && IsSpace(s[|s| - 1]) then RStrip(s[..|s| - 1]) else s
  }

  /** `s.strip()` */
  function Strip(s: string): string {
    RStrip(LStrip(s))
  }

  /** `s.strip()` is the longest slice of `s` with no whitespace at either end. */
  lemma StripSpec(s: string)
    ensures var r := Strip(s);
            && (exists i :: 0 <= i <= |s| - |r| && OccursAt(s, r, i))
            && (|r| > 0 ==> !IsSpace(r[0]) && !IsSpace(r[|r| - 1]))
            && (|r| == 0 <==> forall i :: 0 <= i < |s| ==> IsSpace(s[i]))
  {
    var l := LStrip(s);
    var r := RStrip(l);
    assert r == s[|s| - |l|..|s| - |l| + |r|];
    assert OccursAt(s, r, |s| - |l|);
    assert Strip(s) == r;
    StripEmptyAllSpace(s, l, r);
  }

  lemma StripEmptyAllSpace(s: string, l: string, r: string)
    requires l == LStrip(s) && r == RStrip(l)
    ensures |r| == 0 ==> forall i :: 0 <= i < |s| ==> IsSpace(s[i])
  {
    if |r| == 0 {
      assert |l| == 0;
    }
  }

  /** Python truthiness of `s.strip()`: the string holds a non-whitespace character. */
  predicate NotBlank(s: string) {
    Strip(s) != []
  }

  /** ASCII case folding of one character (`'A'..'Z'` to `'a'..'z'`). */
  function LowerChar(c: char): char {
    if 'A' <= c <= 'Z' then (c as int + 32) as char else c
  }

  /** `s.lower()`, restricted to ASCII letters. */
  function Lower(s: string): (r: string)
    ensures |r| == |s|
    ensures forall i :: 0 <= i < |s| ==> r[i] == LowerChar(s[i])
  {
    seq(|s|, i requires 0 <= i < |s| => LowerChar(s[i]))
  }

  /** `s.startswith(p)` */
  predicate StartsWith(s: string, p: string) {
    |p| <= |s| && s[..|p|] == p
  }

  /** `s.endswith(p)` */
  predicate EndsWith(s: string, p: string) {
    |p| <= |s| && s[|s| - |p|..] == p
  }

  /** `sub` occurs in `s` starting at index `i`. */
  predicate OccursAt(s: string, sub: string, i: int) {
    0 <= i <= |s| - |sub| && s[i..i + |sub|] == sub
  }

  /** `sub in s` */
  predicate Contains(s: string, sub: string) {
    exists i :: 0 <= i <= |s| - |sub| && OccursAt(s, sub, i)
  }

  /** `s.replace(pat, rep)`: every non-overlapping occurrence, scanning left to right. */
  function ReplaceAll(s: string, pat: string, rep: string): (r: string)
    requires |pat| > 0
    ensures !Contains(s, pat) ==> r == s
    decreases |s|
  {
    if |s| < |pat| then s
    else if s[..|pat|] == pat then
      assert Contains(s, pat) by { assert OccursAt(s, pat, 0); }
      rep + ReplaceAll(s[|pat|..], pat, rep)
    else
      ContainsTail(s, pat);
      [s[0]] + ReplaceAll(s[1..], pat, rep)
  }

  lemma ContainsTail(s: string, pat: string)
    requires |s| > 0
    ensures Contains(s[1..], pat) ==> Contains(s, pat)
  {
    if Contains(s[1..], pat) {
      var i :| 0 <= i <= |s[1..]| - |pat| && OccursAt(s[1..], pat, i);
      assert s[1..][i..i + |pat|] == pat;
      assert s[i + 1..i + 1 + |pat|] == s[1..][i..i + |pat|];
      assert OccursAt(s, pat, i + 1);
    }
  }

  /** `s.lstrip(chars)`: drops leading characters that belong to `cs` (a character set, not a prefix). */
  function LStripChars(s: string, cs: set<char>): (r: string)
    ensures |r| <= |s| && r == s[|s| - |r|..]
    ensures forall i :: 0 <= i < |s| - |r| ==> s[i] in cs
    ensures |r| > 0 ==> r[0] !in cs
  {
    if |s| > 0 && s[0] in cs then LStripChars(s[1..], cs) else s
  }

  /** `lstrip(chars)` removes a prefix made of those characters and stops at
      the first character outside them. */
  lemma {:induction false} LStripPrefix(p: string, rest: string, cs: set<char>)
    requires forall i :: 0 <= i < |p| ==> p[i] in cs
    requires |rest| == 0 || rest[0] !in cs
    ensures LStripChars(p + rest, cs) == rest
  {
    if |p| > 0 {
      assert (p + rest)[1..] == p[1..] + rest;
      LStripPrefix(p[1..], rest, cs);
    } else {
      assert p + rest == rest;
    }
  }

  /** Python slice `s[a:b]` for non-negative bounds: out-of-range bounds are clamped. */
  function Slice(s: string, a: nat, b: nat): (r: string)
    ensures a <= b <= |s| ==> r == s[a..b]
    ensures |r| <= |s|
  {
    var lo := if a <= |s| then a else |s|;
    var hi := if b <= |s| then b else |s|;
    if lo <= hi then s[lo..hi] else []
  }

  /** Index of the last occurrence of `c`, if any (`s.rfind(c)` when it is not -1). */
  function LastIndexOf(s: string, c: char): (r: Option<nat>)
    ensures r.Some? ==> r.value < |s| && s[r.value] == c
                        && forall j :: r.value < j < |s| ==> s[j] != c
    ensures r.None? ==> forall j :: 0 <= j < |s| ==> s[j] != c
  {
    if |s| == 0 then None
    else if s[|s| - 1] == c then Some(|s| - 1)
    else LastIndexOf(s[..|s| - 1], c)
  }

  /** One decimal digit. */
  function DigitChar(d: nat): char
    requires d < 10
  {
    "0123456789"[d]
  }

  /** `str(n)` for a natural number. */
  function NatToString(n: nat): (r: string)
    ensures |r| > 0
    ensures forall i :: 0 <= i < |r| ==> '0' <= r[i] <= '9'
    decreases n
  {
    if n < 10 then [DigitChar(n)] else NatToString(n / 10) + [DigitChar(n % 10)]
  }
}

=== FILE: renderer.dfy ===
/** The background renderer's colour and coordinate functions: `hex_to_rgb`,
    the axis, stop bracketing and channel interpolation of a linear gradient,
    the cover-fit crop of a picture, and the tile of a preset pattern with the
    grid it is pasted on. A rendered background is described by the colours
    and coordinates the drawing calls receive; rasterisation, resampling and
    PNG encoding are not modelled. Every canvas is 1920 x 1080. */
module Renderer {
  import opened Wrappers
  import opened PyStr
  import opened PyNum
  import opened Colors
  import opened Package
  import opened Fills
  import opened Seqs

  const SlideW: nat := 1920
  const SlideH: nat := 1080
  const TileSize: nat := 16

  datatype Rgb = Rgb(r: int, g: int, b: int)

  const White := Rgb(255, 255, 255)

  /* ---------------- hex_to_rgb ---------------- */

  /** `int(p, 16)` of the pairs of a six-digit colour. */
  function PairsToRgb(p1: string, p2: string, p3: string): Option<Rgb> {
    var r, g, b := ParseInt(p1, 16), ParseInt(p2, 16), ParseInt(p3, 16);
    if r.Some? && g.Some? && b.Some? then Some(Rgb(r.value, g.value, b.value)) else None
  }

  /** `hex_to_rgb`: every leading `#` is stripped; six characters are read as
      three hex pairs, three characters as three doubled digits, and any other
      length is white. None where Python's `int(…, 16)` raises. */
  function HexToRgb(hex: string): (r: Option<Rgb>)
    ensures var h := LStripChars(hex, {'#'});
            |h| != 6 && |h| != 3 ==> r == Some(White)
    ensures r.None? ==> |LStripChars(hex, {'#'})| == 6 || |LStripChars(hex, {'#'})| == 3
  {
    var h := LStripChars(hex, {'#'});
    if |h| == 6 then PairsToRgb(h[0..2], h[2..4], h[4..6])
    else if |h| == 3 then PairsToRgb([h[0], h[0]], [h[1], h[1]], [h[2], h[2]])
    else Some(White)
  }

  /** Any number of leading `#` is ignored. */
  lemma HexToRgbIgnoresHashes(s: string)
    ensures HexToRgb("#" + s) == HexToRgb(s)
  {
    assert ("#" + s)[1..] == s;
  }

  /** `hex_to_rgb` inverts the `#rrggbb` printing of three bytes. */
  lemma HexToRgbOfHexOf(r: int, g: int, b: int)
    requires 0 <= r < 256 && 0 <= g < 256 && 0 <= b < 256
    ensures HexToRgb(HexOf(r, g, b)) == Some(Rgb(r, g, b))
  {
    var p1, p2, p3 := FormatHex02(r), FormatHex02(g), FormatHex02(b);
    ByteHexPair(r);
    ByteHexPair(g);
    ByteHexPair(b);
    var d := p1 + p2 + p3;
    assert HexOf(r, g, b) == "#" + d;
    LStripPrefix("#", d, {'#'});
    PairsOfSix(p1, p2, p3);
  }

  /** Six lower-case hex digits read as three pairs. */
  lemma PairsOfSix(p1: string, p2: string, p3: string)
    requires IsHexPair(p1) && IsHexPair(p2) && IsHexPair(p3)
    ensures var d := p1 + p2 + p3;
            |d| == 6 && PairsToRgb(d[0..2], d[2..4], d[4..6]) == Some(Rgb(HexPairNat(p1), HexPairNat(p2), HexPairNat(p3)))
  {
    var d := p1 + p2 + p3;
    assert d[0..2] == p1 && d[2..4] == p2 && d[4..6] == p3;
    HexPairParse(p1);
    HexPairParse(p2);
    HexPairParse(p3);
  }

  /** On a canonical colour the renderer's parser and the channel reader used
      by tint and shade agree. */
  lemma HexToRgbAgreesWithChannels(h: string)
    requires IsHexColor(h)
    ensures Channels(h).Some?
    ensures HexToRgb(h) == Some(Rgb(Channels(h).value.0, Channels(h).value.1, Channels(h).value.2))
  {
    ChannelsRoundTrip(h);
    var (r, g, b) := Channels(h).value;
    HexToRgbOfHexOf(r, g, b);
  }

  /** A three-digit colour doubles each digit: `#abc` is `#aabbcc`. */
  lemma HexToRgbShort(x: char, y: char, z: char)
    requires IsLowerHex(x) && IsLowerHex(y) && IsLowerHex(z)
    ensures HexToRgb([x, y, z]) == Some(Rgb(17 * DigitValue(x), 17 * DigitValue(y), 17 * DigitValue(z)))
  {
    LStripPrefix("", [x, y, z], {'#'});
    assert "" + [x, y, z] == [x, y, z];
    DoubledDigit(x);
    DoubledDigit(y);
    DoubledDigit(z);
    PairsToRgbOf([x, x], [y, y], [z, z], 17 * DigitValue(x), 17 * DigitValue(y), 17 * DigitValue(z));
  }

  lemma DoubledDigit(x: char)
    requires IsLowerHex(x)
    ensures ParseInt([x, x], 16) == Some(17 * DigitValue(x))
  {
    var p := [x, x];
    assert IsHexPair(p);
    assert HexPairNat(p) == 17 * DigitValue(x) by {
      assert p[0] == x && p[1] == x;
    }
    HexPairParse(p);
  }

  lemma PairsToRgbOf(p1: string, p2: string, p3: string, a: int, b: int, c: int)
    requires ParseInt(p1, 16) == Some(a) && ParseInt(p2, 16) == Some(b) && ParseInt(p3, 16) == Some(c)
    ensures PairsToRgb(p1, p2, p3) == Some(Rgb(a, b, c))
  {
  }

  /* ---------------- linear gradient ---------------- */

  function Abs(x: real): real {
    if x < 0.0 then -x else x
  }

  /** The gradient is drawn row by row when its angle is within one degree
      of 90 or 270, and column by column for every other angle. */
  predicate IsVertical(angle: real) {
    Abs(angle - 90.0) < 1.0 || Abs(angle - 270.0) < 1.0
  }

  /** The vertical angles are the two open intervals around 90 and 270. */
  lemma IsVerticalIntervals(angle: real)
    ensures IsVertical(angle) <==> (89.0 < angle < 91.0) || (269.0 < angle < 271.0)
  {
  }

  /** Stops `k` and `k + 1` bracket the parameter `t`. */
  predicate Brackets(stops: seq<Stop>, k: int, t: real) {
    0 <= k < |stops| - 1 && stops[k].position <= t <= stops[k + 1].position
  }

  /** The first adjacent pair, from index `i` on, that brackets `t`. */
  function FirstBracket(stops: seq<Stop>, t: real, i: nat): (r: Option<nat>)
    ensures r.Some? ==> i <= r.value && Brackets(stops, r.value, t)
    ensures r.Some? ==> forall j :: i <= j < r.value ==> !Brackets(stops, j, t)
    ensures r.None? ==> forall j :: i <= j < |stops| - 1 ==> !Brackets(stops, j, t)
    decreases |stops| - i
  {
    if i + 1 >= |stops| then None
    else if Brackets(stops, i, t) then Some(i)
    else FirstBracket(stops, t, i + 1)
  }

  /** Where `t` lies between two stop positions, 0 when they coincide. */
  function LocalT(lo: real, hi: real, t: real): real {
    if hi != lo then (t - lo) / (hi - lo) else 0.0
  }

  /** Within a bracketing pair the local parameter stays in [0, 1]. */
  lemma LocalTInUnit(lo: real, hi: real, t: real)
    requires lo <= t <= hi
    ensures 0.0 <= LocalT(lo, hi, t) <= 1.0
  {
    if hi != lo {
      var a, d := t - lo, hi - lo;
      var q := a / d;
      assert q * d == a;
      assert (1.0 - q) * d == d - a;
    }
  }

  /** The left stop, right stop and local parameter for pixel parameter `t`:
      the first bracketing pair, or else the first and last stops with `t`
      itself. */
  function Bracket(stops: seq<Stop>, t: real): (r: (Stop, Stop, real))
    requires |stops| >= 2
    ensures FirstBracket(stops, t, 0).Some? ==>
              var k := FirstBracket(stops, t, 0).value;
              r.0 == stops[k] && r.1 == stops[k + 1] && 0.0 <= r.2 <= 1.0
    ensures FirstBracket(stops, t, 0).None? ==> r == (stops[0], stops[|stops| - 1], t)
  {
    match FirstBracket(stops, t, 0)
    case None => (stops[0], stops[|stops| - 1], t)
    case Some(k) =>
      LocalTInUnit(stops[k].position, stops[k + 1].position, t);
      (stops[k], stops[k + 1], LocalT(stops[k].position, stops[k + 1].position, t))
  }

  /** One interpolated channel, `int(l + (r - l) * t)`. */
  function Channel(l: int, r: int, t: real): int {
    Trunc(Lerp(l, r, t))
  }

  /** The point the fraction `t` of the way from `l` to `r`. */
  function Lerp(l: int, r: int, t: real): real {
    l as real + (r - l) as real * t
  }

  function Min(a: int, b: int): int {
    if a <= b then a else b
  }

  function Max(a: int, b: int): int {
    if a <= b then b else a
  }

  /** For a local parameter in [0, 1] the channel lies between the channels
      of the two stops, and the ends of the range give the stops themselves. */
  lemma ChannelBetween(l: int, r: int, t: real)
    requires 0.0 <= t <= 1.0
    ensures Min(l, r) <= Channel(l, r, t) <= Max(l, r)
    ensures t == 0.0 ==> Channel(l, r, t) == l
    ensures t == 1.0 ==> Channel(l, r, t) == r
  {
    LerpBetween(l, r, t);
    TruncBetween(Lerp(l, r, t), Min(l, r), Max(l, r));
    if t == 0.0 || t == 1.0 {
      TruncOfInt(if t == 0.0 then l else r);
    }
  }

  lemma LerpBetween(l: int, r: int, t: real)
    requires 0.0 <= t <= 1.0
    ensures Min(l, r) as real <= Lerp(l, r, t) <= Max(l, r) as real
    ensures t == 0.0 ==> Lerp(l, r, t) == l as real
    ensures t == 1.0 ==> Lerp(l, r, t) == r as real
  {
    if l <= r {
      ScaleWithin((r - l) as real, t);
    } else {
      ScaleWithin((l - r) as real, t);
      assert (r - l) as real * t == -((l - r) as real * t);
    }
  }

  lemma TruncBetween(x: real, lo: int, hi: int)
    requires lo as real <= x <= hi as real
    ensures lo <= Trunc(x) <= hi
  {
  }

  function Mix(a: Rgb, b: Rgb, t: real): Rgb {
    Rgb(Channel(a.r, b.r, t), Channel(a.g, b.g, t), Channel(a.b, b.b, t))
  }

  /** `a` lies channel-wise between `x` and `y`. */
  predicate Between(a: Rgb, x: Rgb, y: Rgb) {
    Min(x.r, y.r) <= a.r <= Max(x.r, y.r)
    && Min(x.g, y.g) <= a.g <= Max(x.g, y.g)
    && Min(x.b, y.b) <= a.b <= Max(x.b, y.b)
  }

  /** The colour of the line at parameter `t`; None when a stop colour the
      line uses does not parse. */
  function PixelColor(stops: seq<Stop>, t: real): (r: Option<Rgb>)
    requires |stops| >= 2
    ensures r.Some? <==> HexToRgb(Bracket(stops, t).0.color).Some? && HexToRgb(Bracket(stops, t).1.color).Some?
  {
    var (left, right, lt) := Bracket(stops, t);
    match HexToRgb(left.color)
    case None => None
    case Some(a) =>
      match HexToRgb(right.color)
      case None => None
      case Some(b) => Some(Mix(a, b, lt))
  }

  /** Where a pair of stops brackets the line, its colour lies between the
      colours of those two stops. */
  lemma PixelBetweenStops(stops: seq<Stop>, t: real)
    requires |stops| >= 2
    requires FirstBracket(stops, t, 0).Some?
    requires PixelColor(stops, t).Some?
    ensures var k := FirstBracket(stops, t, 0).value;
            HexToRgb(stops[k].color).Some? && HexToRgb(stops[k + 1].color).Some?
            && Between(PixelColor(stops, t).value, HexToRgb(stops[k].color).value, HexToRgb(stops[k + 1].color).value)
  {
    var (left, right, lt) := Bracket(stops, t);
    var a, b := HexToRgb(left.color).value, HexToRgb(right.color).value;
    ChannelBetween(a.r, b.r, lt);
    ChannelBetween(a.g, b.g, lt);
    ChannelBetween(a.b, b.b, lt);
  }

  /** The colour of line `j` of `n`, drawn at parameter `j / n`. */
  function LineColor(stops: seq<Stop>, n: nat, j: int): Option<Rgb> {
    if |stops| >= 2 && n > 0 then PixelColor(stops, j as real / n as real) else None
  }

  function LineColors(stops: seq<Stop>, n: nat): int -> Option<Rgb> {
    j => LineColor(stops, n, j)
  }

  /** The colours of lines `0 .. n - 1`, or None as soon as one line's stop
      colour does not parse. */
  function Lines(stops: seq<Stop>, n: nat): Option<seq<Rgb>> {
    Collect(LineColors(stops, n), 0, n)
  }

  /** The lines are drawn in order, each in its own colour; the gradient fails
      exactly when some line uses a stop colour that does not parse. */
  lemma LinesSpec(stops: seq<Stop>, n: nat)
    ensures Lines(stops, n).Some? ==> |Lines(stops, n).value| == n
    ensures Lines(stops, n).Some? ==> forall j :: 0 <= j < n ==> LineColor(stops, n, j) == Some(Lines(stops, n).value[j])
    ensures Lines(stops, n).None? <==> exists j :: 0 <= j < n && LineColor(stops, n, j).None?
  {
    var f := LineColors(stops, n);
    CollectSpec(f, 0, n);
    if Lines(stops, n).Some? {
      var rows := Lines(stops, n).value;
      forall j | 0 <= j < n
        ensures LineColor(stops, n, j) == Some(rows[j])
      {
        assert f(j) == Some(rows[j - 0]);
      }
    } else {
      var j :| 0 <= j < n && f(j).None?;
      assert LineColor(stops, n, j).None?;
    }
    if exists j :: 0 <= j < n && LineColor(stops, n, j).None? {
      var j :| 0 <= j < n && LineColor(stops, n, j).None?;
      assert f(j).None?;
    }
  }

  /** What a renderer call paints on the 1920 x 1080 canvas. */
  datatype Picture =
    | Flat(color: Rgb)                       // one colour everywhere
    | Rows(rows: seq<Rgb>)                   // row y in colour rows[y]
    | Columns(columns: seq<Rgb>)             // column x in colour columns[x]
    | Covered(image: seq<Byte>, crop: Crop)  // a picture resized and centre-cropped
    | Tiled(background: Rgb, foreground: Rgb, tile: seq<TileOp>)  // a 16 x 16 tile pasted on the tile grid

  /** `render_linear_gradient`: fewer than two stops paint white; otherwise
      one colour per row (vertical axis) or per column. */
  function GradientPicture(stops: seq<Stop>, angle: real): (r: Option<Picture>)
    ensures |stops| < 2 ==> r == Some(Flat(White))
    ensures |stops| >= 2 && r.Some? && IsVertical(angle) ==>
              r.value.Rows? && |r.value.rows| == SlideH
              && forall y :: 0 <= y < SlideH ==> LineColor(stops, SlideH, y) == Some(r.value.rows[y])
    ensures |stops| >= 2 && r.Some? && !IsVertical(angle) ==>
              r.value.Columns? && |r.value.columns| == SlideW
              && forall x :: 0 <= x < SlideW ==> LineColor(stops, SlideW, x) == Some(r.value.columns[x])
    ensures |stops| >= 2 && IsVertical(angle) ==> (r.None? <==> exists y :: 0 <= y < SlideH && LineColor(stops, SlideH, y).None?)
    ensures |stops| >= 2 && !IsVertical(angle) ==> (r.None? <==> exists x :: 0 <= x < SlideW && LineColor(stops, SlideW, x).None?)
  {
    if |stops| < 2 then Some(Flat(White))
    else if IsVertical(angle) then
      LinesSpec(stops, SlideH);
      match Lines(stops, SlideH)
      case None => None
      case Some(rows) => Some(Rows(rows))
    else
      LinesSpec(stops, SlideW);
      match Lines(stops, SlideW)
      case None => None
      case Some(columns) => Some(Columns(columns))
  }

  /* ---------------- cover fit ---------------- */

  /** The resized size of a picture and the origin of the crop taken from it. */
  datatype Crop = Crop(newW: int, newH: int, x: int, y: int)

  function MaxReal(a: real, b: real): real {
    if a <= b then b else a
  }

  /** The cover-fit arithmetic for a `w` x `h` picture: scale by the larger of
      the two axis ratios, truncate, and crop the centre. None where the ratio
      divides by zero. */
  function CoverFit(w: nat, h: nat): (r: Option<Crop>)
    ensures r.None? <==> w == 0 || h == 0
    ensures r.Some? ==> r.value.newW >= SlideW && r.value.newH >= SlideH
    ensures r.Some? ==> r.value.newW == SlideW || r.value.newH == SlideH
    ensures r.Some? ==> 0 <= r.value.x && r.value.x + SlideW <= r.value.newW
                        && 0 <= r.value.y && r.value.y + SlideH <= r.value.newH
    ensures r.Some? ==> 0 <= r.value.newW - SlideW - 2 * r.value.x <= 1
                        && 0 <= r.value.newH - SlideH - 2 * r.value.y <= 1
  {
    if w == 0 || h == 0 then None
    else
      var rw, rh := SlideW as real / w as real, SlideH as real / h as real;
      var ratio := MaxReal(rw, rh);
      CoverScale(w, h, rw, rh, ratio);
      var nw, nh := Trunc(w as real * ratio), Trunc(h as real * ratio);
      Some(Crop(nw, nh, (nw - SlideW) / 2, (nh - SlideH) / 2))
  }

  /** Scaling by the larger ratio reaches both slide sides, and exactly one
      of them when that ratio is the one taken. */
  lemma CoverScale(w: nat, h: nat, rw: real, rh: real, ratio: real)
    requires w > 0 && h > 0
    requires rw == SlideW as real / w as real && rh == SlideH as real / h as real
    requires ratio == MaxReal(rw, rh)
    ensures Trunc(w as real * ratio) >= SlideW && Trunc(h as real * ratio) >= SlideH
    ensures Trunc(w as real * ratio) == SlideW || Trunc(h as real * ratio) == SlideH
  {
    SideReached(w, SlideW, rw, ratio);
    SideReached(h, SlideH, rh, ratio);
    if ratio == rw {
      TruncOfInt(SlideW);
    } else {
      TruncOfInt(SlideH);
    }
  }

  /** Scaling a side `w` by at least `side / w` reaches `side`, exactly when
      the factor is `side / w` itself. */
  lemma SideReached(w: nat, side: nat, q: real, ratio: real)
    requires w > 0 && q == side as real / w as real && ratio >= q
    ensures w as real * ratio >= side as real
    ensures ratio == q ==> w as real * ratio == side as real
  {
    var k := w as real;
    assert k * q == side as real;
    assert k * ratio - k * q == k * (ratio - q);
    assert k * (ratio - q) >= 0.0;
  }

  lemma TruncOfInt(n: int)
    ensures Trunc(n as real) == n
  {
  }

  /** `render_image_background`: a picture that does not decode, or decodes
      to a zero side, paints white. `decode` stands for opening the bytes and
      reading the picture's size. */
  function CoverImage(bytes: seq<Byte>, decode: seq<Byte> -> Option<(nat, nat)>): (r: Picture)
    ensures r.Covered? <==> decode(bytes).Some? && CoverFit(decode(bytes).value.0, decode(bytes).value.1).Some?
    ensures r.Covered? ==> r.image == bytes && r.crop == CoverFit(decode(bytes).value.0, decode(bytes).value.1).value
    ensures !r.Covered? ==> r == Flat(White)
  {
    match decode(bytes)
    case None => Flat(White)
    case Some((w, h)) =>
      match CoverFit(w, h)
      case None => Flat(White)
      case Some(c) => Covered(bytes, c)
  }

  /* ---------------- patterns ---------------- */

  datatype Paint = Fg | Bg

  /** A drawing call on the 16 x 16 tile: a filled rectangle whose corners
      are both included, or a two-pixel foreground line. */
  datatype TileOp =
    | Rect(paint: Paint, x0: int, y0: int, x1: int, y1: int)
    | FgLine(x0: int, y0: int, x1: int, y1: int)

  predicate WithinTile(op: TileOp) {
    0 <= op.x0 <= TileSize && 0 <= op.y0 <= TileSize && 0 <= op.x1 <= TileSize && 0 <= op.y1 <= TileSize
  }

  /** Half a tile, `tile_size // 2`. */
  const Half: nat := 8

  /** The drawing calls for a preset, on a tile already filled with the
      background colour. Unknown presets draw the single diagonal. */
  function PatternTile(preset: string): (ops: seq<TileOp>)
    ensures |ops| >= 1
    ensures forall i :: 0 <= i < |ops| ==> WithinTile(ops[i])
  {
    if preset == "pct50" then [Rect(Fg, 0, 0, Half, Half), Rect(Fg, Half, Half, TileSize, TileSize)]
    else if preset == "pct25" then [Rect(Fg, 0, 0, Half, Half)]
    else if preset == "pct75" then [Rect(Fg, 0, 0, TileSize, TileSize), Rect(Bg, Half, Half, TileSize, TileSize)]
    else if preset == "diagStripe" then [FgLine(0, TileSize, TileSize, 0)]
    else if preset == "diagCross" then [FgLine(0, TileSize, TileSize, 0), FgLine(0, 0, TileSize, TileSize)]
    else if preset == "hsStripe" || preset == "horzStripe" then [Rect(Fg, 0, Half, TileSize, TileSize)]
    else if preset == "vsStripe" || preset == "vertStripe" then [Rect(Fg, Half, 0, TileSize, TileSize)]
    else [FgLine(0, TileSize, TileSize, 0)]
  }

  predicate Covers(op: TileOp, px: int, py: int) {
    op.Rect? && op.x0 <= px <= op.x1 && op.y0 <= py <= op.y1
  }

  /** The paint a tile pixel ends with under the rectangle calls: the last
      rectangle covering it, else the background the tile started with. */
  function RectPaint(ops: seq<TileOp>, px: int, py: int): Paint {
    if |ops| == 0 then Bg
    else if Covers(ops[|ops| - 1], px, py) then ops[|ops| - 1].paint
    else RectPaint(ops[..|ops| - 1], px, py)
  }

  predicate InTile(px: int, py: int) {
    0 <= px < TileSize && 0 <= py < TileSize
  }

  /** `pct50` is a two-quadrant checker whose squares share the pixel (8, 8);
      `pct25` is the top-left quadrant; `pct75` is everything but the
      bottom-right quadrant. */
  lemma PercentPresets(px: int, py: int)
    requires InTile(px, py)
    ensures RectPaint(PatternTile("pct50"), px, py) == Fg <==> (px <= 8 && py <= 8) || (8 <= px && 8 <= py)
    ensures RectPaint(PatternTile("pct25"), px, py) == Fg <==> px <= 8 && py <= 8
    ensures RectPaint(PatternTile("pct75"), px, py) == Fg <==> !(8 <= px && 8 <= py)
  {
    RectPaintTwo(Rect(Fg, 0, 0, Half, Half), Rect(Fg, Half, Half, TileSize, TileSize), px, py);
    RectPaintOne(Rect(Fg, 0, 0, Half, Half), px, py);
    RectPaintTwo(Rect(Fg, 0, 0, TileSize, TileSize), Rect(Bg, Half, Half, TileSize, TileSize), px, py);
  }

  lemma RectPaintOne(a: TileOp, px: int, py: int)
    ensures RectPaint([a], px, py) == if Covers(a, px, py) then a.paint else Bg
  {
    assert [a][..0] == [];
  }

  lemma RectPaintTwo(a: TileOp, b: TileOp, px: int, py: int)
    ensures RectPaint([a, b], px, py) ==
              if Covers(b, px, py) then b.paint else if Covers(a, px, py) then a.paint else Bg
  {
    assert [a, b][..1] == [a];
    RectPaintOne(a, px, py);
  }

  /** Both spellings of a stripe preset draw the same tile: the lower half
      for the horizontal stripe, the right half for the vertical one. */
  lemma StripePresets(px: int, py: int)
    requires InTile(px, py)
    ensures PatternTile("hsStripe") == PatternTile("horzStripe")
    ensures PatternTile("vsStripe") == PatternTile("vertStripe")
    ensures RectPaint(PatternTile("hsStripe"), px, py) == Fg <==> 8 <= py
    ensures RectPaint(PatternTile("vsStripe"), px, py) == Fg <==> 8 <= px
  {
    RectPaintOne(Rect(Fg, 0, Half, TileSize, TileSize), px, py);
    RectPaintOne(Rect(Fg, Half, 0, TileSize, TileSize), px, py);
  }

  /** An unknown preset draws what `diagStripe` draws, and `diagCross` adds
      the other diagonal to it. */
  lemma UnknownPresetIsDiagonal(preset: string)
    requires preset !in {"pct50", "pct25", "pct75", "diagStripe", "diagCross", "hsStripe", "horzStripe", "vsStripe", "vertStripe"}
    ensures PatternTile(preset) == PatternTile("diagStripe")
    ensures PatternTile("diagCross") == PatternTile("diagStripe") + [FgLine(0, 0, TileSize, TileSize)]
  {
  }

  /** The grid of tile origins, row by row: 120 tiles across and 68 down. */
  const TilesAcross: nat := 120
  const TilesDown: nat := 68

  /** `k`-th origin of the paste loop. */
  function TileOrigin(k: nat): (int, int) {
    ((k % TilesAcross) * TileSize, (k / TilesAcross) * TileSize)
  }

  /** The origins the paste loop visits, in order: `y` over 0, 16, …, 1072
      and, inside, `x` over 0, 16, …, 1904. */
  method TileOrigins() returns (origins: seq<(int, int)>)
    ensures |origins| == TilesAcross * TilesDown
    ensures forall k :: 0 <= k < |origins| ==> origins[k] == TileOrigin(k)
    ensures forall k :: 0 <= k < |origins| ==> 0 <= origins[k].0 < SlideW && 0 <= origins[k].1 < SlideH
    ensures forall k :: 0 <= k < |origins| ==> origins[k].0 % TileSize == 0 && origins[k].1 % TileSize == 0
  {
    origins := [];
    var y := 0;
    while y < SlideH
      invariant 0 <= y <= SlideH + TileSize - 1 && y % TileSize == 0
      invariant |origins| == (y / TileSize) * TilesAcross
      invariant forall k :: 0 <= k < |origins| ==> origins[k] == TileOrigin(k)
    {
      var x := 0;
      while x < SlideW
        invariant 0 <= x <= SlideW && x % TileSize == 0
        invariant |origins| == (y / TileSize) * TilesAcross + x / TileSize
        invariant forall k :: 0 <= k < |origins| ==> origins[k] == TileOrigin(k)
      {
        TileOriginAt(y / TileSize, x / TileSize);
        origins := origins + [(x, y)];
        x := x + TileSize;
      }
      y := y + TileSize;
    }
    forall k | 0 <= k < |origins|
      ensures 0 <= origins[k].0 < SlideW && 0 <= origins[k].1 < SlideH
      ensures origins[k].0 % TileSize == 0 && origins[k].1 % TileSize == 0
    {
      TileOriginBounds(k);
    }
  }

  lemma TileOriginAt(row: nat, col: nat)
    requires col < TilesAcross
    ensures TileOrigin(row * TilesAcross + col) == (col * TileSize, row * TileSize)
  {
    var k := row * 120 + col;
    assert k / 120 == row && k % 120 == col;
  }

  lemma TileOriginBounds(k: nat)
    requires k < TilesAcross * TilesDown
    ensures 0 <= TileOrigin(k).0 < SlideW && 0 <= TileOrigin(k).1 < SlideH
    ensures TileOrigin(k).0 % TileSize == 0 && TileOrigin(k).1 % TileSize == 0
  {
  }

  /** Every canvas pixel lies in the tile pasted at grid position
      `(py / 16) * 120 + px / 16`; the last row of tiles overhangs the
      bottom edge by half a tile. */
  lemma TilesCover(px: int, py: int)
    requires 0 <= px < SlideW && 0 <= py < SlideH
    ensures var k := (py / TileSize) * TilesAcross + px / TileSize;
            k < TilesAcross * TilesDown
            && TileOrigin(k).0 <= px < TileOrigin(k).0 + TileSize
            && TileOrigin(k).1 <= py < TileOrigin(k).1 + TileSize
    ensures TilesDown * TileSize == SlideH + Half && TilesAcross * TileSize == SlideW
  {
    TileOriginAt(py / TileSize, px / TileSize);
  }

  /** `render_pattern`: both colours are parsed first (a failure propagates),
      then the tile of the preset is drawn over the background colour. */
  function PatternPicture(preset: string, fg: string, bg: string): (r: Option<Picture>)
    ensures r.Some? <==> HexToRgb(fg).Some? && HexToRgb(bg).Some?
    ensures r.Some? ==> r.value == Tiled(HexToRgb(bg).value, HexToRgb(fg).value, PatternTile(preset))
  {
    match HexToRgb(fg)
    case None => None
    case Some(f) =>
      match HexToRgb(bg)
      case None => None
      case Some(b) => Some(Tiled(b, f, PatternTile(preset)))
  }

  /* ---------------- dispatch ---------------- */

  /** `render_background_as_png` on a parsed background: a solid with a
      colour, an image with bytes, a gradient with stops and any pattern are
      drawn; everything else is white. None where drawing raises on a colour
      that does not parse. */
  function Render(d: BgData, decode: seq<Byte> -> Option<(nat, nat)>): (r: Option<Picture>)
    ensures d.SolidBg? && Truthy(d.color) ==> r == (match HexToRgb(d.color.value) case None => None case Some(c) => Some(Flat(c)))
    ensures d.SolidBg? && !Truthy(d.color) ==> r == Some(Flat(White))
    ensures d.ImageBg? ==> r.Some? && (|d.imageBytes| == 0 ==> r.value == Flat(White))
    ensures d.ImageBg? && |d.imageBytes| > 0 ==> r == Some(CoverImage(d.imageBytes, decode))
    ensures d.GradientBg? && |d.stops| < 2 ==> r == Some(Flat(White))
    ensures d.GradientBg? && |d.stops| >= 2 ==> r == GradientPicture(d.stops, d.angle)
    ensures d.PatternBg? ==> r == PatternPicture(d.patternType, d.fgColor, d.bgColor)
    ensures r.Some? && r.value.Tiled? ==> d.PatternBg?
  {
    match d
    case SolidBg(color, _) =>
      if Truthy(color) then
        match HexToRgb(color.value)
        case None => None
        case Some(c) => Some(Flat(c))
      else Some(Flat(White))
    case ImageBg(bytes) =>
      if |bytes| > 0 then Some(CoverImage(bytes, decode)) else Some(Flat(White))
    case GradientBg(angle, stops) =>
      if |stops| > 0 then GradientPicture(stops, angle) else Some(Flat(White))
    case PatternBg(preset, fg, bg) => PatternPicture(preset, fg, bg)
  }
}

=== FILE: scaling.dfy ===
/** Scaling from PowerPoint points to the 1024 x 576 canvas: the slide size
    gives one factor per axis, and every element dict has its position and
    size fields multiplied by the factor of their axis and rounded. */
module Scaling {
  import opened Wrappers
  import opened Json
  import opened PyNum
  import opened Geometry

  const CanvasWidth: real := 1024.0
  const CanvasHeight: real := 576.0

  /** The slide size assumed when the presentation reports none (16:9). */
  const DefaultWidth: real := 720.0
  const DefaultHeight: real := 405.0

  /** The fields scaled along the horizontal axis. */
  const XKeys: set<string> :=
    {"x", "width", "fontSize", "borderWidth", "lineHeight", "letterSpacing", "padding", "margin", "cellWidth", "cellHeight"}

  /** The fields scaled along the vertical axis. */
  const YKeys: set<string> := {"y", "height"}

  /** `get_slide_dimensions`: the slide size in points, or the default size
      when the presentation has none (the conversion of None raises and the
      raise is caught). */
  function SlideDimensions(slideWidth: Option<int>, slideHeight: Option<int>): (d: (real, real))
    ensures slideWidth.None? || slideHeight.None? ==> d == (DefaultWidth, DefaultHeight)
    ensures slideWidth.Some? && slideHeight.Some? ==>
              d.0 * 12700.0 == slideWidth.value as real && d.1 * 12700.0 == slideHeight.value as real
  {
    if slideWidth.Some? && slideHeight.Some? then (EmuToPoints(slideWidth.value), EmuToPoints(slideHeight.value))
    else (DefaultWidth, DefaultHeight)
  }

  /** `calculate_scale_factor`: None where a zero dimension makes the
      division raise. */
  function ScaleFactor(width: real, height: real): (r: Option<(real, real)>)
    ensures r.Some? <==> width != 0.0 && height != 0.0
    ensures r.Some? ==> r.value.0 * width == CanvasWidth && r.value.1 * height == CanvasHeight
  {
    if width == 0.0 || height == 0.0 then None
    else Some((CanvasWidth / width, CanvasHeight / height))
  }

  /** A slide with the canvas's 16:9 proportions scales both axes alike;
      the default size is such a slide. */
  lemma SixteenByNineScalesUniformly(width: real, height: real)
    requires width > 0.0 && height > 0.0
    requires width * 9.0 == height * 16.0
    ensures ScaleFactor(width, height).Some?
    ensures ScaleFactor(width, height).value.0 == ScaleFactor(width, height).value.1
    ensures ScaleFactor(DefaultWidth, DefaultHeight) == Some((CanvasWidth / DefaultWidth, CanvasWidth / DefaultWidth))
  {
    var sx, sy := CanvasWidth / width, CanvasHeight / height;
    assert sx * width == CanvasWidth;
    assert sy * height == CanvasHeight;
    assert sx * height * 16.0 == sx * width * 9.0 == CanvasWidth * 9.0;
    assert sy * height * 16.0 == CanvasHeight * 16.0 == CanvasWidth * 9.0;
    assert sx * height == sy * height;
  }

  /** `isinstance(v, (int, float))`: the numeric value of a JSON number, or
      1 and 0 for the booleans (a Python `bool` is an `int`). */
  function Numeric(v: Json): (r: Option<real>)
    ensures r.Some? <==> v.JNum? || v.JBool?
  {
    match v
    case JNum(n) => Some(n)
    case JBool(b) => Some(if b then 1.0 else 0.0)
    case _ => None
  }

  /** A JSON number holding a whole number. */
  predicate IsWhole(v: Json) {
    v.JNum? && v.n.Floor as real == v.n
  }

  /** `round(v * s)` for a numeric value; anything else is left alone. */
  function ScaleValue(v: Json, s: real): (r: Json)
    ensures Numeric(v).None? ==> r == v
    ensures Numeric(v).Some? ==> IsWhole(r) && -(0.5) <= r.n - Numeric(v).value * s <= 0.5
  {
    match Numeric(v)
    case None => v
    case Some(n) => JInt(RoundHalfEven(n * s))
  }

  /** The factor a field is scaled by, if any. */
  function FactorOf(k: string, sx: real, sy: real): (r: Option<real>)
    ensures r.Some? <==> k in XKeys || k in YKeys
  {
    if k in YKeys then Some(sy) else if k in XKeys then Some(sx) else None
  }

  function ScaleField(f: (string, Json), sx: real, sy: real): (string, Json) {
    match FactorOf(f.0, sx, sy)
    case None => f
    case Some(s) => (f.0, ScaleValue(f.1, s))
  }

  /** `scale_element_coordinates`: a copy of the dict whose position and
      size fields are scaled, keeping every key in its place. */
  function ScaleElement(fs: seq<(string, Json)>, sx: real, sy: real): (r: seq<(string, Json)>)
    ensures Keys(r) == Keys(fs)
  {
    seq(|fs|, i requires 0 <= i < |fs| => ScaleField(fs[i], sx, sy))
  }

  /** What reading a field of a scaled dict gives: the original value scaled
      by the factor of its axis, or the original value for the other fields. */
  lemma {:induction false} ScaledLookup(fs: seq<(string, Json)>, sx: real, sy: real, k: string)
    ensures Lookup(ScaleElement(fs, sx, sy), k).Some? <==> Lookup(fs, k).Some?
    ensures Lookup(fs, k).Some? && k in YKeys ==> Lookup(ScaleElement(fs, sx, sy), k) == Some(ScaleValue(Lookup(fs, k).value, sy))
    ensures Lookup(fs, k).Some? && k in XKeys && k !in YKeys ==> Lookup(ScaleElement(fs, sx, sy), k) == Some(ScaleValue(Lookup(fs, k).value, sx))
    ensures k !in XKeys && k !in YKeys ==> Lookup(ScaleElement(fs, sx, sy), k) == Lookup(fs, k)
  {
    if |fs| > 0 {
      assert ScaleElement(fs, sx, sy)[1..] == ScaleElement(fs[1..], sx, sy);
      ScaledLookup(fs[1..], sx, sy, k);
    }
  }

  /** Scaled fields hold whole numbers, so scaling a scaled dict again by
      unit factors changes nothing. */
  lemma RescaleByOne(fs: seq<(string, Json)>, sx: real, sy: real)
    ensures ScaleElement(ScaleElement(fs, sx, sy), 1.0, 1.0) == ScaleElement(fs, sx, sy)
  {
    var r := ScaleElement(fs, sx, sy);
    forall i | 0 <= i < |r|
      ensures ScaleField(r[i], 1.0, 1.0) == r[i]
    {
      if FactorOf(r[i].0, 1.0, 1.0).Some? && Numeric(r[i].1).Some? {
        WholeScaledByOne(r[i].1);
      }
    }
  }

  lemma WholeScaledByOne(v: Json)
    requires IsWhole(v)
    ensures ScaleValue(v, 1.0) == v
  {
    RoundOfInt(v.n.Floor);
  }

  /* ---------------- table dicts ---------------- */

  /** The per-cell scaling of a table: `fontSize` and `borderWidth` along
      the horizontal axis. */
  function ScaleCell(cell: Json, sx: real): Json {
    if cell.JObject? then
      JObject(seq(|cell.fields|, i requires 0 <= i < |cell.fields| =>
        if cell.fields[i].0 == "fontSize" || cell.fields[i].0 == "borderWidth"
        then (cell.fields[i].0, ScaleValue(cell.fields[i].1, sx)) else cell.fields[i]))
    else cell
  }

  function ScaleRow(row: Json, sx: real): Json {
    if row.JArray? then JArray(seq(|row.items|, i requires 0 <= i < |row.items| => ScaleCell(row.items[i], sx)))
    else row
  }

  /** The `data` field of a table dict with every cell scaled. */
  function ScaleDataField(f: (string, Json), sx: real): (string, Json) {
    if f.0 == "data" && f.1.JArray? then
      (f.0, JArray(seq(|f.1.items|, i requires 0 <= i < |f.1.items| => ScaleRow(f.1.items[i], sx))))
    else f
  }

  /** The second scaling the table branch applies to `cellWidth` and
      `cellHeight` after the generic one. */
  function RescaleCellSize(f: (string, Json), sx: real, sy: real): (string, Json) {
    if f.0 == "cellWidth" then (f.0, ScaleValue(f.1, sx))
    else if f.0 == "cellHeight" then (f.0, ScaleValue(f.1, sy))
    else f
  }

  /** The table branch of the slide loop as written: the generic scaling,
      then `cellWidth` and `cellHeight` once more, then the cells. */
  function ScaleTableAsWritten(fs: seq<(string, Json)>, sx: real, sy: real): (r: seq<(string, Json)>)
    ensures Keys(r) == Keys(fs)
  {
    var g := ScaleElement(fs, sx, sy);
    seq(|g|, i requires 0 <= i < |g| => ScaleDataField(RescaleCellSize(g[i], sx, sy), sx))
  }

  /** One field of a table dict scaled once along its own axis: the cell
      height vertically, every other field as the generic scaling does, and
      the cells of `data`. */
  function TableField(f: (string, Json), sx: real, sy: real): (string, Json) {
    if f.0 == "cellHeight" then (f.0, ScaleValue(f.1, sy))
    else ScaleDataField(ScaleField(f, sx, sy), sx)
  }

  /** The table branch with each size scaled once along its own axis:
      `cellWidth` horizontally, `cellHeight` vertically, then the cells. */
  function ScaleTable(fs: seq<(string, Json)>, sx: real, sy: real): (r: seq<(string, Json)>)
    ensures Keys(r) == Keys(fs)
  {
    seq(|fs|, i requires 0 <= i < |fs| => TableField(fs[i], sx, sy))
  }

  /** Outside `data`, a scaled table dict reads like any scaled element,
      except that the cell height is scaled vertically; every size is scaled
      exactly once. */
  lemma {:induction false} ScaledTableLookup(fs: seq<(string, Json)>, sx: real, sy: real, k: string)
    requires k != "data"
    ensures k != "cellHeight" ==> Lookup(ScaleTable(fs, sx, sy), k) == Lookup(ScaleElement(fs, sx, sy), k)
    ensures k == "cellHeight" ==> Lookup(ScaleTable(fs, sx, sy), k) == Lookup(ScaleElement(fs, sy, sy), k)
  {
    if |fs| > 0 {
      assert ScaleTable(fs, sx, sy)[1..] == ScaleTable(fs[1..], sx, sy);
      assert ScaleElement(fs, sx, sy)[1..] == ScaleElement(fs[1..], sx, sy);
      assert ScaleElement(fs, sy, sy)[1..] == ScaleElement(fs[1..], sy, sy);
      ScaledTableLookup(fs[1..], sx, sy, k);
    }
  }

  /** A table 100 points per cell each way at the default slide size: scaled
      once the cells are 142 canvas units wide and high, as written they come
      out 202. */
  lemma CellSizeScaledTwice()
    ensures var fs := [("cellWidth", JNum(100.0)), ("cellHeight", JNum(100.0))];
            var sx := CanvasWidth / DefaultWidth;
            var sy := CanvasHeight / DefaultHeight;
            && Lookup(ScaleTable(fs, sx, sy), "cellWidth") == Some(JNum(142.0))
            && Lookup(ScaleTable(fs, sx, sy), "cellHeight") == Some(JNum(142.0))
            && Lookup(ScaleTableAsWritten(fs, sx, sy), "cellWidth") == Some(JNum(202.0))
            && Lookup(ScaleTableAsWritten(fs, sx, sy), "cellHeight") == Some(JNum(202.0))
  {
    var sx := CanvasWidth / DefaultWidth;
    var sy := CanvasHeight / DefaultHeight;
    assert sy == sx;
    assert RoundHalfEven(100.0 * sx) == 142;
    assert RoundHalfEven(142.0 * sx) == 202;
    var fs := [("cellWidth", JNum(100.0)), ("cellHeight", JNum(100.0))];
    assert ScaleTable(fs, sx, sy)[0] == ("cellWidth", JNum(142.0));
    assert ScaleTable(fs, sx, sy)[1] == ("cellHeight", JNum(142.0));
    assert ScaleTableAsWritten(fs, sx, sy)[0] == ("cellWidth", JNum(202.0));
    assert ScaleTableAsWritten(fs, sx, sy)[1] == ("cellHeight", JNum(202.0));
  }
}

=== FILE: schema.dfy ===
/** The output vocabulary: the element, slide and presentation records the
    converter emits, their literal enumerations and defaults, and the dict
    each record dumps to. Element ids (`uuid4`) are not modelled, so the
    dumped dicts leave out the `id` key. */
module Schema {
  import opened Wrappers
  import opened Json

  /* ---------------- literal enumerations ---------------- */

  /** The nine shape literals. */
  datatype ShapeType = Rectangle | Circle | Square | RoundedRectangle | Line | Triangle | Star | Pentagon | Hexagon

  function ShapeTypeName(t: ShapeType): string {
    match t
    case Rectangle => "rectangle"
    case Circle => "circle"
    case Square => "square"
    case RoundedRectangle => "roundedRectangle"
    case Line => "line"
    case Triangle => "triangle"
    case Star => "star"
    case Pentagon => "pentagon"
    case Hexagon => "hexagon"
  }

  /** Validation of a `shapeType` string: exactly the nine literals. */
  function ShapeTypeOfName(s: string): (r: Option<ShapeType>)
    ensures r.Some? <==> s in ShapeTypeNames
  {
    if s == "rectangle" then Some(Rectangle)
    else if s == "circle" then Some(Circle)
    else if s == "square" then Some(Square)
    else if s == "roundedRectangle" then Some(RoundedRectangle)
    else if s == "line" then Some(Line)
    else if s == "triangle" then Some(Triangle)
    else if s == "star" then Some(Star)
    else if s == "pentagon" then Some(Pentagon)
    else if s == "hexagon" then Some(Hexagon)
    else None
  }

  const ShapeTypeNames: set<string> :=
    {"rectangle", "circle", "square", "roundedRectangle", "line", "triangle", "star", "pentagon", "hexagon"}

  /** Every literal validates back to itself, and every valid string is the
      name of the literal it validates to. */
  lemma ShapeTypeNamesRoundTrip(t: ShapeType, s: string)
    ensures ShapeTypeName(t) in ShapeTypeNames
    ensures ShapeTypeOfName(ShapeTypeName(t)) == Some(t)
    ensures ShapeTypeOfName(s).Some? ==> ShapeTypeName(ShapeTypeOfName(s).value) == s
  {
  }

  datatype FontWeight = NormalWeight | Bold
  datatype FontStyle = NormalStyle | Italic
  datatype TextDecoration = NoDecoration | Underline | LineThrough
  datatype TextAlign = AlignLeft | AlignCenter | AlignRight | AlignJustify

  function FontWeightName(w: FontWeight): string {
    match w
    case NormalWeight => "normal"
    case Bold => "bold"
  }

  function FontStyleName(s: FontStyle): string {
    match s
    case NormalStyle => "normal"
    case Italic => "italic"
  }

  function DecorationName(d: TextDecoration): string {
    match d
    case NoDecoration => "none"
    case Underline => "underline"
    case LineThrough => "line-through"
  }

  function AlignName(a: TextAlign): string {
    match a
    case AlignLeft => "left"
    case AlignCenter => "center"
    case AlignRight => "right"
    case AlignJustify => "justify"
  }

  /** Each literal type has distinct names for distinct values, so a dumped
      record determines its enumerated fields. */
  lemma LiteralNamesInjective(a: TextAlign, b: TextAlign, d: TextDecoration, e: TextDecoration,
                              w: FontWeight, v: FontWeight, s: FontStyle, t: FontStyle)
    ensures AlignName(a) == AlignName(b) ==> a == b
    ensures DecorationName(d) == DecorationName(e) ==> d == e
    ensures FontWeightName(w) == FontWeightName(v) ==> w == v
    ensures FontStyleName(s) == FontStyleName(t) ==> s == t
  {
  }

  /* ---------------- element records ---------------- */

  /** `TextElement`: coordinates in points, `color` None for "inherit". */
  datatype TextElement = TextElement(
    content: string, x: real, y: real, width: real, height: real, fontSize: real,
    fontWeight: FontWeight, fontStyle: FontStyle, textDecoration: TextDecoration, textAlign: TextAlign,
    color: Option<string>, rotation: int, fontFamily: string)

  /** `ShapeElement`. */
  datatype ShapeElement = ShapeElement(
    shapeType: ShapeType, x: real, y: real, width: real, height: real,
    fillColor: Option<string>, borderColor: Option<string>, borderWidth: Option<real>, rotation: int)

  /** `ImageElement`: `src` is a data URL. */
  datatype ImageElement = ImageElement(
    x: real, y: real, width: real, height: real, src: string, rotation: int, locked: Option<bool>, isBackground: Option<bool>)

  /** `TableCell`. */
  datatype TableCell = TableCell(
    text: string, bgColor: string, textColor: string, borderColor: string, borderWidth: real, fontSize: real,
    fontFamily: string, fontWeight: FontWeight, fontStyle: FontStyle, textDecoration: TextDecoration, align: TextAlign)

  /** `TableElement`: `data` holds one list of cells per row. */
  datatype TableElement = TableElement(
    x: real, y: real, width: real, height: real, rows: int, cols: int, cellWidth: real, cellHeight: real,
    data: seq<seq<TableCell>>, rotation: int)

  /** An image element built with only its required fields. */
  function NewImage(x: real, y: real, width: real, height: real, src: string, rotation: int): ImageElement {
    ImageElement(x, y, width, height, src, rotation, Some(false), Some(false))
  }

  /** An image element built with only its required fields dumps as type
      "image", not locked and not a background. */
  lemma ImageDefaultsDumped(x: real, y: real, width: real, height: real, src: string, rotation: int)
    ensures var fs := ImageJson(NewImage(x, y, width, height, src, rotation)).fields;
            && ("type", JStr("image")) in fs
            && ("locked", JBool(false)) in fs
            && ("isBackground", JBool(false)) in fs
  {
  }

  /** A text element built with only its required fields. */
  function NewText(content: string, x: real, y: real, width: real, height: real, fontSize: real, fontFamily: string): TextElement {
    TextElement(content, x, y, width, height, fontSize, NormalWeight, NormalStyle, NoDecoration, AlignLeft, None, 0, fontFamily)
  }

  /** A text element built with only its required fields dumps as type
      "text", normal weight and style, no decoration, left aligned, no
      colour and no rotation. */
  lemma TextDefaultsDumped(content: string, x: real, y: real, width: real, height: real, fontSize: real, fontFamily: string)
    ensures var fs := TextJson(NewText(content, x, y, width, height, fontSize, fontFamily)).fields;
            && ("type", JStr("text")) in fs
            && ("fontWeight", JStr("normal")) in fs
            && ("fontStyle", JStr("normal")) in fs
            && ("textDecoration", JStr("none")) in fs
            && ("textAlign", JStr("left")) in fs
            && ("color", JNull) in fs
            && ("rotation", JNum(0.0)) in fs
  {
  }

  /* ---------------- model_dump ---------------- */

  function OptBool(o: Option<bool>): Json {
    match o
    case Some(b) => JBool(b)
    case None => JNull
  }

  function OptNum(o: Option<real>): Json {
    match o
    case Some(n) => JNum(n)
    case None => JNull
  }

  const TextKeys: seq<string> :=
    ["type", "content", "x", "y", "width", "height", "fontSize", "fontWeight", "fontStyle",
     "textDecoration", "textAlign", "color", "rotation", "fontFamily"]

  function TextJson(e: TextElement): (j: Json)
    ensures j.JObject? && Keys(j.fields) == TextKeys
  {
    JObject([("type", JStr("text")), ("content", JStr(e.content)), ("x", JNum(e.x)), ("y", JNum(e.y)),
             ("width", JNum(e.width)), ("height", JNum(e.height)), ("fontSize", JNum(e.fontSize)),
             ("fontWeight", JStr(FontWeightName(e.fontWeight))), ("fontStyle", JStr(FontStyleName(e.fontStyle))),
             ("textDecoration", JStr(DecorationName(e.textDecoration))), ("textAlign", JStr(AlignName(e.textAlign))),
             ("color", OptStr(e.color)), ("rotation", JInt(e.rotation)), ("fontFamily", JStr(e.fontFamily))])
  }

  const ShapeKeys: seq<string> :=
    ["type", "shapeType", "x", "y", "width", "height", "fillColor", "borderColor", "borderWidth", "rotation"]

  function ShapeJson(e: ShapeElement): (j: Json)
    ensures j.JObject? && Keys(j.fields) == ShapeKeys
  {
    JObject([("type", JStr("shape")), ("shapeType", JStr(ShapeTypeName(e.shapeType))), ("x", JNum(e.x)), ("y", JNum(e.y)),
             ("width", JNum(e.width)), ("height", JNum(e.height)), ("fillColor", OptStr(e.fillColor)),
             ("borderColor", OptStr(e.borderColor)), ("borderWidth", OptNum(e.borderWidth)), ("rotation", JInt(e.rotation))])
  }

  const ImageKeys: seq<string> :=
    ["type", "x", "y", "width", "height", "src", "rotation", "locked", "isBackground"]

  function ImageJson(e: ImageElement): (j: Json)
    ensures j.JObject? && Keys(j.fields) == ImageKeys
  {
    JObject([("type", JStr("image")), ("x", JNum(e.x)), ("y", JNum(e.y)), ("width", JNum(e.width)),
             ("height", JNum(e.height)), ("src", JStr(e.src)), ("rotation", JInt(e.rotation)),
             ("locked", OptBool(e.locked)), ("isBackground", OptBool(e.isBackground))])
  }

  const CellKeys: seq<string> :=
    ["text", "bgColor", "textColor", "borderColor", "borderWidth", "fontSize", "fontFamily", "fontWeight",
     "fontStyle", "textDecoration", "align"]

  function CellJson(c: TableCell): (j: Json)
    ensures j.JObject? && Keys(j.fields) == CellKeys
  {
    JObject([("text", JStr(c.text)), ("bgColor", JStr(c.bgColor)), ("textColor", JStr(c.textColor)),
             ("borderColor", JStr(c.borderColor)), ("borderWidth", JNum(c.borderWidth)), ("fontSize", JNum(c.fontSize)),
             ("fontFamily", JStr(c.fontFamily)), ("fontWeight", JStr(FontWeightName(c.fontWeight))),
             ("fontStyle", JStr(FontStyleName(c.fontStyle))), ("textDecoration", JStr(DecorationName(c.textDecoration))),
             ("align", JStr(AlignName(c.align)))])
  }

  function RowJson(row: seq<TableCell>): (j: Json)
    ensures j.JArray? && |j.items| == |row|
    ensures forall i :: 0 <= i < |row| ==> j.items[i] == CellJson(row[i])
  {
    JArray(seq(|row|, i requires 0 <= i < |row| => CellJson(row[i])))
  }

  const TableKeys: seq<string> :=
    ["type", "x", "y", "width", "height", "rows", "cols", "cellWidth", "cellHeight", "data", "rotation"]

  function TableJson(e: TableElement): (j: Json)
    ensures j.JObject? && Keys(j.fields) == TableKeys
  {
    JObject([("type", JStr("table")), ("x", JNum(e.x)), ("y", JNum(e.y)), ("width", JNum(e.width)),
             ("height", JNum(e.height)), ("rows", JInt(e.rows)), ("cols", JInt(e.cols)),
             ("cellWidth", JNum(e.cellWidth)), ("cellHeight", JNum(e.cellHeight)),
             ("data", JArray(seq(|e.data|, i requires 0 <= i < |e.data| => RowJson(e.data[i])))),
             ("rotation", JInt(e.rotation))])
  }

  /* ---------------- slides and the presentation ---------------- */

  /** A slide: its element dicts and the background fields, each optional. */
  datatype SlideRecord = SlideRecord(
    elements: seq<Json>, thumbnail: Option<string>,
    backgroundColor: Option<string>, backgroundImage: Option<string>, backgroundSize: Option<string>,
    backgroundPosition: Option<string>, backgroundRepeat: Option<string>)

  /** A slide with only its elements: no thumbnail and no background. */
  function NewSlide(elements: seq<Json>): (s: SlideRecord)
    ensures s.elements == elements
    ensures s.thumbnail.None? && s.backgroundColor.None? && s.backgroundImage.None?
    ensures s.backgroundSize.None? && s.backgroundPosition.None? && s.backgroundRepeat.None?
  {
    SlideRecord(elements, None, None, None, None, None, None)
  }

  /** `Presentation`. */
  datatype PresentationRecord = PresentationRecord(slides: seq<SlideRecord>, currentSlideIndex: int, version: string, exportedAt: string)

  /** A presentation built from its slides and export time: the first slide
      is current and the format version is "1.0". */
  function NewPresentation(slides: seq<SlideRecord>, exportedAt: string): (p: PresentationRecord)
    ensures p.slides == slides && p.exportedAt == exportedAt
    ensures p.currentSlideIndex == 0 && p.version == "1.0"
  {
    PresentationRecord(slides, 0, "1.0", exportedAt)
  }
}

=== FILE: seqs.dfy ===
/** The three scanning shapes the converter's loops take over a list: stop at
    the first item that yields a value (`for …: if …: return`), keep the last
    item that yields one (a loop that overwrites a variable), and collect
    every value in order (a loop that appends). The characterising facts are
    lemmas, called where a proof needs them. */
module Seqs {
  import opened Wrappers

  /** The value of the first item for which `f` yields one. */
  function FirstSome<T, U>(xs: seq<T>, f: T -> Option<U>): Option<U> {
    if |xs| == 0 then None
    else if f(xs[0]).Some? then f(xs[0])
    else FirstSome(xs[1..], f)
  }

  /** The value of the last item for which `f` yields one. */
  function LastSome<T, U>(xs: seq<T>, f: T -> Option<U>): Option<U> {
    if |xs| == 0 then None
    else if f(xs[|xs| - 1]).Some? then f(xs[|xs| - 1])
    else LastSome(xs[..|xs| - 1], f)
  }

  /** Every value `f` yields, in the order of the items. */
  function FilterMap<T, U>(xs: seq<T>, f: T -> Option<U>): seq<U> {
    if |xs| == 0 then []
    else
      match f(xs[0])
      case Some(y) => [y] + FilterMap(xs[1..], f)
      case None => FilterMap(xs[1..], f)
  }

  /** `FirstSome` stops at the first item that yields a value, and yields
      nothing only when no item does. */
  lemma {:induction false} FirstSomeSpec<T, U>(xs: seq<T>, f: T -> Option<U>)
    ensures FirstSome(xs, f).None? <==> forall i :: 0 <= i < |xs| ==> f(xs[i]).None?
    ensures FirstSome(xs, f).Some? ==>
              exists i :: 0 <= i < |xs| && f(xs[i]) == FirstSome(xs, f)
                          && forall j :: 0 <= j < i ==> f(xs[j]).None?
  {
    if |xs| > 0 && f(xs[0]).None? {
      FirstSomeSpec(xs[1..], f);
      assert forall j :: 1 <= j < |xs| ==> xs[j] == xs[1..][j - 1];
      if FirstSome(xs, f).Some? {
        var i :| 0 <= i < |xs[1..]| && f(xs[1..][i]) == FirstSome(xs, f)
                 && forall j :: 0 <= j < i ==> f(xs[1..][j]).None?;
        assert f(xs[i + 1]) == FirstSome(xs, f);
      }
    }
  }

  /** The first item `f` yields a value for is where `FirstSome` stops. */
  lemma {:induction false} FirstSomeAt<T, U>(xs: seq<T>, f: T -> Option<U>, i: nat)
    requires i < |xs| && f(xs[i]).Some?
    requires forall j :: 0 <= j < i ==> f(xs[j]).None?
    ensures FirstSome(xs, f) == f(xs[i])
  {
    if i > 0 {
      assert forall j :: 0 <= j < i - 1 ==> xs[1..][j] == xs[j + 1];
      FirstSomeAt(xs[1..], f, i - 1);
    }
  }

  /** `LastSome` stops at the last item that yields a value, and yields
      nothing only when no item does. */
  lemma {:induction false} LastSomeSpec<T, U>(xs: seq<T>, f: T -> Option<U>)
    ensures LastSome(xs, f).None? <==> forall i :: 0 <= i < |xs| ==> f(xs[i]).None?
    ensures LastSome(xs, f).Some? ==>
              exists i :: 0 <= i < |xs| && f(xs[i]) == LastSome(xs, f)
                          && forall j :: i < j < |xs| ==> f(xs[j]).None?
  {
    if |xs| > 0 && f(xs[|xs| - 1]).None? {
      var init := xs[..|xs| - 1];
      LastSomeSpec(init, f);
      assert forall j :: 0 <= j < |init| ==> xs[j] == init[j];
    }
  }

  /** `r` is the value of the first item for which `f` yields one, and is
      None only when no item yields one. */
  ghost predicate IsFirstSome<T, U>(xs: seq<T>, f: T -> Option<U>, r: Option<U>) {
    && (r.None? <==> forall i :: 0 <= i < |xs| ==> f(xs[i]).None?)
    && (r.Some? ==> exists i :: 0 <= i < |xs| && f(xs[i]) == r && forall j :: 0 <= j < i ==> f(xs[j]).None?)
  }

  /** `r` is the value of the last item for which `f` yields one, and is
      None only when no item yields one. */
  ghost predicate IsLastSome<T, U>(xs: seq<T>, f: T -> Option<U>, r: Option<U>) {
    && (r.None? <==> forall i :: 0 <= i < |xs| ==> f(xs[i]).None?)
    && (r.Some? ==> exists i :: 0 <= i < |xs| && f(xs[i]) == r && forall j :: i < j < |xs| ==> f(xs[j]).None?)
  }

  lemma FirstSomeIsFirst<T, U>(xs: seq<T>, f: T -> Option<U>)
    ensures IsFirstSome(xs, f, FirstSome(xs, f))
  {
    FirstSomeSpec(xs, f);
  }

  /** `IsFirstSome` pins its value down: it can only be `FirstSome`. */
  lemma FirstSomeUnique<T, U>(xs: seq<T>, f: T -> Option<U>, r: Option<U>)
    requires IsFirstSome(xs, f, r)
    ensures r == FirstSome(xs, f)
  {
    var s := FirstSome(xs, f);
    FirstSomeIsFirst(xs, f);
    if r.Some? && s.Some? {
      var i :| 0 <= i < |xs| && f(xs[i]) == r && forall j :: 0 <= j < i ==> f(xs[j]).None?;
      var k :| 0 <= k < |xs| && f(xs[k]) == s && forall j :: 0 <= j < k ==> f(xs[j]).None?;
      assert i == k;
    }
  }

  lemma LastSomeIsLast<T, U>(xs: seq<T>, f: T -> Option<U>)
    ensures IsLastSome(xs, f, LastSome(xs, f))
  {
    LastSomeSpec(xs, f);
  }

  /** `FilterMap` keeps exactly the values `f` yields, in order. */
  lemma {:induction false} FilterMapSpec<T, U>(xs: seq<T>, f: T -> Option<U>)
    ensures |FilterMap(xs, f)| <= |xs|
    ensures |FilterMap(xs, f)| == 0 <==> forall i :: 0 <= i < |xs| ==> f(xs[i]).None?
    ensures forall k :: 0 <= k < |FilterMap(xs, f)| ==>
              exists i :: 0 <= i < |xs| && f(xs[i]) == Some(FilterMap(xs, f)[k])
  {
    if |xs| > 0 {
      var rest := FilterMap(xs[1..], f);
      FilterMapSpec(xs[1..], f);
      assert forall j :: 1 <= j < |xs| ==> xs[j] == xs[1..][j - 1];
      var r := FilterMap(xs, f);
      forall k | 0 <= k < |r|
        ensures exists i :: 0 <= i < |xs| && f(xs[i]) == Some(r[k])
      {
        if f(xs[0]).Some? {
          if k == 0 {
            assert f(xs[0]) == Some(r[0]);
          } else {
            assert r[k] == rest[k - 1];
            var i :| 0 <= i < |xs[1..]| && f(xs[1..][i]) == Some(rest[k - 1]);
            assert f(xs[i + 1]) == Some(r[k]);
          }
        } else {
          var i :| 0 <= i < |xs[1..]| && f(xs[1..][i]) == Some(rest[k]);
          assert f(xs[i + 1]) == Some(r[k]);
        }
      }
    }
  }

  /** `FilterMap` distributes over concatenation. */
  lemma {:induction false} FilterMapAppend<T, U>(xs: seq<T>, ys: seq<T>, f: T -> Option<U>)
    ensures FilterMap(xs + ys, f) == FilterMap(xs, f) + FilterMap(ys, f)
  {
    if |xs| > 0 {
      assert (xs + ys)[1..] == xs[1..] + ys;
      FilterMapAppend(xs[1..], ys, f);
    } else {
      assert xs + ys == ys;
    }
  }

  /** The values `f` yields at `i, i + 1, …, n - 1`, or None as soon as it
      yields none (a loop that stops at the first failure). */
  function Collect<U>(f: int -> Option<U>, i: int, n: int): Option<seq<U>>
    decreases n - i
  {
    if i >= n then Some([])
    else
      match f(i)
      case None => None
      case Some(y) =>
        match Collect(f, i + 1, n)
        case None => None
        case Some(rest) => Some([y] + rest)
  }

  /** `Collect` succeeds exactly when `f` yields a value at every index, and
      then holds those values in order. */
  lemma {:induction false} CollectSpec<U>(f: int -> Option<U>, i: int, n: int)
    requires i <= n
    ensures Collect(f, i, n).Some? ==> |Collect(f, i, n).value| == n - i
    ensures Collect(f, i, n).Some? ==> forall j :: i <= j < n ==> f(j) == Some(Collect(f, i, n).value[j - i])
    ensures Collect(f, i, n).None? <==> exists j :: i <= j < n && f(j).None?
    decreases n - i
  {
    if i < n && f(i).Some? {
      CollectSpec(f, i + 1, n);
      if Collect(f, i + 1, n).Some? {
        var rest := Collect(f, i + 1, n).value;
        var r := Collect(f, i, n).value;
        assert r == [f(i).value] + rest;
        forall j | i < j < n
          ensures f(j) == Some(r[j - i])
        {
          assert r[j - i] == rest[j - (i + 1)];
        }
      }
    }
  }

  /** A successful `Collect` from 0 holds, at each position, what `f` yields
      there. */
  lemma CollectFromZero<U>(f: int -> Option<U>, n: nat, r: seq<U>)
    requires Collect(f, 0, n) == Some(r)
    ensures |r| == n && forall j :: 0 <= j < n ==> f(j) == Some(r[j])
  {
    CollectSpec(f, 0, n);
  }

  /** The lists `f` yields for the items in order, concatenated, or None as
      soon as it yields none. */
  function FlatCollect<T, U>(xs: seq<T>, f: T -> Option<seq<U>>): Option<seq<U>>
    decreases |xs|
  {
    if |xs| == 0 then Some([])
    else
      match f(xs[0])
      case None => None
      case Some(here) =>
        match FlatCollect(xs[1..], f)
        case None => None
        case Some(rest) => Some(here + rest)
  }

  /** `FlatCollect` distributes over concatenation: the items are handled
      independently and their lists kept in order. */
  lemma {:induction false} FlatCollectAppend<T, U>(xs: seq<T>, ys: seq<T>, f: T -> Option<seq<U>>)
    ensures FlatCollect(xs + ys, f).Some? <==> FlatCollect(xs, f).Some? && FlatCollect(ys, f).Some?
    ensures FlatCollect(xs + ys, f).Some? ==> FlatCollect(xs + ys, f).value == FlatCollect(xs, f).value + FlatCollect(ys, f).value
    decreases |xs|
  {
    if |xs| == 0 {
      assert xs + ys == ys;
    } else {
      assert (xs + ys)[0] == xs[0];
      assert (xs + ys)[1..] == xs[1..] + ys;
      FlatCollectAppend(xs[1..], ys, f);
      if FlatCollect(xs + ys, f).Some? {
        var here := f(xs[0]).value;
        var a, b := FlatCollect(xs[1..], f).value, FlatCollect(ys, f).value;
        assert here + (a + b) == (here + a) + b;
      }
    }
  }

  /** `FlatCollect` succeeds exactly when `f` yields a list for every item. */
  lemma {:induction false} FlatCollectSome<T, U>(xs: seq<T>, f: T -> Option<seq<U>>)
    ensures FlatCollect(xs, f).Some? <==> forall i :: 0 <= i < |xs| ==> f(xs[i]).Some?
    decreases |xs|
  {
    if |xs| > 0 {
      FlatCollectSome(xs[1..], f);
      assert forall i :: 1 <= i < |xs| ==> xs[i] == xs[1..][i - 1];
    }
  }
}

=== FILE: shapes.dfy ===
/** The shape extractor: which of the schema's nine shape types a slide
    shape is, the fill read from its `spPr` XML (a literal sRGB colour first,
    then a theme colour with its tint and shade), the outline colour and
    width, and the shape element built from them. */
module Shapes {
  import opened Wrappers
  import opened Xml
  import opened Colors
  import opened PyStr
  import opened PyNum
  import opened Geometry
  import opened Pptx
  import opened Schema
  import Seqs

  /* ---------------- the shape type ---------------- */

  /** python-pptx's `MSO_AUTO_SHAPE_TYPE` values the classifier names. */
  const RectangleCode := 1
  const RoundedRectangleCode := 5
  const IsoscelesTriangleCode := 7
  const RightTriangleCode := 8
  const OvalCode := 9
  const HexagonCode := 10
  const PentagonCode := 51
  const Star5Code := 92

  function Abs(n: int): nat {
    if n < 0 then -n else n
  }

  /** Width and height within 1000 EMU of each other. */
  predicate Squarish(w: int, h: int) {
    Abs(w - h) < 1000
  }

  /** The preset-geometry branch: the known-shapes table first, then the
      numeric checks in their order; None falls through to the dimensions. */
  function AutoShapeType(code: int, square: bool): (r: Option<ShapeType>)
    ensures r == Some(Circle) <==> code == OvalCode
    ensures r == Some(Square) <==> square && (code == RectangleCode || code == 2)
    ensures r == Some(Rectangle) <==> !square && (code == RectangleCode || code == 2)
    ensures r == Some(Line) <==> 20 <= code <= 25
    ensures r.None? <==> !(code in {1, 2, 5, 6, 7, 8, 9, 10, 51, 56, 92, 182} || 20 <= code <= 25)
  {
    if code == IsoscelesTriangleCode || code == RightTriangleCode then Some(Triangle)
    else if code == Star5Code then Some(Star)
    else if code == PentagonCode then Some(Pentagon)
    else if code == HexagonCode then Some(Hexagon)
    else if code == OvalCode || code == 9 || code == 10 then Some(Circle)
    else if code == 7 || code == 8 then Some(Triangle)
    else if code == 182 then Some(Star)
    else if code == 56 then Some(Pentagon)
    else if code == RectangleCode || code == 1 || code == 2 then Some(if square then Square else Rectangle)
    else if code == RoundedRectangleCode || code == 5 || code == 6 then Some(RoundedRectangle)
    else if 20 <= code <= 25 then Some(Line)
    else None
  }

  /** The closing fallback on the frame's dimensions. */
  function DimensionType(w: int, h: int): (r: Option<ShapeType>)
    ensures r.Some? <==> w > 0 && h > 0
    ensures r == Some(Line) <==> w > 0 && h > 0 && (w < 1000 || h < 1000)
    ensures r == Some(Circle) ==> Squarish(w, h)
    ensures r == Some(Rectangle) ==> !Squarish(w, h)
  {
    if w > 0 && h > 0 then
      if w < 1000 || h < 1000 then Some(Line)
      else if Squarish(w, h) then Some(Circle)
      else Some(Rectangle)
    else None
  }

  /** A `pathLst` or `path` element with children yields its child count. */
  function PathChildren(x: Elem): Option<nat> {
    if (x.tag == "pathLst" || x.tag == "path") && |x.children| > 0 then Some(|x.children|) else None
  }

  /** The point count of a freeform: the geometry total when positive, else
      the child count of the first `pathLst` or `path` element in document
      order that has children. */
  function PointCount(s: Shape): Option<nat> {
    if s.geometryPoints.Some? && s.geometryPoints.value > 0 then s.geometryPoints
    else Seqs.FirstSome(Iter(s.element), PathChildren)
  }

  function PolygonType(count: Option<nat>, square: bool): (r: ShapeType)
    ensures r == Square ==> square
    ensures r == Rectangle ==> !square
  {
    if count == Some(3) then Triangle
    else if count == Some(5) then Pentagon
    else if count == Some(6) then Hexagon
    else if count == Some(10) then Star
    else if square then Square
    else Rectangle
  }

  /** `get_shape_type`: None for groups, for shapes without a size and where
      the dimension fallback finds a non-positive side. A shape whose type
      or preset cannot be read falls back to circle or rectangle by its
      proportions. */
  function ShapeTypeOf(s: Shape): (r: Option<ShapeType>)
    ensures r.Some? ==> s.width.Some? && s.height.Some?
    ensures s.kind == Group ==> r.None?
    ensures s.width.Some? && s.height.Some? ==>
              var w, h := s.width.value, s.height.value;
              && (s.kind == Unreadable || (s.kind == AutoShape && s.autoShapeType.None?) ==>
                    r == Some(if Squarish(w, h) then Circle else Rectangle))
              && (s.kind == AutoShape && s.autoShapeType.Some? && AutoShapeType(s.autoShapeType.value, Squarish(w, h)).Some? ==>
                    r == AutoShapeType(s.autoShapeType.value, Squarish(w, h)))
              && (s.kind == AutoShape && s.autoShapeType.Some? && AutoShapeType(s.autoShapeType.value, Squarish(w, h)).None? ==>
                    r == DimensionType(w, h))
              && (s.kind == Freeform || s.kind == Placeholder ==> r == Some(PolygonType(PointCount(s), Squarish(w, h))))
              && (s.kind !in {Unreadable, AutoShape, Freeform, Placeholder, Group} ==> r == DimensionType(w, h))
  {
    if s.width.None? || s.height.None? then None
    else
      var w, h := s.width.value, s.height.value;
      var square := Squarish(w, h);
      var unreadable := Some(if square then Circle else Rectangle);
      match s.kind
      case Unreadable => unreadable
      case AutoShape =>
        if s.autoShapeType.None? then unreadable
        else
          var t := AutoShapeType(s.autoShapeType.value, square);
          if t.Some? then t else DimensionType(w, h)
      case Freeform => Some(PolygonType(PointCount(s), square))
      case Placeholder => Some(PolygonType(PointCount(s), square))
      case Group => None
      case _ => DimensionType(w, h)
  }

  /** What each shape type takes: a circle is an oval preset or a shape of
      near-equal sides, a line a line preset or a shape under 1000 EMU on a
      side, a square has near-equal sides and a rectangle does not. */
  lemma ShapeTypeEvidence(s: Shape)
    requires ShapeTypeOf(s).Some?
    ensures var w, h := s.width.value, s.height.value;
            && (ShapeTypeOf(s) == Some(Circle) ==> Squarish(w, h) || s.autoShapeType == Some(OvalCode))
            && (ShapeTypeOf(s) == Some(Line) ==>
                  (s.kind == AutoShape && s.autoShapeType.Some? && 20 <= s.autoShapeType.value <= 25) || w < 1000 || h < 1000)
            && (ShapeTypeOf(s) == Some(Square) ==> Squarish(w, h))
            && (ShapeTypeOf(s) == Some(Rectangle) ==> !Squarish(w, h))
  {
  }

  /** A preset other than the rectangle is classified by its code alone,
      whatever the frame's proportions. */
  lemma PresetDecidesType(s: Shape, w2: int, h2: int)
    requires s.kind == AutoShape && s.width.Some? && s.height.Some?
    requires s.autoShapeType.Some? && AutoShapeType(s.autoShapeType.value, true).Some?
    requires s.autoShapeType.value != RectangleCode && s.autoShapeType.value != 2
    ensures ShapeTypeOf(s.(width := Some(w2), height := Some(h2))) == ShapeTypeOf(s)
  {
  }

  /** A single-path triangle written the usual way (`pathLst` holding one
      `path` of a move, two lines and a close) counts one path, not three
      points, and so comes out as a rectangle or square. */
  lemma TrianglePathCountsOnePath(s: Shape, p: Elem, lst: Elem)
    requires s.kind == Freeform && s.geometryPoints.None? && s.width.Some? && s.height.Some?
    requires |p.children| == 4 && p.tag == "path"
    requires lst.tag == "pathLst" && lst.children == [p]
    requires s.element.tag == "sp" && s.element.children == [lst]
    ensures PointCount(s) == Some(1)
    ensures ShapeTypeOf(s) == Some(Square) || ShapeTypeOf(s) == Some(Rectangle)
  {
    IterSmall(s.element);
    IterSmall(lst);
    assert Iter(s.element)[1] == lst;
    Seqs.FirstSomeAt(Iter(s.element), PathChildren, 1);
  }

  /* ---------------- the fill ---------------- */

  /** An `srgbClr` with a non-empty `val` yields that value. */
  function SrgbVal(x: Elem): Option<string> {
    if x.tag == "srgbClr" then GetNonEmpty(x, "val") else None
  }

  /** A `solidFill` yields the first non-empty `srgbClr` value inside it. */
  function SolidFillSrgbVal(x: Elem): Option<string> {
    if x.tag == "solidFill" then Seqs.FirstSome(Iter(x), SrgbVal) else None
  }

  /** `find_srgb_in_solidfill`: the first `srgbClr` value found inside a
      `solidFill`, normalised; the search stops there even when the value
      does not normalise. */
  function FindSrgb(spPr: Elem): (r: Option<string>)
    ensures r.Some? ==> IsHexColor(r.value)
  {
    match Seqs.FirstSome(Iter(spPr), SolidFillSrgbVal)
    case None => None
    case Some(v) => NormalizeHex(v)
  }

  /** `FindSrgb` against its reference: `o` is the value of the first
      `solidFill`, in document order below `spPr`, holding a non-empty
      `srgbClr` (the first such `srgbClr` inside it). The result is `o`
      normalised, and None when no `solidFill` holds one; a value that does
      not normalise ends the search with None. */
  lemma FindSrgbFirst(spPr: Elem, o: Option<string>)
    requires Seqs.IsFirstSome(Iter(spPr), SolidFillSrgbVal, o)
    ensures FindSrgb(spPr) == (if o.Some? then NormalizeHex(o.value) else None)
  {
    Seqs.FirstSomeUnique(Iter(spPr), SolidFillSrgbVal, o);
  }

  /** A `solidFill` reads as the first non-empty `srgbClr` below it, itself
      included; anything else reads as nothing. */
  lemma SolidFillSrgbValFirst(x: Elem)
    ensures x.tag != "solidFill" ==> SolidFillSrgbVal(x).None?
    ensures x.tag == "solidFill" ==> Seqs.IsFirstSome(Iter(x), SrgbVal, SolidFillSrgbVal(x))
  {
    Seqs.FirstSomeIsFirst(Iter(x), SrgbVal);
  }

  /** The theme colour a shape names, with its modifiers. */
  datatype SchemeInfo = SchemeInfo(name: string, tint: Option<int>, shade: Option<int>, lumMod: Option<int>)

  /** A modifier child named `tag` with a non-empty integer `val`. */
  function ModifierOf(tag: string): Elem -> Option<int> {
    (c: Elem) => if c.tag == tag && GetNonEmpty(c, "val").Some? then ParseInt(GetNonEmpty(c, "val").value, 10) else None
  }

  /** `find_scheme_in_solidfill`: the first `schemeClr` anywhere below
      `spPr`; None when it has no name. Each modifier is the last direct
      child of its kind whose value parses. */
  function FindScheme(spPr: Elem): (r: Option<SchemeInfo>)
    ensures r.Some? ==> r.value.name != ""
    ensures FirstWithTag(Iter(spPr), "schemeClr").None? ==> r.None?
    ensures FirstWithTag(Iter(spPr), "schemeClr").Some? ==>
              var sc := FirstWithTag(Iter(spPr), "schemeClr").value;
              && (r.Some? <==> GetNonEmpty(sc, "val").Some?)
              && (r.Some? ==>
                    && r.value.name == GetNonEmpty(sc, "val").value
                    && Seqs.IsLastSome(sc.children, ModifierOf("tint"), r.value.tint)
                    && Seqs.IsLastSome(sc.children, ModifierOf("shade"), r.value.shade)
                    && Seqs.IsLastSome(sc.children, ModifierOf("lumMod"), r.value.lumMod))
  {
    match FirstWithTag(Iter(spPr), "schemeClr")
    case None => None
    case Some(sc) =>
      match GetNonEmpty(sc, "val")
      case None => None
      case Some(name) =>
        Seqs.LastSomeIsLast(sc.children, ModifierOf("tint"));
        Seqs.LastSomeIsLast(sc.children, ModifierOf("shade"));
        Seqs.LastSomeIsLast(sc.children, ModifierOf("lumMod"));
        Some(SchemeInfo(name, Seqs.LastSome(sc.children, ModifierOf("tint")),
                        Seqs.LastSome(sc.children, ModifierOf("shade")), Seqs.LastSome(sc.children, ModifierOf("lumMod"))))
  }

  /** A modifier is applied only when it is present and non-zero. */
  function NonZero(o: Option<int>): (r: Option<int>)
    ensures r.Some? <==> o.Some? && o.value != 0
    ensures r.Some? ==> r == o
  {
    if o.Some? && o.value != 0 then o else None
  }

  /** `extract_shape_fill_color`: the literal colour of the shape's `spPr`
      if there is one; otherwise, when a package is at hand (`m` is its
      theme mapping), the named theme colour with the common-token fallback,
      tinted then shaded. `lumMod` is read but not applied. */
  function FillColor(sp: Elem, m: Option<map<string, string>>): (r: Option<string>)
    ensures FirstWithTag(sp.children, "spPr").None? ==> r.None?
    ensures FirstWithTag(sp.children, "spPr").Some? && FindSrgb(FirstWithTag(sp.children, "spPr").value).Some? ==>
              r == FindSrgb(FirstWithTag(sp.children, "spPr").value)
    ensures m.None? ==> r.None? || IsHexColor(r.value)
    ensures var spPr := FirstWithTag(sp.children, "spPr");
            spPr.Some? && FindSrgb(spPr.value).None? ==>
              && (m.None? || FindScheme(spPr.value).None? ==> r.None?)
              && (m.Some? && FindScheme(spPr.value).Some? ==>
                    var info := FindScheme(spPr.value).value;
                    r == ApplyShade(ApplyTint(ResolveSchemeTruthy(m.value, info.name), NonZero(info.tint)), NonZero(info.shade)))
  {
    match FirstWithTag(sp.children, "spPr")
    case None => None
    case Some(spPr) =>
      var srgb := FindSrgb(spPr);
      if srgb.Some? then srgb
      else if m.None? then None
      else
        match FindScheme(spPr)
        case None => None
        case Some(info) =>
          var resolved := ResolveSchemeTruthy(m.value, info.name);
          if resolved.None? then None
          else ApplyShade(ApplyTint(resolved, NonZero(info.tint)), NonZero(info.shade))
  }

  /** The literal colour written into a shape's fill is the colour read back. */
  lemma SolidFillRoundTrip(sp: Elem, spPr: Elem, fill: Elem, clr: Elem, h: string, m: Option<map<string, string>>)
    requires IsHexColor(h)
    requires clr.tag == "srgbClr" && clr.attrs == [Attr("", "val", h[1..])]
    requires fill.tag == "solidFill" && fill.children == [clr]
    requires spPr.tag == "spPr" && spPr.children == [fill]
    requires sp.children == [spPr]
    ensures FillColor(sp, m) == Some(h)
  {
    assert FirstWithTag(sp.children, "spPr") == Some(spPr) by {
      assert FirstTagIndex(sp.children, "spPr").Some?;
    }
    assert Get(clr, "val") == Some(h[1..]);
    IterSmall(spPr);
    IterSmall(fill);
    IterSmall(clr);
    assert Iter(fill)[1] == clr;
    Seqs.FirstSomeAt(Iter(fill), SrgbVal, 1);
    assert Iter(spPr)[1] == fill;
    Seqs.FirstSomeAt(Iter(spPr), SolidFillSrgbVal, 1);
    NormalizeHexDigits(h);
  }

  /** A theme colour without modifiers resolves as the theme says, and is
      not read at all without a package. */
  lemma SchemeFillResolves(sp: Elem, spPr: Elem, fill: Elem, clr: Elem, name: string, m: map<string, string>)
    requires name != ""
    requires clr.tag == "schemeClr" && clr.attrs == [Attr("", "val", name)] && clr.children == []
    requires fill.tag == "solidFill" && fill.children == [clr]
    requires spPr.tag == "spPr" && spPr.children == [fill]
    requires sp.children == [spPr]
    ensures FillColor(sp, Some(m)) == ResolveSchemeTruthy(m, name)
    ensures FillColor(sp, None).None?
  {
    assert FirstWithTag(sp.children, "spPr") == Some(spPr) by {
      assert FirstTagIndex(sp.children, "spPr").Some?;
    }
    IterSmall(spPr);
    IterSmall(fill);
    IterSmall(clr);
    assert Iter(fill) == [fill, clr];
    assert Iter(spPr) == [spPr, fill, clr];
    NoSrgbInChain(spPr, fill, clr);
    SchemeInChain(spPr, fill, clr, name);
  }

  /** A chain `spPr` > `solidFill` > `schemeClr` holds no literal colour. */
  lemma NoSrgbInChain(spPr: Elem, fill: Elem, clr: Elem)
    requires clr.tag == "schemeClr" && fill.tag == "solidFill" && spPr.tag == "spPr"
    requires Iter(fill) == [fill, clr] && Iter(spPr) == [spPr, fill, clr]
    ensures FindSrgb(spPr).None?
  {
    assert [fill, clr][1..] == [clr] && [clr][1..] == [];
    assert Seqs.FirstSome([clr], SrgbVal) == None;
    assert SolidFillSrgbVal(fill) == None;
    assert [spPr, fill, clr][1..] == [fill, clr];
    assert Seqs.FirstSome([clr], SolidFillSrgbVal) == None;
    assert Seqs.FirstSome([fill, clr], SolidFillSrgbVal) == None;
  }

  /** A chain `spPr` > `solidFill` > `schemeClr` names the scheme colour
      written in `val`, with no modifiers. */
  lemma SchemeInChain(spPr: Elem, fill: Elem, clr: Elem, name: string)
    requires name != ""
    requires clr.tag == "schemeClr" && clr.attrs == [Attr("", "val", name)] && clr.children == []
    requires fill.tag == "solidFill" && spPr.tag == "spPr"
    requires Iter(spPr) == [spPr, fill, clr]
    ensures FindScheme(spPr) == Some(SchemeInfo(name, None, None, None))
  {
    assert FirstTagIndex(Iter(spPr), "schemeClr") == Some(2);
    assert ClarkKey(clr.attrs[0]) == "val";
    assert Get(clr, "val") == Some(name);
  }

  /* ---------------- the outline ---------------- */

  /** `extract_shape_border_color` with the "transparent" default: only an
      RGB-typed colour is reported. */
  function BorderColor(c: ColorFormat): (r: string)
    ensures c.colorType == RgbType && c.rgb.Some? && RgbToHex(c.rgb.value).Some? ==> r == RgbToHex(c.rgb.value).value && r[0] == '#'
    ensures !(c.colorType == RgbType && c.rgb.Some? && RgbToHex(c.rgb.value).Some?) ==> r == "transparent"
  {
    if c.colorType == RgbType && c.rgb.Some? && RgbToHex(c.rgb.value).Some? then RgbToHex(c.rgb.value).value
    else "transparent"
  }

  /** The outline width in whole points; a zero width stays 0. */
  function BorderWidth(lineWidth: int): (r: int)
    ensures lineWidth == 0 ==> r == 0
    ensures -6350 <= r * 12700 - lineWidth <= 6350
  {
    if lineWidth != 0 then RoundedPoints(lineWidth) else 0
  }

  /* ---------------- the element ---------------- */

  /** `shape.has_text_frame and shape.text_frame.text.strip()`. */
  predicate HasText(s: Shape) {
    s.textFrame.Some? && NotBlank(FrameText(s.textFrame.value.paragraphs))
  }

  /** `treat_freeform_as_rectangle`: reached only for a freeform without a
      shape type, which is one without a size, so the conversion of the
      missing size raises, the raise is caught and nothing is produced. */
  function FreeformAsRectangle(s: Shape, m: Option<map<string, string>>): (r: Option<ShapeElement>)
    ensures r.Some? ==> r.value.shapeType == Rectangle && RoundedBox(s.left, s.top, s.width, s.height).Some?
  {
    match RoundedBox(s.left, s.top, s.width, s.height)
    case None => None
    case Some(b) =>
      Some(ShapeElement(Rectangle, b.x as real, b.y as real, b.width as real, b.height as real,
                        FillColor(s.element, m), Some(BorderColor(s.lineColor)), Some(BorderWidth(s.lineWidth) as real),
                        Rotation(s.rotation)))
  }

  /** `extract_shape_from_shape` with text shapes skipped: Some(None) when
      no element is produced, None where the extractor raises (a shape
      whose type cannot be read and that has no size, or a typed shape
      without a position). */
  function ExtractShape(s: Shape, m: Option<map<string, string>>): (r: Option<Option<ShapeElement>>)
    ensures HasText(s) ==> r == Some(None)
    ensures r.None? <==> !HasText(s) && ((ShapeTypeOf(s).None? && s.kind == Unreadable)
                                          || (ShapeTypeOf(s).Some? && (s.left.None? || s.top.None?)))
    ensures r.Some? && r.value.Some? ==>
              && ShapeTypeOf(s) == Some(r.value.value.shapeType)
              && RoundedBox(s.left, s.top, s.width, s.height) ==
                 Some(Box(r.value.value.x.Floor, r.value.value.y.Floor, r.value.value.width.Floor, r.value.value.height.Floor))
              && r.value.value.borderColor == Some(BorderColor(s.lineColor))
              && r.value.value.fillColor == FillColor(s.element, m)
              && r.value.value.borderWidth == Some(BorderWidth(s.lineWidth) as real)
              && r.value.value.rotation == Rotation(s.rotation)
  {
    if HasText(s) then Some(None)
    else
      var t := ShapeTypeOf(s);
      if t.None? && s.kind == Unreadable then None
      else if t.None? && s.kind == Freeform then Some(FreeformAsRectangle(s, m))
      else if t.None? then Some(None)
      else
        match RoundedBox(s.left, s.top, s.width, s.height)
        case None => None
        case Some(b) =>
          Some(Some(ShapeElement(t.value, b.x as real, b.y as real, b.width as real, b.height as real,
                                 FillColor(s.element, m), Some(BorderColor(s.lineColor)),
                                 Some(BorderWidth(s.lineWidth) as real), Rotation(s.rotation))))
  }

  /** The freeform fallback never yields an element. */
  lemma FreeformFallbackEmpty(s: Shape, m: Option<map<string, string>>)
    requires s.kind == Freeform && ShapeTypeOf(s).None?
    ensures FreeformAsRectangle(s, m).None?
    ensures ExtractShape(s, m) == Some(None)
  {
  }
}

=== FILE: slides.dfy ===
/** The slide conversion: every shape of a slide routed to the table, image,
    text or shape extractor, each element dumped and scaled to the canvas,
    the slide's charts appended, and the background fields filled in. */
module Slides {
  import opened Wrappers
  import opened Json
  import opened Schema
  import opened Package
  import Pptx
  import Tables
  import Images
  import Texts
  import Shapes
  import Charts
  import Scaling
  import Background
  import Renderer
  import Seqs

  /* ---------------- dumped and scaled elements ---------------- */

  /** A table dict: generic scaling, then each cell size along its axis
      and the cells' font sizes and border widths. */
  function TableDict(t: TableElement, sx: real, sy: real): (r: Json)
    ensures r.JObject? && Keys(r.fields) == Keys(TableJson(t).fields)
    ensures Lookup(r.fields, "cellWidth") == Lookup(Scaling.ScaleElement(TableJson(t).fields, sx, sy), "cellWidth")
    ensures Lookup(r.fields, "cellHeight") == Lookup(Scaling.ScaleElement(TableJson(t).fields, sy, sy), "cellHeight")
  {
    Scaling.ScaledTableLookup(TableJson(t).fields, sx, sy, "cellWidth");
    Scaling.ScaledTableLookup(TableJson(t).fields, sx, sy, "cellHeight");
    JObject(Scaling.ScaleTable(TableJson(t).fields, sx, sy))
  }

  function ImageDict(i: ImageElement, sx: real, sy: real): Json {
    JObject(Scaling.ScaleElement(ImageJson(i).fields, sx, sy))
  }

  function ShapeDict(e: ShapeElement, sx: real, sy: real): Json {
    JObject(Scaling.ScaleElement(ShapeJson(e).fields, sx, sy))
  }

  function TextDict(e: TextElement, sx: real, sy: real): Json {
    JObject(Scaling.ScaleElement(TextJson(e).fields, sx, sy))
  }

  /** The dicts of a shape's text elements, one per element and in order. */
  function TextDicts(ts: seq<TextElement>, sx: real, sy: real): (r: seq<Json>)
    ensures |r| == |ts| && forall i :: 0 <= i < |ts| ==> r[i] == TextDict(ts[i], sx, sy)
  {
    seq(|ts|, i requires 0 <= i < |ts| => TextDict(ts[i], sx, sy))
  }

  /** A text element's dict keeps its type, its content and its keys, and
      has its position scaled along the horizontal axis. */
  lemma TextDictFields(e: TextElement, sx: real, sy: real)
    ensures TextDict(e, sx, sy).JObject? && Keys(TextDict(e, sx, sy).fields) == TextKeys
    ensures Lookup(TextDict(e, sx, sy).fields, "type") == Some(JStr("text"))
    ensures Lookup(TextDict(e, sx, sy).fields, "content") == Some(JStr(e.content))
    ensures Lookup(TextDict(e, sx, sy).fields, "x") == Some(Scaling.ScaleValue(JNum(e.x), sx))
  {
    TextDictHead(e, sx, sy);
    var r := TextDict(e, sx, sy).fields;
    var r1 := r[1..];
    var r2 := r1[1..];
    assert r1[0] == r[1] && r2[0] == r[2];
    assert Lookup(r2, "x") == Some(r[2].1);
    assert Lookup(r1, "x") == Some(r[2].1);
    assert Lookup(r1, "content") == Some(r[1].1);
  }

  /** The first three fields of a text element's dict. */
  lemma TextDictHead(e: TextElement, sx: real, sy: real)
    ensures var r := TextDict(e, sx, sy).fields;
            && Keys(r) == TextKeys
            && r[0] == ("type", JStr("text")) && r[1] == ("content", JStr(e.content))
            && r[2] == ("x", Scaling.ScaleValue(JNum(e.x), sx))
  {
    var fs := TextJson(e).fields;
    var r := Scaling.ScaleElement(fs, sx, sy);
    assert r[0] == fs[0] && r[1] == fs[1];
    assert r[2] == ("x", Scaling.ScaleValue(JNum(e.x), sx));
  }

  /** The shapes of a group that are not charts, as shape dicts; None where
      one raises. */
  function GroupShapes(cs: seq<Pptx.Shape>, m: Option<map<string, string>>, sx: real, sy: real): (r: Option<seq<Json>>)
    ensures r.Some? ==> |r.value| <= |cs|
    decreases |cs|
  {
    if |cs| == 0 then Some([])
    else
      var here := if Pptx.IsChartShape(cs[0]) then Some(None) else Shapes.ExtractShape(cs[0], m);
      match here
      case None => None
      case Some(o) =>
        match GroupShapes(cs[1..], m, sx, sy)
        case None => None
        case Some(rest) => Some((if o.Some? then [ShapeDict(o.value, sx, sy)] else []) + rest)
  }

  /** The shape dicts drawn for a shape after its text: none for a shape
      with text or a chart; a group's non-chart members; otherwise the
      shape itself, when it makes an element. None where the group test
      raises, on a shape whose `shape_type` cannot be read. */
  function DrawnShapes(s: Pptx.Shape, m: Option<map<string, string>>, sx: real, sy: real): (r: Option<seq<Json>>)
    ensures Shapes.HasText(s) || Pptx.IsChartShape(s) ==> r == Some([])
    ensures !Shapes.HasText(s) && s.kind == Pptx.Unreadable ==> r.None?
    ensures !Shapes.HasText(s) && !Pptx.IsChartShape(s) && s.kind == Pptx.Group ==> r == GroupShapes(s.children, m, sx, sy)
    ensures !Shapes.HasText(s) && !Pptx.IsChartShape(s) && s.kind != Pptx.Group && s.kind != Pptx.Unreadable ==>
              && (r.None? <==> Shapes.ExtractShape(s, m).None?)
              && (r == Some([]) <==> Shapes.ExtractShape(s, m) == Some(None))
              && (Shapes.ExtractShape(s, m).Some? && Shapes.ExtractShape(s, m).value.Some? ==>
                    r == Some([ShapeDict(Shapes.ExtractShape(s, m).value.value, sx, sy)]))
  {
    if Shapes.HasText(s) || Pptx.IsChartShape(s) then Some([])
    else if s.kind == Pptx.Unreadable then None
    else if s.kind == Pptx.Group then GroupShapes(s.children, m, sx, sy)
    else
      match Shapes.ExtractShape(s, m)
      case None => None
      case Some(None) => Some([])
      case Some(Some(e)) => Some([ShapeDict(e, sx, sy)])
  }

  /** The dicts one slide shape contributes, in order; None where an
      extractor raises and nothing catches it. A table that extracts is the
      shape's only element, and so is an image; otherwise the shape's text
      elements come first, then the shapes drawn for it. */
  function ShapeElements(s: Pptx.Shape, m: Option<map<string, string>>, sx: real, sy: real): (r: Option<seq<Json>>)
    ensures Tables.ExtractTable(s, m).Some? ==> r == Some([TableDict(Tables.ExtractTable(s, m).value, sx, sy)])
    ensures Tables.ExtractTable(s, m).None? && Images.ExtractImage(s).Some? ==>
              r == Some([ImageDict(Images.ExtractImage(s).value, sx, sy)])
    ensures Tables.ExtractTable(s, m).None? && Images.ExtractImage(s).None? ==>
              (r.Some? <==> Texts.ExtractText(s, m).Some? && DrawnShapes(s, m, sx, sy).Some?)
              && (r.Some? ==> r.value == TextDicts(Texts.ExtractText(s, m).value, sx, sy) + DrawnShapes(s, m, sx, sy).value)
  {
    match Tables.ExtractTable(s, m)
    case Some(t) => Some([TableDict(t, sx, sy)])
    case None =>
      match Images.ExtractImage(s)
      case Some(i) => Some([ImageDict(i, sx, sy)])
      case None =>
        match Texts.ExtractText(s, m)
        case None => None
        case Some(ts) =>
          match DrawnShapes(s, m, sx, sy)
          case None => None
          case Some(ds) => Some(TextDicts(ts, sx, sy) + ds)
  }

  /** A shape that shows text is not also drawn as a shape: all its dicts
      are text dicts. */
  lemma TextShapeNotDrawn(s: Pptx.Shape, m: Option<map<string, string>>, sx: real, sy: real)
    requires Tables.ExtractTable(s, m).None? && Images.ExtractImage(s).None?
    requires Shapes.HasText(s) && ShapeElements(s, m, sx, sy).Some?
    ensures forall i :: 0 <= i < |ShapeElements(s, m, sx, sy).value| ==>
              ShapeElements(s, m, sx, sy).value[i].JObject?
              && Lookup(ShapeElements(s, m, sx, sy).value[i].fields, "type") == Some(JStr("text"))
  {
    var ts := Texts.ExtractText(s, m).value;
    assert ShapeElements(s, m, sx, sy).value == TextDicts(ts, sx, sy);
    forall i | 0 <= i < |ts|
      ensures Lookup(TextDict(ts[i], sx, sy).fields, "type") == Some(JStr("text"))
    {
      TextDictFields(ts[i], sx, sy);
    }
  }

  function ShapeElementsOf(m: Option<map<string, string>>, sx: real, sy: real): Pptx.Shape -> Option<seq<Json>> {
    (s: Pptx.Shape) => ShapeElements(s, m, sx, sy)
  }

  /** The dicts of the slide's shapes, shape by shape; None where one raises. */
  function ShapesElements(shapes: seq<Pptx.Shape>, m: Option<map<string, string>>, sx: real, sy: real): (r: Option<seq<Json>>)
    ensures r.Some? <==> forall i :: 0 <= i < |shapes| ==> ShapeElements(shapes[i], m, sx, sy).Some?
  {
    Seqs.FlatCollectSome(shapes, ShapeElementsOf(m, sx, sy));
    Seqs.FlatCollect(shapes, ShapeElementsOf(m, sx, sy))
  }

  /** Shapes are converted independently and their dicts kept in z-order:
      the dicts of two runs of shapes are those of each, concatenated; and
      the slide converts exactly when every shape does. */
  lemma ShapesElementsAppend(xs: seq<Pptx.Shape>, ys: seq<Pptx.Shape>, m: Option<map<string, string>>, sx: real, sy: real)
    ensures ShapesElements(xs + ys, m, sx, sy).Some? <==> ShapesElements(xs, m, sx, sy).Some? && ShapesElements(ys, m, sx, sy).Some?
    ensures ShapesElements(xs + ys, m, sx, sy).Some? ==>
              ShapesElements(xs + ys, m, sx, sy).value == ShapesElements(xs, m, sx, sy).value + ShapesElements(ys, m, sx, sy).value
    ensures ShapesElements(xs, m, sx, sy).Some? <==> forall i :: 0 <= i < |xs| ==> ShapeElements(xs[i], m, sx, sy).Some?
  {
    Seqs.FlatCollectAppend(xs, ys, ShapeElementsOf(m, sx, sy));
    Seqs.FlatCollectSome(xs, ShapeElementsOf(m, sx, sy));
  }

  /* ---------------- slides ---------------- */

  function ChartDicts(cs: seq<Charts.ChartElement>): (r: seq<Json>)
    ensures |r| == |cs| && forall i :: 0 <= i < |cs| ==> r[i] == Charts.ChartJson(cs[i])
  {
    seq(|cs|, i requires 0 <= i < |cs| => Charts.ChartJson(cs[i]))
  }

  /** What the slide conversion consults outside the package: the workbook
      loader, the image-size reader and the PNG encoder. */
  datatype Services = Services(
    load: seq<Byte> -> Option<Charts.Workbook>,
    decode: seq<Byte> -> Option<(nat, nat)>,
    png: Renderer.Picture -> seq<Byte>)

  /** The slide dict of slide `index`: its shapes' dicts, then its charts,
      then the background fields; no thumbnail. None where a raise is not
      caught. */
  function ConvertSlide(a: Option<Archive>, index: nat, s: Pptx.Slide, sx: real, sy: real, io: Services): (r: Option<SlideRecord>)
    ensures r.Some? <==> ShapesElements(s.shapes, Some(Background.MappingOf(a)), sx, sy).Some?
                         && Charts.SlideCharts(a, s.shapes, sx, sy, io.load).Some?
                         && Background.ExtractSlideBackground(a, Some(index), Background.SlideRef(s.layoutPart, s.masterPart, s.backgroundRgb), io.decode, io.png).Some?
    ensures r.Some? ==>
              var own := ShapesElements(s.shapes, Some(Background.MappingOf(a)), sx, sy).value;
              var charts := Charts.SlideCharts(a, s.shapes, sx, sy, io.load).value;
              && r.value.elements == own + ChartDicts(charts)
              && r.value.thumbnail.None?
              && Background.ExactlyOne(Background.BackgroundInfo(r.value.backgroundColor, r.value.backgroundImage,
                                                                 r.value.backgroundSize, r.value.backgroundPosition, r.value.backgroundRepeat))
  {
    var m := Some(Background.MappingOf(a));
    match ShapesElements(s.shapes, m, sx, sy)
    case None => None
    case Some(own) =>
      match Charts.SlideCharts(a, s.shapes, sx, sy, io.load)
      case None => None
      case Some(charts) =>
        match Background.ExtractSlideBackground(a, Some(index), Background.SlideRef(s.layoutPart, s.masterPart, s.backgroundRgb), io.decode, io.png)
        case None => None
        case Some(bg) =>
          Some(SlideRecord(own + ChartDicts(charts), None, bg.color, bg.image, bg.size, bg.position, bg.repeat))
  }

  /** A presentation as python-pptx opens it: the slide size in EMU (None
      where it reports none) and the slides in order. */
  datatype Deck = Deck(slideWidth: Option<int>, slideHeight: Option<int>, slides: seq<Pptx.Slide>)

  function SlideOf(a: Option<Archive>, slides: seq<Pptx.Slide>, sx: real, sy: real, io: Services): int -> Option<SlideRecord> {
    (i: int) => if 0 <= i < |slides| then ConvertSlide(a, i, slides[i], sx, sy, io) else None
  }

  /** `extract_text_from_pptx`: one slide dict per slide, each slide's
      elements scaled by the factors of the slide size; None where a raise
      is not caught (a zero slide dimension among them). */
  function ConvertDeck(a: Option<Archive>, d: Deck, io: Services): (r: Option<seq<SlideRecord>>)
    ensures r.Some? ==> Scaling.ScaleFactor(Scaling.SlideDimensions(d.slideWidth, d.slideHeight).0,
                                            Scaling.SlideDimensions(d.slideWidth, d.slideHeight).1).Some?
  {
    var dims := Scaling.SlideDimensions(d.slideWidth, d.slideHeight);
    match Scaling.ScaleFactor(dims.0, dims.1)
    case None => None
    case Some(f) => Seqs.Collect(SlideOf(a, d.slides, f.0, f.1, io), 0, |d.slides|)
  }

  /** Slide dicts match slides one to one: the dict at position i is slide
      i converted with its own index and the deck's scale factors. */
  lemma DeckOneToOne(a: Option<Archive>, d: Deck, io: Services)
    ensures ConvertDeck(a, d, io).Some? ==>
              var dims := Scaling.SlideDimensions(d.slideWidth, d.slideHeight);
              var f := Scaling.ScaleFactor(dims.0, dims.1).value;
              && |ConvertDeck(a, d, io).value| == |d.slides|
              && forall i :: 0 <= i < |d.slides| ==>
                   Some(ConvertDeck(a, d, io).value[i]) == ConvertSlide(a, i, d.slides[i], f.0, f.1, io)
  {
    var dims := Scaling.SlideDimensions(d.slideWidth, d.slideHeight);
    if Scaling.ScaleFactor(dims.0, dims.1).Some? {
      var f := Scaling.ScaleFactor(dims.0, dims.1).value;
      var g := SlideOf(a, d.slides, f.0, f.1, io);
      if ConvertDeck(a, d, io).Some? {
        var r := ConvertDeck(a, d, io).value;
        Seqs.CollectFromZero(g, |d.slides|, r);
        forall i | 0 <= i < |d.slides|
          ensures Some(r[i]) == ConvertSlide(a, i, d.slides[i], f.0, f.1, io)
        {
          assert g(i) == Some(r[i]);
        }
      }
    }
  }
}

=== FILE: tables.dfy ===
/** Tables: every cell's background, border, text colour, font and
    alignment, the fallback palette applied where a cell reports the default
    white, and the frame and cell size of the table. */
module Tables {
  import opened Wrappers
  import opened Xml
  import opened Colors
  import opened PyStr
  import opened PyNum
  import opened Geometry
  import opened Schema
  import Pptx
  import Texts
  import Seqs

  /** The default cell colour, upper case as the extractor writes it. */
  const White: string := "#FFFFFF"

  /** The default text colour. */
  const Black: string := "#000000"

  /** The border width, in points, of a cell whose XML names none. */
  const DefaultBorderWidth: int := 2

  /** A colour string with its leading `#`. */
  predicate Hashed(s: string) {
    |s| >= 1 && s[0] == '#'
  }

  /** A theme mapping whose every colour is a `#` colour (the theme reader
      only builds such mappings). */
  predicate HashedValues(m: Option<map<string, string>>) {
    m.Some? ==> forall k :: k in m.value ==> Hashed(m.value[k])
  }

  /* ---------------- preset colours ---------------- */

  /** The preset colour names the table reader knows, with their colours. */
  const PresetColors: map<string, string> := map[
    "black" := "#000000", "white" := "#FFFFFF", "red" := "#FF0000", "green" := "#00FF00",
    "blue" := "#0000FF", "yellow" := "#FFFF00", "cyan" := "#00FFFF", "magenta" := "#FF00FF"]

  /** A `prstClr` name, looked up case-insensitively. */
  function PresetColor(name: string): (r: Option<string>)
    ensures r.Some? ==> Hashed(r.value) && |r.value| == 7
  {
    var l := Lower(name);
    if l in PresetColors then Some(PresetColors[l]) else None
  }

  /** The lookup ignores case: `RED`, `Red` and `red` name one colour, and
      exactly the eight known names resolve. */
  lemma PresetColorCaseInsensitive(name: string)
    ensures PresetColor(name) == PresetColor(Lower(name))
    ensures PresetColor(name).Some? <==> Lower(name) in {"black", "white", "red", "green", "blue", "yellow", "cyan", "magenta"}
  {
    assert Lower(Lower(name)) == Lower(name);
  }

  /* ---------------- colour children ---------------- */

  /** A literal or theme colour element as the fill and border readers take
      it: an `srgbClr` value read with `EnsureHash`, or, with a package at
      hand, a theme name resolved by membership in the mapping and then the
      light/dark fallback. Anything else, an unresolved name included, is
      passed over. */
  function LiteralOrTheme(m: Option<map<string, string>>): Elem -> Option<string> {
    (x: Elem) =>
      if x.tag == "srgbClr" && GetNonEmpty(x, "val").Some? then Some(EnsureHash(GetNonEmpty(x, "val").value))
      else if x.tag == "schemeClr" && GetNonEmpty(x, "val").Some? && m.Some? then ResolveScheme(m.value, GetNonEmpty(x, "val").value)
      else None
  }

  /** `LiteralOrTheme`, and also a known `prstClr`. */
  function AnyColor(m: Option<map<string, string>>): Elem -> Option<string> {
    (x: Elem) =>
      if x.tag == "prstClr" && GetNonEmpty(x, "val").Some? then PresetColor(GetNonEmpty(x, "val").value)
      else LiteralOrTheme(m)(x)
  }

  /** A `solidFill` yields the first of its direct children that `pick`
      reads as a colour. */
  function SolidFillColor(pick: Elem -> Option<string>): Elem -> Option<string> {
    (x: Elem) => if x.tag == "solidFill" then Seqs.FirstSome(x.children, pick) else None
  }

  lemma AnyColorHashed(m: Option<map<string, string>>, x: Elem)
    requires HashedValues(m)
    ensures LiteralOrTheme(m)(x).Some? ==> Hashed(LiteralOrTheme(m)(x).value)
    ensures AnyColor(m)(x).Some? ==> Hashed(AnyColor(m)(x).value)
    ensures Texts.XmlColorIn(m)(x).Some? ==> Hashed(Texts.XmlColorIn(m)(x).value)
  {
  }

  /** A scan that only ever picks `#` colours yields a `#` colour. */
  lemma FirstSomeHashed(xs: seq<Elem>, f: Elem -> Option<string>)
    requires forall x :: f(x).Some? ==> Hashed(f(x).value)
    ensures Seqs.FirstSome(xs, f).Some? ==> Hashed(Seqs.FirstSome(xs, f).value)
  {
    Seqs.FirstSomeSpec(xs, f);
  }

  lemma LastSomeHashed(xs: seq<Elem>, f: Elem -> Option<string>)
    requires forall x :: f(x).Some? ==> Hashed(f(x).value)
    ensures Seqs.LastSome(xs, f).Some? ==> Hashed(Seqs.LastSome(xs, f).value)
  {
    Seqs.LastSomeSpec(xs, f);
  }

  lemma SolidFillHashed(pick: Elem -> Option<string>)
    requires forall x :: pick(x).Some? ==> Hashed(pick(x).value)
    ensures forall x :: SolidFillColor(pick)(x).Some? ==> Hashed(SolidFillColor(pick)(x).value)
  {
    forall x | SolidFillColor(pick)(x).Some?
      ensures Hashed(SolidFillColor(pick)(x).value)
    {
      FirstSomeHashed(x.children, pick);
    }
  }

  /* ---------------- background ---------------- */

  /** The python-pptx fast path: the `.rgb` of a solid fill's foreground
      colour, or of a gradient's first stop, printed by `rgb_to_hex`. */
  function FastPathColor(f: Pptx.CellFill): (r: Option<string>)
    ensures r.Some? <==> (f.SolidCellFill? && f.rgb.Some?) || (f.GradientCellFill? && f.firstStopRgb.Some?)
    ensures r.Some? ==> Hashed(r.value)
  {
    match f
    case SolidCellFill(rgb) => if rgb.Some? then Some(RgbToHexOrBlack(rgb.value)) else None
    case GradientCellFill(rgb) => if rgb.Some? then Some(RgbToHexOrBlack(rgb.value)) else None
    case OtherCellFill => None
  }

  /** The colour of the first `solidFill` among the children of the cell's
      first `tcPr`, presets included. */
  function TcPrColor(tc: Elem, m: Option<map<string, string>>): (r: Option<string>)
    ensures FirstWithTag(tc.children, "tcPr").None? ==> r.None?
    ensures FirstWithTag(tc.children, "tcPr").Some? ==>
              Seqs.IsFirstSome(FirstWithTag(tc.children, "tcPr").value.children, SolidFillColor(AnyColor(m)), r)
  {
    match FirstWithTag(tc.children, "tcPr")
    case None => None
    case Some(p) =>
      Seqs.FirstSomeIsFirst(p.children, SolidFillColor(AnyColor(m)));
      Seqs.FirstSome(p.children, SolidFillColor(AnyColor(m)))
  }

  /** `extract_cell_fill_color`: the fast path, then the `tcPr` fill, then
      any `solidFill` anywhere in the cell (without presets), else white. */
  function CellFillColor(c: Pptx.Cell, m: Option<map<string, string>>): (r: string)
    ensures FastPathColor(c.fill).Some? ==> r == FastPathColor(c.fill).value
    ensures FastPathColor(c.fill).None? && TcPrColor(c.element, m).Some? ==> r == TcPrColor(c.element, m).value
  {
    match FastPathColor(c.fill)
    case Some(h) => h
    case None =>
      match TcPrColor(c.element, m)
      case Some(h) => h
      case None => Seqs.FirstSome(Iter(c.element), SolidFillColor(LiteralOrTheme(m))).GetOr(White)
  }

  /** The third step against its reference: with neither the API colour
      nor a `tcPr` colour, the result is `o`, the colour of the first
      `solidFill` in document order anywhere in the cell (run properties
      included) that holds an `srgbClr` or a resolvable `schemeClr`, presets
      not counted; when there is none, the upper-case default `#FFFFFF`. */
  lemma CellFillScan(c: Pptx.Cell, m: Option<map<string, string>>, o: Option<string>)
    requires Seqs.IsFirstSome(Iter(c.element), SolidFillColor(LiteralOrTheme(m)), o)
    ensures FastPathColor(c.fill).None? && TcPrColor(c.element, m).None? ==>
              CellFillColor(c, m) == (if o.Some? then o.value else White)
  {
    Seqs.FirstSomeUnique(Iter(c.element), SolidFillColor(LiteralOrTheme(m)), o);
  }

  /** A cell with no colour in any of the three places reads as white. */
  lemma CellWithoutColourIsWhite(c: Pptx.Cell, m: Option<map<string, string>>)
    requires FastPathColor(c.fill).None? && TcPrColor(c.element, m).None?
    requires forall i :: 0 <= i < |Iter(c.element)| ==> SolidFillColor(LiteralOrTheme(m))(Iter(c.element)[i]).None?
    ensures CellFillColor(c, m) == White
  {
    CellFillScan(c, m, None);
  }

  /** `has_fill`: a solid fill whose foreground colour has an `.rgb`. */
  predicate HasFill(f: Pptx.CellFill) {
    f.SolidCellFill? && f.rgb.Some?
  }

  /** A cell with `has_fill` never reports the default white: the fast path
      prints lower-case digits (or black), never `#FFFFFF`. */
  lemma FilledCellNeverDefault(c: Pptx.Cell, m: Option<map<string, string>>)
    ensures HasFill(c.fill) ==> CellFillColor(c, m) != White
  {
    if HasFill(c.fill) {
      match RgbToHex(c.fill.rgb.value)
      case None =>
      case Some(h) =>
        if |h| == 7 {
          assert IsLowerHex(h[1]) || h[1] == '-';
          assert White[1] == 'F';
        }
    }
  }

  /** The row colours used where a cell reports the default white. */
  datatype Palette = Palette(bg: string, text: string, border: string)

  /** `get_fallback_cell_colors`: blue for the header row, then two light
      blues alternating, odd rows first; borders always white. */
  function FallbackColors(row: nat, isHeader: bool): (p: Palette)
    ensures p.border == White
  {
    if isHeader || row == 0 then Palette("#2196F3", "#070707", White)
    else if row % 2 == 1 then Palette("#BBDEFB", "#ff0f0f", White)
    else Palette("#E3F2FD", "#ff0f0f", White)
  }

  /** Below the header the palette repeats every two rows, and neighbouring
      rows differ. */
  lemma FallbackAlternates(row: nat)
    requires row >= 1
    ensures FallbackColors(row + 2, false) == FallbackColors(row, false)
    ensures FallbackColors(row + 1, false).bg != FallbackColors(row, false).bg
    ensures FallbackColors(row, false).bg != FallbackColors(0, true).bg
  {
  }

  /** The background a cell reports: the extracted colour, unless it is the
      default white on a cell without `has_fill`, where the row's fallback
      colour stands in. Since a filled cell never reports white, the
      fallback applies exactly when the extracted colour is white. */
  function CellBackground(c: Pptx.Cell, m: Option<map<string, string>>, row: nat): (r: string)
    ensures CellFillColor(c, m) == White ==> r == FallbackColors(row, row == 0).bg
    ensures CellFillColor(c, m) != White ==> r == CellFillColor(c, m)
  {
    var e := CellFillColor(c, m);
    if e == White && !HasFill(c.fill) then FallbackColors(row, row == 0).bg
    else
      FilledCellNeverDefault(c, m);
      e
  }

  /** A literal colour in the cell's `tcPr` fill is the cell's background
      (a literal is lower case, so never the default white). */
  lemma CellFillLiteralRoundTrip(c: Pptx.Cell, tcPr: Elem, fill: Elem, clr: Elem, h: string, m: Option<map<string, string>>, row: nat)
    requires IsHexColor(h)
    requires c.fill == Pptx.OtherCellFill
    requires clr.tag == "srgbClr" && clr.attrs == [Attr("", "val", h[1..])]
    requires fill.tag == "solidFill" && fill.children == [clr]
    requires tcPr.tag == "tcPr" && tcPr.children == [fill]
    requires c.element.children == [tcPr]
    ensures CellFillColor(c, m) == h
    ensures CellBackground(c, m, row) == h
  {
    assert FirstWithTag(c.element.children, "tcPr") == Some(tcPr);
    assert Get(clr, "val") == Some(h[1..]);
    assert GetNonEmpty(clr, "val") == Some(h[1..]);
    assert forall i :: 0 <= i < |h[1..]| ==> LowerChar(h[1..][i]) == h[1..][i];
    assert Lower(h[1..]) == h[1..];
    assert "#" + h[1..] == h;
    assert !StartsWith(h[1..], "#");
    assert EnsureHash(h[1..]) == h;
    assert LiteralOrTheme(m)(clr) == Some(h);
    assert AnyColor(m)(clr) == Some(h);
    Seqs.FirstSomeAt(fill.children, AnyColor(m), 0);
    Seqs.FirstSomeAt(tcPr.children, SolidFillColor(AnyColor(m)), 0);
    assert h[1] != 'F';
  }

  /** A cell painted with the preset `White` (which python-pptx gives no
      `.rgb`) reports the default white, so it takes the row's fallback
      colour, blue for the header row. */
  lemma PresetWhiteTakesFallback(c: Pptx.Cell, tcPr: Elem, fill: Elem, clr: Elem, m: Option<map<string, string>>, row: nat)
    requires c.fill == Pptx.SolidCellFill(None)
    requires clr.tag == "prstClr" && clr.attrs == [Attr("", "val", "White")]
    requires fill.tag == "solidFill" && fill.children == [clr]
    requires tcPr.tag == "tcPr" && tcPr.children == [fill]
    requires c.element.children == [tcPr]
    ensures CellFillColor(c, m) == White
    ensures CellBackground(c, m, row) == FallbackColors(row, row == 0).bg
    ensures row == 0 ==> CellBackground(c, m, row) == "#2196F3"
  {
    assert FirstWithTag(c.element.children, "tcPr") == Some(tcPr);
    assert Get(clr, "val") == Some("White");
    assert GetNonEmpty(clr, "val") == Some("White");
    assert Lower("White") == "white";
    assert "white" in PresetColors && PresetColors["white"] == White;
    assert PresetColor("White") == Some(White);
    assert AnyColor(m)(clr) == Some(White);
    Seqs.FirstSomeAt(fill.children, AnyColor(m), 0);
    Seqs.FirstSomeAt(tcPr.children, SolidFillColor(AnyColor(m)), 0);
  }

  /* ---------------- border ---------------- */

  /** The tags of a border side. */
  predicate IsSide(x: Elem) {
    x.tag in {"top", "bottom", "left", "right"}
  }

  function SideOf(x: Elem): Option<Elem> {
    if IsSide(x) then Some(x) else None
  }

  /** `extract_cell_border_color`: only the first border side of the
      cell's first `tcBdr`, and only that side's first `ln`, are looked at;
      the first colour inside the line wins; white otherwise. */
  function CellBorderColor(tc: Elem, m: Option<map<string, string>>): (r: string)
    ensures FirstWithTag(tc.children, "tcBdr").None? ==> r == White
  {
    match FirstWithTag(tc.children, "tcBdr")
    case None => White
    case Some(bdr) =>
      match Seqs.FirstSome(bdr.children, SideOf)
      case None => White
      case Some(side) =>
        match FirstWithTag(side.children, "ln")
        case None => White
        case Some(ln) => Seqs.FirstSome(Iter(ln), AnyColor(m)).GetOr(White)
  }

  /** The border colour a cell reports: the white fallback for borders is
      the default itself, so the extracted colour always stands. */
  function CellBorder(tc: Elem, m: Option<map<string, string>>, row: nat): (r: string)
    ensures r == CellBorderColor(tc, m)
  {
    var e := CellBorderColor(tc, m);
    if e == White then FallbackColors(row, row == 0).border else e
  }

  /** A `w` attribute that `int()` accepts. */
  function WidthAttr(x: Elem): Option<int> {
    match GetNonEmpty(x, "w")
    case None => None
    case Some(w) => ParseInt(w, 10)
  }

  function LineWidth(x: Elem): Option<int> {
    if x.tag == "ln" then WidthAttr(x) else None
  }

  /** A side or line element: its own width, else the first `ln` at or
      below it with one. */
  function SideWidth(x: Elem): Option<int> {
    if x.tag in {"top", "bottom", "left", "right", "ln"} then
      match WidthAttr(x)
      case Some(w) => Some(w)
      case None => Seqs.FirstSome(Iter(x), LineWidth)
    else None
  }

  /** `round(extract_cell_border_width(cell))`: the first width found in
      document order, in whole points, else 2. */
  function CellBorderWidth(tc: Elem): (r: int)
    ensures Seqs.FirstSome(Iter(tc), SideWidth).None? ==> r == DefaultBorderWidth
    ensures Seqs.FirstSome(Iter(tc), SideWidth).Some? ==>
              -6350 <= r * 12700 - Seqs.FirstSome(Iter(tc), SideWidth).value <= 6350
  {
    match Seqs.FirstSome(Iter(tc), SideWidth)
    case None => DefaultBorderWidth
    case Some(w) => RoundedPoints(w)
  }

  /** A one-point `top` border is read as one point. */
  lemma BorderWidthOfSide(tc: Elem, top: Elem)
    requires tc.tag == "tc" && tc.children == [top]
    requires top.tag == "top" && top.attrs == [Attr("", "w", "12700")] && top.children == []
    ensures CellBorderWidth(tc) == 1
  {
    IterSmall(tc);
    IterSmall(top);
    assert Iter(tc) == [tc, top];
    ParseOnePoint();
    TopSideWidth(top, "12700", 12700);
    FirstSideWidth(tc, top, 12700);
    RoundedPointsExact(1);
  }

  /** A cell whose only descendant is a side with a width takes that width. */
  lemma FirstSideWidth(tc: Elem, side: Elem, w: int)
    requires tc.tag == "tc" && Iter(tc) == [tc, side] && SideWidth(side) == Some(w)
    ensures Seqs.FirstSome(Iter(tc), SideWidth) == Some(w)
  {
    var xs := Iter(tc);
    assert xs[0] == tc && xs[1] == side;
    assert tc.tag !in {"top", "bottom", "left", "right", "ln"};
    assert SideWidth(xs[0]).None?;
    Seqs.FirstSomeAt(xs, SideWidth, 1);
  }

  /** A `top` side whose only attribute is a `w` that `int()` reads has
      that width. */
  lemma TopSideWidth(top: Elem, w: string, v: int)
    requires top.tag == "top" && top.attrs == [Attr("", "w", w)] && w != "" && ParseInt(w, 10) == Some(v)
    ensures SideWidth(top) == Some(v)
  {
    GetOnly(top, Attr("", "w", w));
  }

  lemma ParseOnePoint()
    ensures ParseInt("12700", 10) == Some(12700)
  {
    ParseIntPlain("12700", 10);
    assert "12"[..1] == "1" && "127"[..2] == "12" && "1270"[..3] == "127" && "12700"[..4] == "1270";
    assert DigitsValue("1", 10) == 1;
    assert DigitsValue("12", 10) == 12;
    assert DigitsValue("127", 10) == 127;
    assert DigitsValue("1270", 10) == 1270;
    assert DigitsValue("12700", 10) == 12700;
  }

  /** The line elements of section 21.1.3 of ECMA-376 that a cell's `tcPr`
      holds (`lnL`, `lnR`, `lnT`, `lnB`) carry none of the tags the reader
      looks for, so their width is never read. */
  lemma StandardCellLineIgnored(tc: Elem, tcPr: Elem, lnL: Elem)
    requires tc.tag == "tc" && tc.children == [tcPr]
    requires tcPr.tag == "tcPr" && tcPr.children == [lnL]
    requires lnL.tag == "lnL" && lnL.attrs == [Attr("", "w", "12700")] && lnL.children == []
    ensures CellBorderWidth(tc) == DefaultBorderWidth
  {
    IterSmall(tc);
    IterSmall(tcPr);
    IterSmall(lnL);
    assert Iter(tc) == [tc, tcPr, lnL];
    Seqs.FirstSomeSpec(Iter(tc), SideWidth);
  }

  /* ---------------- text colour ---------------- */

  /** Method 3's run: every `solidFill` in the run is read in turn and each
      colour found replaces the one before, so the last one counts. */
  function RunElemColor(m: Option<map<string, string>>): Elem -> Option<string> {
    (r: Elem) => if r.tag == "r" then Seqs.LastSome(Iter(r), SolidFillColor(Texts.XmlColorIn(m))) else None
  }

  /** Method 3's paragraph: the first run with a colour. */
  function ParaElemColor(m: Option<map<string, string>>): Elem -> Option<string> {
    (p: Elem) => if p.tag == "p" then Seqs.FirstSome(Iter(p), RunElemColor(m)) else None
  }

  /** The colour of the first run of the first paragraph: its `.rgb` (of any
      colour type), else the first colour in its `rPr`, else the first
      coloured run anywhere in the text body. */
  function RunTextColor(f: Pptx.Font, txBody: Elem, m: Option<map<string, string>>): (r: Option<string>)
    ensures f.color.rgb.Some? ==> r == Some(RgbToHexOrBlack(f.color.rgb.value))
    ensures f.color.rgb.None? && (exists i :: 0 <= i < |Iter(f.rPr)| && Texts.XmlColorIn(m)(Iter(f.rPr)[i]).Some?) ==>
              Seqs.IsFirstSome(Iter(f.rPr), Texts.XmlColorIn(m), r)
    ensures f.color.rgb.None? && (forall i :: 0 <= i < |Iter(f.rPr)| ==> Texts.XmlColorIn(m)(Iter(f.rPr)[i]).None?) ==>
              Seqs.IsFirstSome(Iter(txBody), ParaElemColor(m), r)
  {
    Seqs.FirstSomeIsFirst(Iter(f.rPr), Texts.XmlColorIn(m));
    Seqs.FirstSomeIsFirst(Iter(txBody), ParaElemColor(m));
    if f.color.rgb.Some? then Some(RgbToHexOrBlack(f.color.rgb.value))
    else
      match Seqs.FirstSome(Iter(f.rPr), Texts.XmlColorIn(m))
      case Some(h) => Some(h)
      case None => Seqs.FirstSome(Iter(txBody), ParaElemColor(m))
  }

  /** The first run of the first paragraph, if there is one. */
  function FirstRun(ps: seq<Pptx.Paragraph>): (r: Option<Pptx.Run>)
    ensures r.Some? <==> |ps| > 0 && |Pptx.Runs(ps[0])| > 0
  {
    if |ps| > 0 && |Pptx.Runs(ps[0])| > 0 then Some(Pptx.Runs(ps[0])[0]) else None
  }

  /** The text colour a cell reports; black when nothing is found or the
      first paragraph has no run. */
  function CellTextColor(c: Pptx.Cell, m: Option<map<string, string>>): (r: string)
    ensures FirstRun(c.frame.paragraphs).None? ==> r == Black
    ensures FirstRun(c.frame.paragraphs).Some? ==>
              var own := RunTextColor(FirstRun(c.frame.paragraphs).value.font, c.frameElement, m);
              (own.Some? ==> r == own.value) && (own.None? ==> r == Black)
  {
    match FirstRun(c.frame.paragraphs)
    case None => Black
    case Some(run) => RunTextColor(run.font, c.frameElement, m).GetOr(Black)
  }

  /** Without its own colour, a run takes the last colour written in the
      first coloured run of the text body. */
  lemma LastFillInRunWins(r: Elem, fill1: Elem, fill2: Elem, c1: Elem, c2: Elem, h1: string, h2: string, m: Option<map<string, string>>)
    requires r.tag == "r" && r.children == [fill1, fill2]
    requires fill1.tag == "solidFill" && fill1.children == [c1]
    requires fill2.tag == "solidFill" && fill2.children == [c2]
    requires c1.tag == "srgbClr" && c1.attrs == [Attr("", "val", h1)] && c1.children == []
    requires c2.tag == "srgbClr" && c2.attrs == [Attr("", "val", h2)] && c2.children == []
    requires h1 != "" && h2 != ""
    ensures RunElemColor(m)(r) == Some(EnsureHash(h2))
  {
    IterSmall(fill1);
    IterSmall(fill2);
    IterSmall(c1);
    IterSmall(c2);
    assert r.children[1..] == [fill2];
    assert IterAll([fill2]) == Iter(fill2) + IterAll([]);
    assert Iter(r) == [r] + Iter(fill1) + IterAll([fill2]);
    assert Iter(r) == [r, fill1, c1, fill2, c2];
    assert Get(c2, "val") == Some(h2);
    Seqs.FirstSomeAt(fill2.children, Texts.XmlColorIn(m), 0);
    Seqs.LastSomeSpec(Iter(r), SolidFillColor(Texts.XmlColorIn(m)));
  }

  /* ---------------- a cell ---------------- */

  /** The font of the first run of the first paragraph, or the defaults;
      the alignment is read separately by `CellAlign`. */
  function CellStyle(ps: seq<Pptx.Paragraph>, m: Option<map<string, string>>): (st: Texts.Style)
    ensures FirstRun(ps).None? ==> st == Texts.DefaultStyle
    ensures FirstRun(ps).Some? ==> st == Texts.StyleOf(FirstRun(ps).value.font, AlignLeft, m)
  {
    match FirstRun(ps)
    case None => Texts.DefaultStyle
    case Some(run) => Texts.StyleOf(run.font, AlignLeft, m)
  }

  /** The alignment of the first paragraph, or left. */
  function CellAlign(ps: seq<Pptx.Paragraph>): (a: TextAlign)
    ensures |ps| == 0 ==> a == AlignLeft
    ensures |ps| > 0 ==> a == Texts.Alignment(ps[0].alignment)
  {
    if |ps| > 0 then Texts.Alignment(ps[0].alignment) else AlignLeft
  }

  /** `extract_cell_properties` for the cell in row `row`. */
  function CellProperties(c: Pptx.Cell, m: Option<map<string, string>>, row: nat): (t: TableCell)
    ensures t.text == Strip(Pptx.FrameText(c.frame.paragraphs))
    ensures CellFillColor(c, m) == White ==> t.bgColor == FallbackColors(row, row == 0).bg
    ensures CellFillColor(c, m) != White ==> t.bgColor == CellFillColor(c, m)
    ensures t.borderColor == CellBorderColor(c.element, m)
    ensures FirstRun(c.frame.paragraphs).None? ==>
              t.textColor == Black && t.fontSize == 12.0 && t.fontFamily == "Arial" && t.fontWeight == NormalWeight
              && t.fontStyle == NormalStyle && t.textDecoration == NoDecoration
  {
    var ps := c.frame.paragraphs;
    var st := CellStyle(ps, m);
    TableCell(Strip(Pptx.FrameText(ps)), CellBackground(c, m, row), CellTextColor(c, m), CellBorder(c.element, m, row),
              CellBorderWidth(c.element) as real, st.fontSize, st.fontFamily, st.fontWeight, st.fontStyle,
              st.textDecoration, CellAlign(ps))
  }

  /** Every colour a cell reports is a `#` colour when the theme's are. */
  lemma CellColorsHashed(c: Pptx.Cell, m: Option<map<string, string>>, row: nat)
    requires HashedValues(m)
    ensures Hashed(CellProperties(c, m, row).bgColor)
    ensures Hashed(CellProperties(c, m, row).textColor)
    ensures Hashed(CellProperties(c, m, row).borderColor)
  {
    PicksHashed(m);
    FillColorHashed(c, m);
    BorderColorHashed(c.element, m);
    TextColorHashed(c, m);
  }

  lemma PicksHashed(m: Option<map<string, string>>)
    requires HashedValues(m)
    ensures forall x :: AnyColor(m)(x).Some? ==> Hashed(AnyColor(m)(x).value)
    ensures forall x :: LiteralOrTheme(m)(x).Some? ==> Hashed(LiteralOrTheme(m)(x).value)
    ensures forall x :: Texts.XmlColorIn(m)(x).Some? ==> Hashed(Texts.XmlColorIn(m)(x).value)
  {
    forall x ensures AnyColor(m)(x).Some? ==> Hashed(AnyColor(m)(x).value) {
      AnyColorHashed(m, x);
    }
    forall x ensures LiteralOrTheme(m)(x).Some? ==> Hashed(LiteralOrTheme(m)(x).value) {
      AnyColorHashed(m, x);
    }
    forall x ensures Texts.XmlColorIn(m)(x).Some? ==> Hashed(Texts.XmlColorIn(m)(x).value) {
      AnyColorHashed(m, x);
    }
  }

  lemma FillColorHashed(c: Pptx.Cell, m: Option<map<string, string>>)
    requires forall x :: AnyColor(m)(x).Some? ==> Hashed(AnyColor(m)(x).value)
    requires forall x :: LiteralOrTheme(m)(x).Some? ==> Hashed(LiteralOrTheme(m)(x).value)
    ensures Hashed(CellFillColor(c, m))
  {
    SolidFillHashed(AnyColor(m));
    SolidFillHashed(LiteralOrTheme(m));
    FirstSomeHashed(Iter(c.element), SolidFillColor(LiteralOrTheme(m)));
    match FirstWithTag(c.element.children, "tcPr") {
      case None =>
      case Some(p) => FirstSomeHashed(p.children, SolidFillColor(AnyColor(m)));
    }
  }

  lemma BorderColorHashed(tc: Elem, m: Option<map<string, string>>)
    requires forall x :: AnyColor(m)(x).Some? ==> Hashed(AnyColor(m)(x).value)
    ensures Hashed(CellBorderColor(tc, m))
  {
    match FirstWithTag(tc.children, "tcBdr") {
      case None =>
      case Some(bdr) =>
        match Seqs.FirstSome(bdr.children, SideOf) {
          case None =>
          case Some(side) =>
            match FirstWithTag(side.children, "ln") {
              case None =>
              case Some(ln) => FirstSomeHashed(Iter(ln), AnyColor(m));
            }
        }
    }
  }

  lemma TextColorHashed(c: Pptx.Cell, m: Option<map<string, string>>)
    requires forall x :: Texts.XmlColorIn(m)(x).Some? ==> Hashed(Texts.XmlColorIn(m)(x).value)
    ensures Hashed(CellTextColor(c, m))
  {
    match FirstRun(c.frame.paragraphs) {
      case None =>
      case Some(run) =>
        FirstSomeHashed(Iter(run.font.rPr), Texts.XmlColorIn(m));
        SolidFillHashed(Texts.XmlColorIn(m));
        var runColor := RunElemColor(m);
        forall x ensures runColor(x).Some? ==> Hashed(runColor(x).value) {
          LastSomeHashed(Iter(x), SolidFillColor(Texts.XmlColorIn(m)));
        }
        var paraColor := ParaElemColor(m);
        forall x ensures paraColor(x).Some? ==> Hashed(paraColor(x).value) {
          FirstSomeHashed(Iter(x), runColor);
        }
        FirstSomeHashed(Iter(c.frameElement), paraColor);
    }
  }

  /* ---------------- the table ---------------- */

  /** `round(width / cols)` and `round(height / rows)`, or 0 for no cells. */
  function CellSize(total: int, n: nat): (r: int)
    ensures n == 0 ==> r == 0
    ensures n > 0 ==> TilesWithin(r as real, n, total as real)
  {
    if n == 0 then 0
    else
      RoundedShareBound(total, n);
      RoundHalfEven(total as real / n as real)
  }

  /** `n` cells of size `size` cover `total` up to half a unit per cell. */
  predicate TilesWithin(size: real, n: nat, total: real) {
    -(n as real) / 2.0 <= size * n as real - total <= n as real / 2.0
  }

  lemma RoundedShareBound(total: int, n: nat)
    requires n > 0
    ensures TilesWithin(RoundHalfEven(total as real / n as real) as real, n, total as real)
  {
    var k := n as real;
    var q := total as real / k;
    var size := RoundHalfEven(q) as real;
    assert q * k == total as real;
    RoundingErrorScaled(size, q, k);
    assert size * k - q * k == size * k - total as real;
    assert -k / 2.0 <= size * k - total as real;
    assert size * k - total as real <= k / 2.0;
  }

  /** A share rounded to within a half, taken `k` times, is within `k / 2`
      of `k` shares. */
  lemma RoundingErrorScaled(size: real, q: real, k: real)
    requires -(0.5) <= size - q <= 0.5 && k >= 0.0
    ensures -k / 2.0 <= size * k - q * k <= k / 2.0
  {
    var d := size - q;
    assert d * k == size * k - q * k;
    HalfBoundScales(d, k);
  }

  /** An error of at most a half, multiplied by `k`, is at most `k / 2`. */
  lemma HalfBoundScales(d: real, k: real)
    requires -(0.5) <= d <= 0.5 && k >= 0.0
    ensures -k / 2.0 <= d * k <= k / 2.0
  {
    assert (0.5 - d) * k >= 0.0;
    assert (d + 0.5) * k >= 0.0;
  }

  /** The cells of row `i`, each read with its row index. */
  function RowCells(cells: seq<Pptx.Cell>, m: Option<map<string, string>>, i: nat): (r: seq<TableCell>)
    ensures |r| == |cells|
    ensures forall j :: 0 <= j < |cells| ==> r[j] == CellProperties(cells[j], m, i)
  {
    seq(|cells|, j requires 0 <= j < |cells| => CellProperties(cells[j], m, i))
  }

  /** The column count: the length of the first row, or 0. */
  function ColumnCount(t: Pptx.Table): (n: nat)
    ensures |t.rows| > 0 ==> n == |t.rows[0]|
    ensures |t.rows| == 0 ==> n == 0
  {
    if |t.rows| > 0 && |t.rows[0]| > 0 then |t.rows[0]| else 0
  }

  /** The table element for a table in the rounded frame `b`: one row of
      cells per table row, and cells that tile the frame up to half a point
      each. */
  function TableOf(t: Pptx.Table, b: Box, rotation: int, m: Option<map<string, string>>): (e: TableElement)
    ensures e.x == b.x as real && e.y == b.y as real && e.width == b.width as real && e.height == b.height as real
    ensures e.rows == |t.rows| && e.cols == ColumnCount(t) && e.rotation == rotation
    ensures |e.data| == |t.rows| && forall i :: 0 <= i < |t.rows| ==> e.data[i] == RowCells(t.rows[i], m, i)
    ensures e.cols == 0 ==> e.cellWidth == 0.0
    ensures e.rows == 0 ==> e.cellHeight == 0.0
    ensures e.cols > 0 ==> TilesWithin(e.cellWidth, e.cols, e.width)
    ensures e.rows > 0 ==> TilesWithin(e.cellHeight, e.rows, e.height)
  {
    var rows := |t.rows|;
    var cols := ColumnCount(t);
    var cw := CellSize(b.width, cols);
    var ch := CellSize(b.height, rows);
    TableElement(b.x as real, b.y as real, b.width as real, b.height as real, rows, cols, cw as real, ch as real,
                 seq(rows, i requires 0 <= i < rows => RowCells(t.rows[i], m, i)), rotation)
  }

  /** `extract_table_from_shape`: None for a shape without a table or with
      no frame (the conversion raises and the raise is caught); otherwise
      the table in its rounded frame, turned by the shape's rotation. */
  function ExtractTable(s: Pptx.Shape, m: Option<map<string, string>>): (r: Option<TableElement>)
    ensures r.Some? <==> s.table.Some? && RoundedBox(s.left, s.top, s.width, s.height).Some?
    ensures r.Some? ==> r.value == TableOf(s.table.value, RoundedBox(s.left, s.top, s.width, s.height).value, Rotation(s.rotation), m)
  {
    if s.table.None? then None
    else
      match RoundedBox(s.left, s.top, s.width, s.height)
      case None => None
      case Some(b) => Some(TableOf(s.table.value, b, Rotation(s.rotation), m))
  }

  /** Every cell of the first row takes the header colours when it reports
      white, and every cell of every row reports the same border colour
      as its XML. */
  lemma HeaderRowFallback(s: Pptx.Shape, m: Option<map<string, string>>, j: nat)
    requires ExtractTable(s, m).Some?
    requires |s.table.value.rows| > 0 && j < |s.table.value.rows[0]|
    requires CellFillColor(s.table.value.rows[0][j], m) == White
    ensures ExtractTable(s, m).value.data[0][j].bgColor == "#2196F3"
  {
    var e := ExtractTable(s, m).value;
    assert e.data[0] == RowCells(s.table.value.rows[0], m, 0);
  }
}

=== FILE: texts.dfy ===
/** The text extractor: one text element per paragraph whose runs carry
    visible text, styled from the paragraph's first run, or, when no
    paragraph qualifies but the frame shows text, one element for the whole
    frame. */
module Texts {
  import opened Wrappers
  import opened Xml
  import opened Colors
  import opened PyStr
  import opened PyNum
  import opened Geometry
  import opened Schema
  import Pptx
  import Seqs

  /** `get_alignment`: unset and unlisted alignments read as left. */
  function Alignment(a: Option<Pptx.Align>): (r: TextAlign)
    ensures a == Some(Pptx.AlignCenter) <==> r == AlignCenter
    ensures a == Some(Pptx.AlignRight) <==> r == AlignRight
    ensures a == Some(Pptx.AlignJustify) <==> r == AlignJustify
  {
    if a == Some(Pptx.AlignCenter) then AlignCenter
    else if a == Some(Pptx.AlignRight) then AlignRight
    else if a == Some(Pptx.AlignJustify) then AlignJustify
    else AlignLeft
  }

  /* ---------------- the style of a run ---------------- */

  /** The style fields the extractor carries from paragraph to paragraph,
      the alignment among them. */
  datatype Style = Style(fontSize: real, fontFamily: string, fontWeight: FontWeight, fontStyle: FontStyle,
                         textDecoration: TextDecoration, color: Option<string>, textAlign: TextAlign)

  const DefaultStyle := Style(12.0, "Arial", NormalWeight, NormalStyle, NoDecoration, None, AlignLeft)

  /** `round(font.size.pt)`, or 12 when the run sets no size (or size 0);
      `size` is in hundredths of a point. */
  function FontSize(size: Option<int>): (r: real)
    ensures size.None? || size == Some(0) ==> r == 12.0
    ensures size.Some? && size.value != 0 ==> r.Floor as real == r && -(0.5) <= r - size.value as real / 100.0 <= 0.5
  {
    if size.Some? && size.value != 0 then RoundHalfEven(size.value as real / 100.0) as real else 12.0
  }

  /** A size of a whole number of points is kept exactly. */
  lemma FontSizeWholePoints(k: int)
    requires k != 0
    ensures FontSize(Some(100 * k)) == k as real
  {
    assert (100 * k) as real / 100.0 == k as real;
    RoundOfInt(k);
  }

  /** The XML colour of a run: a literal `srgbClr` value, read with
      `EnsureHash`, or, when a package is at hand, a theme colour that
      resolves; other entries are passed over. */
  function XmlColorIn(m: Option<map<string, string>>): Elem -> Option<string> {
    (x: Elem) =>
      if x.tag == "srgbClr" && GetNonEmpty(x, "val").Some? then Some(EnsureHash(GetNonEmpty(x, "val").value))
      else if x.tag == "schemeClr" && GetNonEmpty(x, "val").Some? && m.Some? then ResolveSchemeTruthy(m.value, GetNonEmpty(x, "val").value)
      else None
  }

  /** A run's colour: its RGB colour when it has one, otherwise, when a
      package is at hand, the first colour in its `rPr` XML. */
  function RunColor(f: Pptx.Font, m: Option<map<string, string>>): (r: Option<string>)
    ensures f.color.colorType == Pptx.RgbType && f.color.rgb.Some? ==> r == Some(RgbToHexOrBlack(f.color.rgb.value))
    ensures !(f.color.colorType == Pptx.RgbType && f.color.rgb.Some?) && m.None? ==> r.None?
    ensures !(f.color.colorType == Pptx.RgbType && f.color.rgb.Some?) && m.Some? ==>
              Seqs.IsFirstSome(Iter(f.rPr), XmlColorIn(m), r)
  {
    if f.color.colorType == Pptx.RgbType && f.color.rgb.Some? then Some(RgbToHexOrBlack(f.color.rgb.value))
    else if m.Some? then
      Seqs.FirstSomeIsFirst(Iter(f.rPr), XmlColorIn(m));
      Seqs.FirstSome(Iter(f.rPr), XmlColorIn(m))
    else None
  }

  /** Only colour elements count: a literal `srgbClr` gives its value
      lower-case behind one `#`, and a theme colour is resolved only when a
      package is at hand. */
  lemma XmlColorInCases(x: Elem, m: Option<map<string, string>>)
    ensures x.tag != "srgbClr" && x.tag != "schemeClr" ==> XmlColorIn(m)(x).None?
    ensures x.tag == "srgbClr" ==> (XmlColorIn(m)(x).Some? <==> GetNonEmpty(x, "val").Some?)
    ensures x.tag == "srgbClr" && GetNonEmpty(x, "val").Some? ==>
              XmlColorIn(m)(x) == Some(EnsureHash(Get(x, "val").value))
              && XmlColorIn(m)(x).value[0] == '#' && Lower(XmlColorIn(m)(x).value) == XmlColorIn(m)(x).value
    ensures x.tag == "schemeClr" && m.None? ==> XmlColorIn(m)(x).None?
    ensures x.tag == "schemeClr" && m.Some? && GetNonEmpty(x, "val").Some? ==>
              XmlColorIn(m)(x) == ResolveSchemeTruthy(m.value, Get(x, "val").value)
  {
    if x.tag == "srgbClr" && GetNonEmpty(x, "val").Some? {
      var r := EnsureHash(Get(x, "val").value);
      assert forall i :: 0 <= i < |r| ==> LowerChar(r[i]) == r[i];
    }
  }

  /** Every colour a run reports starts with `#` when the theme's colours do. */
  lemma RunColorHashed(f: Pptx.Font, m: Option<map<string, string>>)
    requires m.Some? ==> forall k :: k in m.value ==> |m.value[k]| >= 1 && m.value[k][0] == '#'
    ensures RunColor(f, m).Some? ==> |RunColor(f, m).value| >= 1 && RunColor(f, m).value[0] == '#'
  {
    if !(f.color.colorType == Pptx.RgbType && f.color.rgb.Some?) && m.Some? && RunColor(f, m).Some? {
      var xs := Iter(f.rPr);
      var i :| 0 <= i < |xs| && XmlColorIn(m)(xs[i]) == RunColor(f, m);
      XmlColorHashed(xs[i], m);
    }
  }

  /** A colour element's colour starts with `#` when the theme's colours do. */
  lemma XmlColorHashed(x: Elem, m: Option<map<string, string>>)
    requires m.Some? ==> forall k :: k in m.value ==> |m.value[k]| >= 1 && m.value[k][0] == '#'
    ensures XmlColorIn(m)(x).Some? ==> |XmlColorIn(m)(x).value| >= 1 && XmlColorIn(m)(x).value[0] == '#'
  {
    XmlColorInCases(x, m);
  }

  /** A literal colour written into a run that has no RGB colour of its own
      is read back unchanged. */
  lemma RunColorLiteralRoundTrip(f: Pptx.Font, fill: Elem, clr: Elem, h: string, m: map<string, string>)
    requires IsHexColor(h)
    requires f.color.colorType != Pptx.RgbType
    requires clr.tag == "srgbClr" && clr.attrs == [Attr("", "val", h[1..])]
    requires fill.tag == "solidFill" && fill.children == [clr]
    requires f.rPr.tag == "rPr" && f.rPr.children == [fill]
    ensures RunColor(f, Some(m)) == Some(h)
  {
    IterSmall(f.rPr);
    IterSmall(fill);
    IterSmall(clr);
    assert Iter(f.rPr) == [f.rPr] + ([fill] + Iter(clr));
    assert Iter(f.rPr)[1] == fill && Iter(f.rPr)[2] == clr;
    assert Get(clr, "val") == Some(h[1..]);
    Seqs.FirstSomeAt(Iter(f.rPr), XmlColorIn(Some(m)), 2);
    assert forall i :: 0 <= i < |h[1..]| ==> LowerChar(h[1..][i]) == h[1..][i];
    assert Lower(h[1..]) == h[1..];
    assert "#" + h[1..] == h;
  }

  /** The style a paragraph's first run sets: size, family, bold and italic
      only when set true, underline as the only decoration (`Font` has no
      `strike`, so `line-through` is never chosen), its colour, and the
      paragraph's alignment. */
  function StyleOf(f: Pptx.Font, align: TextAlign, m: Option<map<string, string>>): (st: Style)
    ensures st.fontWeight == Bold <==> f.bold == Some(true)
    ensures st.fontStyle == Italic <==> f.italic == Some(true)
    ensures st.textDecoration == Underline <==> f.underline
    ensures st.textDecoration != LineThrough
    ensures st.textDecoration == NoDecoration <==> !f.underline
    ensures f.name.Some? && f.name.value != "" ==> st.fontFamily == f.name.value
    ensures f.name.None? || f.name == Some("") ==> st.fontFamily == "Arial"
    ensures st.textAlign == align && st.color == RunColor(f, m)
  {
    Style(FontSize(f.size),
          if f.name.Some? && f.name.value != "" then f.name.value else "Arial",
          if f.bold == Some(true) then Bold else NormalWeight,
          if f.italic == Some(true) then Italic else NormalStyle,
          if f.underline then Underline else NoDecoration,
          RunColor(f, m),
          align)
  }

  /* ---------------- paragraphs ---------------- */

  /** The loop looks at a paragraph whose text is not blank. */
  predicate Visible(p: Pptx.Paragraph) {
    NotBlank(Pptx.ParagraphText(p.items))
  }

  /** A visible paragraph becomes an element when its runs' text is not blank. */
  predicate Emits(p: Pptx.Paragraph) {
    Visible(p) && NotBlank(Pptx.RunsText(Pptx.Runs(p)))
  }

  /** A paragraph that becomes an element has a first run. */
  lemma EmitsHasRuns(p: Pptx.Paragraph)
    requires Emits(p)
    ensures |Pptx.Runs(p)| > 0
  {
  }

  /** The style after the loop has looked at `p`: a visible paragraph sets
      the alignment, and its first run, when it has one, every other field;
      an invisible paragraph changes nothing. */
  function Carry(p: Pptx.Paragraph, st: Style, m: Option<map<string, string>>): Style {
    if !Visible(p) then st
    else if |Pptx.Runs(p)| > 0 then StyleOf(Pptx.Runs(p)[0].font, Alignment(p.alignment), m)
    else st.(textAlign := Alignment(p.alignment))
  }

  function Element(content: string, b: Box, rotation: int, st: Style): TextElement {
    TextElement(content, b.x as real, b.y as real, b.width as real, b.height as real, st.fontSize,
                st.fontWeight, st.fontStyle, st.textDecoration, st.textAlign, st.color, rotation, st.fontFamily)
  }

  /** The paragraph loop: the elements it appends and the style it ends with. */
  function Fold(ps: seq<Pptx.Paragraph>, st: Style, b: Box, rotation: int, m: Option<map<string, string>>): (r: (seq<TextElement>, Style))
    ensures |r.0| <= |ps|
    ensures forall k :: 0 <= k < |r.0| ==> OnFrame(r.0[k], b, rotation)
  {
    if |ps| == 0 then ([], st)
    else
      var st' := Carry(ps[0], st, m);
      var rest := Fold(ps[1..], st', b, rotation, m);
      var here := if Emits(ps[0]) then [Element(Pptx.RunsText(Pptx.Runs(ps[0])), b, rotation, st')] else [];
      (here + rest.0, rest.1)
  }

  /** The element a paragraph makes on its own: its runs' text, styled from
      its own first run and aligned as it says. */
  function ParagraphElement(b: Box, rotation: int, m: Option<map<string, string>>): Pptx.Paragraph -> Option<TextElement> {
    (p: Pptx.Paragraph) =>
      if Emits(p) && |Pptx.Runs(p)| > 0 then
        Some(Element(Pptx.RunsText(Pptx.Runs(p)), b, rotation, StyleOf(Pptx.Runs(p)[0].font, Alignment(p.alignment), m)))
      else None
  }

  /** The style carried from one paragraph to the next never reaches an
      element: the loop's elements are the paragraphs' own elements, in
      order, whatever style it starts from. */
  lemma {:induction false} FoldIsPerParagraph(ps: seq<Pptx.Paragraph>, st: Style, b: Box, rotation: int, m: Option<map<string, string>>)
    ensures Fold(ps, st, b, rotation, m).0 == Seqs.FilterMap(ps, ParagraphElement(b, rotation, m))
  {
    if |ps| > 0 {
      FoldIsPerParagraph(ps[1..], Carry(ps[0], st, m), b, rotation, m);
      if Emits(ps[0]) {
        EmitsHasRuns(ps[0]);
      }
    }
  }

  /** An element drawn on the frame `b` with the rotation `rotation`. */
  predicate OnFrame(e: TextElement, b: Box, rotation: int) {
    e.x == b.x as real && e.y == b.y as real && e.width == b.width as real && e.height == b.height as real
    && e.rotation == rotation
  }

  /** The paragraphs' own elements all show text and all sit on the frame. */
  lemma OwnElementsOnFrame(ps: seq<Pptx.Paragraph>, b: Box, rotation: int, m: Option<map<string, string>>)
    ensures var es := Seqs.FilterMap(ps, ParagraphElement(b, rotation, m));
            forall k :: 0 <= k < |es| ==> NotBlank(es[k].content) && OnFrame(es[k], b, rotation)
  {
    var f := ParagraphElement(b, rotation, m);
    var es := Seqs.FilterMap(ps, f);
    Seqs.FilterMapSpec(ps, f);
    forall k | 0 <= k < |es|
      ensures NotBlank(es[k].content) && OnFrame(es[k], b, rotation)
    {
      var i :| 0 <= i < |ps| && f(ps[i]) == Some(es[k]);
      ParagraphElementOnFrame(ps[i], b, rotation, m);
    }
  }

  lemma ParagraphElementOnFrame(p: Pptx.Paragraph, b: Box, rotation: int, m: Option<map<string, string>>)
    ensures var e := ParagraphElement(b, rotation, m)(p);
            e.Some? ==> NotBlank(e.value.content) && OnFrame(e.value, b, rotation)
  {
    if Emits(p) && |Pptx.Runs(p)| > 0 {
      var e := Element(Pptx.RunsText(Pptx.Runs(p)), b, rotation, StyleOf(Pptx.Runs(p)[0].font, Alignment(p.alignment), m));
      assert e.content == Pptx.RunsText(Pptx.Runs(p));
    }
  }

  /* ---------------- the shape ---------------- */

  /** The frame's single element when no paragraph made one: the frame's
      text, aligned as the first paragraph says, and styled from that
      paragraph's first run if it has one, else with the font the loop
      ended with. */
  function FrameElement(ps: seq<Pptx.Paragraph>, st: Style, b: Box, rotation: int, m: Option<map<string, string>>): (e: TextElement)
    requires |ps| > 0
    ensures e.content == Pptx.FrameText(ps)
    ensures e.textAlign == Alignment(ps[0].alignment)
    ensures |Pptx.Runs(ps[0])| > 0 ==> e.color == RunColor(Pptx.Runs(ps[0])[0].font, m)
    ensures |Pptx.Runs(ps[0])| == 0 ==>
              && e.fontSize == st.fontSize && e.fontFamily == st.fontFamily && e.fontWeight == st.fontWeight
              && e.fontStyle == st.fontStyle && e.textDecoration == st.textDecoration && e.color == st.color
  {
    var st' := if |Pptx.Runs(ps[0])| > 0 then StyleOf(Pptx.Runs(ps[0])[0].font, Alignment(ps[0].alignment), m)
               else st.(textAlign := Alignment(ps[0].alignment));
    Element(Pptx.FrameText(ps), b, rotation, st')
  }

  /** `extract_text_from_shape`: None where it raises (a text frame on a
      shape without a position or size). */
  function ExtractText(s: Pptx.Shape, m: Option<map<string, string>>): (r: Option<seq<TextElement>>)
    ensures s.textFrame.None? ==> r == Some([])
    ensures s.textFrame.Some? ==> (r.None? <==> RoundedBox(s.left, s.top, s.width, s.height).None?)
    ensures r.Some? ==> forall i :: 0 <= i < |r.value| ==> NotBlank(r.value[i].content)
    ensures r.Some? && |r.value| > 0 ==> RoundedBox(s.left, s.top, s.width, s.height).Some?
    ensures r.Some? ==> forall i :: 0 <= i < |r.value| ==>
              OnFrame(r.value[i], RoundedBox(s.left, s.top, s.width, s.height).value, Rotation(s.rotation))
  {
    if s.textFrame.None? then Some([])
    else
      match RoundedBox(s.left, s.top, s.width, s.height)
      case None => None
      case Some(b) =>
        var ps := s.textFrame.value.paragraphs;
        var rotation := Rotation(s.rotation);
        var (es, st) := Fold(ps, DefaultStyle, b, rotation, m);
        FoldIsPerParagraph(ps, DefaultStyle, b, rotation, m);
        OwnElementsOnFrame(ps, b, rotation, m);
        if |es| > 0 then Some(es)
        else if !NotBlank(Pptx.FrameText(ps)) then Some([])
        else
          assert |ps| > 0;
          Some([FrameElement(ps, st, b, rotation, m)])
  }

  /** The elements of a shape with a text frame and a frame: the paragraphs'
      own elements when any paragraph makes one; otherwise one element with
      the whole frame's text if it shows any, and none if it does not. */
  lemma ExtractTextShape(s: Pptx.Shape, m: Option<map<string, string>>)
    requires s.textFrame.Some? && RoundedBox(s.left, s.top, s.width, s.height).Some?
    ensures var ps := s.textFrame.value.paragraphs;
            var own := Seqs.FilterMap(ps, ParagraphElement(RoundedBox(s.left, s.top, s.width, s.height).value, Rotation(s.rotation), m));
            && (|own| > 0 ==> ExtractText(s, m) == Some(own))
            && (|own| == 0 && !NotBlank(Pptx.FrameText(ps)) ==> ExtractText(s, m) == Some([]))
            && (|own| == 0 && NotBlank(Pptx.FrameText(ps)) ==>
                  |ExtractText(s, m).value| == 1 && ExtractText(s, m).value[0].content == Pptx.FrameText(ps))
  {
    var ps := s.textFrame.value.paragraphs;
    FoldIsPerParagraph(ps, DefaultStyle, RoundedBox(s.left, s.top, s.width, s.height).value, Rotation(s.rotation), m);
  }
}

=== FILE: theme.dfy ===
/** The theme's colour scheme as a map from slot name (`accent1`, `dk1`, `bg2`,
    …) to `#`-prefixed lower-case hex, read from the first `ppt/theme/` part of
    the package. The converter re-reads it on every lookup; here it is one
    pure function of the archive. */
module Theme {
  import opened Wrappers
  import opened PyStr
  import opened Xml
  import opened Package
  import opened Seqs
  import opened Colors

  /** What one element under a scheme slot contributes: an `srgbClr` carrying
      a `val` attribute, or a `sysClr` carrying `lastClr`. The attribute only
      has to be present; an empty value still counts. */
  function SlotValue(sub: Elem): (r: Option<string>)
    ensures r.Some? ==> |r.value| >= 1 && r.value[0] == '#'
    ensures r.Some? <==> (sub.tag == "srgbClr" && Get(sub, "val").Some?)
                         || (sub.tag == "sysClr" && Get(sub, "lastClr").Some?)
  {
    if sub.tag == "srgbClr" && Get(sub, "val").Some? then Some("#" + Lower(Get(sub, "val").value))
    else if sub.tag == "sysClr" && Get(sub, "lastClr").Some? then Some("#" + Lower(Get(sub, "lastClr").value))
    else None
  }

  /** The colour of one slot: its first sub-element that contributes one. */
  function SlotColor(slot: Elem): Option<string> {
    FirstSome(slot.children, SlotValue)
  }

  /** The mapping built from the slots of a `clrScheme`, in order, a later
      slot of the same name overwriting an earlier one. */
  function SchemeMap(slots: seq<Elem>): (m: map<string, string>)
    ensures forall k :: k in m ==> |m[k]| >= 1 && m[k][0] == '#'
  {
    if |slots| == 0 then map[]
    else
      var last := slots[|slots| - 1];
      var m := SchemeMap(slots[..|slots| - 1]);
      match SlotColor(last)
      case None => m
      case Some(c) =>
        SlotColorHash(last);
        m[last.tag := c]
  }

  lemma SlotColorHash(slot: Elem)
    ensures SlotColor(slot).Some? ==> |SlotColor(slot).value| >= 1 && SlotColor(slot).value[0] == '#'
  {
    FirstSomeSpec(slot.children, SlotValue);
  }

  /** A slot name is mapped exactly when some slot of that name has a colour. */
  lemma {:induction false} SchemeMapKeys(slots: seq<Elem>, k: string)
    ensures k in SchemeMap(slots) <==> exists i :: 0 <= i < |slots| && NamedColor(slots[i], k)
  {
    if |slots| > 0 {
      var n := |slots| - 1;
      var init := slots[..n];
      SchemeMapKeys(init, k);
      SchemeMapUnfold(slots);
      assert forall j :: 0 <= j < n ==> init[j] == slots[j];
      if NamedColor(slots[n], k) {
        assert k in SchemeMap(slots);
      } else {
        assert (k in SchemeMap(slots)) == (k in SchemeMap(init));
      }
    }
  }

  /** Slot `s` is named `k` and has a colour. */
  predicate NamedColor(s: Elem, k: string) {
    s.tag == k && SlotColor(s).Some?
  }

  lemma SchemeMapUnfold(slots: seq<Elem>)
    requires |slots| > 0
    ensures var last := slots[|slots| - 1];
            var m := SchemeMap(slots[..|slots| - 1]);
            SchemeMap(slots) == if SlotColor(last).Some? then m[last.tag := SlotColor(last).value] else m
  {
  }

  /** The value mapped for a name is the colour of the last slot of that name
      that has one. */
  lemma {:induction false} SchemeMapLastWins(slots: seq<Elem>, k: string)
    requires k in SchemeMap(slots)
    ensures exists i :: LastNamed(slots, k, i) && SlotColor(slots[i]) == Some(SchemeMap(slots)[k])
  {
    var n := |slots| - 1;
    var init := slots[..n];
    SchemeMapUnfold(slots);
    if NamedColor(slots[n], k) {
      assert LastNamed(slots, k, n);
    } else {
      assert SchemeMap(slots)[k] == SchemeMap(init)[k];
      SchemeMapLastWins(init, k);
      var i :| LastNamed(init, k, i) && SlotColor(init[i]) == Some(SchemeMap(init)[k]);
      LastNamedExtends(slots, k, i);
    }
  }

  /** A slot last named `k` among all but the final slot stays last when the
      final slot has another name or no colour. */
  lemma LastNamedExtends(slots: seq<Elem>, k: string, i: int)
    requires |slots| > 0 && LastNamed(slots[..|slots| - 1], k, i) && !NamedColor(slots[|slots| - 1], k)
    ensures LastNamed(slots, k, i) && slots[i] == slots[..|slots| - 1][i]
  {
    var init := slots[..|slots| - 1];
    assert forall j :: 0 <= j < |init| ==> init[j] == slots[j];
  }

  /** Slot `i` is named `k`, and no later slot named `k` has a colour. */
  predicate LastNamed(slots: seq<Elem>, k: string, i: int) {
    0 <= i < |slots| && slots[i].tag == k && forall j :: i < j < |slots| ==> !NamedColor(slots[j], k)
  }

  /** Name of the first part under `ppt/theme/`, in archive order. */
  function ThemePartName(names: seq<string>): (r: Option<string>)
    ensures r.Some? ==> r.value in names && StartsWith(r.value, "ppt/theme/")
    ensures r.None? ==> forall i :: 0 <= i < |names| ==> !StartsWith(names[i], "ppt/theme/")
  {
    var f := (n: string) => if StartsWith(n, "ppt/theme/") then Some(n) else None;
    FirstSomeSpec(names, f);
    FirstSome(names, f)
  }

  /** `get_theme_scheme_mapping`: no theme part, a theme part that does not
      parse, or one without a `clrScheme` all give the empty mapping. */
  function Mapping(a: Archive): (m: map<string, string>)
    ensures forall k :: k in m ==> |m[k]| >= 1 && m[k][0] == '#'
    ensures ThemePartName(a.names).None? ==> m == map[]
    ensures ThemePartName(a.names).Some? && ReadXml(a, ThemePartName(a.names).value).None? ==> m == map[]
    ensures ThemePartName(a.names).Some? && ReadXml(a, ThemePartName(a.names).value).Some? ==>
              var root := ReadXml(a, ThemePartName(a.names).value).value;
              match FirstWithTag(Iter(root), "clrScheme")
              case None => m == map[]
              case Some(clr) => m == SchemeMap(clr.children)
  {
    match ThemePartName(a.names)
    case None => map[]
    case Some(name) =>
      match ReadXml(a, name)
      case None => map[]
      case Some(root) =>
        match FirstWithTag(Iter(root), "clrScheme")
        case None => map[]
        case Some(clr) => SchemeMap(clr.children)
  }

  /** Every value the theme supplies is truthy, so the two spellings of the
      scheme resolver (membership test, and `get` followed by a truthiness
      test) agree on every theme mapping. */
  lemma ThemeResolversAgree(a: Archive, name: string)
    ensures ResolveSchemeTruthy(Mapping(a), name) == ResolveScheme(Mapping(a), name)
  {
    ResolveSpellingsAgree(Mapping(a), name);
  }
}

=== FILE: wrappers.dfy ===
/** Failure-compatible optional values, standing in for Python's `None`. */
module Wrappers {

  /** `None` is Python's `None`; `Some(v)` is a present value. */
  datatype Option<+T> = None | Some(value: T) {

    /** The value, or `default` when absent (Python's `x if x is not None else d`). */
    function GetOr(default: T): T {
      match this
      case Some(v) => v
      case None => default
    }

    /** Python's `a or b` for optional values whose present values are all truthy. */
    function OrElse(other: Option<T>): Option<T> {
      if Some? then this else other
    }
  }
}

=== FILE: xml.dfy ===
/** An abstract XML element tree, the part of ElementTree / lxml the converter
    uses: local tag names, namespace URIs, attributes in document order,
    element text, children, pre-order iteration and the `find`/`findall`
    path steps `tag` (child) and `.//tag` (descendant). */
module Xml {
  import opened Wrappers
  import opened PyStr

  /** An attribute; `ns` is empty for an unqualified name. */
  datatype Attr = Attr(ns: string, name: string, value: string)

  /** An element: namespace URI (empty when none), local tag name, attributes
      in document order, text before the first child, children. */
  datatype Elem = Elem(ns: string, tag: string, attrs: seq<Attr>, text: Option<string>, children: seq<Elem>)

  /** The key ElementTree files an attribute under: `{ns}name`, or `name`. */
  function ClarkKey(a: Attr): string {
    if a.ns == "" then a.name else "{" + a.ns + "}" + a.name
  }

  /** Index of the first attribute filed under `key`. */
  function AttrIndex(attrs: seq<Attr>, key: string): (r: Option<nat>)
    ensures r.Some? ==> r.value < |attrs| && ClarkKey(attrs[r.value]) == key
                        && forall j :: 0 <= j < r.value ==> ClarkKey(attrs[j]) != key
    ensures r.None? ==> forall j :: 0 <= j < |attrs| ==> ClarkKey(attrs[j]) != key
  {
    KeyIndex(AttrKeys(attrs), key)
  }

  /** The keys of the attributes, in order. */
  function AttrKeys(attrs: seq<Attr>): (r: seq<string>)
    ensures |r| == |attrs| && forall i :: 0 <= i < |attrs| ==> r[i] == ClarkKey(attrs[i])
  {
    seq(|attrs|, i requires 0 <= i < |attrs| => ClarkKey(attrs[i]))
  }

  /** Index of the first occurrence of `key` in `keys`. */
  function KeyIndex(keys: seq<string>, key: string): (r: Option<nat>)
    ensures r.Some? ==> r.value < |keys| && keys[r.value] == key
                        && forall j :: 0 <= j < r.value ==> keys[j] != key
    ensures r.None? ==> forall j :: 0 <= j < |keys| ==> keys[j] != key
  {
    if |keys| == 0 then None
    else if keys[0] == key then Some(0)
    else match KeyIndex(keys[1..], key)
      case None => None
      case Some(k) => Some(k + 1)
  }

  /** An element with a single attribute files its value under that
      attribute's key. */
  lemma GetOnly(e: Elem, a: Attr)
    requires e.attrs == [a]
    ensures Get(e, ClarkKey(a)) == Some(a.value)
  {
    assert AttrKeys(e.attrs)[0] == ClarkKey(a);
    assert KeyIndex(AttrKeys(e.attrs), ClarkKey(a)) == Some(0);
  }

  /** `e.get(key)`. */
  function Get(e: Elem, key: string): (r: Option<string>)
    ensures r.Some? <==> AttrIndex(e.attrs, key).Some?
    ensures r.Some? ==> r.value == e.attrs[AttrIndex(e.attrs, key).value].value
  {
    match AttrIndex(e.attrs, key)
    case None => None
    case Some(k) => Some(e.attrs[k].value)
  }

  /** Python truthiness of `e.get(key)`: present and non-empty. */
  function GetNonEmpty(e: Elem, key: string): (r: Option<string>)
    ensures r.Some? <==> Get(e, key).Some? && Get(e, key).value != ""
    ensures r.Some? ==> r.value == Get(e, key).value
  {
    match Get(e, key)
    case Some(v) => if v == "" then None else Some(v)
    case None => None
  }

  /** `e.iter()`: the element itself, then its descendants in document order. */
  function Iter(e: Elem): (r: seq<Elem>)
    ensures |r| >= 1 && r[0] == e
    decreases e, 1
  {
    [e] + IterAll(e.children)
  }

  /** The pre-order iterations of a list of siblings, concatenated. */
  function IterAll(cs: seq<Elem>): seq<Elem>
    decreases cs, 0
  {
    if |cs| == 0 then [] else Iter(cs[0]) + IterAll(cs[1..])
  }

  /** An element with no children iterates as itself alone; one with a
      single child iterates as itself followed by that child's iteration. */
  lemma IterSmall(e: Elem)
    ensures e.children == [] ==> Iter(e) == [e]
    ensures |e.children| == 1 ==> Iter(e) == [e] + Iter(e.children[0])
  {
    if |e.children| == 1 {
      assert e.children[1..] == [];
      assert IterAll(e.children) == Iter(e.children[0]) + IterAll([]);
    }
  }

  /** Every child of `e` appears in `e.iter()`. */
  lemma {:induction false} ChildrenInIterAll(cs: seq<Elem>, i: nat)
    requires i < |cs|
    ensures cs[i] in IterAll(cs)
    decreases |cs|
  {
    if i > 0 {
      ChildrenInIterAll(cs[1..], i - 1);
    }
  }

  /** Index of the first element of `es` whose local tag is `tag`. */
  function FirstTagIndex(es: seq<Elem>, tag: string): (r: Option<nat>)
    ensures r.Some? ==> r.value < |es| && es[r.value].tag == tag
                        && forall j :: 0 <= j < r.value ==> es[j].tag != tag
    ensures r.None? ==> forall j :: 0 <= j < |es| ==> es[j].tag != tag
  {
    if |es| == 0 then None
    else if es[0].tag == tag then Some(0)
    else match FirstTagIndex(es[1..], tag)
      case None => None
      case Some(k) => Some(k + 1)
  }

  /** The first element of `es` whose local tag is `tag` (namespace ignored). */
  function FirstWithTag(es: seq<Elem>, tag: string): (r: Option<Elem>)
    ensures r.Some? <==> FirstTagIndex(es, tag).Some?
    ensures r.Some? ==> r.value == es[FirstTagIndex(es, tag).value] && r.value.tag == tag
  {
    match FirstTagIndex(es, tag)
    case None => None
    case Some(k) => Some(es[k])
  }

  /** One step of an ElementTree path: `ns:tag` among the children, or
      `.//ns:tag` among the descendants. */
  datatype Step = Child(ns: string, tag: string) | Desc(ns: string, tag: string)

  predicate Matches(e: Elem, ns: string, tag: string) {
    e.ns == ns && e.tag == tag
  }

  /** The elements of `es` with the given qualified name, in order. */
  function FilterName(es: seq<Elem>, ns: string, tag: string): (r: seq<Elem>)
    ensures |r| <= |es|
    ensures forall i :: 0 <= i < |r| ==> Matches(r[i], ns, tag) && r[i] in es
    ensures forall e :: e in es && Matches(e, ns, tag) ==> e in r
  {
    if |es| == 0 then []
    else (if Matches(es[0], ns, tag) then [es[0]] else []) + FilterName(es[1..], ns, tag)
  }

  /** The elements one step selects from one context element. */
  function StepFrom(e: Elem, s: Step): seq<Elem> {
    match s
    case Child(ns, tag) => FilterName(e.children, ns, tag)
    case Desc(ns, tag) => FilterName(IterAll(e.children), ns, tag)
  }

  /** One step applied to every context element in turn, results concatenated
      (the generator ElementTree's `select` builds; duplicates are kept). */
  function StepAll(es: seq<Elem>, s: Step): seq<Elem> {
    if |es| == 0 then [] else StepFrom(es[0], s) + StepAll(es[1..], s)
  }

  /** `e.findall(path)`. */
  function FindAll(e: Elem, path: seq<Step>): seq<Elem>
    decreases |path|
  {
    Select([e], path)
  }

  function Select(es: seq<Elem>, path: seq<Step>): seq<Elem>
    decreases |path|
  {
    if |path| == 0 then es else Select(StepAll(es, path[0]), path[1..])
  }

  /** `e.find(path)`: the first element `findall` would produce. */
  function Find(e: Elem, path: seq<Step>): (r: Option<Elem>)
    ensures r.Some? <==> |FindAll(e, path)| > 0
    ensures r.Some? ==> r.value == FindAll(e, path)[0]
  {
    var all := FindAll(e, path);
    if |all| == 0 then None else Some(all[0])
  }

  /** A single `.//ns:tag` step selects exactly the matching descendants. */
  lemma {:induction false} SingleDescStep(e: Elem, ns: string, tag: string)
    ensures FindAll(e, [Desc(ns, tag)]) == FilterName(IterAll(e.children), ns, tag)
  {
    var s := Desc(ns, tag);
    assert [e][1..] == [] && [s][1..] == [];
    assert StepAll([e], s) == StepFrom(e, s) + StepAll([], s);
    assert StepAll([e], s) == StepFrom(e, s);
    assert Select([e], [s]) == Select(StepAll([e], s), []);
  }

  /** `e.text` or the empty string. */
  function TextOr(e: Elem, d: string): string {
    match e.text
    case Some(t) => t
    case None => d
  }
}
